=== FILE: README.md ===
# tiny, modelled in Dafny

A model of foonathan/tiny, a header-only C++ library that packs small
logical values ("tiny types": `tiny_bool`, `tiny_unsigned`, `tiny_int`,
`tiny_enum`, `tiny_flag_set`) into the fewest bits possible, and that reuses
bits a representation never uses: the low alignment bits of a pointer, the
padding bytes of a struct, the seven high bits of a `bool` byte and the
bits of an enum above its largest enumerator.  On top of those spare bits
the library builds pairs that hide an integer inside another object,
pointer storages and pointer variants that hide tiny fields or a type tag
inside a pointer, padded storages that hide tiny fields inside a struct's
padding, "tombstones" (bit patterns no live object can have) and an
optional that uses a tombstone as its empty state and so costs no extra
byte.

The model follows the library's own layers, one Dafny module per header:

- **bit engine** (`bits.dfy`, `views.dfy`, `bit_view.dfy`, `ilog2.dfy`,
  `select_integer.dfy`).  `Bits` defines bit operations on naturals.
  `BitView` models `bit_view.hpp` cell by cell: masks, the single-cell and
  the multi-cell extracters, `put` as a method on an `array` of cells,
  `bit_reference` and the array `bit_view` as classes, and proves that
  the cell arithmetic reads and writes exactly a range of the object's
  flat bit representation.  `Views` works on that flat representation (a
  `seq<bool>`, lowest bit first): a view is a sequence of bit positions,
  and subviews, joined views, `clear_bits` and `copy_bits` are functions
  on it.
- **tiny-type codecs** (`enum_traits.dfy`, `tiny_bool.dfy`,
  `tiny_int.dfy`, `tiny_enum.dfy`, `tiny_flag_set.dfy`,
  `tiny_types.dfy`): each proxy is a class over a shared `Storage` and
  a view, whose methods write through the view.
- **layout** (`tiny_storage.dfy`, `tiny_type_storage.dfy`,
  `bit_field.dfy`): offsets as prefix sums of bit sizes, lookup by type
  or tag, and the storages whose constructors clear and then assign
  fields one by one.
- **spare bits** (`spare_bits.dfy`, `aligned_ptr.dfy`, `tiny_pair.dfy`,
  `tiny_pointer_storage.dfy`, `pointer_variant_impl.dfy`).
- **padding** (`padding_traits.dfy`, `padding_tiny_storage.dfy`).
- **tombstones and optional** (`tombstone.dfy`, `optional_impl.dfy`).

Objects are byte arrays, or rather their bit representation, with known
member offsets and sizes; pointers are natural-number addresses; a byte
has 8 bits; `std::size_t` and `std::uintmax_t` are 64 bits wide, and
`std::size_t` arithmetic wraps modulo 2^64 where the library relies on
it.  Every `DEBUG_ASSERT` and every `static_assert` of the library is a
`requires` clause, except the `verify()` asserts of the boolean traits'
`extract` and `put` (include/foonathan/tiny/spare_bits.hpp:86, 94): a `bool` is modelled as the
byte 0 or 1, so the layout they check is assumed.

## Model

| member | source | states |
|---|---|---|
| Ilog2.Ilog2BaseBounds | include/foonathan/tiny/detail/ilog2.hpp:23-26 | `ilog2_base(x)` is the bit length of x: it is 0 only for 0, x < 2^ilog2_base(x), and x >= 2^(ilog2_base(x)-1) when x > 0 |
| Ilog2.Ilog2BaseUnique | include/foonathan/tiny/detail/ilog2.hpp:23-26 | any x in [2^k, 2^(k+1)) has `ilog2_base(x) == k + 1` |
| Ilog2.AndPredecessor | include/foonathan/tiny/detail/ilog2.hpp:16-21 | for x > 0, `x & (x - 1)` is 0 exactly when x is a power of two |
| Ilog2.IsPowerOfTwoIff | include/foonathan/tiny/detail/ilog2.hpp:16-21 | for x > 0, `is_power_of_two(x)` holds iff x == 2^k for some k |
| Ilog2.Ilog2Bounds | include/foonathan/tiny/detail/ilog2.hpp:28-33 | for x > 0, 2^ilog2(x) <= x < 2^(ilog2(x)+1) |
| Ilog2.Ilog2CeilLeast | include/foonathan/tiny/detail/ilog2.hpp:35-41 | for x > 0, `ilog2_ceil(x)` is the least k with x <= 2^k |
| Ilog2.AtZero | include/foonathan/tiny/detail/ilog2.hpp:16-41 | at x = 0, `is_power_of_two` holds and both logarithms wrap to `SIZE_MAX`, which is why callers must pass x >= 1 |
| Ilog2.Octave | include/foonathan/tiny/detail/ilog2.hpp:28-41 | on [2^k, 2^(k+1)), `ilog2` is k and `ilog2_ceil` is k at 2^k and k + 1 elsewhere |
| Ilog2.SmallExamples | test/detail/ilog2.cpp:21-30 | (ilog2, ilog2_ceil) of 1, 2, 3, 4, 5 and 8 are (0,0), (1,1), (1,2), (2,2), (2,3), (3,3) |
| Ilog2.ByteExamples | test/detail/ilog2.cpp:32-33 | (ilog2, ilog2_ceil) of 255 and 256 are (7,8) and (8,8) |
| SelectInteger.SelectedBits | include/foonathan/tiny/detail/select_integer.hpp:28-44 | the width of the selected type (0 for `void`) is never below the requested width |
| SelectInteger.SelectsLeastWidth | include/foonathan/tiny/detail/select_integer.hpp:26-44 | every width 1..64 selects the least of 8, 16, 32, 64 that is at least that width (1..8 -> 8, 9..16 -> 16, 17..32 -> 32, 33..64 -> 64) |
| SelectInteger.SelectEdges | include/foonathan/tiny/detail/select_integer.hpp:19-24 | width 0 selects `void` and every width above `max_uint_bits` = 64 is rejected |
| BitView.GetMaskBits | include/foonathan/tiny/bit_view.hpp:56-62 | bit i of `get_mask(begin, length)` is set exactly for begin <= i < begin + length |
| BitView.GetMaskBound | include/foonathan/tiny/bit_view.hpp:56-62 | the mask fits in the cell type |
| BitView.GetMaskFullWidth | include/foonathan/tiny/bit_view.hpp:59-61 | the all-ones branch for a full-width mask yields what `((1 << w) - 1) << 0` would in unbounded arithmetic: the branch only avoids shifting by the cell width |
| BitView.BitRefGetIsBit | include/foonathan/tiny/bit_view.hpp:36-39 | `(*pointer >> index) & 1` is bit `index` of the cell |
| BitView.BitRefAssignBits | include/foonathan/tiny/bit_view.hpp:41-49 | clearing and then OR-ing in the value leaves bit `index` equal to the value, every other bit of the cell unchanged and the cell within its width |
| BitView.SingleExtractBits | include/foonathan/tiny/bit_view.hpp:69-72 | bit j of the single-cell extract is bit begin + j of the cell when j < end - begin, and 0 above: the viewed bits right-aligned |
| BitView.SingleExtractBound | include/foonathan/tiny/bit_view.hpp:69-72 | the single-cell extract is below 2^(end - begin) |
| BitView.SinglePutBits | include/foonathan/tiny/bit_view.hpp:74-78 | after a single-cell put, bits [begin, end) hold the low bits of the argument and every other bit of the cell is unchanged |
| BitView.ZeroWidth | include/foonathan/tiny/bit_view.hpp:57-78 | a zero-width view has mask 0, extracts 0, and its put leaves the cell unchanged |
| BitView.IndexSplit | include/foonathan/tiny/bit_view.hpp:242-262 | `array_index`/`bit_index` split a position into (cell, bit) with cell < N; the bit index is the cell width only for the position just past the array |
| BitView.ViewExtractIsFlat | include/foonathan/tiny/bit_view.hpp:82-156 | the array view's extract, through the single-cell or the multi-cell extracter, is exactly the bits [begin, end) of the array's flat representation, lowest first |
| BitView.ViewExtractBit | include/foonathan/tiny/bit_view.hpp:309-338 | bit j of the array view's extract is bit j of the flat range [begin, end) |
| BitView.PutIsFlat | include/foonathan/tiny/bit_view.hpp:74-156 | a cell array in which every cell holds its put target is the flat representation with [begin, end) replaced by the low bits of the argument |
| BitView.ViewPut | include/foonathan/tiny/bit_view.hpp:315-345 | `put` on the borrowed cells leaves every cell holding its put target, so (by `PutIsFlat`) it replaces exactly the viewed bits |
| BitView.SinglePutCell | include/foonathan/tiny/bit_view.hpp:327-331 | the single-element put writes cell `begin_index`'s share and finishes the put |
| BitView.LoopPut | include/foonathan/tiny/bit_view.hpp:98-156 | the multi-cell put walks head, middle and end cells low first and finishes every cell up to `end_index` |
| BitView.PutHeadCell | include/foonathan/tiny/bit_view.hpp:117-121 | `put_head` writes bits [begin_bit, w) of the head cell from the low bits of the argument |
| BitView.PutMiddleCells | include/foonathan/tiny/bit_view.hpp:98-102 | each middle cell takes w whole bits, and what is left of the argument is the argument shifted right by all bits used so far |
| BitView.PutEndCell | include/foonathan/tiny/bit_view.hpp:151-155 | the end cell takes bits [0, end_bit) from the remaining argument |
| BitView.FullWidthHeadShift | include/foonathan/tiny/bit_view.hpp:104-137 | `bit_view<std::uint64_t[2], 0, 64>` is accepted, takes the loop extracter and its head cell uses 64 bits, the full width of the shifted `std::uintmax_t` |
| BitView.FullWidthViewReadsCell | include/foonathan/tiny/bit_view.hpp:124-131 | with a full-width shift leaving nothing, that view's `extract()` is cell 0 |
| BitView.SingleIntegerView | include/foonathan/tiny/bit_view.hpp:160-228 | the single-integer `bit_view` is the array view over one cell and always takes the single-cell extracter |
| BitView.PutAllOnesWhole | test/bit_view.cpp:123-128 | putting `uintmax_t(-1)` into a whole cell fills the cell with ones |
| BitView.AssignIsFlat | include/foonathan/tiny/bit_view.hpp:41-49 | assigning through a bit reference changes exactly one position of the flat representation |
| BitView.BitReference.Get | include/foonathan/tiny/bit_view.hpp:36-39 | the conversion reads bit `index` of the referenced cell |
| BitView.BitReference.Assign | include/foonathan/tiny/bit_view.hpp:41-49 | assignment sets the referenced bit to the value, leaves the cell's other bits and the other cells alone, and reads back as the value |
| BitView.BitReference.constructor | include/foonathan/tiny/bit_view.hpp:28-31 | a reference designates bit `index` of the cell `*ptr`, and nothing is read or written when it is made |
| BitView.ArrayBitView.constructor | include/foonathan/tiny/bit_view.hpp:231-271 | a view needs begin <= end <= N * cell width and at most 64 viewed bits |
| BitView.ArrayBitView.Extract | include/foonathan/tiny/bit_view.hpp:308-312 | `extract()` is below 2^size() and is the viewed flat bits, right-aligned |
| BitView.ArrayBitView.Put | include/foonathan/tiny/bit_view.hpp:314-318 | `put(bits)` replaces exactly the viewed flat bits by the low size() bits of the argument, and a following `extract()` gives the argument mod 2^size() |
| BitView.ArrayBitView.At | include/foonathan/tiny/bit_view.hpp:298-306 | `operator[](i)` requires i < size() and returns a reference to flat bit begin + i, which reads bit i of `extract()` |
| Views.Range | include/foonathan/tiny/tiny_storage.hpp:336-338 | the view `[b, e)` of an object's bits is the positions b, ..., e - 1 in order |
| Views.Subview | include/foonathan/tiny/padding_traits.hpp:130-135 | `subview<b, e>()` has e - b positions, those of the parent from offset b on |
| Views.Join | include/foonathan/tiny/padding_traits.hpp:178-183 | `join_bit_views(lo, hi)` puts the first view's positions below the second's |
| Views.Read | include/foonathan/tiny/bit_view.hpp:308-312 | the viewed bits, lowest first, are the memory at the view's positions |
| Views.Extract | include/foonathan/tiny/bit_view.hpp:308-312 | a view's `extract()` is below 2^size() |
| Views.ExtractWordBound | include/foonathan/tiny/bit_view.hpp:239-240 | a view of 64 bits extracts a `std::uintmax_t` value |
| Views.PutOutside | include/foonathan/tiny/bit_view.hpp:314-318 | `put` leaves every position outside the view unchanged |
| Views.PutAt | include/foonathan/tiny/bit_view.hpp:314-318 | `put` writes bit i of the argument to the view's i-th position |
| Views.ExtractPut | include/foonathan/tiny/bit_view.hpp:308-318 | `extract()` after `put(bits)` gives bits mod 2^size() |
| Views.ExtractPutDisjoint | include/foonathan/tiny/bit_view.hpp:308-318 | a put into one view does not change what a disjoint view extracts |
| Views.PutExtract | include/foonathan/tiny/bit_view.hpp:308-318 | putting back what was extracted changes nothing |
| Views.PutPut | include/foonathan/tiny/bit_view.hpp:314-318 | of two puts into the same view the second wins |
| Views.PutLowBits | include/foonathan/tiny/bit_view.hpp:314-318 | only the low size() bits of the argument of `put` matter |
| Views.PutCommute | include/foonathan/tiny/bit_view.hpp:314-318 | puts into disjoint views commute |
| Views.ExtractJoin | include/foonathan/tiny/padding_tiny_storage.hpp:200-207 | a joined view extracts `(hi << lo.size()) \| lo` |
| Views.PutJoin | include/foonathan/tiny/padding_tiny_storage.hpp:200-207 | a put into a joined view puts the low bits into the first part and the rest, shifted down, into the second |
| Views.DistinctJoin | include/foonathan/tiny/padding_traits.hpp:178-183 | joining disjoint views without repeated positions gives a view without repeated positions |
| Views.ExtractRangeBit | include/foonathan/tiny/bit_view.hpp:308-312 | bit j of a range's extract is position b + j, and 0 past the range |
| Views.PutRangeAt | include/foonathan/tiny/bit_view.hpp:314-318 | a put into a range writes positions [b, e) from the argument and nothing else |
| Views.SubviewsDisjoint | include/foonathan/tiny/tiny_storage.hpp:123-138 | subviews at non-overlapping offsets of one view are disjoint, so fields stored one after another do not interfere |
| Views.ExtractRangeSame | include/foonathan/tiny/bit_view.hpp:308-312 | a range reads the same in two memories that agree on it |
| Views.ExtractSame | include/foonathan/tiny/bit_view.hpp:308-312 | a view reads the same in two memories that agree on its positions |
| Views.Storage.Write | include/foonathan/tiny/bit_view.hpp:314-318 | writing through a view updates the shared object bits by exactly that view's put |
| Views.Storage.WriteBit | include/foonathan/tiny/bit_view.hpp:41-49 | writing one bit through a view changes exactly that view position |
| EnumTraits.EnumSizeIsCount | include/foonathan/tiny/enum_traits.hpp:186-192 | for contiguous traits, `enum_size` computed in `std::size_t` is max - min + 1, the number of values, whenever that number fits |
| EnumTraits.ValidValueFits | include/foonathan/tiny/enum_traits.hpp:196-218 | every valid value of traits starting at 0 is below 2^enum_bit_size |
| EnumTraits.EnumBitSizeTight | include/foonathan/tiny/enum_traits.hpp:196-200 | `enum_bit_size` is no larger than needed: the largest value reaches its top bit |
| EnumTraits.DefaultTraits | include/foonathan/tiny/enum_traits.hpp:19-49 | the default traits are not specialized, not contiguous, and span the limits of the underlying type |
| EnumTraits.CountTraits | include/foonathan/tiny/enum_traits.hpp:77-81 | count traits have min 0, max Count - 1, `enum_size` Count, and the valid values are exactly 0 .. Count - 1 |
| EnumTraits.TraitsForMarkers | include/foonathan/tiny/enum_traits.hpp:121-154 | the traits detection picks the traits the one marker enumerator names, the default traits without a marker, and is ambiguous with several; a count marker gives max = marker - 1 |
| TinyBool.Encode | include/foonathan/tiny/tiny_bool.hpp:29-33 | `operator=` puts a one-bit integer whose bit 0 is the value |
| TinyBool.Decode | include/foonathan/tiny/tiny_bool.hpp:35-38 | the conversion `extract() != 0` of a one-bit pattern is its bit 0 |
| TinyBool.RoundTrip | include/foonathan/tiny/tiny_bool.hpp:29-38 | writing a value and reading it back gives the value |
| TinyBool.ClearedReadsFalse | test/tiny_types.cpp:54-66 | the all-zero pattern reads `false` |
| TinyBool.Proxy.constructor | include/foonathan/tiny/tiny_type.hpp:66 | a proxy is made only on a view exactly `bit_size()` = 1 bit wide |
| TinyBool.Proxy.Get | include/foonathan/tiny/tiny_bool.hpp:35-38 | the proxy reads the stored bit |
| TinyBool.Proxy.Assign | include/foonathan/tiny/tiny_bool.hpp:29-33 | assignment puts the encoded value into the view, nothing else, and reads back as the value |
| TinyInt.CppDivRem | include/foonathan/tiny/tiny_int.hpp:156-163 | C++'s truncating `/` and `%` recompose the dividend, with a remainder smaller than the divisor that takes the dividend's sign |
| TinyInt.CppDivExamples | test/tiny_types.cpp:221-238 | 16 / 3 = 5, 5 % 2 = 1, and for negative operands -7 / 2 = -3, -7 % 2 = -1, 7 / -2 = -3, 7 % -2 = 1 |
| TinyInt.ToUnsigned | include/foonathan/tiny/tiny_int.hpp:52-71 | `static_cast` to a w-bit unsigned type is below 2^w, keeps a value that fits and adds 2^w to a negative one that fits after that |
| TinyInt.ToSigned | include/foonathan/tiny/tiny_int.hpp:144-163 | `static_cast` to a w-bit signed type lands in [min, max], keeps a value already there, and keeps the two's-complement pattern |
| TinyInt.SignedLimitsMono | include/foonathan/tiny/tiny_int.hpp:214-215 | the limits of a narrower `tiny_int` lie within the object type's |
| TinyInt.NegatedMagnitude | include/foonathan/tiny/tiny_int.hpp:202-208 | for a pattern x with its top bit set, `~rep + 1` masked to Bits bits is 2^Bits - x |
| TinyInt.SignedDecode | include/foonathan/tiny/tiny_int.hpp:192-212 | `get()` reads x - 2^Bits when the top stored bit is set and x otherwise, always within [min, max] |
| TinyInt.SignedEncode | include/foonathan/tiny/tiny_int.hpp:224-227 | `assign` leaves a Bits-wide pattern in the view |
| TinyInt.SignedRoundTrip | include/foonathan/tiny/tiny_int.hpp:192-227 | every value in [-2^(Bits-1), 2^(Bits-1) - 1] survives a store and a read |
| TinyInt.SignedPatternRoundTrip | include/foonathan/tiny/tiny_int.hpp:192-227 | every Bits-wide pattern is the stored form of the value it reads as, so reading is a bijection onto [min, max] |
| TinyInt.NarrowSignedDefined | include/foonathan/tiny/tiny_int.hpp:144-163 | an 8- or 16-bit signed object is promoted to `int`, where no operator on two values of its range overflows, so its compound assignments are always defined |
| TinyInt.NarrowUnsignedDefined | include/foonathan/tiny/tiny_int.hpp:52-71 | an 8-bit unsigned object, and a 16-bit one except under `*`, is promoted to `int` without overflow |
| TinyInt.UnsignedStepDefined | include/foonathan/tiny/tiny_int.hpp:73-92 | `+= 1` and `-= 1` of an unsigned object are defined in every standard width |
| TinyInt.OverflowExamples | include/foonathan/tiny/tiny_int.hpp:52-163 | `INT_MAX + 1`, `INT_MIN / -1` and `INT_MIN % -1` in `int`, and `65535 * 65535` for a 16-bit unsigned object, are undefined; `int8_t` 127 + 1 is defined |
| TinyInt.SignedStepWraps | include/foonathan/tiny/tiny_int.hpp:165-178 | cast back to a w-bit signed object, max + 1 is min and min - 1 is max; for `int8_t`, whose `++` is computed in `int`, these are 127 and -128 |
| TinyInt.SignedExamples | test/tiny_types.cpp:202-238 | at 7 bits min is -64 and max 63; in any object type of at least 8 bits 13 - 17 = -4, -4 * -4 = 16, 16 / 3 = 5 and 5 % 2 = 1 |
| TinyInt.UnsignedRoundTrip | include/foonathan/tiny/tiny_int.hpp:44-50 | an unsigned value below 2^Bits survives a store and a read |
| TinyInt.UnsignedProxy.constructor | include/foonathan/tiny/tiny_int.hpp:23-25 | `tiny_unsigned` needs Bits <= the width of its unsigned object type and a view Bits wide |
| TinyInt.UnsignedProxy.Get | include/foonathan/tiny/tiny_int.hpp:97-100 | `get()` is the extracted value, below 2^Bits |
| TinyInt.UnsignedProxy.Assign | include/foonathan/tiny/tiny_int.hpp:44-50 | assignment requires value < 2^Bits, puts it into the view and reads back as the value |
| TinyInt.UnsignedProxy.Compound | include/foonathan/tiny/tiny_int.hpp:52-71 | `+= -= *= /= %=` require `get() op i` to be defined, computed in `int` for an object type narrower than `int` (where it must fit) and modulo 2^w otherwise, and store the result cast to the object type, which must fit again |
| TinyInt.UnsignedProxy.PreIncrement | include/foonathan/tiny/tiny_int.hpp:73-76 | prefix `++` stores old + 1 cast to the object type; it is defined in every width |
| TinyInt.UnsignedProxy.PostIncrement | include/foonathan/tiny/tiny_int.hpp:77-82 | postfix `++` returns the old value and stores old + 1 |
| TinyInt.UnsignedProxy.PreDecrement | include/foonathan/tiny/tiny_int.hpp:83-86 | prefix `--` stores old - 1 cast to the object type; it is defined in every width |
| TinyInt.UnsignedProxy.PostDecrement | include/foonathan/tiny/tiny_int.hpp:87-92 | postfix `--` returns the old value and stores old - 1 |
| TinyInt.SignedProxy.constructor | include/foonathan/tiny/tiny_int.hpp:117-119 | `tiny_int` needs 1 <= Bits <= the width of its signed object type and a view Bits wide |
| TinyInt.SignedProxy.Get | include/foonathan/tiny/tiny_int.hpp:192-212 | `get()` lies in [min, max] and is negative exactly when the top viewed bit is set |
| TinyInt.SignedProxy.Assign | include/foonathan/tiny/tiny_int.hpp:214-228 | assignment requires min <= value <= max, stores the low bits of the two's-complement representation and reads back as the value |
| TinyInt.SignedProxy.Compound | include/foonathan/tiny/tiny_int.hpp:144-163 | `+= -= *= /= %=` require `get() op i`, and for `%` the quotient, not to overflow the type it is computed in (`int` for a narrower object type), and store the result, with truncating division, cast to the object type, which must lie in [min, max] |
| TinyInt.SignedProxy.PreIncrement | include/foonathan/tiny/tiny_int.hpp:165-168 | prefix `++` is `+= 1u`: old + 1 must not overflow the type it is computed in, and it stores old + 1 cast to the object type, so a full-width object narrower than `int` wraps from its maximum to its minimum; the cast result must lie in [min, max] |
| TinyInt.SignedProxy.PostIncrement | include/foonathan/tiny/tiny_int.hpp:169-174 | postfix `++` returns the old value and stores old + 1 cast to the object type, under the same conditions as prefix `++` |
| TinyInt.SignedProxy.PreDecrement | include/foonathan/tiny/tiny_int.hpp:175-178 | prefix `--` is `-= 1u`: old - 1 must not overflow the type it is computed in, and it stores old - 1 cast to the object type, so a full-width object narrower than `int` wraps from its minimum to its maximum; the cast result must lie in [min, max] |
| TinyInt.SignedProxy.PostDecrement | include/foonathan/tiny/tiny_int.hpp:179-184 | postfix `--` returns the old value and stores old - 1 cast to the object type, under the same conditions as prefix `--` |
| TinyEnum.BitSize | include/foonathan/tiny/tiny_enum.hpp:32-35 | `enum_bit_size` bits hold every valid enumerator |
| TinyEnum.RoundTrip | include/foonathan/tiny/tiny_enum.hpp:41-52 | a valid enumerator put into the view is extracted unchanged |
| TinyEnum.FourEnumerators | test/tiny_types.cpp:85-112 | an enum of four enumerators is storable in 2 bits |
| TinyEnum.Proxy.constructor | include/foonathan/tiny/tiny_enum.hpp:25-35 | `tiny_enum` needs contiguous traits starting at 0 and a view `enum_bit_size` wide |
| TinyEnum.Proxy.Get | include/foonathan/tiny/tiny_enum.hpp:49-52 | the conversion yields a value below 2^bit_size |
| TinyEnum.Proxy.Assign | include/foonathan/tiny/tiny_enum.hpp:41-47 | assignment requires `is_valid_enum_value`, puts the underlying value and reads back as the enumerator |
| TinyFlagSet.StorageBits | include/foonathan/tiny/tiny_flag_set.hpp:24-25 | the flag storage type holds one bit per enumerator |
| TinyFlagSet.AsFlag | include/foonathan/tiny/tiny_flag_set.hpp:27-32 | `as_flag(e)` is 2^e |
| TinyFlagSet.CombineFlags | include/foonathan/tiny/tiny_flag_set.hpp:34-42 | the accumulated combination has bit i set exactly when flag i is among the arguments; no arguments give 0 |
| TinyFlagSet.ZeroIffNoBits | include/foonathan/tiny/tiny_flag_set.hpp:172-188 | a mask is 0 iff none of its bit_size bits is set, which makes `any`/`none` flag tests |
| TinyFlagSet.FullIffAllBits | include/foonathan/tiny/tiny_flag_set.hpp:178-182 | a mask equals `clear_other_bits<0, bit_size()>(~0)` iff all bit_size bits are set |
| TinyFlagSet.EqualIffSameBits | include/foonathan/tiny/tiny_flag_set.hpp:218-243 | two masks are equal iff they agree on every flag |
| TinyFlagSet.ToggleAllTwice | test/tiny_types.cpp:318-325 | complementing a mask within bit_size twice restores it |
| TinyFlagSet.Proxy.constructor | include/foonathan/tiny/tiny_flag_set.hpp:95-114 | a flag set proxy has a view one bit per enumerator wide |
| TinyFlagSet.Proxy.Get | include/foonathan/tiny/tiny_flag_set.hpp:134-138 | `get()` has bit i set exactly when flag i is set in the view |
| TinyFlagSet.Proxy.IsSet | include/foonathan/tiny/tiny_flag_set.hpp:141-145 | `is_set(flag)` is the flag's bit of `get()` |
| TinyFlagSet.Proxy.FlagBits | include/foonathan/tiny/tiny_flag_set.hpp:134-145 | every flag's `is_set` agrees with its bit of `get()` |
| TinyFlagSet.Proxy.Assign | include/foonathan/tiny/tiny_flag_set.hpp:120-125 | assigning a combination puts its mask, so flag i is set iff bit i of the combination is |
| TinyFlagSet.Proxy.Set | include/foonathan/tiny/tiny_flag_set.hpp:147-151 | `set(flag, value)` changes exactly that flag's bit to value |
| TinyFlagSet.Proxy.SetFlag | include/foonathan/tiny/tiny_flag_set.hpp:153-157 | `set(flag)` writes true at that flag's position and changes no other bit of the storage, so the other flags keep their values |
| TinyFlagSet.Proxy.Reset | include/foonathan/tiny/tiny_flag_set.hpp:159-163 | `reset(flag)` writes false at that flag's position and changes no other bit of the storage, so the other flags keep their values |
| TinyFlagSet.Proxy.Toggle | include/foonathan/tiny/tiny_flag_set.hpp:165-169 | `toggle(flag)` writes the negated flag at its position and changes no other bit of the storage, so the other flags keep their values |
| TinyFlagSet.Proxy.Any | include/foonathan/tiny/tiny_flag_set.hpp:172-176 | `any()` holds iff some flag is set |
| TinyFlagSet.Proxy.All | include/foonathan/tiny/tiny_flag_set.hpp:178-182 | `all()` holds iff every flag is set |
| TinyFlagSet.Proxy.None | include/foonathan/tiny/tiny_flag_set.hpp:184-188 | `none()` holds iff no flag is set, the negation of `any()` |
| TinyFlagSet.Proxy.SetAll | include/foonathan/tiny/tiny_flag_set.hpp:190-197 | `set_all(value)` is the view's put of `~0ull` or 0, which changes no bit outside the view and leaves all bit_size flags equal to value |
| TinyFlagSet.Proxy.SetAllFlags | include/foonathan/tiny/tiny_flag_set.hpp:199-203 | `set_all()` is the view's put of `~0ull`: every flag is set and no bit outside the view changes |
| TinyFlagSet.Proxy.ResetAll | include/foonathan/tiny/tiny_flag_set.hpp:205-209 | `reset_all()` is the view's put of 0: every flag is cleared and no bit outside the view changes |
| TinyFlagSet.Proxy.ToggleAll | include/foonathan/tiny/tiny_flag_set.hpp:211-215 | `toggle_all()` is the view's put of `~extract()`: it stores the complement of the mask within bit_size, flipping every flag, and changes no bit outside the view |
| TinyFlagSet.Proxy.Equals | include/foonathan/tiny/tiny_flag_set.hpp:218-225 | two proxies compare equal iff every flag agrees |
| TinyFlagSet.Proxy.EqualsCombo | include/foonathan/tiny/tiny_flag_set.hpp:227-243 | a proxy equals a combination iff the combination fits in bit_size bits and agrees on every flag |
| TinyTypes.Decode | include/foonathan/tiny/tiny_int.hpp:97-100 | every non-enum kind reads back an object its `operator=` accepts |
| TinyTypes.WriteRead | include/foonathan/tiny/tiny_type.hpp:66 | for every tiny type, an accepted object put through a view of `bit_size()` bits reads back as itself |
| TinyTypes.ZeroReadsZero | test/tiny_storage.cpp:24-29 | the all-zero pattern reads as the zero object of every kind |
| TinyTypes.ClearedReadsZero | include/foonathan/tiny/tiny_storage.hpp:222-227 | every field of a cleared view reads zero |
| TinyStorage.TotalSizeAppend | include/foonathan/tiny/tiny_storage.hpp:76-87 | `total_size` of a concatenation is the sum of the totals |
| TinyStorage.OffsetStep | include/foonathan/tiny/tiny_storage.hpp:42-53 | each field starts where the previous ends (`CurOffset + Head::bit_size()`), and the last ends at `total_size` |
| TinyStorage.OffsetMono | include/foonathan/tiny/tiny_storage.hpp:42-53 | offsets never decrease along the field list |
| TinyStorage.FieldsInOrder | include/foonathan/tiny/tiny_storage.hpp:42-53 | field i ends before any later field j starts, and every field ends within the total |
| TinyStorage.FieldInside | include/foonathan/tiny/tiny_storage.hpp:42-53 | every field lies within [0, total_size) |
| TinyStorage.FindImplSpec | include/foonathan/tiny/tiny_storage.hpp:34-53 | `find_impl` counts the matching fields, reports the first match at the sum of the sizes before it, and reports offset 0 and no type without a match |
| TinyStorage.SingleHitCount | include/foonathan/tiny/tiny_storage.hpp:48-49 | exactly one matching field gives `found_count` 1 |
| TinyStorage.FindUnique | include/foonathan/tiny/tiny_storage.hpp:55-65 | `find` succeeds iff exactly one field matches, and then yields that field and its offset |
| TinyStorage.TwoHitsCount | include/foonathan/tiny/tiny_storage.hpp:48-49 | two matching fields make `found_count` at least 2 |
| TinyStorage.FindErrors | include/foonathan/tiny/tiny_storage.hpp:55-65 | `find` fails with "tiny type not stored" iff nothing matches, and with "ambiguous, use index" iff two fields match |
| TinyStorage.Hits | include/foonathan/tiny/tiny_storage.hpp:20-31 | one `is_target` answer per field, true for the same type or the field's own index |
| TinyStorage.Sizes | include/foonathan/tiny/tiny_storage.hpp:84-87 | one `bit_size()` per field |
| TinyStorage.AtIndex | include/foonathan/tiny/tiny_storage.hpp:155-161 | `at<I>` finds field I at its offset, and an index past the last field is "not stored" |
| TinyStorage.ByType | include/foonathan/tiny/tiny_storage.hpp:146-153 | `operator[](T)` with T not stored fails as "not stored", and with T stored twice as "ambiguous" |
| TinyStorage.StorageBytes | include/foonathan/tiny/tiny_storage.hpp:184-187 | `tiny_storage_type<Bits>` has ceil(Bits / 8) bytes, and one byte for 0 bits |
| TinyStorage.EmptyStorage | test/tiny_storage.cpp:50-56 | a storage without fields still has one byte, whose 8 bits are all spare |
| TinyStorage.ThreeFieldStorage | test/tiny_storage.cpp:31-48 | fields of widths 7, 1, 1 take 9 bits in 2 bytes |
| TinyStorage.FieldView | include/foonathan/tiny/tiny_storage.hpp:123-138 | a field's proxy views `subview<offset, offset + bit_size()>`, which is `bit_size()` wide |
| TinyStorage.SpareBits | include/foonathan/tiny/tiny_storage.hpp:173-178 | `spare_bits()` is `subview<bit_size_needed, last_bit>`: every bit after the fields |
| TinyStorage.FieldViews | include/foonathan/tiny/tiny_storage.hpp:120-138 | when the fields fit (`bit_size_needed <= size()`), every field view is usable and disjoint from the other fields and from the spare bits |
| TinyStorage.AssignField | include/foonathan/tiny/tiny_storage.hpp:246-270 | after `at<i>() = o` field i reads o, no bit outside field i's view changes, and so the other fields and the spare bits keep their values |
| TinyStorage.SameViewSameFields | include/foonathan/tiny/tiny_storage.hpp:116-182 | the fields depend on nothing but the bits of the storage view |
| TinyStorage.ClearAll | include/foonathan/tiny/tiny_storage.hpp:222-227 | after `clear_bits(storage_view())` every field reads zero |
| TinyStorage.ZeroExtract | include/foonathan/tiny/tiny_storage.hpp:222-227 | a view over cleared bits extracts 0 |
| TinyStorage.AssignInOrder | include/foonathan/tiny/tiny_storage.hpp:316-322 | assigning `at<I>() = objects[I]` for I = 0, 1, ... leaves every field holding its object and the spare bits unchanged |
| TinyStorage.BasicTinyStorage.Default | include/foonathan/tiny/tiny_storage.hpp:218-227 | the default constructor (at least one field) clears the storage view, so every field reads zero |
| TinyStorage.BasicTinyStorage.constructor | include/foonathan/tiny/tiny_storage.hpp:229-233 | the object constructor leaves every field holding its object and the spare bits as they were |
| TinyStorage.BasicTinyStorage.Lookup | include/foonathan/tiny/tiny_storage.hpp:146-171 | a successful lookup names the one field matching the target |
| TinyStorage.BasicTinyStorage.Tiny | include/foonathan/tiny/tiny_storage.hpp:163-171 | `tiny()` needs exactly one field and is `at<0>()` at offset 0 |
| TinyStorage.BasicTinyStorage.Assign | include/foonathan/tiny/tiny_storage.hpp:258-270 | `at<i>() = o` leaves the memory `AssignField` gives: field i reads o and no bit outside its view changes |
| TinyStorage.BasicTinyStorage.AssignTarget | include/foonathan/tiny/tiny_storage.hpp:246-256 | `(*this)[T] = o` for a T matching exactly one field leaves the memory `AssignField` gives for that field: it reads o and no bit outside its view changes |
| TinyStorage.BasicTinyStorage.PutSpareBits | include/foonathan/tiny/tiny_storage.hpp:288-298 | a put into `spare_bits()` is that view's put: it stores the low bits there, changes no bit outside the view, and leaves every field unchanged |
| TinyStorage.EmbeddedView | include/foonathan/tiny/tiny_storage.hpp:327-345 | the embedded policy views all bits of `tiny_storage_type_for`, enough for the fields |
| TinyStorage.NewTinyStorage | include/foonathan/tiny/tiny_storage.hpp:351-360 | a default `tiny_storage` has every bit of its byte array cleared and every field reading zero |
| TinyStorage.NewTinyStorageFrom | include/foonathan/tiny/tiny_storage.hpp:351-360 | a `tiny_storage` made from objects has every field holding its object |
| TinyTypeStorage.TypeHits | include/foonathan/tiny/tiny_type_storage.hpp:34-50 | one `is_target` answer per field: the same type, the tag of a `tiny_tagged` field, or the field's index |
| TinyTypeStorage.Kinds | include/foonathan/tiny/tiny_type_storage.hpp:17-30 | a `tiny_tagged<Tag, T>` field has T's bit size and proxy, so the storage sees only the kinds |
| TinyTypeStorage.TypeLookup | include/foonathan/tiny/tiny_type_storage.hpp:61-94 | a successful lookup names the one matching field, at the sum of the sizes before it |
| TinyTypeStorage.TagFindsField | include/foonathan/tiny/tiny_type_storage.hpp:43-45 | a tag carried by exactly one field finds that field at its offset, whatever the fields' types |
| TinyTypeStorage.AtTypeIndex | include/foonathan/tiny/tiny_type_storage.hpp:232-244 | `at<I>` finds field I at its offset, and an index past the last field is "not stored" |
| TinyTypeStorage.TagsResolveAmbiguity | include/foonathan/tiny/tiny_type_storage.hpp:74-85 | two untagged fields of one type are ambiguous by type; tagging them makes each reachable by its tag at offsets 0 and bit_size |
| TinyTypeStorage.BasicTinyTypeStorage.Default | include/foonathan/tiny/tiny_type_storage.hpp:198-203 | the default constructor puts 0 into the whole storage view, so every field reads zero |
| TinyTypeStorage.BasicTinyTypeStorage.constructor | include/foonathan/tiny/tiny_type_storage.hpp:205-209 | the object constructor assigns the fields in order and leaves each holding its object |
| TinyTypeStorage.BasicTinyTypeStorage.GetTarget | include/foonathan/tiny/tiny_type_storage.hpp:218-228 | `(*this)[target]` reads the one field the target matches |
| TinyTypeStorage.BasicTinyTypeStorage.AssignTarget | include/foonathan/tiny/tiny_type_storage.hpp:218-228 | `(*this)[target] = o` makes the matched field read o, changes no other field, and writes nothing outside the storage view |
| BitField.Width | include/foonathan/tiny/bit_field.hpp:280-282 | a field's width is at most 64, and an enum field's `ilog2_ceil(MaxValue + 1)` bits hold MaxValue |
| BitField.IntBits | include/foonathan/tiny/bit_field.hpp:339 | the object type `uint_least_n_t<N>` of an integer field is a standard width holding N bits |
| BitField.Widths | include/foonathan/tiny/bit_field.hpp:28-31 | one width per declared field |
| BitField.TotalBitsIsSum | include/foonathan/tiny/bit_field.hpp:21-31 | `total_bits` is the sum of the field widths, the same sum as the tiny storage's `total_size` |
| BitField.StorageBytes | include/foonathan/tiny/bit_field.hpp:33-36 | `bit_fields_storage` has ceil(total / 8) bytes, enough for the total |
| BitField.BytesAgainstTinyStorage | include/foonathan/tiny/bit_field.hpp:33-36 | the byte count agrees with `tiny_storage_type` except for 0 bits, where it is 0 instead of 1 |
| BitField.BeginOffsetAbsent | include/foonathan/tiny/bit_field.hpp:42-46 | a field not in the list has no offset: the "not part of the bit fields" assertion fires exactly then |
| BitField.BeginOffsetFirst | include/foonathan/tiny/bit_field.hpp:39-56 | a field's offset is the sum of the widths before its first occurrence |
| BitField.FieldEnds | include/foonathan/tiny/bit_field.hpp:58-61 | a declared field's view ends inside the storage |
| BitField.FirstIndex | include/foonathan/tiny/bit_field.hpp:48-50 | a listed field has a first occurrence, the one the offset recursion stops at |
| BitField.FieldsApart | include/foonathan/tiny/bit_field.hpp:39-61 | in a list without repetitions, distinct fields occupy disjoint bits |
| BitField.Examples | include/foonathan/tiny/bit_field.hpp:276-282 | enum fields with maxima 3, 1, 3 take 2, 1, 2 bits in one byte; unsigned fields of widths 2, 8, 4 take 14 bits in two bytes |
| BitField.UnsignedMax | include/foonathan/tiny/bit_field.hpp:346-349 | `max()` of an N-bit unsigned field has all N bits set |
| BitField.LimitExamples | include/foonathan/tiny/bit_field.hpp:341-349 | the unsigned maxima of widths 2, 8, 4 are 3, 255, 15; signed limits of widths 3 and 8 are [-4, 3] and [-128, 127] |
| BitField.UnsignedToSigned | include/foonathan/tiny/bit_field.hpp:462-481 | the reconstruction is negative iff the top stored bit is set, lies within [min, max], and storing the result gives back the pattern |
| BitField.BitFields.constructor | include/foonathan/tiny/bit_field.hpp:135-136 | `bit_fields()` zero-initialises every byte, so every field reads 0 |
| BitField.BitFields.FieldView | include/foonathan/tiny/bit_field.hpp:58-61 | `field_bit_view` is [begin, begin + width) of the byte array, without repeated positions |
| BitField.BitFields.Raw | include/foonathan/tiny/bit_field.hpp:89-95 | `value_impl` is the field's bits right-aligned, below 2^width |
| BitField.BitFields.BoolReference | include/foonathan/tiny/bit_field.hpp:173-200 | a bool field's reference reads whether its bit is set; assignment (as `TinyBool.Proxy.Assign`) writes 1 or 0 |
| BitField.BitFields.UnsignedReference | include/foonathan/tiny/bit_field.hpp:336-419 | an unsigned field's reference has the object type `uint_least_n_t<N>` and reads the raw bits; assignment requires no bit at or above N |
| BitField.BitFields.SignedReference | include/foonathan/tiny/bit_field.hpp:444-560 | a signed field's reference reads `unsigned_to_signed` of the raw bits; assignment requires min <= i <= max |
| BitField.BitFields.EnumReference | include/foonathan/tiny/bit_field.hpp:287-312 | an enum field's reference reads the raw bits as the underlying value |
| BitField.EnumReference.Get | include/foonathan/tiny/bit_field.hpp:301-305 | `value()` is below 2^width |
| BitField.EnumReference.Assign | include/foonathan/tiny/bit_field.hpp:294-299 | assignment puts the underlying value truncated to the width without a check; a value that fits reads back unchanged |
| BitField.EnumReference.constructor | include/foonathan/tiny/bit_field.hpp:81-86 | a field reference is made only on a view exactly as wide as the field, lying inside the bit fields' bytes and naming each bit once |
| SpareBits.SpareViewShape | include/foonathan/tiny/spare_bits.hpp:18-174 | the spare bits of every traits kind (default, `bool`, pointer, enum, members) are exactly `spare_bits<T>()` distinct positions inside the object |
| SpareBits.MembersViewShape | include/foonathan/tiny/spare_bits.hpp:318-350 | the members' spare bits are distinct, inside the struct, and clear of the earlier members |
| SpareBits.MembersJoinShape | include/foonathan/tiny/spare_bits.hpp:332-338 | member i's spare bits joined below the later members' keep those properties |
| SpareBits.MembersViewFits | include/foonathan/tiny/spare_bits.hpp:323-324 | the members' spare bits number `spare_bits<MemberT>() + tail::spare_bits` and lie in memory |
| SpareBits.Ilog2CeilAtMost64 | include/foonathan/tiny/spare_bits.hpp:111-112 | a pointer's alignment leaves at most 64 low bits, so its spare view fits `std::uintptr_t` |
| SpareBits.SpareViewFits | include/foonathan/tiny/spare_bits.hpp:214-218 | `spare_bits<T>()` distinct positions of an object in memory are in memory |
| SpareBits.ExtractSpareBits | include/foonathan/tiny/spare_bits.hpp:276-281 | `extract_spare_bits(obj)` is below 2^spare_bits<T>() |
| SpareBits.ExtractMembers | include/foonathan/tiny/spare_bits.hpp:332-338 | the member traits' extract is below 2^(the members' spare count) |
| SpareBits.PutSpare | include/foonathan/tiny/spare_bits.hpp:48-52 | every traits kind's put keeps the object's size |
| SpareBits.ClearSpare | include/foonathan/tiny/spare_bits.hpp:79-82 | every traits kind's clear keeps the object's size |
| SpareBits.ExtractIsView | include/foonathan/tiny/spare_bits.hpp:41-45 | every traits kind's extract, member-wise `(tail << mine) \| mine` included, reads exactly its spare view, as long as the count fits `std::uintmax_t` |
| SpareBits.MembersExtractIsView | include/foonathan/tiny/spare_bits.hpp:332-338 | the member-wise extract reads the joined view of the members' spare bits, first member lowest |
| SpareBits.ExtractMembersStep | include/foonathan/tiny/spare_bits.hpp:332-338 | the member extract is the later members' bits shifted up by member i's count, OR member i's bits |
| SpareBits.PointerPutIsRange | include/foonathan/tiny/spare_bits.hpp:128-133 | a pointer's put writes the low `ilog2_ceil(alignof(T))` bits of its address word |
| SpareBits.PutIsView | include/foonathan/tiny/spare_bits.hpp:340-349 | every traits kind's put writes exactly its spare view; for members, the low bits go to the first member and the rest, shifted down, to the later ones |
| SpareBits.MembersPutIsView | include/foonathan/tiny/spare_bits.hpp:340-349 | the member-wise put is a put into the joined view of the members' spare bits |
| SpareBits.ClearIsPutZero | include/foonathan/tiny/spare_bits.hpp:79-82 | `clear` of every traits kind is `put(obj, 0)` |
| SpareBits.MembersClearIsPutZero | include/foonathan/tiny/spare_bits.hpp:326-330 | clearing every member in turn is putting 0 into the members' spare bits |
| SpareBits.ExtractAfterPut | include/foonathan/tiny/spare_bits.hpp:276-290 | bits that fit, put into the spare bits, are extracted again |
| SpareBits.PutKeepsOtherBits | include/foonathan/tiny/spare_bits.hpp:284-290 | `put_spare_bits` changes no bit other than the spare ones, so the object's proper value is intact |
| SpareBits.PutStaysInside | include/foonathan/tiny/spare_bits.hpp:284-290 | the bits outside the object are left alone |
| SpareBits.ClearAfterPut | include/foonathan/tiny/spare_bits.hpp:292-297 | `clear_spare_bits` after a put gives the object as cleared before the put |
| SpareBits.ClearZeroSpare | include/foonathan/tiny/spare_bits.hpp:24-34 | an object whose spare bits are zero is its own cleared state |
| SpareBits.PutBackRestores | include/foonathan/tiny/spare_bits.hpp:235-250 | the saved spare bits put back into the cleared object give the original object |
| SpareBits.ExtractObject | include/foonathan/tiny/spare_bits.hpp:220-227 | `extract_object(obj)` is a copy with the spare bits zero and every other bit as in obj |
| SpareBits.ExtractRangeHigh | include/foonathan/tiny/spare_bits.hpp:66-89 | viewing the high bits of a range reads the range's value shifted down |
| SpareBits.ExtractRangeLow | include/foonathan/tiny/spare_bits.hpp:343-344 | viewing the low bits of a range reads the range's value truncated |
| SpareBits.BooleanSpareZero | include/foonathan/tiny/spare_bits.hpp:68-74 | a byte holding `false` (0) or `true` (1) has its seven spare bits clear |
| SpareBits.EnumExtractIsRange | include/foonathan/tiny/spare_bits.hpp:151-166 | an enum's extract reads bits [enum_bit_size, width of the underlying type) |
| SpareBits.EnumViewIsRange | include/foonathan/tiny/spare_bits.hpp:151-155 | an enum's spare view is the range above its `enum_bit_size` |
| SpareBits.ExtractIsExtractOfView | include/foonathan/tiny/spare_bits.hpp:84-90 | outside a struct the extract reads the spare view directly |
| SpareBits.EnumSpareZero | include/foonathan/tiny/spare_bits.hpp:141-152 | a valid enumerator leaves the bits above `enum_bit_size` clear |
| SpareBits.PointerSpareZero | include/foonathan/tiny/spare_bits.hpp:100-112 | a pointer aligned to `alignof(T)` has its `ilog2_ceil(alignof(T))` low bits clear |
| SpareBits.AlignmentIsPow2 | include/foonathan/tiny/spare_bits.hpp:111-112 | a power-of-two alignment is 2^ilog2_ceil(alignment) |
| SpareBits.PointerCount | include/foonathan/tiny/spare_bits.hpp:111-115 | a pointer to a type aligned to 2^k has k spare bits |
| SpareBits.PointerCounts | include/foonathan/tiny/spare_bits.hpp:189-210 | alignments 1, 2, 4, 8 leave 0, 1, 2, 3 spare bits |
| SpareBits.MemberCounts | include/foonathan/tiny/spare_bits.hpp:323-324 | a `bool` has 7 spare bits, and a struct's two `bool` members have 14 |
| SpareBits.PutSpareBits | include/foonathan/tiny/spare_bits.hpp:283-290 | `put_spare_bits` requires the bits to fit and updates the object by the traits' put, member by member |
| SpareBits.ClearSpareBits | include/foonathan/tiny/spare_bits.hpp:292-297 | `clear_spare_bits` updates the object by the traits' clear, member by member |
| SpareBits.Modifier.constructor | include/foonathan/tiny/spare_bits.hpp:235-239 | creating a modifier saves the spare bits and leaves the object as `extract_object` would |
| SpareBits.Modifier.Release | include/foonathan/tiny/spare_bits.hpp:247-250 | destroying a modifier puts the saved bits back, whatever the object now holds, and changes nothing else |
| SpareBits.ModifyUnchanged | include/foonathan/tiny/spare_bits.hpp:268-274 | a modifier released without touching the object leaves it as it was |
| AlignedPtr.Null | include/foonathan/tiny/aligned_ptr.hpp:27-31 | the default and `nullptr` constructors give a pointer that converts to `false`, with the alignment kept |
| AlignedPtr.FromPointer | include/foonathan/tiny/aligned_ptr.hpp:33-38 | the checked constructor requires the promised alignment and `get()` returns the given pointer |
| AlignedPtr.NullIsAligned | include/foonathan/tiny/aligned_ptr.hpp:94-139 | `nullptr` passes every alignment check, and null pointers of any alignments compare equal, also against a plain `nullptr` |
| AlignedPtr.ComparisonIgnoresAlignment | include/foonathan/tiny/aligned_ptr.hpp:94-102 | `==` between aligned pointers compares the addresses only: different alignments with the same address are equal, different addresses are not |
| AlignedPtr.VerifyAlignmentIff | include/foonathan/tiny/aligned_ptr.hpp:82-87 | for a power-of-two alignment, `(address & (Alignment - 1)) == 0` holds exactly for multiples of the alignment |
| AlignedPtr.Word | include/foonathan/tiny/aligned_ptr.hpp:155-158 | the address word read from the object fits `std::uintptr_t` |
| AlignedPtr.CheckedPointerHasZeroSpare | include/foonathan/tiny/aligned_ptr.hpp:141-159 | a pointer that passed the alignment check has its `ilog2_ceil(Alignment)` spare bits zero, so `clear` leaves it unchanged |
| AlignedPtr.PutKeepsAddress | include/foonathan/tiny/aligned_ptr.hpp:161-166 | `put` keeps every address bit above the spare ones and stores the low bits of the given value below them |
| AlignedPtr.PutRangeWord | include/foonathan/tiny/aligned_ptr.hpp:163-165 | writing the k low bits of the pointer word keeps the bits above them and stores the value's k low bits |
| AlignedPtr.ClearedIsAligned | include/foonathan/tiny/aligned_ptr.hpp:150-153 | after `clear` (`put(0)`) the address passes the alignment check again |
| AlignedPtr.AsWrittenSpareView | include/foonathan/tiny/aligned_ptr.hpp:145-148 | for any alignment from 1 the spare view is the `ilog2_ceil(Alignment)` low bits of the address |
| AlignedPtr.AlignmentThreeLosesAddress | include/foonathan/tiny/aligned_ptr.hpp:82-87 | with `Alignment == 3`, address 1 passes the check yet clearing the two spare bits turns it into 0 |
| AlignedPtr.SplitZero | include/foonathan/tiny/aligned_ptr.hpp:163-165 | a word whose k low bits and whose bits above them are zero is zero |
| AlignedPtr.AlignmentThree | include/foonathan/tiny/aligned_ptr.hpp:82-87 | address 1 passes the check for `Alignment == 3`, whose `ilog2_ceil` is 2 |
| TinyPair.IntegerBits | include/foonathan/tiny/tiny_pair.hpp:125-162 | the integer type of the pair is `uint_least_n_t<TinyBits>`, or `unsigned char` when no bits are asked for: at least `TinyBits` wide, between 8 and 64 bits |
| TinyPair.LayoutChoice | test/tiny_pair.cpp:118-137 | for a type with 16 spare bits, 8 and 16 tiny bits are compressed, 17 and 32 are stored apart, 0 uses no integer, and the storage is separate exactly above 16 bits |
| TinyPair.TinyPairImpl.Big | include/foonathan/tiny/tiny_pair.hpp:64-67 | `big()` has the size of the object and, when compressed, its spare bits are clear |
| TinyPair.TinyPairImpl.Integer | include/foonathan/tiny/tiny_pair.hpp:74-77 | `integer()` fits the integer type, fits the spare bits when compressed, and is 0 when no integer is stored |
| TinyPair.TinyPairImpl.constructor | include/foonathan/tiny/tiny_pair.hpp:181-185 | constructing a pair stores the big object (its spare bits cleared when compressed) and then gives back the integer passed |
| TinyPair.TinyPairImpl.Copy | include/foonathan/tiny/tiny_pair.hpp:32-35 | the copy shows the same big object and the same integer as the original |
| TinyPair.TinyPairImpl.SetInteger | include/foonathan/tiny/tiny_pair.hpp:79-82 | `set_integer(i)` makes `integer()` return i and leaves `big()` as it was |
| TinyPair.TinyPairImpl.AssignBig | include/foonathan/tiny/tiny_pair.hpp:69-72 | writing through `modify_big()` stores the new object (spare bits cleared when compressed) and keeps the integer |
| TinyPair.TinyPairImpl.Assign | include/foonathan/tiny/tiny_pair.hpp:49-54 | after copy assignment the pair shows the other pair's big object and integer |
| TinyPair.TinyPairImpl.Destroy | include/foonathan/tiny/tiny_pair.hpp:44-47 | the destructor leaves exactly the object `big()` showed: the spare bits cleared when compressed, nothing touched otherwise |
| TinyPair.WithBoolBits | include/foonathan/tiny/tiny_pair.hpp:318-325 | `set_second(b)` sets bit 0 to b, keeps all higher bits and keeps the integer within its bound |
| TinyPair.WithBoolHighBit | include/foonathan/tiny/tiny_pair.hpp:321-322 | masking with `~0x1` keeps every bit above the boolean |
| TinyPair.TinyBoolPair.First | include/foonathan/tiny/tiny_pair.hpp:293-297 | `first()` has the size of `T` |
| TinyPair.TinyBoolPair.constructor | include/foonathan/tiny/tiny_pair.hpp:257-271 | `tiny_bool_pair(first, second)` gives `second()` == second and `first()` the stored object (spare bits cleared when compressed) |
| TinyPair.TinyBoolPair.SetFirst | include/foonathan/tiny/tiny_pair.hpp:305-309 | `set_first` replaces the first value and keeps the boolean |
| TinyPair.TinyBoolPair.SetSecond | include/foonathan/tiny/tiny_pair.hpp:318-325 | `set_second(b)` makes `second()` return b, keeps `first()` and keeps the other integer bits |
| TinyPair.TinyBoolPair.AssignPair | include/foonathan/tiny/tiny_pair.hpp:282-290 | assigning from a pair-like sets both the first value and the boolean |
| TinyPair.TinyBoolPair.ExtractSpare | include/foonathan/tiny/tiny_pair.hpp:433-436 | the pair's spare bits, `integer() >> 1`, are at most 7 bits |
| TinyPair.TinyBoolPair.PutSpare | include/foonathan/tiny/tiny_pair.hpp:418-448 | takes any bits below the advertised count, as `put_spare_bits` does; `extract()` then gives their low 7 bits, which are all of them for bits within the corrected count, and `first()` and `second()` are kept |
| TinyPair.PairTrichotomy | include/foonathan/tiny/tiny_pair.hpp:340-377 | over a strict total order on `T`, exactly one of `<`, `==`, `>` holds between two pairs, and `<=`/`>=` are `<`/`>` or `==` |
| TinyPair.PairTransitive | include/foonathan/tiny/tiny_pair.hpp:353-359 | the pair `<` is transitive |
| TinyPair.SpareInteger | include/foonathan/tiny/tiny_pair.hpp:440-447 | the integer built by `put` fits an `unsigned char` and has the boolean in bit 0 |
| TinyPair.SpareIntegerBound | include/foonathan/tiny/tiny_pair.hpp:440-442 | c < 8 bits shifted above the boolean take c + 1 bits |
| TinyPair.SpareIntegerKeepsLow | include/foonathan/tiny/tiny_pair.hpp:433-448 | `put` then `extract` gives the low 7 bits of whatever was put |
| TinyPair.SpareIntegerRoundTrip | include/foonathan/tiny/tiny_pair.hpp:433-448 | up to 7 bits put are extracted again |
| TinyPair.PairSpareBits | include/foonathan/tiny/tiny_pair.hpp:418-426 | the corrected count is at most 7 and at most the count as written, and agrees with it whenever `T` has at most 8 spare bits |
| TinyPair.PairSpareRoundTrip | include/foonathan/tiny/tiny_pair.hpp:433-448 | with the corrected count every value put is extracted again and the boolean is kept |
| TinyPair.AsWrittenPairLosesBits | include/foonathan/tiny/tiny_pair.hpp:418-448 | as written, a `T` with 9 or more spare bits promises at least 8 pair spare bits, yet `put(0x80)` then `extract()` gives 0 |
| TinyPair.LostBit | include/foonathan/tiny/tiny_pair.hpp:440-442 | `0x80 << 1` cast to `unsigned char` loses its only set bit |
| TinyPair.PairSpareCounts | test/spare_bits_traits.cpp:185-200 | pairs of pointers to 2-, 8- and 1-aligned types have 0, 2 and 7 spare bits, as the test of `uint16_t`, `uint64_t` and `uint8_t` counts expects |
| TinyPointerStorage.CompressedSize | include/foonathan/tiny/tiny_pointer_storage.hpp:20-23 | the pointer's always-zero low bits, `ilog2_ceil(Alignment)`, are at most the 64 bits of `std::uintptr_t` |
| TinyPointerStorage.PolicyViewLayout | include/foonathan/tiny/tiny_pointer_storage.hpp:25-67 | the storage view has room for every tiny bit, its bits are distinct and inside the storage, and in the pointer word it uses only the low `compressed_size` bits |
| TinyPointerStorage.AsWrittenRemainingWraps | include/foonathan/tiny/tiny_pointer_storage.hpp:25-26 | as written, fewer tiny bits than `compressed_size` make `remaining_size` wrap to at least 2^64 - 64; otherwise it is the corrected count, and it is 0 only when the tiny bits fill `compressed_size` exactly |
| TinyPointerStorage.PointerAndBool | include/foonathan/tiny/tiny_pointer_storage.hpp:20-26 | a pointer to an 8-aligned type with one `tiny_bool` has 3 spare pointer bits, `remaining_size` 2^64 - 2 as written, and needs only the pointer word |
| TinyPointerStorage.TestedStorages | test/tiny_pointer_storage.cpp:54-123 | the tested storages: 4-aligned with 2 bits and `aligned_obj<int, 8>` with 3 bits are compressed into the word; 4-aligned with 3 bits adds one byte; 2 + 32 + 32 bits take two words |
| TinyPointerStorage.ClearLowBitsSpec | include/foonathan/tiny/tiny_pointer_storage.hpp:94-100 | `clear_bits<0, k>` zeroes the low k bits, keeps the rest, and changes the value exactly when those bits were not clear |
| TinyPointerStorage.SetPointerWord | include/foonathan/tiny/tiny_pointer_storage.hpp:84-92 | `as_int \| tiny_bits` for an address with clear low bits keeps the tiny bits and reads back as that address |
| TinyPointerStorage.Word | include/foonathan/tiny/tiny_pointer_storage.hpp:28-31 | the pointer word fits `std::uintptr_t` |
| TinyPointerStorage.SamePointer | include/foonathan/tiny/tiny_pointer_storage.hpp:94-100 | storages that agree on the word's bits from `compressed_size` up hold the same pointer |
| TinyPointerStorage.WriteWordKeeps | include/foonathan/tiny/tiny_pointer_storage.hpp:90-91 | writing a word whose low bits are the old ones changes no tiny bit and no bit outside the word |
| TinyPointerStorage.WriteWordKeepsLow | include/foonathan/tiny/tiny_pointer_storage.hpp:90-91 | such a write keeps each bit below `compressed_size` |
| TinyPointerStorage.TinyPointerStorage.Pointer | include/foonathan/tiny/tiny_pointer_storage.hpp:94-100 | the stored pointer fits `std::uintptr_t` and is aligned: its low `compressed_size` bits are clear |
| TinyPointerStorage.TinyPointerStorage.Default | include/foonathan/tiny/tiny_pointer_storage.hpp:215-221 | the default constructor holds `nullptr` and every tiny object is 0 |
| TinyPointerStorage.TinyPointerStorage.FromPointer | include/foonathan/tiny/tiny_pointer_storage.hpp:223-228 | constructing from an aligned pointer holds that pointer and every tiny object is 0 |
| TinyPointerStorage.TinyPointerStorage.constructor | include/foonathan/tiny/tiny_pointer_storage.hpp:230-237 | constructing from a pointer and tiny objects holds that pointer and each tiny field holds its object |
| TinyPointerStorage.TinyPointerStorage.SetPointer | include/foonathan/tiny/tiny_pointer_storage.hpp:84-92 | `pointer() = ptr` requires an aligned address, then the storage holds it and every tiny object is kept |
| TinyPointerStorage.TinyPointerStorage.AssignTiny | include/foonathan/tiny/tiny_pointer_storage.hpp:203-206 | writing a tiny field through the base storage changes that field only and keeps the pointer |
| TinyPointerStorage.TinyPointerStorage.AddAssign | include/foonathan/tiny/tiny_pointer_storage.hpp:121-125 | `pointer() += diff` moves the pointer by diff objects and keeps every tiny object |
| TinyPointerStorage.TinyPointerStorage.SubAssign | include/foonathan/tiny/tiny_pointer_storage.hpp:126-130 | `pointer() -= diff` moves the pointer back by diff objects and keeps every tiny object |
| TinyPointerStorage.TinyPointerStorage.PreIncrement | include/foonathan/tiny/tiny_pointer_storage.hpp:132-135 | `++pointer()` advances by one object and yields the new pointer; tiny objects kept |
| TinyPointerStorage.TinyPointerStorage.PostIncrement | include/foonathan/tiny/tiny_pointer_storage.hpp:136-141 | `pointer()++` advances by one object and yields the old pointer; tiny objects kept |
| TinyPointerStorage.TinyPointerStorage.PreDecrement | include/foonathan/tiny/tiny_pointer_storage.hpp:143-146 | `--pointer()` steps back one object and yields the new pointer; tiny objects kept |
| TinyPointerStorage.TinyPointerStorage.PostDecrement | include/foonathan/tiny/tiny_pointer_storage.hpp:147-152 | `pointer()--` steps back one object and yields the old pointer; tiny objects kept |
| PointerVariantImpl.Min | include/foonathan/tiny/pointer_variant_impl.hpp:20-35 | the variadic `min` returns one of its arguments, and none is smaller |
| PointerVariantImpl.Alignments | include/foonathan/tiny/pointer_variant_impl.hpp:38-39 | `alignment_of<Ts>()...` lists each element type's alignment in order |
| PointerVariantImpl.StorageAlignment | include/foonathan/tiny/pointer_variant_impl.hpp:37-39 | the storage's alignment is a valid pointer alignment no greater than any element type's |
| PointerVariantImpl.StorageTraits | include/foonathan/tiny/pointer_variant_impl.hpp:37-39 | the storage's spare bits traits are those of a well-formed aligned pointer |
| PointerVariantImpl.StorageSpareBits | include/foonathan/tiny/pointer_variant_impl.hpp:101-104 | the storage has k ≤ 64 spare bits with 2^k the storage alignment |
| PointerVariantImpl.TagWidth | include/foonathan/tiny/pointer_variant_impl.hpp:242-243 | `ilog2_ceil(sizeof...(Ts))` bits hold every tag 0 .. N-1 |
| PointerVariantImpl.CompressedIff | include/foonathan/tiny/pointer_variant_impl.hpp:101-104 | `(1u << spare_bits) >= sizeof...(Ts)` holds exactly when the tag width fits the spare bits |
| PointerVariantImpl.CeilLeast | include/foonathan/tiny/pointer_variant_impl.hpp:242-243 | `ilog2_ceil(n)` is the least t with n ≤ 2^t |
| PointerVariantImpl.TagOf | include/foonathan/tiny/pointer_variant_impl.hpp:106-133 | `tag_of<T>` is valid exactly when some element type is T or `aligned_obj<T, A>`, and then is the first such index; otherwise it is past the end |
| PointerVariantImpl.TagsDistinct | test/poiner_variant_impl.cpp:59-61 | distinct element types get their own index as tag, so tags differ |
| PointerVariantImpl.GetOf | include/foonathan/tiny/pointer_variant_impl.hpp:211-215 | `get()` fits a pointer and is aligned as the storage promises |
| PointerVariantImpl.ResetCompressed | include/foonathan/tiny/pointer_variant_impl.hpp:184-191 | in the compressed variant, storing the pointer then putting the tag into its spare bits reads back both the pointer and the tag |
| PointerVariantImpl.ResetUncompressed | include/foonathan/tiny/pointer_variant_impl.hpp:184-191 | in the uncompressed variant the stored pointer reads back |
| PointerVariantImpl.PointerVariant.Get | include/foonathan/tiny/pointer_variant_impl.hpp:211-215 | `get()` fits a pointer and is aligned as the storage promises |
| PointerVariantImpl.PointerVariant.PointerTo | include/foonathan/tiny/pointer_variant_impl.hpp:217-227 | `pointer_to<T>()` on a variant whose tag is T's returns the non-null stored pointer |
| PointerVariantImpl.PointerVariant.Null | include/foonathan/tiny/pointer_variant_impl.hpp:162-167 | the `nullptr` constructor gives no value, tag `SIZE_MAX` and a null pointer |
| PointerVariantImpl.PointerVariant.constructor | include/foonathan/tiny/pointer_variant_impl.hpp:168-173 | the pointer constructor stores the pointer; it has a value exactly when non-null, with `tag_of<T>` as tag, and `SIZE_MAX` as tag otherwise |
| PointerVariantImpl.PointerVariant.ResetNull | include/foonathan/tiny/pointer_variant_impl.hpp:176-180 | `reset(nullptr)` leaves no value, tag `SIZE_MAX` and a null pointer |
| PointerVariantImpl.PointerVariant.Reset | include/foonathan/tiny/pointer_variant_impl.hpp:182-191 | `reset(ptr)` stores the pointer; the variant has a value exactly when it is non-null, and then its tag is `tag_of<T>` |
| PointerVariantImpl.PointerVariant.StoreCompressed | include/foonathan/tiny/pointer_variant_impl.hpp:45-68 | storing into the compressed variant reads back the pointer and the tag from its spare bits |
| PointerVariantImpl.PointerVariant.StoreUncompressed | include/foonathan/tiny/pointer_variant_impl.hpp:70-99 | storing into the uncompressed variant reads back the pointer and the tag from `tag_` |
| PointerVariantImpl.PointerVariant.ExtractSpare | include/foonathan/tiny/pointer_variant_impl.hpp:253-282 | `extract` reads every spare bit of the pointer when compressed, the tag among them, and bits [tag width, 64) of `tag_` otherwise |
| PointerVariantImpl.PointerVariant.PutSpare | include/foonathan/tiny/pointer_variant_impl.hpp:258-287 | the traits' put, which asserts nothing, keeps the pointer and is read back by extract for any bits the written view holds; compressed it is the pointer's own put into all its spare bits, so `get_tag` then reads the bits put in place of the tag; uncompressed it writes bits [tag width, 64) of `tag_` and keeps the tag bits |
| PointerVariantImpl.PointerVariant.PutSpareCompressed | include/foonathan/tiny/pointer_variant_impl.hpp:258-261 | the compressed put changes only the pointer word, where it is the aligned pointer's put of any bits that fit all its spare bits |
| PointerVariantImpl.PointerVariant.ClearSpareCompressed | include/foonathan/tiny/pointer_variant_impl.hpp:248-251 | the compressed clear changes only the pointer word, where it is the aligned pointer's clear of all its spare bits |
| PointerVariantImpl.PointerVariant.PutSpareUncompressed | include/foonathan/tiny/pointer_variant_impl.hpp:284-287 | the uncompressed put changes only `tag_`, writing the bits into its bits [tag width, 64) and keeping it a `std::size_t` |
| PointerVariantImpl.PointerVariant.ClearSpare | include/foonathan/tiny/pointer_variant_impl.hpp:248-277 | `clear` keeps the pointer and leaves extract 0; compressed it leaves stored tag 0, uncompressed `tag_` keeps only the tag bits, so a variant whose `tag_` fits the tag width keeps `tag()` |
| PointerVariantImpl.VariantSpareBits | include/foonathan/tiny/pointer_variant_impl.hpp:242-272 | the variant's spare count is the spare bits above the tag: pointer spare bits minus the tag width when compressed, 64 minus it otherwise |
| PointerVariantImpl.UncompressedPut | include/foonathan/tiny/pointer_variant_impl.hpp:284-287 | a put above the tag stays in the word, is read back, keeps the tag bits, and with 0 leaves only the tag |
| PointerVariantImpl.UncompressedExtract | include/foonathan/tiny/pointer_variant_impl.hpp:279-282 | bits put above the tag are extracted again |
| PointerVariantImpl.UncompressedKeepsTag | include/foonathan/tiny/pointer_variant_impl.hpp:284-287 | a put above the tag keeps the tag bits |
| PointerVariantImpl.UncompressedClear | include/foonathan/tiny/pointer_variant_impl.hpp:274-277 | `clear` (`put(0)`) leaves `tag_` holding only the tag |
| PointerVariantImpl.PutBitAt | include/foonathan/tiny/pointer_variant_impl.hpp:268-269 | each bit of the put word comes from the bits inside [tag width, 64) and from the old word outside |
| PointerVariantImpl.AsWrittenPut | include/foonathan/tiny/pointer_variant_impl.hpp:258-261 | as written, the compressed put of any bits that fit all the pointer's spare bits keeps `get()`, and both `extract` and `get_tag` then read the bits put, whatever the tag was |
| PointerVariantImpl.AsWrittenClear | include/foonathan/tiny/pointer_variant_impl.hpp:248-251 | as written, the compressed clear keeps `get()` and leaves both `extract` and `get_tag` reading 0 |
| PointerVariantImpl.AsWrittenClearLosesTag | include/foonathan/tiny/pointer_variant_impl.hpp:248-251 | as written, the compressed `clear` zeroes every spare bit of the pointer, so a non-zero stored tag is lost |
| PointerVariantImpl.CorrectedSpareView | include/foonathan/tiny/pointer_variant_impl.hpp:241-246 | the corrected compressed view has the advertised count of positions, all between the tag width and the pointer's spare bits |
| PointerVariantImpl.CorrectedSpareKeepsTag | include/foonathan/tiny/pointer_variant_impl.hpp:241-261 | through the corrected view a put is read back, leaves the tag and address bits alone, and clearing restores an object whose view was 0 |
| PointerVariantImpl.CorrectedPut | include/foonathan/tiny/pointer_variant_impl.hpp:203-215 | a put through the corrected view keeps `get()`, is read back, keeps the tag bits of `get_tag`, and a put of 0 leaves `get_tag` reading those bits alone |
| PointerVariantImpl.CorrectedPutKeepsPointer | include/foonathan/tiny/pointer_variant_impl.hpp:211-215 | bits put above the tag are cleared again by `extract_object`, so `get()` does not change |
| PointerVariantImpl.CorrectedPutKeepsTagBits | include/foonathan/tiny/pointer_variant_impl.hpp:51-55 | bits put above the tag leave the low tag-width bits of `extract_spare_bits(ptr)` alone, and putting 0 there leaves only those bits |
| PointerVariantImpl.NormalNotCompressed | test/poiner_variant_impl.cpp:102-105 | `<int32_t, int64_t, const char>` has alignment 1, is not compressed and has 62 spare bits above the tag |
| PointerVariantImpl.AlignedObjNotCompressed | test/poiner_variant_impl.cpp:106-109 | `<int32_t, aligned_obj<char, 2>, const char>` has alignment 1, is not compressed, and `char` has tag 1 |
| PointerVariantImpl.NormalCompressed | test/poiner_variant_impl.cpp:110-113 | `<int32_t, int64_t, const uint32_t>` has alignment 4 and 2 spare bits for 3 tags, so it is compressed with no spare bits left, and `int64_t` has tag 1 |
| PointerVariantImpl.AlignedObjCompressed | test/poiner_variant_impl.cpp:114-117 | `<int32_t, aligned_obj<char, 4>, aligned_obj<signed char, 8>>` has alignment 4, is compressed, and `signed char` has tag 2 |
| PointerVariantImpl.TwoTypes | include/foonathan/tiny/pointer_variant_impl.hpp:101-104 | `<int32_t, int64_t>` has alignment 4, two spare bits, a one-bit tag, is compressed and advertises one spare bit; `int32_t` has tag 0 and `int64_t` tag 1 |
| PointerVariantImpl.PutTurnsInt32IntoInt64 | include/foonathan/tiny/pointer_variant_impl.hpp:258-261 | in `<int32_t, int64_t>`, putting 1, which the one advertised spare bit allows, into a variant holding an `int32_t` leaves the tag of `int64_t` |
| PointerVariantImpl.ExtractReadsInt64Tag | include/foonathan/tiny/pointer_variant_impl.hpp:253-256 | in `<int32_t, int64_t>` holding an `int64_t`, `extract` returns the tag 1, while the spare bit above the tag reads 0 |
| PointerVariantImpl.ModifierKeepsInt64 | include/foonathan/tiny/pointer_variant_impl.hpp:253-261 | in `<int32_t, int64_t, const uint32_t>`, which advertises 0 spare bits, a modifier on an `int64_t` pointer gets 1 from `extract` and putting that 1 back restores the tag of `int64_t` |
| PointerVariantImpl.ClearTurnsInt64IntoInt32 | include/foonathan/tiny/pointer_variant_impl.hpp:248-251 | in `<int32_t, int64_t, const uint32_t>`, which advertises 0 spare bits, `clear` turns the tag of an `int64_t` pointer into the tag of `int32_t` |
| PaddingTraits.AsWrittenIgnoresAlignment | include/foonathan/tiny/padding_traits.hpp:23-30 | as written, two 8-byte standard layout types aligned to 4 and to 8 count as layout compatible, although their alignments differ |
| PaddingTraits.LayoutCompatibleSpec | include/foonathan/tiny/padding_traits.hpp:15-30 | the corrected check is symmetric, holds between cv variants of one type, between different types only with equal size and alignment, and never admits more than the check as written |
| PaddingTraits.MembersOrdered | include/foonathan/tiny/padding_traits.hpp:121-136 | each member ends before every later member begins |
| PaddingTraits.Gap | include/foonathan/tiny/padding_traits.hpp:121-153 | `padding_between` of member i and the next member (or the object's end) is exactly the bits from the end of member i up to the next start |
| PaddingTraits.GapsSplit | include/foonathan/tiny/padding_traits.hpp:170-190 | `padding_aggregate_impl` joins gap i before the later gaps, skipping an empty gap, and each gap holds no position twice |
| PaddingTraits.GapsMembership | include/foonathan/tiny/padding_traits.hpp:155-197 | a bit is in the gaps from member i on exactly when it lies between member i's start and the object's end and in none of the members from i on |
| PaddingTraits.GapStep | include/foonathan/tiny/padding_traits.hpp:178-183 | joining gap i before the later gaps adds exactly the bits between member i and member i + 1 |
| PaddingTraits.GapsDistinct | include/foonathan/tiny/padding_traits.hpp:155-197 | the joined gaps hold no position twice |
| PaddingTraits.GapsDisjoint | include/foonathan/tiny/padding_traits.hpp:178-183 | gap i shares no position with the later gaps |
| PaddingTraits.GapsSize | include/foonathan/tiny/padding_traits.hpp:155-197 | the gaps from member i on number the object's bits from member i's start less the members' bits |
| PaddingTraits.GapsShape | include/foonathan/tiny/padding_traits.hpp:155-197 | the gaps from member i on are distinct, cover exactly the non-member bits from member i's start on, and have the size that leaves |
| PaddingTraits.PaddingView | include/foonathan/tiny/padding_traits.hpp:37-58 | the padding view holds no position twice, is empty for the unspecialised traits, and for an aggregate holds exactly the bits from the first member on that no member covers |
| PaddingTraits.PaddingBitSize | include/foonathan/tiny/padding_traits.hpp:81-86 | `padding_bit_size` is 0 without a specialisation, otherwise the object's bits less the members' bits and those before the first member |
| PaddingTraits.PaddingViewSize | include/foonathan/tiny/padding_traits.hpp:81-86 | the padding view has `padding_bit_size` positions wherever the object lies |
| PaddingTraits.PaddingFits | include/foonathan/tiny/padding_traits.hpp:213-231 | the padding view of an object in memory lies in the object's bytes |
| PaddingTraits.PutPaddingKeepsMembers | include/foonathan/tiny/padding_traits.hpp:200-238 | writing into the padding leaves every member's bits unchanged |
| PaddingTraits.PaddingComplement | include/foonathan/tiny/padding_traits.hpp:200-204 | in a standard layout object whose first member is at offset 0, each bit is padding exactly when it belongs to no member |
| PaddingTraits.LayoutCompatibleTraits | include/foonathan/tiny/padding_traits.hpp:240-251 | a type that passes `is_layout_compatible` as written and takes the traits of a specialised type is specialised with the same padding size |
| PaddingTraits.NoPadding | test/padding_traits.cpp:55-69 | `struct { uint8_t a; uint8_t b; }` has no padding |
| PaddingTraits.SinglePadding | test/padding_traits.cpp:70-88 | `struct { uint8_t a; uint16_t b; }` has bits [8, 16) as padding, 8 bits |
| PaddingTraits.SinglePaddingPut | test/padding_traits.cpp:87-94 | putting all ones into that padding makes byte 1 0xFF |
| PaddingTraits.ComplexPadding | test/padding_traits.cpp:96-122 | `struct { uint8_t a; uint32_t b; uint64_t c; uint8_t d; }` has padding bits [8, 32) and [136, 192), `(3 + 7) * CHAR_BIT` of them |
| PaddingTinyStorage.RemainingSize | include/foonathan/tiny/padding_tiny_storage.hpp:146-149 | `remaining_size` is 0 exactly when the tiny bits fit the padding, and otherwise is the tiny bits the padding cannot take |
| PaddingTinyStorage.PaddingInsideObject | include/foonathan/tiny/padding_tiny_storage.hpp:168-175 | the padding view of the object lies inside the object |
| PaddingTinyStorage.PolicyView | include/foonathan/tiny/padding_tiny_storage.hpp:151-213 | the storage view lies inside the policy's storage |
| PaddingTinyStorage.PolicyViewLayout | include/foonathan/tiny/padding_tiny_storage.hpp:151-213 | the storage view holds every tiny bit at distinct positions, has the padding plus the byte array's bits, and inside the object touches only padding |
| PaddingTinyStorage.OutsideView | include/foonathan/tiny/padding_tiny_storage.hpp:200-207 | no bit of the object outside its padding belongs to the storage view |
| PaddingTinyStorage.MemberNotPadding | include/foonathan/tiny/padding_traits.hpp:121-153 | a bit of a member is inside the object and not padding |
| PaddingTinyStorage.MemberValue | include/foonathan/tiny/padding_tiny_storage.hpp:238-245 | what a member holds fits the member's size |
| PaddingTinyStorage.MemberAfterPut | include/foonathan/tiny/padding_tiny_storage.hpp:283-286 | writing member j through `object()` sets member j to the value and leaves every other member as it was |
| PaddingTinyStorage.ObjectValue | include/foonathan/tiny/padding_tiny_storage.hpp:281-291 | the object's value is each member's value for a type with padding traits, all its bits as one value otherwise |
| PaddingTinyStorage.SameObject | include/foonathan/tiny/padding_tiny_storage.hpp:20-21 | memories that agree on the object's bits outside the padding hold the same object |
| PaddingTinyStorage.ObjectOutsideView | include/foonathan/tiny/padding_tiny_storage.hpp:151-213 | changing only bits inside the storage view leaves the object as it was |
| PaddingTinyStorage.PutViewKeepsObject | include/foonathan/tiny/padding_tiny_storage.hpp:200-207 | writing tiny bits into the storage view leaves the object as it was |
| PaddingTinyStorage.FieldsOutsideObject | include/foonathan/tiny/padding_tiny_storage.hpp:238-245 | changing only bits outside the storage view leaves every tiny field as it was |
| PaddingTinyStorage.ClearViewZeroFields | include/foonathan/tiny/tiny_storage.hpp:241-244 | a storage view whose bits are all clear holds 0 in every tiny field |
| PaddingTinyStorage.CopyRangeAt | include/foonathan/tiny/padding_tiny_storage.hpp:38-49 | copying a range of bytes takes the source's bits inside the range and keeps the rest |
| PaddingTinyStorage.RangeBitAt | include/foonathan/tiny/padding_tiny_storage.hpp:38-49 | each bit of a range's value comes from its position in memory |
| PaddingTinyStorage.CopyViewAt | include/foonathan/tiny/padding_tiny_storage.hpp:120-125 | `copy_bits(dest, src)` takes the source's bit at each view position and keeps every other bit |
| PaddingTinyStorage.AssignedMem | include/foonathan/tiny/padding_tiny_storage.hpp:45-49 | the storage after a copy or move has the size it had |
| PaddingTinyStorage.AssignedAt | include/foonathan/tiny/padding_tiny_storage.hpp:38-125 | after a copy or move each bit is the source's, except the non-padding bits of a non-trivial object, which its own copy writes |
| PaddingTinyStorage.AssignedValues | include/foonathan/tiny/padding_tiny_storage.hpp:38-125 | after a copy or move the object is the source's object and every tiny field is the source's field; a trivial object copies all the bits |
| PaddingTinyStorage.PaddingTinyStorage.constructor | include/foonathan/tiny/padding_tiny_storage.hpp:259-272 | the default and object constructors hold the given object and every tiny field 0 |
| PaddingTinyStorage.PaddingTinyStorage.WithTiny | include/foonathan/tiny/padding_tiny_storage.hpp:274-302 | constructing from an object and tiny values holds the object and each tiny value in its field |
| PaddingTinyStorage.PaddingTinyStorage.Copy | include/foonathan/tiny/padding_tiny_storage.hpp:38-41 | the copy and move constructors give the same object and tiny fields; a trivial object's bits are copied whole |
| PaddingTinyStorage.PaddingTinyStorage.ClearView | include/foonathan/tiny/tiny_storage.hpp:241-244 | clearing the storage view zeroes exactly its bits |
| PaddingTinyStorage.PaddingTinyStorage.Construct | include/foonathan/tiny/padding_tiny_storage.hpp:31-36 | `construct` creates the object and clears its padding, so the view bits inside the object are 0 and those of the byte array kept |
| PaddingTinyStorage.PaddingTinyStorage.Assign | include/foonathan/tiny/padding_tiny_storage.hpp:45-49 | copy and move assignment give the other storage's object and tiny fields; a trivial object's bits are copied whole |
| PaddingTinyStorage.PaddingTinyStorage.AssignTiny | include/foonathan/tiny/tiny_storage.hpp:336-338 | `at<i>() = o` changes field i to o only and leaves the object as it was |
| PaddingTinyStorage.PaddingTinyStorage.SetMember | include/foonathan/tiny/padding_tiny_storage.hpp:281-286 | `object().member = value` changes that member only and leaves every tiny field |
| PaddingTinyStorage.PaddingTinyStorage.SetObject | include/foonathan/tiny/padding_tiny_storage.hpp:281-286 | assigning the whole object of a type without padding traits gives the new object and leaves every tiny field |
| PaddingTinyStorage.BigPaddingCompressed | test/padding_tiny_storage.cpp:166-170 | `tiny_unsigned<8>` and `tiny_unsigned<48, std::uint64_t>` fit into the 56 padding bits of `{uint8_t; uint64_t}`, which needs no byte array |
| PaddingTinyStorage.TestedCompression | test/padding_tiny_storage.cpp:112-142 | `tiny_unsigned<4>` needs a byte array without padding or in `std::string`, and none with a padding byte |
| PaddingTinyStorage.BigPaddingScenario | test/padding_tiny_storage.cpp:166-199 | starting from `{0, 0}`, the test's member and tiny writes end with members 42 and 43 and tiny values 255 and 2^48 - 1 |
| PaddingTinyStorage.BigPaddingWrites | test/padding_tiny_storage.cpp:178-199 | the four writes of the test, from zero members and zero tiny values, give 42, 43, 255 and 2^48 - 1 |
| PaddingTinyStorage.BigPaddingFirstWrites | test/padding_tiny_storage.cpp:178-188 | writing 42 to the first member and 255 to the first tiny value leaves the other member and tiny value 0 |
| PaddingTinyStorage.BigPaddingSecondWrites | test/padding_tiny_storage.cpp:190-199 | then writing 43 and 2^48 - 1 keeps 42 and 255 |
| PaddingTinyStorage.BigPaddingMembersFit | test/padding_tiny_storage.cpp:164-199 | 42 fits the `uint8_t` member and 43 the `uint64_t` one |
| PaddingTinyStorage.WriteMemberAndTiny | include/foonathan/tiny/padding_tiny_storage.hpp:281-291 | a member write followed by a tiny write both land and change nothing else |
| Tombstone.TombstoneBits | include/foonathan/tiny/tombstone.hpp:240-243 | `tombstone_bits` is the padding bit size capped at 63, and non-zero when there is padding |
| Tombstone.ByteConstants | include/foonathan/tiny/tombstone.hpp:372 | a byte's 7 and 8 bits give 128 and 256 patterns, 6 bits 64 |
| Tombstone.TombstoneCount | include/foonathan/tiny/tombstone.hpp:80-81 | every `tombstone_count` (default 0, padded `2^bits - 1`, tiny, `bool` 127, pointer `Alignment - 1`, optional) is below `SIZE_MAX`, so no tombstone index is the invalid one |
| Tombstone.PaddedTagView | include/foonathan/tiny/tombstone.hpp:256-261 | `padding_of(storage).subview<0, tombstone_bits>()` has `tombstone_bits` distinct positions inside the object |
| Tombstone.TombstoneIndex | include/foonathan/tiny/tombstone.hpp:107-114 | `get_tombstone` of every traits kind returns a `std::size_t` |
| Tombstone.BoolIndex | include/foonathan/tiny/tombstone.hpp:388-393 | `bool`'s `get_tombstone`, `(byte >> 1) - 1` wrapping, is a `std::size_t` |
| Tombstone.PointerIndex | include/foonathan/tiny/tombstone.hpp:436-442 | the pointer's `get_tombstone`, `(storage % Alignment) - 1` wrapping, is a `std::size_t` |
| Tombstone.TinyIndex | include/foonathan/tiny/tombstone.hpp:341-348 | a tiny type's `get_tombstone`, `at<1>() - 1` wrapping, is a `std::size_t` |
| Tombstone.PaddedIndex | include/foonathan/tiny/tombstone.hpp:276-285 | a padded type's `get_tombstone`, the padding tag minus one wrapping, is a `std::size_t` |
| Tombstone.CounterIndex | include/foonathan/tiny/optional_impl.hpp:220-223 | an uncompressed optional's `get_tombstone`, the counter minus one wrapping, is a `std::size_t` |
| Tombstone.WithTombstone | include/foonathan/tiny/tombstone.hpp:83-90 | `create_tombstone` keeps the memory's size |
| Tombstone.WithObject | include/foonathan/tiny/tombstone.hpp:92-98 | `create_object` keeps the memory's size |
| Tombstone.WithTombstoneFrame | include/foonathan/tiny/tombstone.hpp:83-90 | `create_tombstone` changes no bit past the storage |
| Tombstone.BoolTombstoneFrame | include/foonathan/tiny/tombstone.hpp:374-379 | `bool`'s `create_tombstone` changes only its byte |
| Tombstone.PointerTombstoneFrame | include/foonathan/tiny/tombstone.hpp:424-428 | the pointer's `create_tombstone` changes only its word |
| Tombstone.TinyTombstoneFrame | include/foonathan/tiny/tombstone.hpp:327-330 | a tiny type's `create_tombstone` changes only its byte |
| Tombstone.PaddedTombstoneFrame | include/foonathan/tiny/tombstone.hpp:256-262 | a padded type's `create_tombstone` changes only the object |
| Tombstone.CounterTombstoneFrame | include/foonathan/tiny/optional_impl.hpp:204-208 | an uncompressed optional's `create_tombstone` changes only its storage |
| Tombstone.WithObjectFrame | include/foonathan/tiny/tombstone.hpp:92-98 | `create_object` changes no bit past the storage |
| Tombstone.WordObjectFrame | include/foonathan/tiny/tombstone.hpp:381-384 | a plain, `bool` or pointer object written from bit 0 changes nothing past the storage |
| Tombstone.TinyObjectFrame | include/foonathan/tiny/tombstone.hpp:332-337 | a tiny object changes only its byte |
| Tombstone.PaddedObjectFrame | include/foonathan/tiny/tombstone.hpp:264-269 | a padded object changes only the object |
| Tombstone.EmptyOptionalFrame | include/foonathan/tiny/optional_impl.hpp:210-216 | an uncompressed optional's `create_object` changes only its storage |
| Tombstone.PutRangeExtract | include/foonathan/tiny/tombstone.hpp:256-261 | a value that fits, put into a range, reads back |
| Tombstone.BoolTombstoneRoundTrip | include/foonathan/tiny/tombstone.hpp:374-393 | `bool`'s tombstone `(index + 1) << 1` reads back as index |
| Tombstone.PointerTombstoneRoundTrip | include/foonathan/tiny/tombstone.hpp:424-442 | the pointer's tombstone `index + 1` reads back as index, since it is below the alignment |
| Tombstone.BoolWithTombstone | include/foonathan/tiny/tombstone.hpp:374-379 | `bool`'s tombstone writes `(index + 1) << 1`, truncated to a byte, into its byte |
| Tombstone.TinyWithTombstone | include/foonathan/tiny/tombstone.hpp:327-330 | a tiny type's tombstone writes `index + 1` into the tag bits |
| Tombstone.PaddedWithTombstone | include/foonathan/tiny/tombstone.hpp:256-262 | a padded type's tombstone zeroes the object, then writes `index + 1` into the padding tag |
| Tombstone.CompressedWithTombstone | include/foonathan/tiny/optional_impl.hpp:159-165 | a compressed optional's tombstone is its value type's tombstone with the same index |
| Tombstone.CounterWithTombstone | include/foonathan/tiny/optional_impl.hpp:204-208 | an uncompressed optional's tombstone writes `index + 1` into the counter |
| Tombstone.WordPutExtract | include/foonathan/tiny/tombstone.hpp:424-433 | a word written into the pointer storage reads back |
| Tombstone.PointerWithTombstone | include/foonathan/tiny/tombstone.hpp:424-428 | the pointer's tombstone stores `index + 1` as the address |
| Tombstone.SmallRemainder | include/foonathan/tiny/tombstone.hpp:441 | a value below the alignment is its own remainder |
| Tombstone.TinyTombstoneRoundTrip | include/foonathan/tiny/tombstone.hpp:327-348 | a tiny type's tombstone reads back as index |
| Tombstone.PaddedTombstoneRoundTrip | include/foonathan/tiny/tombstone.hpp:256-285 | a padded type's tombstone reads back as index |
| Tombstone.CounterTombstoneRoundTrip | include/foonathan/tiny/optional_impl.hpp:204-223 | an uncompressed optional's tombstone reads back as index |
| Tombstone.TombstoneRoundTrip | include/foonathan/tiny/tombstone.hpp:83-114 | for every traits kind, `get_tombstone` after `create_tombstone(storage, index)` is index |
| Tombstone.ClearRangeExtract | include/foonathan/tiny/tombstone.hpp:268 | a range cleared reads 0 |
| Tombstone.BoolObjectIsNoTombstone | include/foonathan/tiny/tombstone.hpp:381-393 | a `bool` object (byte 0 or 1) has no valid tombstone index |
| Tombstone.PointerObjectIsNoTombstone | include/foonathan/tiny/tombstone.hpp:430-442 | an aligned pointer object has no valid tombstone index |
| Tombstone.PointerWithObject | include/foonathan/tiny/tombstone.hpp:430-433 | a pointer's `create_object` stores the address in the word |
| Tombstone.TinyObjectIsNoTombstone | include/foonathan/tiny/tombstone.hpp:332-348 | a tiny object has its tag 0, hence no valid tombstone index |
| Tombstone.PaddedObjectIsNoTombstone | include/foonathan/tiny/tombstone.hpp:264-285 | a padded object has no valid tombstone index |
| Tombstone.PaddedObjectTag | include/foonathan/tiny/tombstone.hpp:264-269 | a padded object's tombstone bits are 0 |
| Tombstone.CounterObjectIsNoTombstone | include/foonathan/tiny/optional_impl.hpp:210-223 | an empty uncompressed optional created as an object has counter 0, hence no valid tombstone index |
| Tombstone.ObjectIsNoTombstone | include/foonathan/tiny/tombstone.hpp:107-114 | for every traits kind with tombstones, `get_tombstone` after `create_object` is at least `tombstone_count` |
| Tombstone.ObjectRoundTrip | include/foonathan/tiny/tombstone.hpp:116-127 | `get_object` after `create_object(storage, o)` is o for the kinds whose object is a number |
| Tombstone.PaddedObjectKept | include/foonathan/tiny/tombstone.hpp:264-269 | a padded object keeps every bit of its representation outside the tombstone bits |
| Tombstone.ObjectThenClearAt | include/foonathan/tiny/tombstone.hpp:267-268 | writing the object and then clearing bits elsewhere keeps the object's bit |
| Tombstone.PaddedWithObject | include/foonathan/tiny/tombstone.hpp:264-269 | a padded `create_object` writes the object over the whole object, then clears its tag |
| Tombstone.RangeAgree | include/foonathan/tiny/tombstone.hpp:107-114 | memories that agree on a prefix read the same from any range inside it |
| Tombstone.TombstoneIndexFrame | include/foonathan/tiny/tombstone.hpp:107-114 | `get_tombstone` depends on the storage's bits only |
| Tombstone.BoolIndexFrame | include/foonathan/tiny/tombstone.hpp:388-393 | `bool`'s index depends on its byte only |
| Tombstone.PointerIndexFrame | include/foonathan/tiny/tombstone.hpp:436-442 | the pointer's index depends on its word only |
| Tombstone.TinyIndexFrame | include/foonathan/tiny/tombstone.hpp:341-348 | a tiny type's index depends on its byte only |
| Tombstone.PaddedIndexFrame | include/foonathan/tiny/tombstone.hpp:276-285 | a padded type's index depends on the object only |
| Tombstone.CounterIndexFrame | include/foonathan/tiny/optional_impl.hpp:220-223 | an uncompressed optional's index depends on its storage only |
| Tombstone.ObjectOfFrame | include/foonathan/tiny/tombstone.hpp:116-127 | `get_object` depends on the storage's bits only |
| Tombstone.CreateTombstone | include/foonathan/tiny/tombstone.hpp:83-90 | `create_tombstone` for every traits kind leaves a storage whose `get_tombstone` is the index |
| Tombstone.CreateBoolTombstone | include/foonathan/tiny/tombstone.hpp:374-379 | `bool`'s `create_tombstone` writes `(index + 1) << 1` into the byte |
| Tombstone.CreatePointerTombstone | include/foonathan/tiny/tombstone.hpp:424-428 | the pointer's `create_tombstone` stores `index + 1` |
| Tombstone.CreateTinyTombstone | include/foonathan/tiny/tombstone.hpp:327-330 | a tiny type's `create_tombstone` writes `index + 1` into the tag |
| Tombstone.CreatePaddedTombstone | include/foonathan/tiny/tombstone.hpp:256-262 | a padded type's `create_tombstone` zeroes the object and writes `index + 1` into the tag |
| Tombstone.CreateCounterTombstone | include/foonathan/tiny/optional_impl.hpp:204-208 | an uncompressed optional's `create_tombstone` writes `index + 1` into the counter |
| Tombstone.CreateObject | include/foonathan/tiny/tombstone.hpp:92-98 | `create_object` for every traits kind leaves a storage that holds no valid tombstone |
| Tombstone.TestedCounts | test/tombstone_traits.cpp:38-96 | `std::string` and `const char*` have 0 tombstones, `bool` 127, `std::uint16_t*` 1, `optional_impl<std::string>` as many as `bool`, `optional_impl<bool>` one fewer |
| Tombstone.TestedCompression | test/optional_impl.cpp:55-78 | `optional_impl` of `std::string` and `int` is not compressed; of `bool` and of a 2-bit tiny enum it is, the enum having 63 tombstones |
| OptionalImpl.CreatedOptionalIsEmpty | include/foonathan/tiny/optional_impl.hpp:167-172 | `create_object` of an optional, its traits' only constructor, leaves an empty optional |
| OptionalImpl.EngagedFrame | include/foonathan/tiny/optional_impl.hpp:119-124 | `has_value()` depends on the optional's own storage only |
| OptionalImpl.ClearedRangeExtract | include/foonathan/tiny/optional_impl.hpp:48-49 | a range of cleared bits reads 0 |
| OptionalImpl.CounterKept | include/foonathan/tiny/optional_impl.hpp:220-223 | a write that leaves the counter bits alone leaves an uncompressed optional's own tombstone index alone |
| OptionalImpl.FlagWrite | include/foonathan/tiny/optional_impl.hpp:51-59 | `flag.at<0>() = value` makes `has_value()` return value and changes neither the value's storage, the counter, nor anything past the optional |
| OptionalImpl.UncompressedCreated | include/foonathan/tiny/optional_impl.hpp:103-109 | `create_value(o)` of an uncompressed optional leaves it engaged holding o, with its counter unchanged |
| OptionalImpl.NoneTombstone | include/foonathan/tiny/optional_impl.hpp:26-41 | `store_none_flag()` of a compressed optional stores `T`'s last tombstone, which reads as empty and as no tombstone of the optional's own |
| OptionalImpl.DefaultFlagged | include/foonathan/tiny/optional_impl.hpp:44-59 | the memory after an uncompressed optional's construction keeps its size |
| OptionalImpl.DefaultFlagIsEmpty | include/foonathan/tiny/optional_impl.hpp:87-91 | a default-constructed uncompressed optional is empty and holds no tombstone of its own |
| OptionalImpl.StoreInitialNone | include/foonathan/tiny/optional_impl.hpp:87-91 | the constructor's `store_none_flag()` leaves the optional empty, holding no tombstone of its own, with nothing past it changed |
| OptionalImpl.StoreNoneTombstone | include/foonathan/tiny/optional_impl.hpp:33-36 | a compressed optional's `store_none_flag()` leaves it empty and with no tombstone of its own |
| OptionalImpl.StoreNoneFlag | include/foonathan/tiny/optional_impl.hpp:56-59 | an uncompressed optional's initial flag and counter leave it empty with no tombstone of its own |
| OptionalImpl.OptionalImpl.constructor | include/foonathan/tiny/optional_impl.hpp:86-91 | `optional_impl()` creates an empty optional, holding no tombstone, with nothing past it changed |
| OptionalImpl.OptionalImpl.Handle | include/foonathan/tiny/optional_impl.hpp:126-133 | the optional that `value()` of an enclosing optional refers to lives in the same storage |
| OptionalImpl.OptionalImpl.CreateValue | include/foonathan/tiny/optional_impl.hpp:101-109 | `create_value(o)` on an empty optional makes it engaged; a numeric value reads o, a padded value keeps every bit of o outside the tombstone tag, and an inner optional starts empty; compressed it holds no tombstone, uncompressed its counter is kept |
| OptionalImpl.OptionalImpl.CreateCompressed | include/foonathan/tiny/optional_impl.hpp:103-109 | a compressed optional's value leaves the tombstones: engaged, with no tombstone; a numeric value reads o, a padded value keeps every bit of o outside the tombstone tag, and an inner optional starts empty |
| OptionalImpl.OptionalImpl.CreateUncompressed | include/foonathan/tiny/optional_impl.hpp:103-109 | an uncompressed optional's value and flag: engaged, holding o, counter kept |
| OptionalImpl.OptionalImpl.DestroyValue | include/foonathan/tiny/optional_impl.hpp:111-117 | `destroy_value()` leaves the optional empty: compressed it holds exactly the optional's own invalid index, uncompressed its value bits and counter are kept |
| OptionalImpl.OptionalImpl.ValueOptional | include/foonathan/tiny/optional_impl.hpp:126-139 | `value()` of an optional of optionals is the inner optional in the same storage |
| OptionalImpl.VerifyOptionalImpl | test/optional_impl.cpp:15-34 | a new optional is empty, after `create_value(obj)` is engaged with value obj, and after `destroy_value()` is empty again |
| OptionalImpl.IntIsUncompressed | test/optional_impl.cpp:62-67 | `optional_impl<int>` uses 40 bits and holds 0, 42 and `INT_MAX` |
| OptionalImpl.IntStorageBits | include/foonathan/tiny/optional_impl.hpp:44-49 | `optional_impl<int>` is the 32-bit `int` and the flag byte |
| OptionalImpl.TestedIntValues | test/optional_impl.cpp:62-67 | the `int` tests of 0, 42 and `INT_MAX` hold in the model |
| OptionalImpl.TestedCompressedValues | test/optional_impl.cpp:68-78 | the `bool` tests and the three enumerators of the tiny enum hold in the model |
| OptionalImpl.NestedScenario | test/optional_impl.cpp:79-145 | in an optional of optionals the outer one stays engaged while the inner is created, destroyed and recreated, and is empty after its own `destroy_value()` |
| OptionalImpl.TestedNesting | test/optional_impl.cpp:79-145 | the nested `bool` and `int` tests hold in the model |

## Left out

- Object lifetime is not modelled: placement new, destructors, `memcpy`, `reinterpret_cast` and `std::launder` become reads and writes of an object's bit representation, so a destroyed or not yet constructed object is just bits.
- Moves are copies of the bit representation.  The defaulted move constructor of the spare bits `modifier` is not a member of the model: a modifier is created and released once.
- A C++ shift by the full width of its operand or more is undefined; the model's shifts are mathematical, truncated to the operand's width, so such a shift gives 0.  The library reaches it in one case: a view over an array of 64-bit cells that starts on a cell boundary and ends on the next one (`bit_view<std::uint64_t[2], 0, 64>`), where the loop extracter shifts a `std::uintmax_t` by 64; the model gives it the evidently intended result (see "## Findings").
- TinyInt: an overflow in `get() op i` is undefined behaviour, not a wrap; the compound assignments and `++`/`--` require it not to happen (`SignedOpDefined`, `UnsignedOpDefined`), so the model says nothing about what such an overflow does.
- Integers are unbounded naturals and integers; the widths the library relies on (at most 64 bits in a view, `std::size_t` and `std::uintmax_t` of 64 bits, `std::size_t` wrap-around) are written out as requirements or as arithmetic modulo 2^64, and other platform widths are not considered.
- Enumerators are their underlying values; an enum with negative enumerators is modelled only through its traits' minimum and maximum, not as a signed bit pattern in storage.
- The element types of the storages are descriptions (bit size, alignment, size, spare bits traits); templates, `static_assert`s and overload resolution become `requires` clauses and datatypes.
- `T`'s own `<`, which the `tiny_bool_pair` comparisons call, is a parameter; the ordering lemmas require it to be a strict total order.
- `std::string` and other types without spare bits or tombstones of their own appear only as bit patterns of a given size.
- `subview`, `join_bit_views`, `make_bit_view`, `last_bit`, `clear_bits`, `copy_bits`, `extract_bits`, `are_cleared_bits`, `are_only_bits` and `clear_other_bits` are not defined in the `bit_view.hpp` this model follows; they are modelled from their call sites as operations on flat views.
- `DEBUG_ASSERT` and its handler (`detail/assert.hpp`) are not part of this model beyond the preconditions they state.
- `tagged_union_impl.hpp`, `check_size.hpp`, `detail/index_sequence.hpp` and the examples are not part of this model; of `tiny_type.hpp` only the rule that a proxy's view is exactly the type's bit size is carried, as a precondition.
- OptionalImpl.IntIsUncompressed: the 40 bits are the ones the optional uses, the `int` and the added byte; the tail padding that makes `sizeof(optional_impl<int>)` 8 bytes is not modelled.
- PointerVariantImpl.PointerVariant.PutSpare: the traits' put truncates bits wider than the view it writes; the model requires the bits to fit that view and does not state the truncation.
- Pointer arithmetic of `tiny_pointer_storage`'s pointer proxy is arithmetic on addresses scaled by the pointee size, required to stay within 2^64 and aligned; pointer provenance and dereferencing are not modelled.

## Findings

The bool pair's `put`, the pointer variant's compressed `extract`, `put` and `clear`, and `padding_traits_layout_compatible` follow the code as written; for them, the evidently intended behaviour is defined and proved beside it, in the corrected member of each row.

| source | as written | input that shows it | evidently intended | confidence | as-written member | corrected member |
|---|---|---|---|---|---|---|
| include/foonathan/tiny/aligned_ptr.hpp:82-87, 145-148 | any `Alignment` is accepted; the check tests `ptr & (Alignment - 1)` and the spare view is the low `ilog2_ceil(Alignment)` bits | `Alignment` 3, address 1: the check passes (1 & 2 == 0) but clearing the two spare bits gives null | `Alignment` is a power of two, so the check accepts exactly multiples of it and clearing the spare bits keeps the address | not executed | AlignedPtr.AlignmentThreeLosesAddress | AlignedPtr.ClearedIsAligned |
| include/foonathan/tiny/tiny_pair.hpp:418-448 | the bool pair advertises `spare_bits<T>() - 1` spare bits but stores them in an 8-bit `integer_type` shifted left by one | T with 16 spare bits, `put(0x80)`: the bit is shifted out of the byte and `extract()` gives 0 | the count is capped at the 7 bits the byte has above the boolean | not executed | TinyPair.AsWrittenPairLosesBits | TinyPair.PairSpareRoundTrip |
| include/foonathan/tiny/tiny_pointer_storage.hpp:25-26, 61, 67 | `remaining_size = total_size - compressed_size` in `std::size_t` | alignment 8 with a single `tiny_bool`: 1 - 3 wraps to 2^64 - 2, so the storage is not compressed and asks for a byte array of that many bits | the remaining size is 0 when the tiny bits fit into the pointer, so the storage is compressed | not executed | TinyPointerStorage.AsWrittenRemainingWraps | TinyPointerStorage.PolicyViewLayout |
| include/foonathan/tiny/pointer_variant_impl.hpp:237-261 | the compressed traits advertise the bits above the tag but clear, put and extract all the pointer's spare bits, tag included | `<int32_t, int64_t, const uint32_t>` holding an `int64_t*` (tag 1): `clear` leaves tag 0, the tag of `int32_t`; in `<int32_t, int64_t>`, `put(1)` on an `int32_t*` leaves the tag of `int64_t` and `extract` on an `int64_t*` returns 1 | put, clear and extract go through the declared view [tag width, spare bits) and leave the tag alone | not executed | PointerVariantImpl.ClearTurnsInt64IntoInt32 | PointerVariantImpl.CorrectedSpareKeepsTag |
| include/foonathan/tiny/bit_view.hpp:104-137 | the loop extracter shifts the tail result left, and the argument right, by `bits_used`, which is 64 for a head cell of a 64-bit type starting at bit 0 | `bit_view<std::uint64_t[2], 0, 64>`: `extract` computes `tail_result << 64` and `put` computes `bits >> 64` on a `std::uintmax_t`, both undefined | a shift by the full width contributes nothing, so `extract` is cell 0 and `put` writes cell 0 alone | not executed | BitView.FullWidthHeadShift | BitView.FullWidthViewReadsCell |
| include/foonathan/tiny/padding_traits.hpp:23-30 | `alignof(T) && alignof(U)`, which is true for every type | two standard layout types of 8 bytes, aligned to 4 and to 8, count as layout compatible | `alignof(T) == alignof(U)`, the same size and alignment heuristic the comment describes | not executed | PaddingTraits.AsWrittenIgnoresAlignment | PaddingTraits.LayoutCompatibleSpec |

=== FILE: aligned_ptr.dfy ===
/**
 * aligned_ptr.hpp: a pointer that promises an alignment, so that the low
 * `ilog2_ceil(Alignment)` bits of its address are spare bits even for a
 * `void*`.
 *
 * A pointer is its address, a `std::uintptr_t`.  The spare bits traits of
 * `aligned_ptr<Pointer, Alignment>` read and write the same bits as the
 * pointer traits of a pointee aligned to `Alignment`, so an aligned pointer
 * stored at `base` is the object `SpareBits.PointerSpare(Alignment)`.
 */
module AlignedPtr {
  import opened Bits
  import opened Views
  import Ilog2
  import SpareBits

  /** `aligned_ptr<Pointer, Alignment>` holding `pointer_`. */
  datatype AlignedPtr = AlignedPtr(address: nat, alignment: nat)

  /** `verify_alignment()`: `(int_value & (Alignment - 1)) == 0`. */
  predicate VerifyAlignment(address: nat, alignment: nat)
  {
    And(address, Wrap64(alignment - 1)) == 0
  }

  /** `aligned_ptr()` and `aligned_ptr(nullptr)` */
  function Null(alignment: nat): (p: AlignedPtr)
    ensures !IsNonNull(p) && p.alignment == alignment
  {
    AlignedPtr(0, alignment)
  }

  /** `explicit aligned_ptr(Pointer p)`: the pointer must be aligned as promised. */
  function FromPointer(address: nat, alignment: nat): (p: AlignedPtr)
    requires address < SizeMod && VerifyAlignment(address, alignment)
    ensures Get(p) == address && p.alignment == alignment
  {
    AlignedPtr(address, alignment)
  }

  /** `explicit operator bool()` */
  predicate IsNonNull(p: AlignedPtr)
  {
    p.address != 0
  }

  /** `get()` */
  function Get(p: AlignedPtr): nat
  {
    p.address
  }

  /** `lhs == rhs` for two aligned pointers: the stored pointers are compared, whatever the alignments. */
  predicate Equal(lhs: AlignedPtr, rhs: AlignedPtr)
  {
    Get(lhs) == Get(rhs)
  }

  /** `lhs == rhs` against a plain pointer, on either side. */
  predicate EqualPointer(lhs: AlignedPtr, rhs: nat)
  {
    Get(lhs) == rhs
  }

  /** `operator!=` is the negation of `operator==`. */
  predicate NotEqual(lhs: AlignedPtr, rhs: AlignedPtr)
  {
    !Equal(lhs, rhs)
  }

  /** The null pointer is accepted for every alignment and compares equal across alignments. */
  lemma NullIsAligned(a: nat, b: nat)
    ensures VerifyAlignment(0, a)
    ensures Equal(Null(a), Null(b)) && !NotEqual(Null(a), Null(b))
    ensures EqualPointer(Null(a), 0)
  {
  }

  /** Pointers with the same address compare equal even when they promise different alignments. */
  lemma ComparisonIgnoresAlignment(x: nat, a: nat, b: nat)
    requires x < SizeMod && VerifyAlignment(x, a) && VerifyAlignment(x, b)
    ensures Equal(FromPointer(x, a), FromPointer(x, b))
    ensures forall y: nat :: y < SizeMod && VerifyAlignment(y, b) ==>
              (Equal(FromPointer(x, a), FromPointer(y, b)) <==> x == y)
  {
  }

  /** For a power-of-two alignment the check accepts exactly the multiples of it. */
  lemma VerifyAlignmentIff(address: nat, alignment: nat)
    requires 1 <= alignment < SizeMod && Ilog2.IsPowerOfTwo(alignment)
    ensures VerifyAlignment(address, alignment) <==> address % alignment == 0
  {
    var k := Ilog2.Ilog2Ceil(alignment);
    SpareBits.AlignmentIsPow2(alignment);
    assert Wrap64(alignment - 1) == AllOnes(k);
    AndAllOnes(address, k);
    LowBitsMod(address, k);
  }

  // ---------------------------------------------------------------------------
  // the aligned pointer as an object in memory

  /** The spare bits traits of `aligned_ptr<Pointer, Alignment>`. */
  function Traits(alignment: nat): SpareBits.SpareTraits
  {
    SpareBits.PointerSpare(alignment)
  }

  /** The address held by the pointer object at `base`. */
  function Word(mem: Mem, base: nat): (w: nat)
    requires base + 64 <= |mem|
    ensures w < SizeMod
  {
    RangeFits(base, base + 64, mem);
    ExtractWordBound(mem, Range(base, base + 64));
    Extract(mem, Range(base, base + 64))
  }

  /** An aligned pointer that passed its check has its spare bits clear, so clearing them keeps it. */
  lemma CheckedPointerHasZeroSpare(mem: Mem, alignment: nat, base: nat)
    requires SpareBits.WellFormed(Traits(alignment)) && base + 64 <= |mem|
    requires VerifyAlignment(Word(mem, base), alignment)
    ensures SpareBits.Inside(Traits(alignment), base, mem)
    ensures SpareBits.ExtractSpareBits(mem, Traits(alignment), base) == 0
    ensures SpareBits.ClearSpare(mem, Traits(alignment), base) == mem
  {
    VerifyAlignmentIff(Word(mem, base), alignment);
    SpareBits.PointerSpareZero(mem, alignment, base);
    SpareBits.Ilog2CeilAtMost64(alignment);
    SpareBits.ClearZeroSpare(mem, Traits(alignment), base);
  }

  /**
   * `put` rebuilds the pointer through the unchecked integer constructor:
   * the address keeps its bits above the spare ones and takes the put
   * bits below them.
   */
  lemma PutKeepsAddress(mem: Mem, alignment: nat, base: nat, bits: nat)
    requires SpareBits.WellFormed(Traits(alignment)) && base + 64 <= |mem|
    ensures SpareBits.Inside(Traits(alignment), base, mem)
    ensures Shr(Word(SpareBits.PutSpare(mem, Traits(alignment), base, bits), base), Ilog2.Ilog2Ceil(alignment))
         == Shr(Word(mem, base), Ilog2.Ilog2Ceil(alignment))
    ensures LowBits(Word(SpareBits.PutSpare(mem, Traits(alignment), base, bits), base), Ilog2.Ilog2Ceil(alignment))
         == LowBits(bits, Ilog2.Ilog2Ceil(alignment))
  {
    var k := Ilog2.Ilog2Ceil(alignment);
    assert Traits(alignment) == SpareBits.PointerSpare(alignment);
    SpareBits.PointerPutIsRange(mem, alignment, base, bits);
    assert SpareBits.PutSpare(mem, Traits(alignment), base, bits) == Put(mem, Range(base, base + k), bits);
    assert Word(SpareBits.PutSpare(mem, Traits(alignment), base, bits), base) == Word(Put(mem, Range(base, base + k), bits), base);
    PutRangeWord(mem, base, k, bits);
  }

  /** Putting into the k low bits of a word keeps its high bits. */
  lemma PutRangeWord(mem: Mem, base: nat, k: nat, bits: nat)
    requires k <= 64 && base + 64 <= |mem|
    ensures Fits(Range(base, base + k), mem)
    ensures Shr(Word(Put(mem, Range(base, base + k), bits), base), k) == Shr(Word(mem, base), k)
    ensures LowBits(Word(Put(mem, Range(base, base + k), bits), base), k) == LowBits(bits, k)
  {
    RangeFits(base, base + k, mem);
    var m2 := Put(mem, Range(base, base + k), bits);
    SpareBits.ExtractRangeHigh(mem, base, k, 64);
    SpareBits.ExtractRangeHigh(m2, base, k, 64);
    SpareBits.ExtractRangeLow(m2, base, k, 64);
    RangeFits(base + k, base + 64, mem);
    RangeDistinct(base, base + k);
    RangesDisjoint(base, base + k, base + k, base + 64);
    ExtractPutDisjoint(mem, Range(base, base + k), Range(base + k, base + 64), bits);
    ExtractPut(mem, Range(base, base + k), bits);
  }

  /** `clear` is `put(0)`, which leaves an address that passes the alignment check again. */
  lemma ClearedIsAligned(mem: Mem, alignment: nat, base: nat)
    requires SpareBits.WellFormed(Traits(alignment)) && base + 64 <= |mem|
    ensures SpareBits.Inside(Traits(alignment), base, mem)
    ensures VerifyAlignment(Word(SpareBits.ClearSpare(mem, Traits(alignment), base), base), alignment)
  {
    var k := Ilog2.Ilog2Ceil(alignment);
    SpareBits.ClearIsPutZero(mem, Traits(alignment), base);
    PutKeepsAddress(mem, alignment, base, 0);
    var w := Word(SpareBits.ClearSpare(mem, Traits(alignment), base), base);
    LowBitsId(0, k);
    LowBitsMod(w, k);
    SpareBits.AlignmentIsPow2(alignment);
    VerifyAlignmentIff(w, alignment);
  }

  // ---------------------------------------------------------------------------
  // an alignment that is not a power of two

  /**
   * As written, nothing requires `Alignment` to be a power of two: any
   * alignment from 1 gives the view of `ilog2_ceil(Alignment)` low bits.
   */
  function AsWrittenSpareView(alignment: nat, base: nat): (v: View)
    requires 1 <= alignment < SizeMod
    ensures |v| == Ilog2.Ilog2Ceil(alignment)
  {
    SpareBits.Ilog2CeilAtMost64(alignment);
    Range(base, base + Ilog2.Ilog2Ceil(alignment))
  }

  /**
   * With `Alignment == 3` the address 1 passes `verify_alignment`
   * (1 & 2 == 0) but lies inside the two spare bits, so clearing them
   * turns the pointer into null.
   */
  lemma AlignmentThreeLosesAddress(mem: Mem, base: nat)
    requires base + 64 <= |mem| && Word(mem, base) == 1
    ensures VerifyAlignment(Word(mem, base), 3)
    ensures Ilog2.Ilog2Ceil(3) == 2
    ensures Word(Put(mem, AsWrittenSpareView(3, base), 0), base) == 0
  {
    AlignmentThree();
    PutRangeWord(mem, base, 2, 0);
    var w := Word(Put(mem, AsWrittenSpareView(3, base), 0), base);
    ShrBound(1, 2, 0);
    LowBitsId(0, 2);
    assert Shr(w, 2) == 0 && LowBits(w, 2) == 0;
    SplitZero(w, 2);
  }

  /** A number whose low k bits and whose bits above them are 0 is 0. */
  lemma SplitZero(w: nat, k: nat)
    requires LowBits(w, k) == 0 && Shr(w, k) == 0
    ensures w == 0
  {
    forall i: nat
      ensures Bit(w, i) == Bit(0, i)
    {
      BitZero(i);
      if i < k {
        BitLowBits(w, k, i);
      } else {
        BitShr(w, k, i - k);
      }
    }
    BitsExt(w, 0);
  }

  lemma AlignmentThree()
    ensures VerifyAlignment(1, 3)
    ensures Ilog2.Ilog2Ceil(3) == 2
  {
    assert And(1, 2) == 0;
    assert Pow2(2) == 4;
    Ilog2.Octave(3, 1);
  }
}

=== FILE: bit_field.dfy ===
/**
 * bit_field.hpp: `bit_fields<Fields...>`, a library replacement for C++
 * bit fields.  Each field is a type `Kind<struct tag, ...>` whose value is
 * its width; the fields lie in declaration order in an array of
 * `unsigned char` of ceil(total/8) bytes, and a field is found by its type
 * at the sum of the widths before its first occurrence.
 *
 * A reference to a bool, unsigned or signed field behaves as the
 * `tiny_bool`, `tiny_unsigned` and `tiny_int` proxies do on the field's
 * bits (the same debug checks, the same sign reconstruction), with the
 * object type `uint_least_n_t<N>` or its signed counterpart; it is
 * modelled by those proxy classes.  An enum reference truncates instead
 * of checking, so it has a class of its own.
 */
module BitField {
  import opened Bits
  import opened Views
  import opened Wrappers
  import Ilog2
  import SelectInteger
  import TinyBool
  import TinyInt
  import TinyStorage

  /** The four bit field kinds. */
  datatype Kind =
    | BoolField              // `bit_field_bool<Tag>`
    | EnumField(maxValue: nat) // `bit_field_enum<Tag, Enum, MaxValue>`
    | UnsignedField(n: nat)  // `bit_field_unsigned<Tag, SizeInBits>`
    | SignedField(n: nat)    // `bit_field_signed<Tag, SizeInBits>`

  /** A field type: its kind with the tag that makes it distinct. */
  datatype Decl = Decl(tag: nat, kind: Kind)

  /**
   * The kinds that compile: an unsigned or signed width has an
   * `uint_least_n_t` (so 1..64), and `MaxValue + 1` of an enum does not
   * wrap in `std::uintmax_t`.
   */
  predicate WellFormed(k: Kind)
  {
    match k
    case BoolField => true
    case EnumField(m) => m < SizeMax
    case UnsignedField(n) => 1 <= n <= SelectInteger.MaxUIntBits
    case SignedField(n) => 1 <= n <= SelectInteger.MaxUIntBits
  }

  predicate AllWellFormed(fields: seq<Decl>)
  {
    forall i :: 0 <= i < |fields| ==> WellFormed(fields[i].kind)
  }

  /** `Field::value`, the width: an enum takes `ilog2_ceil(MaxValue + 1)` bits. */
  function Width(k: Kind): (w: nat)
    requires WellFormed(k)
    ensures w <= 64
    ensures k.EnumField? ==> k.maxValue < Pow2(w)
  {
    match k
    case BoolField => 1
    case EnumField(m) =>
      Ilog2.Ilog2CeilLeast(m + 1);
      Ilog2.Ilog2BaseAtMost64(m + 1);
      Ilog2.Ilog2BaseBounds(m + 1);
      Ilog2.Ilog2Ceil(m + 1)
    case UnsignedField(n) => n
    case SignedField(n) => n
  }

  /** The width of the object type, `uint_least_n_t<N>`, of an unsigned or signed field. */
  function IntBits(n: nat): (w: nat)
    requires 1 <= n <= SelectInteger.MaxUIntBits
    ensures SelectInteger.IsStandardWidth(w) && n <= w
  {
    SelectInteger.SelectsLeastWidth(n);
    SelectInteger.SelectedBits(n)
  }

  function Widths(fields: seq<Decl>): (ws: seq<nat>)
    requires AllWellFormed(fields)
    ensures |ws| == |fields|
    ensures forall i :: 0 <= i < |fields| ==> ws[i] == Width(fields[i].kind)
  {
    seq(|fields|, i requires 0 <= i < |fields| => Width(fields[i].kind))
  }

  /** `total_bits<Fields...>` */
  function TotalBits(fields: seq<Decl>): nat
    requires AllWellFormed(fields)
  {
    if fields == [] then 0 else Width(fields[0].kind) + TotalBits(fields[1..])
  }

  /** The total is the sum of the widths, the same as the tiny storage's. */
  lemma {:induction false} TotalBitsIsSum(fields: seq<Decl>)
    requires AllWellFormed(fields)
    ensures TotalBits(fields) == TinyStorage.TotalSize(Widths(fields))
    decreases |fields|
  {
    if fields != [] {
      TotalBitsIsSum(fields[1..]);
      assert Widths(fields)[1..] == Widths(fields[1..]);
    }
  }

  /** `bit_fields_storage<Fields...>`: ceil(bits / 8) bytes, with no minimum. */
  function StorageBytes(bits: nat): (bytes: nat)
    ensures 8 * bytes >= bits
    ensures bytes > 0 ==> 8 * (bytes - 1) < bits
  {
    bits / 8 + (if bits % 8 == 0 then 0 else 1)
  }

  /** The byte count agrees with `tiny_storage_type` except for no bits, where it is 0 instead of 1. */
  lemma BytesAgainstTinyStorage(bits: nat)
    ensures bits > 0 ==> StorageBytes(bits) == TinyStorage.StorageBytes(bits)
    ensures bits == 0 ==> StorageBytes(bits) == 0 && TinyStorage.StorageBytes(bits) == 1
  {
  }

  /** `field_begin_offset<Field, Fields...>`; `None` is the "not part of the bit fields" assertion. */
  function BeginOffset(field: Decl, fields: seq<Decl>): Option<nat>
    requires AllWellFormed(fields)
  {
    if fields == [] then None
    else if fields[0] == field then Some(0)
    else
      match BeginOffset(field, fields[1..])
      case None => None
      case Some(off) => Some(Width(fields[0].kind) + off)
  }

  /** A field not in the list has no offset: the "not part of the bit fields" assertion fires. */
  lemma {:induction false} BeginOffsetAbsent(field: Decl, fields: seq<Decl>)
    requires AllWellFormed(fields)
    ensures BeginOffset(field, fields).None? <==> field !in fields
    decreases |fields|
  {
    if fields != [] {
      BeginOffsetAbsent(field, fields[1..]);
      assert field in fields <==> fields[0] == field || field in fields[1..];
    }
  }

  /** The offset of a field is the sum of the widths before its first occurrence. */
  lemma {:induction false} BeginOffsetFirst(field: Decl, fields: seq<Decl>, i: nat)
    requires AllWellFormed(fields)
    requires i < |fields| && fields[i] == field && field !in fields[..i]
    ensures BeginOffset(field, fields) == Some(TinyStorage.Offset(Widths(fields), i))
    decreases i
  {
    if i == 0 {
      assert TinyStorage.Offset(Widths(fields), 0) == 0;
    } else {
      assert fields[0] == fields[..i][0];
      assert fields[1..][..i - 1] == fields[1..i];
      assert field !in fields[1..][..i - 1];
      BeginOffsetFirst(field, fields[1..], i - 1);
      var ws := Widths(fields);
      assert ws[1..] == Widths(fields[1..]);
      assert ws[..i] == [ws[0]] + ws[1..][..i - 1];
      assert ws[..i][0] == ws[0] && ws[..i][1..] == ws[1..][..i - 1];
    }
  }

  /** A declared field ends inside the storage. */
  lemma FieldEnds(field: Decl, fields: seq<Decl>)
    requires AllWellFormed(fields) && field in fields
    ensures BeginOffset(field, fields).Some?
    ensures BeginOffset(field, fields).value + Width(field.kind) <= TotalBits(fields)
  {
    var i := FirstIndex(field, fields);
    BeginOffsetFirst(field, fields, i);
    TinyStorage.FieldInside(Widths(fields), i);
    TotalBitsIsSum(fields);
  }

  /** The index of the first occurrence of a field in the list. */
  lemma FirstIndex(field: Decl, fields: seq<Decl>) returns (i: nat)
    requires field in fields
    ensures i < |fields| && fields[i] == field && field !in fields[..i]
  {
    i := 0;
    while fields[i] != field
      invariant i < |fields| && field !in fields[..i]
      invariant field in fields[i..]
      decreases |fields| - i
    {
      assert fields[i..] == [fields[i]] + fields[i + 1..];
      assert fields[..i + 1] == fields[..i] + [fields[i]];
      i := i + 1;
    }
  }

  /** Distinct fields of a list without repetitions occupy disjoint bits. */
  lemma FieldsApart(fields: seq<Decl>, i: nat, j: nat)
    requires AllWellFormed(fields) && i < j < |fields|
    requires forall a, b :: 0 <= a < b < |fields| ==> fields[a] != fields[b]
    ensures BeginOffset(fields[i], fields).Some? && BeginOffset(fields[j], fields).Some?
    ensures BeginOffset(fields[i], fields).value + Width(fields[i].kind) <= BeginOffset(fields[j], fields).value
  {
    BeginOffsetFirst(fields[i], fields, i);
    BeginOffsetFirst(fields[j], fields, j);
    TinyStorage.FieldsInOrder(Widths(fields), i, j);
  }

  /** Enum fields with maxima 3, 1, 3 take 2, 1, 2 bits and one byte; unsigned widths 2, 8, 4 take two bytes. */
  lemma Examples()
    ensures var fs := [Decl(0, EnumField(3)), Decl(1, EnumField(1)), Decl(2, EnumField(3))];
            TotalBits(fs) == 5 && StorageBytes(TotalBits(fs)) == 1
    ensures var fs := [Decl(0, UnsignedField(2)), Decl(1, UnsignedField(8)), Decl(2, UnsignedField(4))];
            TotalBits(fs) == 14 && StorageBytes(TotalBits(fs)) == 2
  {
    Ilog2.Octave(4, 2);
    Ilog2.Octave(2, 1);
    var fs := [Decl(0, EnumField(3)), Decl(1, EnumField(1)), Decl(2, EnumField(3))];
    assert fs[1..][1..][1..] == [];
    var us := [Decl(0, UnsignedField(2)), Decl(1, UnsignedField(8)), Decl(2, UnsignedField(4))];
    assert us[1..][1..][1..] == [];
  }

  /** `bit_field_unsigned::max()`: the value with all n bits set. */
  function UnsignedMax(n: nat): (m: nat)
    requires 1 <= n <= 64
    ensures m < Pow2(n)
    ensures forall i: nat :: i < n ==> Bit(m, i)
  {
    forall i: nat | i < n
      ensures Bit(AllOnes(n), i)
    {
      BitAllOnes(n, i);
    }
    AllOnes(n)
  }

  /** The unsigned limits of the fields of widths 2, 8 and 4, and the signed limits of widths 3 and 8. */
  lemma LimitExamples()
    ensures UnsignedMax(2) == 3 && UnsignedMax(8) == 255 && UnsignedMax(4) == 15
    ensures TinyInt.SignedMin(3) == -4 && TinyInt.SignedMax(3) == 3
    ensures TinyInt.SignedMin(8) == -128 && TinyInt.SignedMax(8) == 127
  {
    assert Pow2(2) == 4 && Pow2(3) == 8 && Pow2(4) == 16;
    assert Pow2(7) == 128 && Pow2(8) == 256;
  }

  /** `unsigned_to_signed` of a stored pattern: the `tiny_int` sign reconstruction at the width of `uint_least_n_t<N>`. */
  function UnsignedToSigned(rep: nat, n: nat): (r: int)
    requires 1 <= n <= 64 && rep < Pow2(n)
    ensures r < 0 <==> Bit(rep, n - 1)
    ensures TinyInt.SignedMin(n) <= r <= TinyInt.SignedMax(n)
    ensures TinyInt.SignedEncode(r, n, IntBits(n)) == rep
  {
    TinyInt.SignedPatternRoundTrip(rep, n, IntBits(n));
    TopBit(rep, n);
    TinyInt.SignedDecode(rep, n, IntBits(n))
  }

  /** `bit_fields<Fields...>` with its `storage_` array as `store`. */
  class BitFields {
    const fields: seq<Decl>
    const store: Storage

    ghost predicate Valid()
      reads store
    {
      AllWellFormed(fields) && |store.mem| == 8 * StorageBytes(TotalBits(fields))
    }

    /** `bit_fields()`: `storage_{}` zero-initialises every byte. */
    constructor (fields: seq<Decl>)
      requires AllWellFormed(fields)
      ensures this.fields == fields && Valid()
      ensures forall k :: 0 <= k < |store.mem| ==> !store.mem[k]
      ensures forall f :: f in fields ==> Raw(f) == 0
    {
      this.fields := fields;
      this.store := new Storage(seq(8 * StorageBytes(TotalBits(fields)), _ => false));
      new;
      forall f | f in fields
        ensures Raw(f) == 0
      {
        FieldEnds(f, fields);
        TinyStorage.ZeroExtract(store.mem, FieldView(f));
      }
    }

    /** The bits of `field_bit_view<Field, Fields...>`: [begin, begin + width) of the array. */
    function FieldView(field: Decl): (v: View)
      requires AllWellFormed(fields) && field in fields
      ensures |v| == Width(field.kind) && Distinct(v)
    {
      FieldEnds(field, fields);
      RangeDistinct(BeginOffset(field, fields).value, BeginOffset(field, fields).value + Width(field.kind));
      Range(BeginOffset(field, fields).value, BeginOffset(field, fields).value + Width(field.kind))
    }

    /** `value_impl`: the field's bits, right-aligned. */
    function Raw(field: Decl): (r: nat)
      reads store
      requires Valid() && field in fields
      ensures r < Pow2(Width(field.kind))
    {
      FieldEnds(field, fields);
      RangeFits(BeginOffset(field, fields).value, BeginOffset(field, fields).value + Width(field.kind), store.mem);
      Extract(store.mem, FieldView(field))
    }

    lemma ViewFits(field: Decl)
      requires Valid() && field in fields
      ensures Fits(FieldView(field), store.mem)
    {
      FieldEnds(field, fields);
      RangeFits(BeginOffset(field, fields).value, BeginOffset(field, fields).value + Width(field.kind), store.mem);
    }

    /** `operator[](Field)` of a bool field. */
    method BoolReference(field: Decl) returns (r: TinyBool.Proxy)
      requires Valid() && field in fields && field.kind.BoolField?
      ensures fresh(r) && r.Valid()
      ensures r.store == store && r.view == FieldView(field)
      ensures r.Get() == (Raw(field) != 0)
    {
      ViewFits(field);
      r := new TinyBool.Proxy(store, FieldView(field));
      ExtractAt(store.mem, FieldView(field), 0);
      assert Raw(field) != 0 <==> Bit(Raw(field), 0) by {
        assert Raw(field) < 2;
      }
    }

    /** `operator[](Field)` of an unsigned field: values below 2^N, object type `uint_least_n_t<N>`. */
    method UnsignedReference(field: Decl) returns (r: TinyInt.UnsignedProxy)
      requires Valid() && field in fields && field.kind.UnsignedField?
      ensures fresh(r) && r.Valid()
      ensures r.store == store && r.view == FieldView(field)
      ensures r.bits == field.kind.n && r.intBits == IntBits(field.kind.n)
      ensures r.Get() == Raw(field)
    {
      ViewFits(field);
      r := new TinyInt.UnsignedProxy(store, FieldView(field), field.kind.n, IntBits(field.kind.n));
    }

    /** `operator[](Field)` of a signed field: the object type is the signed `uint_least_n_t<N>`. */
    method SignedReference(field: Decl) returns (r: TinyInt.SignedProxy)
      requires Valid() && field in fields && field.kind.SignedField?
      ensures fresh(r) && r.Valid()
      ensures r.store == store && r.view == FieldView(field)
      ensures r.bits == field.kind.n && r.intBits == IntBits(field.kind.n)
      ensures r.Get() == UnsignedToSigned(Raw(field), field.kind.n)
    {
      ViewFits(field);
      r := new TinyInt.SignedProxy(store, FieldView(field), field.kind.n, IntBits(field.kind.n));
    }

    /** `operator[](Field)` of an enum field. */
    method EnumReference(field: Decl) returns (r: EnumReference)
      requires Valid() && field in fields && field.kind.EnumField?
      ensures fresh(r) && r.Valid()
      ensures r.store == store && r.view == FieldView(field) && r.width == Width(field.kind)
      ensures r.Get() == Raw(field)
    {
      ViewFits(field);
      r := new EnumReference(store, FieldView(field), Width(field.kind));
    }
  }

  /** `bit_field_enum::reference`: assignment truncates to the width with no check. */
  class EnumReference {
    const store: Storage
    const view: View
    const width: nat

    ghost predicate Valid()
      reads store
    {
      Usable(view, store.mem, width)
    }

    constructor (store: Storage, view: View, width: nat)
      requires Usable(view, store.mem, width)
      ensures this.store == store && this.view == view && this.width == width
      ensures Valid()
    {
      this.store := store;
      this.view := view;
      this.width := width;
    }

    /** `value()`: the extracted bits as the enumerator's underlying value. */
    function Get(): (r: nat)
      reads store
      requires Valid()
      ensures r < Pow2(width)
    {
      Extract(store.mem, view)
    }

    /** `operator=(Enum)`: the underlying value, truncated by `put` to the low `width` bits. */
    method Assign(value: nat)
      requires Valid()
      modifies store
      ensures Valid()
      ensures store.mem == Put(old(store.mem), view, value)
      ensures Get() == LowBits(value, width)
      ensures value < Pow2(width) ==> Get() == value
    {
      store.Write(view, value);
      ExtractPut(old(store.mem), view, value);
      if value < Pow2(width) {
        LowBitsId(value, width);
      }
    }
  }
}

=== FILE: bit_view.dfy ===
/**
 * bit_view.hpp at the level of the cells it borrows.
 *
 * A cell is an unsigned integer of `w` bits (`w` <= 64, the width of
 * `std::uintmax_t`), kept as a `nat` below 2^w.  Masks, single-cell
 * extract/put, the head/middle/end loop over several cells and single-bit
 * references are written with the same operators as the library; the
 * lemmas show that they read and write exactly the bits of the flat view
 * `Views.Range(begin, end)` over the cells' object representation
 * (`Flatten`, lowest cell first).
 */
module BitView {
  import opened Bits
  import Views

  /** Width of `std::uintmax_t`, the type of the values extracted and put. */
  const MaxBits: nat := 64

  predicate CellsFit(cells: seq<nat>, w: nat)
  {
    forall p :: 0 <= p < |cells| ==> cells[p] < Pow2(w)
  }

  /** The object representation of an array of w-bit cells, lowest cell first. */
  function Flatten(cells: seq<nat>, w: nat): (m: Views.Mem)
    ensures |m| == Mul(|cells|, w)
  {
    if cells == [] then [] else ToBits(cells[0], w) + Flatten(cells[1..], w)
  }

  lemma {:induction false} FlattenAt(cells: seq<nat>, w: nat, q: nat, t: nat)
    requires q < |cells| && t < w
    ensures Mul(q, w) + t < Mul(|cells|, w)
    ensures Flatten(cells, w)[Mul(q, w) + t] == Bit(cells[q], t)
  {
    MulMono(q + 1, |cells|, w);
    if q == 0 {
      ToBitsAt(cells[0], w, t);
    } else {
      FlattenAt(cells[1..], w, q - 1, t);
    }
  }

  /** `mem` holds each cell's w bits, lowest cell first: what the loop lemmas know of `Flatten`. */
  predicate IsFlat(mem: Views.Mem, cells: seq<nat>, w: nat)
  {
    |mem| == Mul(|cells|, w) &&
    forall q: nat, t: nat :: q < |cells| && t < w && Mul(q, w) + t < |mem| ==> mem[Mul(q, w) + t] == Bit(cells[q], t)
  }

  lemma FlatAt(mem: Views.Mem, cells: seq<nat>, w: nat, q: nat, t: nat)
    requires IsFlat(mem, cells, w) && q < |cells| && t < w
    ensures Mul(q, w) + t < |mem| && mem[Mul(q, w) + t] == Bit(cells[q], t)
  {
    MulMono(q + 1, |cells|, w);
  }

  lemma FlattenIsFlat(cells: seq<nat>, w: nat)
    ensures IsFlat(Flatten(cells, w), cells, w)
  {
    var mem := Flatten(cells, w);
    forall q: nat, t: nat | q < |cells| && t < w && Mul(q, w) + t < |mem|
      ensures mem[Mul(q, w) + t] == Bit(cells[q], t)
    {
      FlattenAt(cells, w, q, t);
    }
  }

  // ---------------------------------------------------------------------------
  // unsigned multiplication and division by the cell width, kept recursive so
  // that the solver only ever sees linear steps

  function Mul(q: nat, w: nat): nat
  {
    if q == 0 then 0 else Mul(q - 1, w) + w
  }

  function Div(i: nat, w: nat): nat
    requires w > 0
    decreases i
  {
    if i < w then 0 else Div(i - w, w) + 1
  }

  function Mod(i: nat, w: nat): nat
    requires w > 0
    decreases i
  {
    if i < w then i else Mod(i - w, w)
  }

  lemma {:induction false} MulIsProduct(q: nat, w: nat)
    ensures Mul(q, w) == q * w
  {
    if q > 0 {
      MulIsProduct(q - 1, w);
      assert (q - 1) * w + w == q * w;
    }
  }

  lemma {:induction false} MulMono(a: nat, b: nat, w: nat)
    requires a <= b
    ensures Mul(a, w) <= Mul(b, w)
    decreases b - a
  {
    if a < b {
      MulMono(a, b - 1, w);
    }
  }

  lemma {:induction false} DivMod(i: nat, w: nat)
    requires w > 0
    ensures Mul(Div(i, w), w) + Mod(i, w) == i && Mod(i, w) < w
    decreases i
  {
    if i >= w {
      DivMod(i - w, w);
    }
  }

  /** Division by the cell width splits a flat position into (cell, bit). */
  lemma {:induction false} DivModUnique(q: nat, t: nat, w: nat)
    requires t < w
    ensures Div(Mul(q, w) + t, w) == q && Mod(Mul(q, w) + t, w) == t
  {
    if q > 0 {
      DivModUnique(q - 1, t, w);
    }
  }

  /** Div and Mod are C++'s unsigned `/` and `%`. */
  lemma DivIsQuotient(i: nat, w: nat)
    requires w > 0
    ensures Div(i, w) == i / w && Mod(i, w) == i % w
  {
    DivMod(i, w);
    MulIsProduct(Div(i, w), w);
    var q, r := i / w, i % w;
    assert i == q * w + r && r < w;
    MulIsProduct(q, w);
    DivModUnique(q, r, w);
  }

  /** A flat position given as (cell, bit). */
  lemma FlatIndex(k: nat, w: nat, n: nat) returns (q: nat, t: nat)
    requires w > 0 && k < Mul(n, w)
    ensures q < n && t < w && k == Mul(q, w) + t
  {
    DivMod(k, w);
    q, t := Div(k, w), Mod(k, w);
    if q >= n {
      MulMono(n, q, w);
    }
  }

  // ---------------------------------------------------------------------------
  // get_mask and bit_reference

  /** `get_mask<Integer>(begin, length)` for a w-bit Integer. */
  function GetMask(begin: nat, length: nat, w: nat): nat
    requires begin + length <= w
  {
    if length == w then AllOnes(w)
    else
      ShlOne(length, w);
      Shl(Shl(1, length, w) - 1, begin, w)
  }

  lemma GetMaskBits(begin: nat, length: nat, w: nat, i: nat)
    requires begin + length <= w
    ensures Bit(GetMask(begin, length, w), i) == (begin <= i < begin + length)
  {
    if length == w {
      BitAllOnes(w, i);
    } else {
      ShlOne(length, w);
      BitShl(Pow2(length) - 1, begin, w, i);
      if i >= begin {
        BitAllOnes(length, i - begin);
      }
    }
  }

  lemma GetMaskBound(begin: nat, length: nat, w: nat)
    requires begin + length <= w
    ensures GetMask(begin, length, w) < Pow2(w)
  {
    forall i: nat | i >= w
      ensures !Bit(GetMask(begin, length, w), i)
    {
      GetMaskBits(begin, length, w, i);
    }
    BoundFromBits(GetMask(begin, length, w), w);
  }

  /**
   * The all-ones branch of get_mask yields what the shift formula yields in
   * unbounded arithmetic: it only avoids shifting by the full width.
   */
  lemma GetMaskFullWidth(w: nat)
    ensures ShlU(1, w) == Pow2(w)
    ensures GetMask(0, w, w) == LowBits(ShlU(ShlU(1, w) - 1, 0), w)
  {
    ShlUIsMul(1, w);
    assert ShlU(1, w) - 1 == AllOnes(w);
    LowBitsId(AllOnes(w), w);
  }

  /** `bool(reference)`: `(*p >> index) & 1` */
  function BitRefGet(cell: nat, index: nat): bool
  {
    And(Shr(cell, index), 1) != 0
  }

  /** `reference = value`: clear the bit, then or in the value. */
  function BitRefAssign(cell: nat, index: nat, value: bool, w: nat): nat
  {
    Or(And(cell, Not(Shl(1, index, w), w)), Shl(BoolToNat(value), index, w))
  }

  lemma BitRefGetIsBit(cell: nat, index: nat)
    ensures BitRefGet(cell, index) == Bit(cell, index)
  {
    BitShr(cell, index, 0);
    BitAnd(Shr(cell, index), 1, 0);
    if And(Shr(cell, index), 1) == 0 {
      BitZero(0);
    }
    BitOne(0);
  }

  /** Assigning through a bit reference sets that bit and keeps every other bit of the cell. */
  lemma BitRefAssignBits(cell: nat, index: nat, value: bool, w: nat)
    requires cell < Pow2(w) && index < w
    ensures BitRefAssign(cell, index, value, w) < Pow2(w)
    ensures Bit(BitRefAssign(cell, index, value, w), index) == value
    ensures forall i: nat :: i != index ==> Bit(BitRefAssign(cell, index, value, w), i) == Bit(cell, i)
  {
    var r := BitRefAssign(cell, index, value, w);
    forall i: nat
      ensures Bit(r, i) == (if i == index then value else Bit(cell, i))
    {
      BitOr(And(cell, Not(Shl(1, index, w), w)), Shl(BoolToNat(value), index, w), i);
      BitAnd(cell, Not(Shl(1, index, w), w), i);
      BitNot(Shl(1, index, w), w, i);
      BitShl(1, index, w, i);
      BitShl(BoolToNat(value), index, w, i);
      if i >= index {
        BitOne(i - index);
        BitBool(value, i - index);
      }
      if i >= w {
        BitAboveBound(cell, w, i);
      }
    }
    forall i: nat | i >= w
      ensures !Bit(r, i)
    {
      BitAboveBound(cell, w, i);
    }
    BoundFromBits(r, w);
  }

  // ---------------------------------------------------------------------------
  // bit_single_extracter

  /** `(cell & mask) >> begin` */
  function SingleExtract(cell: nat, begin: nat, end: nat, w: nat): nat
    requires begin <= end <= w
  {
    Shr(And(cell, GetMask(begin, end - begin, w)), begin)
  }

  /** `cell &= ~mask; cell |= Integer((bits << begin) & mask)`, the shift done in uintmax_t */
  function SinglePut(cell: nat, begin: nat, end: nat, w: nat, bits: nat): nat
    requires begin <= end <= w
  {
    var mask := GetMask(begin, end - begin, w);
    Or(And(cell, Not(mask, w)), LowBits(And(Shl(bits, begin, MaxBits), mask), w))
  }

  lemma SingleExtractBits(cell: nat, begin: nat, end: nat, w: nat, j: nat)
    requires begin <= end <= w
    ensures Bit(SingleExtract(cell, begin, end, w), j) == (j < end - begin && Bit(cell, begin + j))
  {
    BitShr(And(cell, GetMask(begin, end - begin, w)), begin, j);
    BitAnd(cell, GetMask(begin, end - begin, w), j + begin);
    GetMaskBits(begin, end - begin, w, j + begin);
  }

  lemma SingleExtractBound(cell: nat, begin: nat, end: nat, w: nat)
    requires begin <= end <= w
    ensures SingleExtract(cell, begin, end, w) < Pow2(end - begin)
  {
    forall j: nat | j >= end - begin
      ensures !Bit(SingleExtract(cell, begin, end, w), j)
    {
      SingleExtractBits(cell, begin, end, w, j);
    }
    BoundFromBits(SingleExtract(cell, begin, end, w), end - begin);
  }

  /** A single-cell put writes the low bits of `bits` into [begin, end) and keeps every other bit. */
  lemma SinglePutBits(cell: nat, begin: nat, end: nat, w: nat, bits: nat)
    requires begin <= end <= w <= MaxBits && cell < Pow2(w)
    ensures SinglePut(cell, begin, end, w, bits) < Pow2(w)
    ensures forall t: nat ::
              Bit(SinglePut(cell, begin, end, w, bits), t) == if begin <= t < end then Bit(bits, t - begin) else Bit(cell, t)
  {
    var mask := GetMask(begin, end - begin, w);
    var r := SinglePut(cell, begin, end, w, bits);
    forall t: nat
      ensures Bit(r, t) == if begin <= t < end then Bit(bits, t - begin) else Bit(cell, t)
    {
      BitOr(And(cell, Not(mask, w)), LowBits(And(Shl(bits, begin, MaxBits), mask), w), t);
      BitAnd(cell, Not(mask, w), t);
      BitNot(mask, w, t);
      GetMaskBits(begin, end - begin, w, t);
      BitLowBits(And(Shl(bits, begin, MaxBits), mask), w, t);
      BitAnd(Shl(bits, begin, MaxBits), mask, t);
      BitShl(bits, begin, MaxBits, t);
      if t >= w {
        BitAboveBound(cell, w, t);
      }
    }
    forall t: nat | t >= w
      ensures !Bit(r, t)
    {
      BitAboveBound(cell, w, t);
    }
    BoundFromBits(r, w);
  }

  /** A zero-width view: the mask is empty, extract gives 0 and put changes nothing. */
  lemma ZeroWidth(cell: nat, begin: nat, w: nat, bits: nat)
    requires begin <= w <= MaxBits && cell < Pow2(w)
    ensures GetMask(begin, 0, w) == 0
    ensures SingleExtract(cell, begin, begin, w) == 0
    ensures SinglePut(cell, begin, begin, w, bits) == cell
  {
    forall i: nat
      ensures Bit(GetMask(begin, 0, w), i) == Bit(0, i)
    {
      GetMaskBits(begin, 0, w, i);
      BitZero(i);
    }
    BitsExt(GetMask(begin, 0, w), 0);
    SingleExtractBound(cell, begin, begin, w);
    SinglePutBits(cell, begin, begin, w, bits);
    BitsExt(SinglePut(cell, begin, begin, w, bits), cell);
  }

  // ---------------------------------------------------------------------------
  // the array specialisation

  /** `array_index(i)`: the cell of bit i; the end of the array maps to the last cell. */
  function ArrayIndex(i: nat, w: nat, n: nat): nat
    requires w > 0 && n > 0
  {
    if Div(i, w) == n then n - 1 else Div(i, w)
  }

  /** `bit_index(i)`: the bit within that cell; the end of the array maps to bit w. */
  function BitIndex(i: nat, w: nat, n: nat): nat
    requires w > 0
  {
    if Div(i, w) == n then w else Mod(i, w)
  }

  lemma IndexSplit(i: nat, w: nat, n: nat)
    requires w > 0 && n > 0 && i <= Mul(n, w)
    ensures ArrayIndex(i, w, n) < n && BitIndex(i, w, n) <= w
    ensures Mul(ArrayIndex(i, w, n), w) + BitIndex(i, w, n) == i
    ensures BitIndex(i, w, n) == w ==> i == Mul(n, w)
  {
    DivMod(i, w);
    if Div(i, w) > n {
      MulMono(n + 1, Div(i, w), w);
    }
  }

  /** Everything the library demands of `bit_view<Integer[N], begin, end>`. */
  predicate ViewOk(n: nat, w: nat, begin: nat, end: nat)
  {
    0 < w <= MaxBits && n > 0 && begin <= end <= Mul(n, w) && end - begin <= MaxBits
  }

  /** How many bits cell i contributes to a loop extract: the head cell from bb on, middle cells whole. */
  function LoopUsed(w: nat, bi: nat, bb: nat, i: nat): nat
    requires bb <= w
  {
    if i == bi then w - bb else w
  }

  /** The bits cell i contributes, right-aligned: `extract_head` for the head cell, the cell itself otherwise. */
  function LoopHead(cells: seq<nat>, w: nat, bi: nat, bb: nat, i: nat): nat
    requires i < |cells| && bb <= w
  {
    if i == bi then SingleExtract(cells[bi], bb, w, w) else cells[i]
  }

  /** `bit_loop_extracter<...>::extract` from cell `i` on (bi < ei): each cell's bits go above the earlier ones. */
  function LoopExtract(cells: seq<nat>, w: nat, bi: nat, bb: nat, ei: nat, eb: nat, i: nat): nat
    requires bi < ei < |cells| && bi <= i <= ei && bb <= w && eb <= w
    decreases ei - i
  {
    if i == ei then
      And(cells[ei], GetMask(0, eb, w))
    else
      Or(Shl(LoopExtract(cells, w, bi, bb, ei, eb, i + 1), LoopUsed(w, bi, bb, i), MaxBits),
         LoopHead(cells, w, bi, bb, i))
  }

  /** `bit_view<Integer[N], begin, end>::extract()` */
  function ViewExtract(cells: seq<nat>, w: nat, begin: nat, end: nat): nat
    requires ViewOk(|cells|, w, begin, end)
  {
    var n := |cells|;
    IndexSplit(begin, w, n);
    IndexSplit(end, w, n);
    var bi, bb := ArrayIndex(begin, w, n), BitIndex(begin, w, n);
    var ei, eb := ArrayIndex(end, w, n), BitIndex(end, w, n);
    IndexOrder(begin, end, w, n);
    if bi == ei then SingleExtract(cells[bi], bb, eb, w)
    else LoopExtract(cells, w, bi, bb, ei, eb, bi)
  }

  /**
   * `bit_view<std::uint64_t[2], 0, 64>` as written: the view ends on the
   * boundary of cell 1, so the loop extracter runs, and its head cell gives
   * all 64 bits, so `tail_result << bits_used` and `bits >> bits_used`
   * shift a `std::uintmax_t` by its full width, which C++ leaves undefined.
   */
  lemma FullWidthHeadShift()
    ensures ViewOk(2, 64, 0, 64)
    ensures ArrayIndex(0, 64, 2) == 0 && BitIndex(0, 64, 2) == 0
    ensures ArrayIndex(64, 64, 2) == 1 && BitIndex(64, 64, 2) == 0
    ensures LoopUsed(64, 0, 0, 0) == MaxBits
  {
    assert Mul(2, 64) == 128 by {
      assert Mul(0, 64) == 0;
    }
    assert Div(64, 64) == 1 by {
      assert Div(0, 64) == 0;
    }
    assert Mod(64, 64) == 0 by {
      assert Mod(0, 64) == 0;
    }
  }

  /**
   * What that view evidently means: a shift by the full width leaves
   * nothing, as the model's `Shl` computes it, so `extract()` is cell 0.
   */
  lemma FullWidthViewReadsCell(cells: seq<nat>)
    requires |cells| == 2 && CellsFit(cells, 64)
    ensures ViewOk(2, 64, 0, 64)
    ensures ViewExtract(cells, 64, 0, 64) == cells[0]
  {
    FullWidthHeadShift();
    var x := ViewExtract(cells, 64, 0, 64);
    var tail := LoopExtract(cells, 64, 0, 0, 1, 0, 1);
    var head := SingleExtract(cells[0], 0, 64, 64);
    assert x == Or(Shl(tail, 64, MaxBits), head);
    forall j: nat
      ensures Bit(x, j) == Bit(cells[0], j)
    {
      BitOr(Shl(tail, 64, MaxBits), head, j);
      BitShl(tail, 64, MaxBits, j);
      SingleExtractBits(cells[0], 0, 64, 64, j);
      if j >= 64 {
        BitAboveBound(cells[0], 64, j);
      }
    }
    BitsExt(x, cells[0]);
  }

  /** Where the loop at cell i starts in the flat representation. */
  function LoopStart(w: nat, bi: nat, bb: nat, i: nat): nat
  {
    if i == bi then Mul(bi, w) + bb else Mul(i, w)
  }

  lemma LoopBounds(n: nat, w: nat, bi: nat, bb: nat, ei: nat, eb: nat, i: nat)
    requires bi < ei < n && bi <= i <= ei && bb < w && eb <= w
    ensures Mul(ei, w) + eb <= Mul(n, w)
    ensures LoopStart(w, bi, bb, i) <= Mul(ei, w) + eb
    ensures Mul(bi, w) + bb <= LoopStart(w, bi, bb, i)
    ensures i < ei ==> LoopStart(w, bi, bb, i + 1) == LoopStart(w, bi, bb, i) + LoopUsed(w, bi, bb, i)
    ensures LoopStart(w, bi, bb, i) + LoopUsed(w, bi, bb, i) == Mul(i, w) + w
    ensures i < ei ==> Mul(i, w) + w <= Mul(ei, w)
  {
    assert Mul(i + 1, w) == Mul(i, w) + w;
    if i < ei {
      MulMono(i + 1, ei, w);
    }
    MulMono(i, ei, w);
    MulMono(ei + 1, n, w);
    if i > bi {
      MulMono(bi + 1, i, w);
    }
  }

  lemma LoopHeadBits(cells: seq<nat>, w: nat, bi: nat, bb: nat, i: nat, j: nat)
    requires i < |cells| && bb < w && CellsFit(cells, w)
    ensures Bit(LoopHead(cells, w, bi, bb, i), j) ==
      (j < LoopUsed(w, bi, bb, i) && Bit(cells[i], LoopStart(w, bi, bb, i) - Mul(i, w) + j))
  {
    if i == bi {
      SingleExtractBits(cells[bi], bb, w, w, j);
    } else if j >= w {
      BitAboveBound(cells[i], w, j);
    }
  }

  lemma ShlOrBits(tail: nat, used: nat, head: nat, j: nat)
    requires used <= MaxBits && head < Pow2(used)
    ensures Bit(Or(Shl(tail, used, MaxBits), head), j) ==
      if j < used then Bit(head, j) else j < MaxBits && Bit(tail, j - used)
  {
    BitOr(Shl(tail, used, MaxBits), head, j);
    BitShl(tail, used, MaxBits, j);
    if j >= used {
      BitAboveBound(head, used, j);
    }
  }

  lemma LoopHeadBound(cells: seq<nat>, w: nat, bi: nat, bb: nat, i: nat)
    requires i < |cells| && bb < w && CellsFit(cells, w)
    ensures LoopHead(cells, w, bi, bb, i) < Pow2(LoopUsed(w, bi, bb, i))
  {
    if i == bi {
      SingleExtractBound(cells[bi], bb, w, w);
    }
  }

  lemma {:induction false} LoopExtractBits(mem: Views.Mem, cells: seq<nat>, w: nat, bi: nat, bb: nat, ei: nat, eb: nat, i: nat, j: nat)
    requires bi < ei < |cells| && bi <= i <= ei && bb < w <= MaxBits && eb <= w
    requires CellsFit(cells, w) && IsFlat(mem, cells, w)
    requires Mul(ei, w) + eb - (Mul(bi, w) + bb) <= MaxBits
    ensures Mul(ei, w) + eb <= Mul(|cells|, w)
    ensures LoopStart(w, bi, bb, i) <= Mul(ei, w) + eb
    ensures Bit(LoopExtract(cells, w, bi, bb, ei, eb, i), j) ==
      (j < Mul(ei, w) + eb - LoopStart(w, bi, bb, i) && mem[LoopStart(w, bi, bb, i) + j])
    decreases ei - i
  {
    LoopBounds(|cells|, w, bi, bb, ei, eb, i);
    if i == ei {
      LoopLastBit(mem, cells, w, bi, bb, ei, eb, j);
    } else {
      var used := LoopUsed(w, bi, bb, i);
      if j < used {
        LoopHeadBit(mem, cells, w, bi, bb, ei, eb, i, j);
      } else {
        LoopExtractBits(mem, cells, w, bi, bb, ei, eb, i + 1, j - used);
        LoopTailBit(mem, cells, w, bi, bb, ei, eb, i, j);
      }
    }
  }

  /** A bit above cell i's contribution is the next cell's bit, as the recursion on i + 1 found it. */
  lemma LoopTailBit(mem: Views.Mem, cells: seq<nat>, w: nat, bi: nat, bb: nat, ei: nat, eb: nat, i: nat, j: nat)
    requires bi < ei < |cells| && bi <= i < ei && bb < w <= MaxBits && eb <= w
    requires CellsFit(cells, w) && IsFlat(mem, cells, w)
    requires Mul(ei, w) + eb - (Mul(bi, w) + bb) <= MaxBits
    requires LoopUsed(w, bi, bb, i) <= j
    requires Mul(ei, w) + eb <= Mul(|cells|, w)
    requires LoopStart(w, bi, bb, i + 1) <= Mul(ei, w) + eb
    requires Bit(LoopExtract(cells, w, bi, bb, ei, eb, i + 1), j - LoopUsed(w, bi, bb, i)) ==
      (j - LoopUsed(w, bi, bb, i) < Mul(ei, w) + eb - LoopStart(w, bi, bb, i + 1)
       && mem[LoopStart(w, bi, bb, i + 1) + (j - LoopUsed(w, bi, bb, i))])
    ensures LoopStart(w, bi, bb, i) <= Mul(ei, w) + eb
    ensures Bit(LoopExtract(cells, w, bi, bb, ei, eb, i), j) ==
      (j < Mul(ei, w) + eb - LoopStart(w, bi, bb, i) && mem[LoopStart(w, bi, bb, i) + j])
  {
    LoopBounds(|cells|, w, bi, bb, ei, eb, i);
    var used := LoopUsed(w, bi, bb, i);
    var start := LoopStart(w, bi, bb, i);
    var tail := LoopExtract(cells, w, bi, bb, ei, eb, i + 1);
    var head := LoopHead(cells, w, bi, bb, i);
    assert LoopExtract(cells, w, bi, bb, ei, eb, i) == Or(Shl(tail, used, MaxBits), head);
    LoopHeadBound(cells, w, bi, bb, i);
    ShlOrBits(tail, used, head, j);
    var next, last := LoopStart(w, bi, bb, i + 1), Mul(ei, w) + eb;
    assert next + (j - used) == start + j && (j - used < last - next <==> j < last - start);
    assert j < last - start ==> j < MaxBits;
  }

  /** The last cell of the loop contributes its bits below `end`. */
  lemma LoopLastBit(mem: Views.Mem, cells: seq<nat>, w: nat, bi: nat, bb: nat, ei: nat, eb: nat, j: nat)
    requires bi < ei < |cells| && bb < w <= MaxBits && eb <= w
    requires CellsFit(cells, w) && IsFlat(mem, cells, w)
    requires Mul(ei, w) + eb - (Mul(bi, w) + bb) <= MaxBits
    ensures Mul(ei, w) + eb <= Mul(|cells|, w)
    ensures LoopStart(w, bi, bb, ei) <= Mul(ei, w) + eb
    ensures Bit(LoopExtract(cells, w, bi, bb, ei, eb, ei), j) ==
      (j < Mul(ei, w) + eb - LoopStart(w, bi, bb, ei) && mem[LoopStart(w, bi, bb, ei) + j])
  {
    LoopBounds(|cells|, w, bi, bb, ei, eb, ei);
    GetMaskBits(0, eb, w, j);
    BitAnd(cells[ei], GetMask(0, eb, w), j);
    if j < eb {
      FlatAt(mem, cells, w, ei, j);
    }
  }

  /** A cell before the last contributes its bits from the loop's position on. */
  lemma LoopHeadBit(mem: Views.Mem, cells: seq<nat>, w: nat, bi: nat, bb: nat, ei: nat, eb: nat, i: nat, j: nat)
    requires bi < ei < |cells| && bi <= i < ei && bb < w <= MaxBits && eb <= w
    requires CellsFit(cells, w) && IsFlat(mem, cells, w)
    requires Mul(ei, w) + eb - (Mul(bi, w) + bb) <= MaxBits
    requires j < LoopUsed(w, bi, bb, i)
    requires Mul(ei, w) + eb <= Mul(|cells|, w)
    requires LoopStart(w, bi, bb, i) + LoopUsed(w, bi, bb, i) == Mul(i, w) + w <= Mul(ei, w)
    ensures Bit(LoopExtract(cells, w, bi, bb, ei, eb, i), j) ==
      (j < Mul(ei, w) + eb - LoopStart(w, bi, bb, i) && mem[LoopStart(w, bi, bb, i) + j])
  {
    var start := LoopStart(w, bi, bb, i);
    var t := start - Mul(i, w) + j;
    assert start >= Mul(i, w) && t < w;
    LoopHeadCellBit(cells, w, bi, bb, ei, eb, i, j);
    FlatAt(mem, cells, w, i, t);
    FlatGlue(mem, LoopExtract(cells, w, bi, bb, ei, eb, i), cells[i], j, t, Mul(i, w), start, Mul(ei, w) + eb);
  }

  /** Bit j of x is the flat bit at start + j, when both are bit t of one cell stored at base. */
  lemma FlatGlue(mem: Views.Mem, x: nat, cell: nat, j: nat, t: nat, base: nat, start: nat, last: nat)
    requires Bit(x, j) == Bit(cell, t)
    requires base + t < |mem| && mem[base + t] == Bit(cell, t)
    requires base <= start && t == start - base + j && start + j < last
    ensures Bit(x, j) == (j < last - start && mem[start + j])
  {
    assert base + t == start + j;
  }

  /** Below cell i's contribution, the loop extract's bits are cell i's, from the loop's position on. */
  lemma LoopHeadCellBit(cells: seq<nat>, w: nat, bi: nat, bb: nat, ei: nat, eb: nat, i: nat, j: nat)
    requires bi < ei < |cells| && bi <= i < ei && bb < w <= MaxBits && eb <= w
    requires CellsFit(cells, w)
    requires j < LoopUsed(w, bi, bb, i)
    ensures LoopStart(w, bi, bb, i) >= Mul(i, w)
    ensures Bit(LoopExtract(cells, w, bi, bb, ei, eb, i), j) == Bit(cells[i], LoopStart(w, bi, bb, i) - Mul(i, w) + j)
  {
    var used := LoopUsed(w, bi, bb, i);
    var tail := LoopExtract(cells, w, bi, bb, ei, eb, i + 1);
    var head := LoopHead(cells, w, bi, bb, i);
    assert LoopExtract(cells, w, bi, bb, ei, eb, i) == Or(Shl(tail, used, MaxBits), head);
    LoopHeadBound(cells, w, bi, bb, i);
    ShlOrBits(tail, used, head, j);
    LoopHeadBits(cells, w, bi, bb, i, j);
    if i > bi {
      MulMono(bi + 1, i, w);
    }
  }

  /** The library's extract reads exactly the flat range [begin, end), right-aligned. */
  lemma ViewExtractIsFlat(cells: seq<nat>, w: nat, begin: nat, end: nat)
    requires ViewOk(|cells|, w, begin, end) && CellsFit(cells, w)
    ensures Views.Fits(Views.Range(begin, end), Flatten(cells, w))
    ensures ViewExtract(cells, w, begin, end) == Views.Extract(Flatten(cells, w), Views.Range(begin, end))
  {
    var mem := Flatten(cells, w);
    Views.ExtractRangeBit(mem, begin, end, 0);
    var x, y := ViewExtract(cells, w, begin, end), Views.Extract(mem, Views.Range(begin, end));
    forall j: nat
      ensures Bit(x, j) == Bit(y, j)
    {
      ViewExtractBit(cells, w, begin, end, j);
    }
    BitsExt(x, y);
  }

  /** One bit of the library's extract is the matching bit of the flat range. */
  lemma ViewExtractBit(cells: seq<nat>, w: nat, begin: nat, end: nat, j: nat)
    requires ViewOk(|cells|, w, begin, end) && CellsFit(cells, w)
    ensures Views.Fits(Views.Range(begin, end), Flatten(cells, w))
    ensures Bit(ViewExtract(cells, w, begin, end), j) == Bit(Views.Extract(Flatten(cells, w), Views.Range(begin, end)), j)
  {
    var n := |cells|;
    IndexSplit(end, w, n);
    var mem := Flatten(cells, w);
    Views.ExtractRangeBit(mem, begin, end, j);
    if ArrayIndex(begin, w, n) == ArrayIndex(end, w, n) {
      SingleViewBit(cells, w, begin, end, j);
    } else {
      LoopViewBit(cells, w, begin, end, j);
    }
  }

  /** `ViewExtractBit` for a view inside one cell. */
  lemma SingleViewBit(cells: seq<nat>, w: nat, begin: nat, end: nat, j: nat)
    requires ViewOk(|cells|, w, begin, end) && CellsFit(cells, w)
    requires ArrayIndex(begin, w, |cells|) == ArrayIndex(end, w, |cells|)
    ensures end <= |Flatten(cells, w)|
    ensures Bit(ViewExtract(cells, w, begin, end), j) == (j < end - begin && Flatten(cells, w)[begin + j])
  {
    var n := |cells|;
    IndexSplit(begin, w, n);
    IndexSplit(end, w, n);
    IndexOrder(begin, end, w, n);
    var bi, bb := ArrayIndex(begin, w, n), BitIndex(begin, w, n);
    var eb := BitIndex(end, w, n);
    var x := SingleExtract(cells[bi], bb, eb, w);
    assert ViewExtract(cells, w, begin, end) == x;
    FlattenIsFlat(cells, w);
    SingleCellBit(Flatten(cells, w), cells, w, bi, bb, eb, begin, j);
  }

  /** `ViewExtractBit` for a view across several cells. */
  lemma LoopViewBit(cells: seq<nat>, w: nat, begin: nat, end: nat, j: nat)
    requires ViewOk(|cells|, w, begin, end) && CellsFit(cells, w)
    requires ArrayIndex(begin, w, |cells|) != ArrayIndex(end, w, |cells|)
    ensures end <= |Flatten(cells, w)|
    ensures Bit(ViewExtract(cells, w, begin, end), j) == (j < end - begin && Flatten(cells, w)[begin + j])
  {
    var n := |cells|;
    IndexSplit(begin, w, n);
    IndexSplit(end, w, n);
    IndexOrder(begin, end, w, n);
    var bi, bb := ArrayIndex(begin, w, n), BitIndex(begin, w, n);
    var ei, eb := ArrayIndex(end, w, n), BitIndex(end, w, n);
    var x := LoopExtract(cells, w, bi, bb, ei, eb, bi);
    assert ViewExtract(cells, w, begin, end) == x;
    FlattenIsFlat(cells, w);
    LoopExtractBits(Flatten(cells, w), cells, w, bi, bb, ei, eb, bi, j);
    assert LoopStart(w, bi, bb, bi) == begin;
  }

  /** A bit of an extract within one cell is the matching bit of the flat representation. */
  lemma SingleCellBit(mem: Views.Mem, cells: seq<nat>, w: nat, i: nat, bb: nat, eb: nat, begin: nat, j: nat)
    requires i < |cells| && bb <= eb <= w && begin == Mul(i, w) + bb && IsFlat(mem, cells, w)
    ensures begin + (eb - bb) <= Mul(|cells|, w)
    ensures Bit(SingleExtract(cells[i], bb, eb, w), j) == (j < eb - bb && mem[begin + j])
  {
    MulMono(i + 1, |cells|, w);
    SingleExtractBits(cells[i], bb, eb, w, j);
    if j < eb - bb {
      var t := bb + j;
      FlatAt(mem, cells, w, i, t);
      assert begin + j == Mul(i, w) + t;
    }
  }

  /** What put(bits) leaves in bit t of cell p: a bit of `bits` inside [begin, end), the old bit outside. */
  predicate PutTarget(oldCell: nat, w: nat, begin: nat, end: nat, bits: nat, p: nat, t: nat)
  {
    if begin <= Mul(p, w) + t < end then Bit(bits, Mul(p, w) + t - begin) else Bit(oldCell, t)
  }

  /** Cells below `done` hold their put target, the others their old bits. */
  predicate PutDone(old_: seq<nat>, new_: seq<nat>, w: nat, begin: nat, end: nat, bits: nat, done: nat)
  {
    |old_| == |new_| &&
    forall p: nat, t: nat :: p < |new_| && t < w ==>
      Bit(new_[p], t) == if p < done then PutTarget(old_[p], w, begin, end, bits, p, t) else Bit(old_[p], t)
  }

  /** Every cell bit holds its put target. */
  predicate PutCellBits(old_: seq<nat>, new_: seq<nat>, w: nat, begin: nat, end: nat, bits: nat)
  {
    PutDone(old_, new_, w, begin, end, bits, |old_|)
  }

  lemma PutStart(cells: seq<nat>, w: nat, begin: nat, end: nat, bits: nat)
    ensures PutDone(cells, cells, w, begin, end, bits, 0)
  {
  }

  /** Cells wholly before begin or wholly at or after end keep their bits, so they are done as they are. */
  lemma PutSkip(old_: seq<nat>, new_: seq<nat>, w: nat, begin: nat, end: nat, bits: nat, lo: nat, hi: nat)
    requires lo <= hi <= |old_|
    requires PutDone(old_, new_, w, begin, end, bits, lo)
    requires Mul(hi, w) <= begin || end <= Mul(lo, w)
    ensures PutDone(old_, new_, w, begin, end, bits, hi)
  {
    forall p: nat, t: nat | lo <= p < hi && t < w
      ensures PutTarget(old_[p], w, begin, end, bits, p, t) == Bit(old_[p], t)
    {
      SkippedBit(old_[p], w, begin, end, bits, p, t, lo, hi);
    }
  }

  /** A bit of a cell in [lo, hi) lies outside [begin, end), so its put target is its old value. */
  lemma SkippedBit(oldCell: nat, w: nat, begin: nat, end: nat, bits: nat, p: nat, t: nat, lo: nat, hi: nat)
    requires lo <= p < hi && t < w
    requires Mul(hi, w) <= begin || end <= Mul(lo, w)
    ensures PutTarget(oldCell, w, begin, end, bits, p, t) == Bit(oldCell, t)
  {
    MulMono(p + 1, hi, w);
    MulMono(lo, p, w);
    assert Mul(p + 1, w) == Mul(p, w) + w;
  }

  /** Writing cell `done` with its put target extends the finished prefix by one cell. */
  lemma PutStep(old_: seq<nat>, new_: seq<nat>, w: nat, begin: nat, end: nat, bits: nat, done: nat, c: nat)
    requires done < |new_| && PutDone(old_, new_, w, begin, end, bits, done)
    requires forall t: nat :: t < w ==> Bit(c, t) == PutTarget(old_[done], w, begin, end, bits, done, t)
    ensures PutDone(old_, new_[done := c], w, begin, end, bits, done + 1)
  {
  }

  /** A single-cell put into [lo, hi) of cell p writes that cell's share of the view. */
  lemma CellPutTarget(oldCell: nat, cell: nat, w: nat, begin: nat, end: nat, bits: nat, p: nat, lo: nat, hi: nat)
    requires lo <= hi <= w <= MaxBits && cell < Pow2(w)
    requires forall t: nat :: t < w ==> Bit(cell, t) == Bit(oldCell, t)
    requires Mul(p, w) + lo == begin || (lo == 0 && begin <= Mul(p, w))
    requires Mul(p, w) + hi == end || (hi == w && Mul(p, w) + w <= end)
    ensures SinglePut(cell, lo, hi, w, Shr(bits, Mul(p, w) + lo - begin)) < Pow2(w)
    ensures forall t: nat :: t < w ==>
              Bit(SinglePut(cell, lo, hi, w, Shr(bits, Mul(p, w) + lo - begin)), t) == PutTarget(oldCell, w, begin, end, bits, p, t)
  {
    var x := Shr(bits, Mul(p, w) + lo - begin);
    SinglePutBits(cell, lo, hi, w, x);
    forall t: nat | t < w
      ensures Bit(SinglePut(cell, lo, hi, w, x), t) == PutTarget(oldCell, w, begin, end, bits, p, t)
    {
      if lo <= t < hi {
        BitShr(bits, Mul(p, w) + lo - begin, t - lo);
      }
    }
  }

  /** A middle cell takes w whole bits of the remaining value. */
  lemma MiddlePutTarget(oldCell: nat, w: nat, begin: nat, end: nat, bits: nat, p: nat)
    requires begin <= Mul(p, w) && Mul(p, w) + w <= end
    ensures LowBits(Shr(bits, Mul(p, w) - begin), w) < Pow2(w)
    ensures forall t: nat :: t < w ==>
              Bit(LowBits(Shr(bits, Mul(p, w) - begin), w), t) == PutTarget(oldCell, w, begin, end, bits, p, t)
  {
    LowBitsBound(Shr(bits, Mul(p, w) - begin), w);
    forall t: nat | t < w
      ensures Bit(LowBits(Shr(bits, Mul(p, w) - begin), w), t) == PutTarget(oldCell, w, begin, end, bits, p, t)
    {
      BitLowBits(Shr(bits, Mul(p, w) - begin), w, t);
      BitShr(bits, Mul(p, w) - begin, t);
    }
  }

  /** Cell-wise, the library's put is the flat put of Views. */
  lemma PutIsFlat(old_: seq<nat>, new_: seq<nat>, w: nat, begin: nat, end: nat, bits: nat)
    requires w > 0 && begin <= end <= Mul(|old_|, w)
    requires PutCellBits(old_, new_, w, begin, end, bits)
    ensures Views.Fits(Views.Range(begin, end), Flatten(old_, w))
    ensures Flatten(new_, w) == Views.Put(Flatten(old_, w), Views.Range(begin, end), bits)
  {
    var before, now := Flatten(old_, w), Flatten(new_, w);
    FlattenIsFlat(old_, w);
    FlattenIsFlat(new_, w);
    Views.RangeFits(begin, end, before);
    var after := Views.Put(before, Views.Range(begin, end), bits);
    forall k | 0 <= k < |before|
      ensures now[k] == after[k]
    {
      PutIsFlatAt(before, now, old_, new_, w, begin, end, bits, k);
    }
  }

  /** One position of the flat representation after put. */
  lemma PutIsFlatAt(before: Views.Mem, now: Views.Mem, old_: seq<nat>, new_: seq<nat>, w: nat, begin: nat, end: nat, bits: nat, k: nat)
    requires w > 0 && begin <= end <= Mul(|old_|, w) && k < Mul(|old_|, w)
    requires PutCellBits(old_, new_, w, begin, end, bits)
    requires IsFlat(before, old_, w) && IsFlat(now, new_, w)
    ensures Views.Fits(Views.Range(begin, end), before) && k < |now|
    ensures now[k] == Views.Put(before, Views.Range(begin, end), bits)[k]
  {
    var p, t := FlatIndex(k, w, |old_|);
    FlatAt(now, new_, w, p, t);
    FlatAt(before, old_, w, p, t);
    assert now[k] == Bit(new_[p], t);
    assert before[k] == Bit(old_[p], t);
    Views.PutRangeAt(before, begin, end, bits, k);
    var after := Views.Put(before, Views.Range(begin, end), bits);
    assert Bit(new_[p], t) == PutTarget(old_[p], w, begin, end, bits, p, t);
    if begin <= k < end {
      assert after[k] == Bit(bits, k - begin);
    } else {
      assert after[k] == before[k];
    }
  }

  /** With begin <= end the head cell never lies after the end cell. */
  lemma IndexOrder(begin: nat, end: nat, w: nat, n: nat)
    requires w > 0 && n > 0 && begin <= end <= Mul(n, w)
    ensures ArrayIndex(begin, w, n) <= ArrayIndex(end, w, n)
  {
    IndexSplit(begin, w, n);
    IndexSplit(end, w, n);
    var bi, ei := ArrayIndex(begin, w, n), ArrayIndex(end, w, n);
    if bi > ei {
      MulMono(ei + 1, bi, w);
    }
  }

  /** `bit_view<Integer[N], begin, end>::put(bits)` on the borrowed cells. */
  method ViewPut(a: array<nat>, w: nat, begin: nat, end: nat, bits: nat)
    requires ViewOk(a.Length, w, begin, end) && CellsFit(a[..], w)
    modifies a
    ensures CellsFit(a[..], w)
    ensures PutCellBits(old(a[..]), a[..], w, begin, end, bits)
  {
    var n := a.Length;
    IndexSplit(begin, w, n);
    IndexSplit(end, w, n);
    IndexOrder(begin, end, w, n);
    var bi, bb := ArrayIndex(begin, w, n), BitIndex(begin, w, n);
    var ei, eb := ArrayIndex(end, w, n), BitIndex(end, w, n);
    ghost var before := a[..];
    PutStart(before, w, begin, end, bits);
    PutSkip(before, a[..], w, begin, end, bits, 0, bi);
    if bi == ei {
      SinglePutCell(a, w, begin, end, bits, bi, bb, eb, before);
    } else {
      LoopPut(a, w, begin, end, bits, bi, bb, ei, eb, before);
    }
    MulMono(ei + 1, n, w);
    PutSkip(before, a[..], w, begin, end, bits, ei + 1, n);
  }

  /** `bit_single_extracter<Integer, begin_index, begin_bit, end_bit>::put`: cell bi takes bits [bb, eb). */
  method SinglePutCell(a: array<nat>, w: nat, begin: nat, end: nat, bits: nat,
                       bi: nat, bb: nat, eb: nat, ghost before: seq<nat>)
    requires bi < a.Length && bb <= eb <= w <= MaxBits
    requires begin == Mul(bi, w) + bb && end == Mul(bi, w) + eb
    requires CellsFit(a[..], w) && PutDone(before, a[..], w, begin, end, bits, bi)
    modifies a
    ensures CellsFit(a[..], w) && PutDone(before, a[..], w, begin, end, bits, bi + 1)
  {
    CellPutTarget(before[bi], a[bi], w, begin, end, bits, bi, bb, eb);
    PutStep(before, a[..], w, begin, end, bits, bi, SinglePut(a[bi], bb, eb, w, bits));
    a[bi] := SinglePut(a[bi], bb, eb, w, bits);
  }

  /** `bit_loop_extracter<...>::put`: head cell, middle cells, end cell, each taking the next bits. */
  method LoopPut(a: array<nat>, w: nat, begin: nat, end: nat, bits: nat,
                 bi: nat, bb: nat, ei: nat, eb: nat, ghost before: seq<nat>)
    requires bi < ei < a.Length && bb < w <= MaxBits && eb <= w
    requires begin == Mul(bi, w) + bb && end == Mul(ei, w) + eb
    requires CellsFit(a[..], w) && PutDone(before, a[..], w, begin, end, bits, bi)
    modifies a
    ensures CellsFit(a[..], w) && PutDone(before, a[..], w, begin, end, bits, ei + 1)
  {
    PutHeadCell(a, w, begin, end, bits, bi, bb, ei, eb, before);
    var rest := PutMiddleCells(a, w, begin, end, bits, bi, bb, ei, eb, before);
    PutEndCell(a, w, begin, end, bits, ei, eb, before, rest);
  }

  /** `put_head`: the head cell takes bits [bb, w). */
  method PutHeadCell(a: array<nat>, w: nat, begin: nat, end: nat, bits: nat,
                     bi: nat, bb: nat, ei: nat, eb: nat, ghost before: seq<nat>)
    requires bi < ei < a.Length && bb < w <= MaxBits && eb <= w
    requires begin == Mul(bi, w) + bb && end == Mul(ei, w) + eb
    requires CellsFit(a[..], w) && PutDone(before, a[..], w, begin, end, bits, bi)
    modifies a
    ensures CellsFit(a[..], w) && PutDone(before, a[..], w, begin, end, bits, bi + 1)
  {
    LoopBounds(a.Length, w, bi, bb, ei, eb, bi);
    CellPutTarget(before[bi], a[bi], w, begin, end, bits, bi, bb, w);
    PutStep(before, a[..], w, begin, end, bits, bi, SinglePut(a[bi], bb, w, w, bits));
    a[bi] := SinglePut(a[bi], bb, w, w, bits);
  }

  /** The middle cells each take `w` whole bits; returns what is left of `bits` for the end cell. */
  method PutMiddleCells(a: array<nat>, w: nat, begin: nat, end: nat, bits: nat,
                        bi: nat, bb: nat, ei: nat, eb: nat, ghost before: seq<nat>) returns (rest: nat)
    requires bi < ei < a.Length && bb < w <= MaxBits && eb <= w
    requires begin == Mul(bi, w) + bb && end == Mul(ei, w) + eb
    requires CellsFit(a[..], w) && PutDone(before, a[..], w, begin, end, bits, bi + 1)
    modifies a
    ensures CellsFit(a[..], w) && PutDone(before, a[..], w, begin, end, bits, ei)
    ensures begin <= Mul(ei, w) && rest == Shr(bits, Mul(ei, w) - begin)
  {
    assert Mul(bi + 1, w) == Mul(bi, w) + w;
    rest := Shr(bits, w - bb);
    var i := bi + 1;
    while i < ei
      invariant bi < i <= ei
      invariant begin <= Mul(i, w)
      invariant rest == Shr(bits, Mul(i, w) - begin)
      invariant CellsFit(a[..], w)
      invariant PutDone(before, a[..], w, begin, end, bits, i)
    {
      LoopBounds(a.Length, w, bi, bb, ei, eb, i);
      PutMiddleCell(a, w, begin, end, bits, i, before, rest);
      ShrShr(bits, Mul(i, w) - begin, w);
      assert Mul(i + 1, w) == Mul(i, w) + w;
      rest := Shr(rest, w);
      i := i + 1;
    }
  }

  /** A middle cell takes the next `w` bits of `rest`. */
  method PutMiddleCell(a: array<nat>, w: nat, begin: nat, end: nat, bits: nat,
                       i: nat, ghost before: seq<nat>, rest: nat)
    requires i < a.Length && 0 < w && begin <= Mul(i, w) && Mul(i, w) + w <= end
    requires rest == Shr(bits, Mul(i, w) - begin)
    requires CellsFit(a[..], w) && PutDone(before, a[..], w, begin, end, bits, i)
    modifies a
    ensures CellsFit(a[..], w) && PutDone(before, a[..], w, begin, end, bits, i + 1)
  {
    MiddlePutTarget(before[i], w, begin, end, bits, i);
    PutStep(before, a[..], w, begin, end, bits, i, LowBits(rest, w));
    a[i] := LowBits(rest, w);
  }

  /** The end cell takes bits [0, eb). */
  method PutEndCell(a: array<nat>, w: nat, begin: nat, end: nat, bits: nat,
                    ei: nat, eb: nat, ghost before: seq<nat>, rest: nat)
    requires ei < a.Length && 0 < w <= MaxBits && eb <= w
    requires end == Mul(ei, w) + eb && begin <= Mul(ei, w) && rest == Shr(bits, Mul(ei, w) - begin)
    requires CellsFit(a[..], w) && PutDone(before, a[..], w, begin, end, bits, ei)
    modifies a
    ensures CellsFit(a[..], w) && PutDone(before, a[..], w, begin, end, bits, ei + 1)
  {
    CellPutTarget(before[ei], a[ei], w, begin, end, bits, ei, 0, eb);
    PutStep(before, a[..], w, begin, end, bits, ei, SinglePut(a[ei], 0, eb, w, rest));
    a[ei] := SinglePut(a[ei], 0, eb, w, rest);
  }

  lemma {:induction false} ShrShr(x: nat, k: nat, m: nat)
    ensures Shr(Shr(x, k), m) == Shr(x, k + m)
  {
    if k > 0 {
      ShrShr(x / 2, k - 1, m);
    }
  }

  /**
   * `bit_view<Integer, begin, end>` over one integer is the array view over
   * a single cell, which always takes the single-cell path with [begin, end).
   */
  lemma SingleIntegerView(cell: nat, w: nat, begin: nat, end: nat)
    requires 0 < w <= MaxBits && begin <= end <= w
    ensures ViewOk(1, w, begin, end)
    ensures ViewExtract([cell], w, begin, end) == SingleExtract(cell, begin, end, w)
  {
    IndexSplit(begin, w, 1);
    IndexSplit(end, w, 1);
  }

  /** Putting all ones into a whole cell (test "whole": put(uintmax_t(-1)) gives UINT32_MAX). */
  lemma PutAllOnesWhole(cell: nat, w: nat)
    requires 0 < w <= MaxBits && cell < Pow2(w)
    ensures SinglePut(cell, 0, w, w, AllOnes(MaxBits)) == AllOnes(w)
  {
    PutOnesCell(cell, w, MaxBits);
  }

  /** Putting m >= w ones into a whole w-bit cell fills it. */
  lemma PutOnesCell(cell: nat, w: nat, m: nat)
    requires 0 < w <= m && w <= MaxBits && cell < Pow2(w)
    ensures SinglePut(cell, 0, w, w, AllOnes(m)) == AllOnes(w)
  {
    var r := SinglePut(cell, 0, w, w, AllOnes(m));
    SinglePutBits(cell, 0, w, w, AllOnes(m));
    forall t: nat
      ensures Bit(r, t) == Bit(AllOnes(w), t)
    {
      BitAllOnes(w, t);
      if t < w {
        BitAllOnes(m, t);
        assert Bit(r, t) == Bit(AllOnes(m), t);
      } else {
        BitAboveBound(r, w, t);
      }
    }
    BitsExt(r, AllOnes(w));
  }

  /** Assigning through a bit reference changes exactly one position of the flat representation. */
  lemma AssignIsFlat(cells: seq<nat>, w: nat, q: nat, t: nat, value: bool)
    requires q < |cells| && t < w && CellsFit(cells, w)
    ensures Mul(q, w) + t < |Flatten(cells, w)|
    ensures Flatten(cells[q := BitRefAssign(cells[q], t, value, w)], w) == Flatten(cells, w)[Mul(q, w) + t := value]
  {
    FlattenAt(cells, w, q, t);
    var c := BitRefAssign(cells[q], t, value, w);
    BitRefAssignBits(cells[q], t, value, w);
    var mem, got := Flatten(cells, w), Flatten(cells[q := c], w);
    FlattenIsFlat(cells, w);
    FlattenIsFlat(cells[q := c], w);
    var expected := mem[Mul(q, w) + t := value];
    forall k | 0 <= k < |got|
      ensures got[k] == expected[k]
    {
      ReplaceCellFlatAt(mem, got, cells, w, q, t, value, c, k);
    }
  }

  /** Replacing cell q by one that differs only in bit t changes only flat position (q, t). */
  lemma ReplaceCellFlatAt(mem: Views.Mem, mem': Views.Mem, cells: seq<nat>, w: nat, q: nat, t: nat, value: bool, c: nat, k: nat)
    requires q < |cells| && t < w && k < Mul(|cells|, w)
    requires Bit(c, t) == value
    requires forall i: nat :: i != t ==> Bit(c, i) == Bit(cells[q], i)
    requires IsFlat(mem, cells, w) && IsFlat(mem', cells[q := c], w)
    ensures k < |mem| && k < |mem'|
    ensures mem'[k] == if k == Mul(q, w) + t then value else mem[k]
  {
    var after := cells[q := c];
    var p, s := FlatIndex(k, w, |cells|);
    FlatAt(mem', after, w, p, s);
    FlatAt(mem, cells, w, p, s);
    if p != q {
      CellsApart(p, s, q, t, w);
    }
  }

  lemma CellsApart(p: nat, s: nat, q: nat, t: nat, w: nat)
    requires p != q && s < w && t < w
    ensures Mul(p, w) + s != Mul(q, w) + t
  {
    if p < q {
      MulMono(p + 1, q, w);
    } else {
      MulMono(q + 1, p, w);
    }
  }

  /** `detail::bit_reference<Integer>`: a pointer to one cell and a bit index within it. */
  class BitReference {
    const cells: array<nat>
    const index: nat
    const bit: nat
    const w: nat

    ghost predicate Valid()
      reads cells
    {
      index < cells.Length && bit < w <= MaxBits && cells[index] < Pow2(w)
    }

    constructor(cells: array<nat>, index: nat, bit: nat, w: nat)
      ensures this.cells == cells && this.index == index && this.bit == bit && this.w == w
    {
      this.cells := cells;
      this.index := index;
      this.bit := bit;
      this.w := w;
    }

    /** `explicit operator bool()` */
    function Get(): (b: bool)
      reads cells
      requires index < cells.Length
      ensures b == Bit(cells[index], bit)
    {
      BitRefGetIsBit(cells[index], bit);
      BitRefGet(cells[index], bit)
    }

    /** `operator=(bool)`: clears the bit, then sets it to `value`. */
    method Assign(value: bool)
      requires Valid()
      modifies cells
      ensures Valid()
      ensures cells[..] == old(cells[..])[index := BitRefAssign(old(cells[index]), bit, value, w)]
      ensures Get() == value
      ensures forall i: nat :: i != bit ==> Bit(cells[index], i) == Bit(old(cells[index]), i)
    {
      BitRefAssignBits(cells[index], bit, value, w);
      cells[index] := BitRefAssign(cells[index], bit, value, w);
    }
  }

  /**
   * `bit_view<Integer[N], Begin, End>`: the bits [begin, end) of an array of
   * w-bit cells.  A view of a single integer is the case of one cell.
   */
  class ArrayBitView {
    const cells: array<nat>
    const w: nat
    const begin: nat
    const end: nat

    ghost predicate Valid()
      reads cells
    {
      ViewOk(cells.Length, w, begin, end) && CellsFit(cells[..], w)
    }

    constructor(cells: array<nat>, w: nat, begin: nat, end: nat)
      ensures this.cells == cells && this.w == w && this.begin == begin && this.end == end
    {
      this.cells := cells;
      this.w := w;
      this.begin := begin;
      this.end := end;
    }

    /** `size()` */
    function Size(): nat
      requires begin <= end
    {
      end - begin
    }

    /** `extract()`: the viewed bits, right-aligned. */
    function Extract(): (r: nat)
      reads cells
      requires Valid()
      ensures r < Pow2(Size())
      ensures r == Views.Extract(Flatten(cells[..], w), Views.Range(begin, end))
    {
      var c := cells[..];
      ViewExtractIsFlat(c, w, begin, end);
      Views.RangeDistinct(begin, end);
      ViewExtract(c, w, begin, end)
    }

    /** `put(bits)`: the low `Size()` bits of `bits` replace the viewed bits; nothing else changes. */
    method Put(bits: nat)
      requires Valid()
      modifies cells
      ensures Valid()
      ensures Views.Fits(Views.Range(begin, end), Flatten(old(cells[..]), w))
      ensures Flatten(cells[..], w) == Views.Put(Flatten(old(cells[..]), w), Views.Range(begin, end), bits)
      ensures Extract() == LowBits(bits, Size())
    {
      ViewPut(cells, w, begin, end, bits);
      PutIsFlat(old(cells[..]), cells[..], w, begin, end, bits);
      Views.RangeDistinct(begin, end);
      Views.ExtractPut(Flatten(old(cells[..]), w), Views.Range(begin, end), bits);
    }

    /** `operator[](i)`: a reference to bit `begin + i` of the representation. */
    method At(i: nat) returns (r: BitReference)
      requires Valid() && i < Size()
      ensures fresh(r) && r.cells == cells && r.Valid()
      ensures begin + i < |Flatten(cells[..], w)|
      ensures r.Get() == Flatten(cells[..], w)[begin + i]
      ensures r.Get() == Bit(Extract(), i)
    {
      var n := cells.Length;
      IndexSplit(begin + i, w, n);
      var q, t := ArrayIndex(begin + i, w, n), BitIndex(begin + i, w, n);
      if t == w {
        assert false;
      }
      r := new BitReference(cells, q, t, w);
      FlattenAt(cells[..], w, q, t);
      Views.ExtractRangeBit(Flatten(cells[..], w), begin, end, i);
    }
  }
}

=== FILE: bits.dfy ===
/**
 * Unsigned machine integers as natural numbers.
 *
 * Every bit operation the library performs on its cells (`&`, `|`, `~`,
 * `<<`, `>>` and the truncating cast to a narrower unsigned type) is
 * defined here on `nat`, one bit position at a time, so that each has a
 * per-bit characterisation (`Bit(Op(x, y), i) == ...`).  Two numbers with
 * the same bits are equal (`BitsExt`), which turns per-bit facts into
 * equalities of values.
 */
module Bits {

  function Pow2(n: nat): (r: nat)
    ensures r >= 1
  {
    if n == 0 then 1 else 2 * Pow2(n - 1)
  }

  /** Bit `i` of `x`, bit 0 being the least significant one. */
  predicate Bit(x: nat, i: nat)
  {
    if i == 0 then x % 2 == 1 else Bit(x / 2, i - 1)
  }

  /** The `n` low bits of `x`: the value of a cast to an `n`-bit unsigned type. */
  function LowBits(x: nat, n: nat): nat
  {
    if n == 0 then 0 else 2 * LowBits(x / 2, n - 1) + x % 2
  }

  /** `x >> k` */
  function Shr(x: nat, k: nat): nat
  {
    if k == 0 then x else Shr(x / 2, k - 1)
  }

  /** `x << k` without truncation. */
  function ShlU(x: nat, k: nat): nat
  {
    if k == 0 then x else 2 * ShlU(x, k - 1)
  }

  /** `x << k` evaluated in a `w`-bit unsigned type. */
  function Shl(x: nat, k: nat, w: nat): nat
  {
    LowBits(ShlU(x, k), w)
  }

  /** `x & y` */
  function And(x: nat, y: nat): nat
    decreases x
  {
    if x == 0 || y == 0 then 0
    else 2 * And(x / 2, y / 2) + (if x % 2 == 1 && y % 2 == 1 then 1 else 0)
  }

  /** `x | y` */
  function Or(x: nat, y: nat): nat
    decreases x + y
  {
    if x == 0 then y
    else if y == 0 then x
    else 2 * Or(x / 2, y / 2) + (if x % 2 == 1 || y % 2 == 1 then 1 else 0)
  }

  /** `~x` evaluated in a `w`-bit unsigned type. */
  function Not(x: nat, w: nat): nat
  {
    if w == 0 then 0 else 2 * Not(x / 2, w - 1) + (if x % 2 == 1 then 0 else 1)
  }

  /** `Integer(-1)` for a `w`-bit unsigned type. */
  function AllOnes(w: nat): nat
  {
    Pow2(w) - 1
  }

  /** 2^64: `std::size_t` and `std::uintmax_t` arithmetic is modulo this. */
  const SizeMod: nat := 0x1_0000_0000_0000_0000

  /** The largest `std::size_t`, `std::size_t(-1)`. */
  const SizeMax: nat := SizeMod - 1

  /** An integer converted to `std::size_t`: 2^64 added or taken away until it fits. */
  function Wrap64(x: int): (r: nat)
    ensures r < SizeMod
    ensures 0 <= x < SizeMod ==> r == x
    decreases if x < 0 then 1 else 0, if x < 0 then -x else x
  {
    if x < 0 then Wrap64(x + SizeMod)
    else if x >= SizeMod then Wrap64(x - SizeMod)
    else x
  }

  /** The conversion to `std::size_t` is reduction modulo 2^64. */
  lemma {:induction false} Wrap64IsMod(x: int)
    ensures Wrap64(x) == x % SizeMod
    decreases if x < 0 then 1 else 0, if x < 0 then -x else x
  {
    if x < 0 {
      Wrap64IsMod(x + SizeMod);
      ModAddModulus(x);
    } else if x >= SizeMod {
      Wrap64IsMod(x - SizeMod);
      ModAddModulus(x - SizeMod);
    }
  }

  lemma ModAddModulus(y: int)
    ensures (y + SizeMod) % SizeMod == y % SizeMod
  {
  }

  /** -1 wraps around to `SIZE_MAX`. */
  lemma WrapMinusOne()
    ensures Wrap64(-1) == SizeMax
  {
  }

  lemma Pow2Of32()
    ensures Pow2(8) == 0x100 && Pow2(32) == 0x1_0000_0000
  {
    assert Pow2(4) == 16;
    Pow2Add(4, 4);
    assert Pow2(8) == 0x100;
    Pow2Add(8, 8);
    assert Pow2(16) == 0x1_0000;
    Pow2Add(16, 16);
  }

  lemma Pow2SizeMod()
    ensures Pow2(64) == SizeMod
  {
    Pow2Of32();
    Pow2Add(32, 32);
  }

  function BoolToNat(b: bool): (r: nat)
  {
    if b then 1 else 0
  }

  // ---------------------------------------------------------------------------
  // per-bit characterisations

  lemma BitZero(i: nat)
    ensures !Bit(0, i)
  {
    if i > 0 {
      BitZero(i - 1);
    }
  }

  lemma {:induction false} BitsExt(x: nat, y: nat)
    requires forall i: nat :: Bit(x, i) == Bit(y, i)
    ensures x == y
    decreases x + y
  {
    if x == 0 && y == 0 {
    } else {
      assert Bit(x, 0) == Bit(y, 0);
      forall i: nat
        ensures Bit(x / 2, i) == Bit(y / 2, i)
      {
        assert Bit(x, i + 1) == Bit(y, i + 1);
      }
      BitsExt(x / 2, y / 2);
    }
  }

  lemma {:induction false} BitLowBits(x: nat, n: nat, i: nat)
    ensures Bit(LowBits(x, n), i) == (i < n && Bit(x, i))
  {
    if n == 0 {
      BitZero(i);
    } else if i > 0 {
      BitLowBits(x / 2, n - 1, i - 1);
    }
  }

  lemma {:induction false} BitShr(x: nat, k: nat, i: nat)
    ensures Bit(Shr(x, k), i) == Bit(x, i + k)
  {
    if k > 0 {
      BitShr(x / 2, k - 1, i);
    }
  }

  lemma {:induction false} BitShlU(x: nat, k: nat, i: nat)
    ensures Bit(ShlU(x, k), i) == (i >= k && Bit(x, i - k))
  {
    if k > 0 {
      if i > 0 {
        BitShlU(x, k - 1, i - 1);
      }
    }
  }

  lemma BitShl(x: nat, k: nat, w: nat, i: nat)
    ensures Bit(Shl(x, k, w), i) == (i < w && i >= k && Bit(x, i - k))
  {
    BitLowBits(ShlU(x, k), w, i);
    BitShlU(x, k, i);
  }

  lemma {:induction false} BitAnd(x: nat, y: nat, i: nat)
    ensures Bit(And(x, y), i) == (Bit(x, i) && Bit(y, i))
    decreases x
  {
    if x == 0 {
      BitZero(i);
    } else if y == 0 {
      BitZero(i);
    } else if i > 0 {
      BitAnd(x / 2, y / 2, i - 1);
    }
  }

  lemma {:induction false} BitOr(x: nat, y: nat, i: nat)
    ensures Bit(Or(x, y), i) == (Bit(x, i) || Bit(y, i))
    decreases x + y
  {
    if x == 0 {
      BitZero(i);
    } else if y == 0 {
      BitZero(i);
    } else if i > 0 {
      BitOr(x / 2, y / 2, i - 1);
    }
  }

  lemma {:induction false} BitNot(x: nat, w: nat, i: nat)
    ensures Bit(Not(x, w), i) == (i < w && !Bit(x, i))
  {
    if w == 0 {
      BitZero(i);
    } else if i > 0 {
      BitNot(x / 2, w - 1, i - 1);
    }
  }

  lemma {:induction false} BitPow2(k: nat, i: nat)
    ensures Bit(Pow2(k), i) == (i == k)
  {
    if k == 0 {
      if i > 0 {
        BitZero(i - 1);
      }
    } else if i > 0 {
      BitPow2(k - 1, i - 1);
    }
  }

  lemma {:induction false} BitAllOnes(w: nat, i: nat)
    ensures Bit(AllOnes(w), i) == (i < w)
  {
    if w == 0 {
      BitZero(i);
    } else {
      assert AllOnes(w) / 2 == AllOnes(w - 1);
      if i > 0 {
        BitAllOnes(w - 1, i - 1);
      }
    }
  }

  lemma BitOne(i: nat)
    ensures Bit(1, i) == (i == 0)
  {
    BitPow2(0, i);
  }

  lemma BitBool(b: bool, i: nat)
    ensures Bit(BoolToNat(b), i) == (b && i == 0)
  {
    if b { BitOne(i); } else { BitZero(i); }
  }

  // ---------------------------------------------------------------------------
  // bounds

  /** A number below 2^n has no bit at or above n. */
  lemma {:induction false} BitAboveBound(x: nat, n: nat, i: nat)
    requires x < Pow2(n)
    requires i >= n
    ensures !Bit(x, i)
  {
    if i == 0 {
    } else if n == 0 {
      assert x == 0;
      BitZero(i);
    } else {
      BitAboveBound(x / 2, n - 1, i - 1);
    }
  }

  /** A number with no bit at or above n is below 2^n. */
  lemma {:induction false} BoundFromBits(x: nat, n: nat)
    requires forall i: nat :: i >= n ==> !Bit(x, i)
    ensures x < Pow2(n)
  {
    if n == 0 {
      forall i: nat
        ensures Bit(x, i) == Bit(0, i)
      {
        BitZero(i);
      }
      BitsExt(x, 0);
    } else {
      forall i: nat | i >= n - 1
        ensures !Bit(x / 2, i)
      {
        assert !Bit(x, i + 1);
      }
      BoundFromBits(x / 2, n - 1);
    }
  }

  lemma LowBitsBound(x: nat, n: nat)
    ensures LowBits(x, n) < Pow2(n)
  {
    forall i: nat | i >= n
      ensures !Bit(LowBits(x, n), i)
    {
      BitLowBits(x, n, i);
    }
    BoundFromBits(LowBits(x, n), n);
  }

  /** The cast to n bits keeps a value that already fits. */
  lemma LowBitsId(x: nat, n: nat)
    requires x < Pow2(n)
    ensures LowBits(x, n) == x
  {
    forall i: nat
      ensures Bit(LowBits(x, n), i) == Bit(x, i)
    {
      BitLowBits(x, n, i);
      if i >= n {
        BitAboveBound(x, n, i);
      }
    }
    BitsExt(LowBits(x, n), x);
  }

  /** The cast to n bits keeps any bound the value already had. */
  lemma LowBitsBelow(x: nat, n: nat, m: nat)
    requires x < Pow2(m)
    ensures LowBits(x, n) < Pow2(m)
  {
    forall i: nat | i >= m
      ensures !Bit(LowBits(x, n), i)
    {
      BitLowBits(x, n, i);
      BitAboveBound(x, m, i);
    }
    BoundFromBits(LowBits(x, n), m);
  }

  lemma Pow2Mono(m: nat, n: nat)
    requires m <= n
    ensures Pow2(m) <= Pow2(n)
    decreases n - m
  {
    if m < n {
      Pow2Mono(m, n - 1);
    }
  }

  /** 2^n stays below `SIZE_MAX` for n <= 63. */
  lemma Pow2BelowSizeMax(n: nat)
    requires n <= 63
    ensures Pow2(n) < SizeMax
  {
    Pow2Mono(n, 63);
    Pow2SizeMod();
  }

  lemma {:induction false} Pow2Add(m: nat, n: nat)
    ensures Pow2(m + n) == Pow2(m) * Pow2(n)
  {
    if m > 0 {
      Pow2Add(m - 1, n);
    }
  }

  lemma {:induction false} ShlUIsMul(x: nat, k: nat)
    ensures ShlU(x, k) == x * Pow2(k)
  {
    if k > 0 {
      ShlUIsMul(x, k - 1);
    }
  }

  lemma AndBound(x: nat, y: nat, n: nat)
    requires y < Pow2(n)
    ensures And(x, y) < Pow2(n)
  {
    forall i: nat | i >= n
      ensures !Bit(And(x, y), i)
    {
      BitAnd(x, y, i);
      BitAboveBound(y, n, i);
    }
    BoundFromBits(And(x, y), n);
  }

  lemma OrBound(x: nat, y: nat, n: nat)
    requires x < Pow2(n) && y < Pow2(n)
    ensures Or(x, y) < Pow2(n)
  {
    forall i: nat | i >= n
      ensures !Bit(Or(x, y), i)
    {
      BitOr(x, y, i);
      BitAboveBound(x, n, i);
      BitAboveBound(y, n, i);
    }
    BoundFromBits(Or(x, y), n);
  }

  lemma NotBound(x: nat, w: nat)
    ensures Not(x, w) < Pow2(w)
  {
    forall i: nat | i >= w
      ensures !Bit(Not(x, w), i)
    {
      BitNot(x, w, i);
    }
    BoundFromBits(Not(x, w), w);
  }

  lemma ShrBound(x: nat, k: nat, n: nat)
    requires x < Pow2(k + n)
    ensures Shr(x, k) < Pow2(n)
  {
    forall i: nat | i >= n
      ensures !Bit(Shr(x, k), i)
    {
      BitShr(x, k, i);
      BitAboveBound(x, k + n, i + k);
    }
    BoundFromBits(Shr(x, k), n);
  }

  /** `x << k` keeps x's bits above k, so it needs k more bits than x. */
  lemma ShlBound(x: nat, k: nat, w: nat, n: nat)
    requires x < Pow2(n)
    ensures Shl(x, k, w) < Pow2(k + n)
  {
    forall i: nat | i >= k + n
      ensures !Bit(Shl(x, k, w), i)
    {
      BitShl(x, k, w, i);
      BitAboveBound(x, n, i - k);
    }
    BoundFromBits(Shl(x, k, w), k + n);
  }

  lemma ShlUBound(x: nat, k: nat, n: nat)
    requires x < Pow2(n)
    ensures ShlU(x, k) < Pow2(k + n)
  {
    forall i: nat | i >= k + n
      ensures !Bit(ShlU(x, k), i)
    {
      BitShlU(x, k, i);
      BitAboveBound(x, n, i - k);
    }
    BoundFromBits(ShlU(x, k), k + n);
  }

  /** `x & (2^k - 1)` keeps the k low bits. */
  lemma AndAllOnes(x: nat, k: nat)
    ensures And(x, AllOnes(k)) == LowBits(x, k)
  {
    forall i: nat
      ensures Bit(And(x, AllOnes(k)), i) == Bit(LowBits(x, k), i)
    {
      BitAnd(x, AllOnes(k), i);
      BitAllOnes(k, i);
      BitLowBits(x, k, i);
    }
    BitsExt(And(x, AllOnes(k)), LowBits(x, k));
  }

  /** The k low bits are the remainder modulo 2^k. */
  lemma {:induction false} LowBitsMod(x: nat, k: nat)
    ensures LowBits(x, k) == x % Pow2(k)
  {
    if k > 0 {
      LowBitsMod(x / 2, k - 1);
      ModDouble(x, Pow2(k - 1));
    }
  }

  /** The remainder modulo 2p, from the remainder of the halved number modulo p. */
  lemma ModDouble(x: nat, p: nat)
    requires p > 0
    ensures x % (2 * p) == 2 * ((x / 2) % p) + x % 2
  {
    var q := x / 2;
    var a, b := q / p, q % p;
    assert q == p * a + b;
    assert x == 2 * q + x % 2;
    assert x == (2 * p) * a + (2 * b + x % 2);
    ModOfSum(x, 2 * p, a, 2 * b + x % 2);
  }

  lemma ModOfSum(x: nat, m: nat, a: nat, c: nat)
    requires 0 <= c < m && x == m * a + c
    ensures x % m == c
  {
    var q, r := x / m, x % m;
    assert x == m * q + r;
    if q < a {
      MulStep(m, q, a);
      assert false;
    } else if a < q {
      MulStep(m, a, q);
      assert false;
    }
  }

  /** One more multiple of m is at least m more. */
  lemma {:induction false} MulStep(m: nat, q: nat, a: nat)
    requires q < a
    ensures m * q + m <= m * a
    decreases a - q
  {
    if q + 1 < a {
      MulStep(m, q + 1, a);
    }
    assert m * (q + 1) == m * q + m;
  }

  lemma OrComm(x: nat, y: nat)
    ensures Or(x, y) == Or(y, x)
  {
    forall i: nat
      ensures Bit(Or(x, y), i) == Bit(Or(y, x), i)
    {
      BitOr(x, y, i);
      BitOr(y, x, i);
    }
    BitsExt(Or(x, y), Or(y, x));
  }

  /** A multiple of 2^k has its k low bits clear. */
  lemma LowBitsOfMultiple(x: nat, k: nat)
    requires x % Pow2(k) == 0
    ensures LowBits(x, k) == 0
  {
    var q := x / Pow2(k);
    assert x == q * Pow2(k);
    ShlUIsMul(q, k);
    forall i: nat
      ensures Bit(LowBits(x, k), i) == Bit(0, i)
    {
      BitLowBits(x, k, i);
      BitShlU(q, k, i);
      BitZero(i);
    }
    BitsExt(LowBits(x, k), 0);
  }

  // ---------------------------------------------------------------------------
  // arithmetic facts about the bit operations

  /** `~x` in a w-bit type is 2^w - 1 - x. */
  lemma {:induction false} NotIsComplement(x: nat, w: nat)
    requires x < Pow2(w)
    ensures Not(x, w) == Pow2(w) - 1 - x
  {
    if w > 0 {
      NotIsComplement(x / 2, w - 1);
    }
  }

  /** Adding a multiple 2^m (m >= n) does not change the n low bits. */
  lemma {:induction false} LowBitsAddPow2(x: nat, m: nat, n: nat)
    requires m >= n
    ensures LowBits(x + Pow2(m), n) == LowBits(x, n)
  {
    if n > 0 {
      assert (x + Pow2(m)) / 2 == x / 2 + Pow2(m - 1);
      assert (x + Pow2(m)) % 2 == x % 2;
      LowBitsAddPow2(x / 2, m - 1, n - 1);
    }
  }

  /** Subtracting from 2^m leaves, in the n low bits (n <= m), 2^n minus the value. */
  lemma LowBitsNegate(r: nat, m: nat, n: nat)
    requires n <= m
    requires 0 < r < Pow2(n)
    ensures Pow2(n) <= Pow2(m)
    ensures LowBits(Pow2(m) - r, n) == Pow2(n) - r
  {
    Pow2Mono(n, m);
    if m == n {
      LowBitsId(Pow2(n) - r, n);
    } else {
      // 2^m - r = (2^n - r) + (2^m - 2^n), and 2^m - 2^n is a sum of powers 2^k, k >= n
      LowBitsSubPow2(Pow2(n) - r, n, m);
      LowBitsId(Pow2(n) - r, n);
    }
  }

  lemma {:induction false} LowBitsSubPow2(y: nat, n: nat, m: nat)
    requires n <= m
    ensures Pow2(n) <= Pow2(m)
    ensures LowBits(y + (Pow2(m) - Pow2(n)), n) == LowBits(y, n)
    decreases m - n
  {
    Pow2Mono(n, m);
    if m > n {
      Pow2Mono(n, m - 1);
      assert Pow2(m) - Pow2(n) == (Pow2(m - 1) - Pow2(n)) + Pow2(m - 1);
      LowBitsAddPow2(y + (Pow2(m - 1) - Pow2(n)), m - 1, n);
      LowBitsSubPow2(y, n, m - 1);
    }
  }

  /** Two numbers below 2^n with the same n low bits are equal. */
  lemma BitsExtBelow(x: nat, y: nat, n: nat)
    requires x < Pow2(n) && y < Pow2(n)
    requires forall i: nat :: i < n ==> Bit(x, i) == Bit(y, i)
    ensures x == y
  {
    forall i: nat
      ensures Bit(x, i) == Bit(y, i)
    {
      if i >= n {
        BitAboveBound(x, n, i);
        BitAboveBound(y, n, i);
      }
    }
    BitsExt(x, y);
  }

  /** The n low bits of an m-bit all-ones value (n <= m) are all ones. */
  lemma LowBitsAllOnes(m: nat, n: nat)
    requires n <= m
    ensures LowBits(AllOnes(m), n) == AllOnes(n)
  {
    forall i: nat
      ensures Bit(LowBits(AllOnes(m), n), i) == Bit(AllOnes(n), i)
    {
      BitLowBits(AllOnes(m), n, i);
      BitAllOnes(m, i);
      BitAllOnes(n, i);
    }
    BitsExt(LowBits(AllOnes(m), n), AllOnes(n));
  }

  /** For a number below 2^n, bit n-1 is set exactly when the number is at least 2^(n-1). */
  lemma TopBit(x: nat, n: nat)
    requires n >= 1 && x < Pow2(n)
    ensures Bit(x, n - 1) <==> Pow2(n - 1) <= x
  {
    if x < Pow2(n - 1) {
      BitAboveBound(x, n - 1, n - 1);
    }
    if !Bit(x, n - 1) {
      forall i: nat | i >= n - 1
        ensures !Bit(x, i)
      {
        if i >= n {
          BitAboveBound(x, n, i);
        }
      }
      BoundFromBits(x, n - 1);
    }
  }

  /** `1 << k` in a type wider than k is 2^k. */
  lemma ShlOne(k: nat, w: nat)
    requires k < w
    ensures Shl(1, k, w) == Pow2(k)
  {
    ShlUIsMul(1, k);
    Pow2Mono(k + 1, w);
    LowBitsId(Pow2(k), w);
  }

  // ---------------------------------------------------------------------------
  // numbers as little-endian bit strings

  /** The number whose bit i is bs[i]. */
  function Value(bs: seq<bool>): nat
  {
    if bs == [] then 0 else 2 * Value(bs[1..]) + BoolToNat(bs[0])
  }

  /** The n low bits of x, lowest first. */
  function ToBits(x: nat, n: nat): (bs: seq<bool>)
    ensures |bs| == n
  {
    if n == 0 then [] else [x % 2 == 1] + ToBits(x / 2, n - 1)
  }

  lemma {:induction false} ToBitsAt(x: nat, n: nat, i: nat)
    requires i < n
    ensures ToBits(x, n)[i] == Bit(x, i)
  {
    if i > 0 {
      ToBitsAt(x / 2, n - 1, i - 1);
    }
  }

  lemma {:induction false} BitValue(bs: seq<bool>, i: nat)
    ensures Bit(Value(bs), i) == (i < |bs| && bs[i])
  {
    if bs == [] {
      BitZero(i);
    } else if i > 0 {
      BitValue(bs[1..], i - 1);
    }
  }

  lemma ValueBound(bs: seq<bool>)
    ensures Value(bs) < Pow2(|bs|)
  {
    forall i: nat | i >= |bs|
      ensures !Bit(Value(bs), i)
    {
      BitValue(bs, i);
    }
    BoundFromBits(Value(bs), |bs|);
  }

  lemma ValueToBits(x: nat, n: nat)
    ensures Value(ToBits(x, n)) == LowBits(x, n)
  {
    forall i: nat
      ensures Bit(Value(ToBits(x, n)), i) == Bit(LowBits(x, n), i)
    {
      BitValue(ToBits(x, n), i);
      BitLowBits(x, n, i);
      if i < n {
        ToBitsAt(x, n, i);
      }
    }
    BitsExt(Value(ToBits(x, n)), LowBits(x, n));
  }

  lemma ToBitsValue(bs: seq<bool>)
    ensures ToBits(Value(bs), |bs|) == bs
  {
    forall i | 0 <= i < |bs|
      ensures ToBits(Value(bs), |bs|)[i] == bs[i]
    {
      ToBitsAt(Value(bs), |bs|, i);
      BitValue(bs, i);
    }
  }

  /** The bits of a concatenation: the first part gives the low bits. */
  lemma ValueAppend(a: seq<bool>, b: seq<bool>)
    ensures Value(a + b) == Or(Value(a), ShlU(Value(b), |a|))
  {
    forall i: nat
      ensures Bit(Value(a + b), i) == Bit(Or(Value(a), ShlU(Value(b), |a|)), i)
    {
      BitValue(a + b, i);
      BitOr(Value(a), ShlU(Value(b), |a|), i);
      BitValue(a, i);
      BitShlU(Value(b), |a|, i);
      if i >= |a| {
        BitValue(b, i - |a|);
      }
    }
    BitsExt(Value(a + b), Or(Value(a), ShlU(Value(b), |a|)));
  }
}

=== FILE: enum_traits.dfy ===
/**
 * enum_traits.hpp: the valid range of an enumeration and the number of bits
 * needed to store it.  Enumerator values are the values of the underlying
 * integer type, as `int`s.
 */
module EnumTraits {
  import opened Bits
  import opened Ilog2
  import opened Wrappers

  /** An integer type: its width and whether it is signed. */
  datatype IntType = IntType(bits: nat, signed: bool)

  /** `std::numeric_limits<T>::min()` */
  function IntMin(t: IntType): int
  {
    if t.signed && t.bits > 0 then 0 - Pow2(t.bits - 1) else 0
  }

  /** `std::numeric_limits<T>::max()` */
  function IntMax(t: IntType): int
  {
    if t.bits == 0 then 0 else if t.signed then Pow2(t.bits - 1) - 1 else Pow2(t.bits) - 1
  }

  /** The four traits implementations. */
  datatype Traits =
    | Default(underlying: IntType)       // `enum_traits_default<Enum>`
    | Unsigned(maxValue: int)            // `enum_traits_unsigned<Enum, MaxValue>`
    | UnsignedCount(count: int)          // `enum_traits_unsigned_count<Enum, Count>`
    | Signed(minValue: int, maxValue: int) // `enum_traits_signed<Enum, MinValue, MaxValue>`

  predicate IsSpecialized(t: Traits)
  {
    !t.Default?
  }

  predicate IsContiguous(t: Traits)
  {
    !t.Default?
  }

  /** `traits::min()` */
  function Min(t: Traits): int
  {
    match t
    case Default(u) => IntMin(u)
    case Unsigned(_) => 0
    case UnsignedCount(_) => 0
    case Signed(lo, _) => lo
  }

  /** `traits::max()`; the count traits take `Count - 1`. */
  function Max(t: Traits): int
  {
    match t
    case Default(u) => IntMax(u)
    case Unsigned(hi) => hi
    case UnsignedCount(c) => c - 1
    case Signed(_, hi) => hi
  }

  /** An enumerator the automatic detection looks for (either spelling). */
  datatype Marker =
    | UnsignedCountMarker(count: int) // `_unsigned_count` or `unsigned_count_`
    | UnsignedMaxMarker(max: int)     // `_unsigned_max` or `unsigned_max_`
    | FlagCountMarker(count: int)     // `_flag_count` or `flag_count_`

  /**
   * `enum_traits<Enum>` for an enum with the given marker enumerators: the
   * default traits without one, and an ambiguous overload (None) with more.
   */
  function TraitsFor(underlying: IntType, markers: seq<Marker>): Option<Traits>
  {
    if |markers| == 0 then Some(Default(underlying))
    else if |markers| > 1 then None
    else match markers[0]
      case UnsignedCountMarker(c) => Some(UnsignedCount(c))
      case UnsignedMaxMarker(m) => Some(Unsigned(m))
      case FlagCountMarker(c) => Some(UnsignedCount(c))
  }

  /** `enum_size<Traits>()`: `size_t(max) - size_t(min) + 1` in `std::size_t`. */
  function EnumSize(t: Traits): nat
    requires IsContiguous(t)
  {
    Wrap64(Wrap64(Max(t)) - Wrap64(Min(t)) + 1)
  }

  /** `enum_bit_size<Traits>()` */
  function EnumBitSize(t: Traits): nat
    requires IsContiguous(t)
  {
    Ilog2Ceil(EnumSize(t))
  }

  /** `is_valid_enum_value<Traits>(value)`: min <= value <= max, both inclusive. */
  predicate IsValidEnumValue(t: Traits, value: int)
    requires IsContiguous(t)
  {
    Min(t) <= value <= Max(t)
  }

  /** The size_t arithmetic of enum_size gives the number of values whenever that number fits. */
  lemma EnumSizeIsCount(t: Traits)
    requires IsContiguous(t) && Min(t) <= Max(t) && Max(t) - Min(t) + 1 < SizeMod
    ensures EnumSize(t) == Max(t) - Min(t) + 1
  {
    var a, b := Max(t), Min(t);
    Wrap64IsMod(a);
    Wrap64IsMod(b);
    Wrap64IsMod(Wrap64(a) - Wrap64(b) + 1);
    assert Wrap64(a) == a - (a / SizeMod) * SizeMod;
    assert Wrap64(b) == b - (b / SizeMod) * SizeMod;
  }

  /** A valid value of traits starting at 0 fits in enum_bit_size bits. */
  lemma ValidValueFits(t: Traits, value: int)
    requires IsContiguous(t) && Min(t) == 0 && Max(t) < SizeMax
    requires IsValidEnumValue(t, value)
    ensures 0 <= value < Pow2(EnumBitSize(t))
  {
    EnumSizeIsCount(t);
    Ilog2CeilLeast(EnumSize(t));
  }

  /** enum_bit_size is no larger than needed: the largest value needs its top bit. */
  lemma EnumBitSizeTight(t: Traits)
    requires IsContiguous(t) && Min(t) == 0 && 0 <= Max(t) < SizeMax
    ensures EnumBitSize(t) > 0 ==> Pow2(EnumBitSize(t) - 1) <= Max(t)
  {
    EnumSizeIsCount(t);
    Ilog2CeilLeast(EnumSize(t));
  }

  /** The default traits are not contiguous and span the underlying type. */
  lemma DefaultTraits(u: IntType)
    requires u.bits > 0
    ensures !IsSpecialized(Default(u)) && !IsContiguous(Default(u))
    ensures Min(Default(u)) == (if u.signed then 0 - Pow2(u.bits - 1) else 0)
    ensures Max(Default(u)) == (if u.signed then Pow2(u.bits - 1) - 1 else Pow2(u.bits) - 1)
    ensures Min(Default(u)) < Max(Default(u))
  {
    if u.signed && u.bits == 1 {
    } else if u.signed {
      assert Pow2(u.bits - 1) == 2 * Pow2(u.bits - 2);
    } else {
      assert Pow2(u.bits) == 2 * Pow2(u.bits - 1);
    }
  }

  /** Count traits with Count >= 1 have exactly Count values, numbered 0 .. Count - 1. */
  lemma CountTraits(c: int)
    requires 1 <= c < SizeMod
    ensures Min(UnsignedCount(c)) == 0 && Max(UnsignedCount(c)) == c - 1
    ensures EnumSize(UnsignedCount(c)) == c
    ensures forall v :: IsValidEnumValue(UnsignedCount(c), v) <==> 0 <= v < c
  {
    EnumSizeIsCount(UnsignedCount(c));
  }

  /** The detection picks the traits a single marker names and rejects several markers. */
  lemma TraitsForMarkers(underlying: IntType, markers: seq<Marker>)
    ensures TraitsFor(underlying, markers).None? <==> |markers| > 1
    ensures TraitsFor(underlying, markers).Some? ==>
      (IsSpecialized(TraitsFor(underlying, markers).value) <==> |markers| == 1)
    ensures |markers| == 1 && !markers[0].UnsignedMaxMarker? ==>
      Max(TraitsFor(underlying, markers).value) == markers[0].count - 1
  {
  }
}

=== FILE: ilog2.dfy ===
/**
 * detail/ilog2.hpp: integer binary logarithms over `std::size_t`.
 *
 * `ilog2_base` counts the significant bits of its argument; `ilog2` and
 * `ilog2_ceil` subtract one from it in `std::size_t`, so that both wrap to
 * `SIZE_MAX` at 0.
 */
module Ilog2 {
  import opened Bits

  /** `is_power_of_two(x)`: `(x & (x - 1)) == 0`, the subtraction done in `std::size_t`. */
  predicate IsPowerOfTwo(x: nat)
  {
    And(x, Wrap64(x - 1)) == 0
  }

  /** `ilog2_base(x)`: 0 for 0, otherwise one more than for `x >> 1`. */
  function Ilog2Base(x: nat): nat
  {
    if x == 0 then 0 else Ilog2Base(x / 2) + 1
  }

  /** `ilog2(x)`: the floor of the binary logarithm. */
  function Ilog2(x: nat): nat
  {
    Wrap64(Ilog2Base(x) - 1)
  }

  /** `ilog2_ceil(x)`: one less than the bit length, but only for powers of two. */
  function Ilog2Ceil(x: nat): nat
  {
    Wrap64(Ilog2Base(x) - BoolToNat(IsPowerOfTwo(x)))
  }

  /** `ilog2_base` is the bit length: x needs exactly Ilog2Base(x) bits. */
  lemma {:induction false} Ilog2BaseBounds(x: nat)
    ensures x == 0 <==> Ilog2Base(x) == 0
    ensures x < Pow2(Ilog2Base(x))
    ensures x > 0 ==> Pow2(Ilog2Base(x) - 1) <= x
  {
    if x > 0 {
      Ilog2BaseBounds(x / 2);
    }
  }

  /** A number between 2^k and 2^(k+1) has k + 1 significant bits. */
  lemma Ilog2BaseUnique(x: nat, k: nat)
    requires Pow2(k) <= x < Pow2(k + 1)
    ensures Ilog2Base(x) == k + 1
  {
    Ilog2BaseBounds(x);
    var b := Ilog2Base(x);
    if b < k + 1 {
      Pow2Mono(b, k);
    } else if b > k + 1 {
      Pow2Mono(k + 1, b - 1);
    }
  }

  lemma Ilog2BaseAtMost64(x: nat)
    requires x < SizeMod
    ensures Ilog2Base(x) <= 64
  {
    Ilog2BaseBounds(x);
    Pow2SizeMod();
    if Ilog2Base(x) > 64 {
      Pow2Mono(64, Ilog2Base(x) - 1);
    }
  }

  lemma {:induction false} AndSelf(x: nat)
    ensures And(x, x) == x
  {
    if x > 0 {
      AndSelf(x / 2);
    }
  }

  /** `x & (x - 1)` clears the lowest set bit, so it is 0 exactly for powers of two. */
  lemma {:induction false} AndPredecessor(x: nat)
    requires x > 0
    ensures And(x, x - 1) == 0 <==> x == Pow2(Ilog2Base(x) - 1)
  {
    if x > 1 {
      var y := x / 2;
      Ilog2BaseBounds(y);
      if x % 2 == 0 {
        assert (x - 1) / 2 == y - 1;
        AndPredecessor(y);
      } else {
        assert (x - 1) / 2 == y;
        AndSelf(y);
        assert Pow2(Ilog2Base(x) - 1) == 2 * Pow2(Ilog2Base(y) - 1);
      }
    }
  }

  /** For 0 < x, `is_power_of_two(x)` holds iff x is a power of two. */
  lemma IsPowerOfTwoIff(x: nat)
    requires 0 < x < SizeMod
    ensures IsPowerOfTwo(x) <==> exists k: nat :: Pow2(k) == x
  {
    AndPredecessor(x);
    Ilog2BaseBounds(x);
    if exists k: nat :: Pow2(k) == x {
      var k: nat :| Pow2(k) == x;
      assert Pow2(k + 1) == 2 * Pow2(k);
      Ilog2BaseUnique(x, k);
    }
  }

  /** 2^ilog2(x) <= x < 2^(ilog2(x) + 1) for every x > 0. */
  lemma Ilog2Bounds(x: nat)
    requires 0 < x < SizeMod
    ensures Ilog2(x) == Ilog2Base(x) - 1
    ensures Pow2(Ilog2(x)) <= x < Pow2(Ilog2(x) + 1)
  {
    Ilog2BaseBounds(x);
    Ilog2BaseAtMost64(x);
  }

  /** ilog2_ceil(x) is the least k with x <= 2^k, for every x > 0. */
  lemma Ilog2CeilLeast(x: nat)
    requires 0 < x < SizeMod
    ensures x <= Pow2(Ilog2Ceil(x))
    ensures Ilog2Ceil(x) > 0 ==> Pow2(Ilog2Ceil(x) - 1) < x
  {
    Ilog2BaseBounds(x);
    Ilog2BaseAtMost64(x);
    AndPredecessor(x);
    var b := Ilog2Base(x);
    if IsPowerOfTwo(x) {
      assert Ilog2Ceil(x) == b - 1;
      if b > 1 {
        assert Pow2(b - 1) == 2 * Pow2(b - 2);
      }
    }
  }

  /** At 0 both logarithms wrap around to `SIZE_MAX`, since `is_power_of_two(0)` holds. */
  lemma AtZero()
    ensures IsPowerOfTwo(0)
    ensures Ilog2(0) == SizeMax && Ilog2Ceil(0) == SizeMax
  {
  }

  /** Between 2^k and 2^(k+1), ilog2 is k and ilog2_ceil is k only at 2^k itself. */
  lemma Octave(x: nat, k: nat)
    requires Pow2(k) <= x < Pow2(k + 1) && x < SizeMod
    ensures Ilog2(x) == k
    ensures Ilog2Ceil(x) == if x == Pow2(k) then k else k + 1
  {
    Ilog2BaseUnique(x, k);
    Ilog2BaseAtMost64(x);
    AndPredecessor(x);
  }

  /** The expected values 1 -> (0, 0), ..., 8 -> (3, 3) of the ilog2 tests. */
  lemma SmallExamples()
    ensures Ilog2(1) == 0 && Ilog2Ceil(1) == 0
    ensures Ilog2(2) == 1 && Ilog2Ceil(2) == 1
    ensures Ilog2(3) == 1 && Ilog2Ceil(3) == 2
    ensures Ilog2(4) == 2 && Ilog2Ceil(4) == 2
    ensures Ilog2(5) == 2 && Ilog2Ceil(5) == 3
    ensures Ilog2(8) == 3 && Ilog2Ceil(8) == 3
  {
    assert Pow2(1) == 2;
    assert Pow2(2) == 4;
    assert Pow2(3) == 8;
    assert Pow2(4) == 16;
    Octave(1, 0);
    Octave(2, 1);
    Octave(3, 1);
    Octave(4, 2);
    Octave(5, 2);
    Octave(8, 3);
  }

  /** The expected values 255 -> (7, 8) and 256 -> (8, 8) of the ilog2 tests. */
  lemma ByteExamples()
    ensures Ilog2(255) == 7 && Ilog2Ceil(255) == 8
    ensures Ilog2(256) == 8 && Ilog2Ceil(256) == 8
  {
    Pow2Add(4, 3);
    Pow2Add(4, 4);
    Pow2Add(4, 5);
    assert Pow2(4) == 16;
    Octave(255, 7);
    Octave(256, 8);
  }
}

=== FILE: optional_impl.dfy ===
/**
 * optional_impl.hpp: the storage of an optional that keeps its "empty"
 * state in a tombstone of the value type when that type has one to spare
 * (compressed), and in a flag byte after the value otherwise
 * (uncompressed).  The optional is itself a type with tombstones, so
 * optionals nest; `Tombstone.TypeDesc.Optional` holds those traits.
 *
 * The storage is the memory from bit 0 on: T's storage first, then, when
 * uncompressed, the flag at bit `StorageBits(T)` and its 7-bit counter.
 */
module OptionalImpl {
  import opened Bits
  import opened Views
  import opened Tombstone
  import PT = PaddingTraits
  import EnumTraits

  /** `impl_.has_value()`: the value's storage holds no empty tombstone, or the flag is set. */
  predicate Engaged(mem: Mem, t: TypeDesc)
    requires WellFormedType(t) && StorageBits(Optional(t)) <= |mem|
  {
    if IsCompressed(t) then TombstoneIndex(mem, t) != TombstoneCount(t) - 1
    else mem[StorageBits(t)]
  }

  /**
   * `create_object` of an optional (the traits' only constructor) leaves an
   * empty optional: it is `store_none_flag`.
   */
  lemma {:induction false} CreatedOptionalIsEmpty(mem: Mem, t: TypeDesc)
    requires WellFormedType(t) && StorageBits(Optional(t)) <= |mem|
    ensures !Engaged(WithObject(mem, Optional(t), 0), t)
  {
    if IsCompressed(t) {
      TombstoneRoundTrip(mem, t, TombstoneCount(t) - 1);
    } else {
      var b := StorageBits(t);
      var m := Put(mem, FlagView(t), 0);
      PutRangeAt(mem, b, b + 1, 0, b);
      PutRangeAt(m, b + 1, b + PT.CharBit, 0, b);
      BitZero(0);
    }
  }

  /** `has_value()` depends on the optional's storage only. */
  lemma {:induction false} EngagedFrame(mem: Mem, mem': Mem, t: TypeDesc)
    requires WellFormedType(t) && AgreeBelow(mem, mem', StorageBits(Optional(t)))
    ensures Engaged(mem, t) == Engaged(mem', t)
  {
    if IsCompressed(t) {
      TombstoneIndexFrame(mem, mem', t);
    }
  }

  /** A range of cleared bits reads 0. */
  lemma ClearedRangeExtract(mem: Mem, b: nat, e: nat)
    requires b <= e <= |mem| && forall k :: b <= k < e ==> !mem[k]
    ensures Fits(Range(b, e), mem) && Extract(mem, Range(b, e)) == 0
  {
    RangeFits(b, e, mem);
    forall j: nat
      ensures Bit(Extract(mem, Range(b, e)), j) == Bit(0, j)
    {
      ExtractRangeBit(mem, b, e, j);
      BitZero(j);
    }
    BitsExt(Extract(mem, Range(b, e)), 0);
  }

  /** A write that leaves the counter's bits alone leaves the uncompressed optional's tombstone alone. */
  lemma {:induction false} CounterKept(mem: Mem, mem': Mem, t: TypeDesc)
    requires WellFormedType(t) && !IsCompressed(t)
    requires StorageBits(Optional(t)) <= |mem| && StorageBits(Optional(t)) <= |mem'|
    requires forall k :: StorageBits(t) < k < StorageBits(Optional(t)) ==> mem'[k] == mem[k]
    ensures TombstoneIndex(mem', Optional(t)) == TombstoneIndex(mem, Optional(t))
  {
    RangeFits(StorageBits(t) + 1, StorageBits(t) + PT.CharBit, mem);
    RangeFits(StorageBits(t) + 1, StorageBits(t) + PT.CharBit, mem');
    ExtractSame(mem, mem', CounterView(t));
  }

  /** `flag.at<0>() = value` of an uncompressed optional: the flag changes, nothing else. */
  lemma {:induction false} FlagWrite(mem: Mem, t: TypeDesc, value: bool)
    requires WellFormedType(t) && !IsCompressed(t) && StorageBits(Optional(t)) <= |mem|
    ensures Fits(FlagView(t), mem)
    ensures var m := Put(mem, FlagView(t), BoolToNat(value));
      Engaged(m, t) == value
      && AgreeBelow(mem, m, StorageBits(t))
      && TombstoneIndex(m, Optional(t)) == TombstoneIndex(mem, Optional(t))
      && forall k :: StorageBits(Optional(t)) <= k < |mem| ==> m[k] == mem[k]
  {
    var b := StorageBits(t);
    RangeFits(b, b + 1, mem);
    var m := Put(mem, FlagView(t), BoolToNat(value));
    forall k | 0 <= k < |mem|
      ensures m[k] == if k == b then value else mem[k]
    {
      PutRangeAt(mem, b, b + 1, BoolToNat(value), k);
      BitBool(value, 0);
    }
    CounterKept(mem, m, t);
  }

  /**
   * `create_value(o)` of an uncompressed optional: the object, then the flag
   * set.  The optional is engaged, holds `o` and the counter is kept.
   */
  lemma {:induction false} UncompressedCreated(mem: Mem, t: TypeDesc, o: int) returns (m: Mem)
    requires WellFormedType(t) && !IsCompressed(t) && StorageBits(Optional(t)) <= |mem| && IsObject(t, o)
    ensures Fits(FlagView(t), WithObject(mem, t, o))
    ensures m == Put(WithObject(mem, t, o), FlagView(t), BoolToNat(true))
    ensures |m| == |mem| && Engaged(m, t)
    ensures IsNumeric(t) ==> ObjectOf(m, t) == o
    ensures t.Optional? ==> !Engaged(m, t.inner)
    ensures TombstoneIndex(m, Optional(t)) == TombstoneIndex(mem, Optional(t))
    ensures forall k :: StorageBits(Optional(t)) <= k < |mem| ==> m[k] == mem[k]
  {
    var created := WithObject(mem, t, o);
    forall k | StorageBits(t) <= k < |mem|
      ensures created[k] == mem[k]
    {
      WithObjectFrame(mem, t, o, k);
    }
    if IsNumeric(t) {
      ObjectRoundTrip(mem, t, o);
    }
    if t.Optional? {
      CreatedOptionalIsEmpty(mem, t.inner);
    }
    FlagWrite(created, t, true);
    m := Put(created, FlagView(t), BoolToNat(true));
    if IsNumeric(t) {
      ObjectOfFrame(created, m, t);
    }
    if t.Optional? {
      EngagedFrame(created, m, t.inner);
    }
    CounterKept(mem, created, t);
  }

  /** `store_none_flag()` of a compressed optional: T's last tombstone, which the optional does not hand out. */
  lemma {:induction false} NoneTombstone(mem: Mem, t: TypeDesc)
    requires WellFormedType(t) && IsCompressed(t) && StorageBits(Optional(t)) <= |mem|
    ensures !Engaged(WithTombstone(mem, t, TombstoneCount(t) - 1), t)
    ensures TombstoneIndex(WithTombstone(mem, t, TombstoneCount(t) - 1), Optional(t)) == TombstoneCount(Optional(t))
    ensures forall k :: StorageBits(Optional(t)) <= k < |mem| ==> WithTombstone(mem, t, TombstoneCount(t) - 1)[k] == mem[k]
  {
    var last := TombstoneCount(t) - 1;
    var m := WithTombstone(mem, t, last);
    assert StorageBits(Optional(t)) == StorageBits(t);
    TombstoneRoundTrip(mem, t, last);
    assert TombstoneIndex(m, Optional(t)) == last;
    assert TombstoneCount(Optional(t)) == last;
    assert !Engaged(m, t);
    forall k | StorageBits(t) <= k < |mem|
      ensures m[k] == mem[k]
    {
      WithTombstoneFrame(mem, t, last, k);
    }
  }

  /** The memory after an uncompressed optional's construction: its flag byte cleared, then `flag.at<0>() = false`. */
  function DefaultFlagged(mem: Mem, t: TypeDesc): (r: Mem)
    requires WellFormedType(t) && !IsCompressed(t) && StorageBits(Optional(t)) <= |mem|
    ensures |r| == |mem|
  {
    RangeFits(StorageBits(t), StorageBits(t) + PT.CharBit, mem);
    RangeFits(StorageBits(t), StorageBits(t) + 1, mem);
    Put(Put(mem, Range(StorageBits(t), StorageBits(t) + PT.CharBit), 0), FlagView(t), 0)
  }

  /** A default-constructed uncompressed optional is empty and holds no tombstone of its own. */
  lemma {:induction false} DefaultFlagIsEmpty(mem: Mem, t: TypeDesc)
    requires WellFormedType(t) && !IsCompressed(t) && StorageBits(Optional(t)) <= |mem|
    ensures Fits(Range(StorageBits(t), StorageBits(t) + PT.CharBit), mem)
    ensures Fits(FlagView(t), Put(mem, Range(StorageBits(t), StorageBits(t) + PT.CharBit), 0))
    ensures !Engaged(DefaultFlagged(mem, t), t)
    ensures TombstoneIndex(DefaultFlagged(mem, t), Optional(t)) >= TombstoneCount(Optional(t))
    ensures forall k :: StorageBits(Optional(t)) <= k < |mem| ==> DefaultFlagged(mem, t)[k] == mem[k]
  {
    var b := StorageBits(t);
    RangeFits(b, b + PT.CharBit, mem);
    var cleared := Put(mem, Range(b, b + PT.CharBit), 0);
    RangeFits(b, b + 1, cleared);
    var m := DefaultFlagged(mem, t);
    forall k | 0 <= k < |mem|
      ensures m[k] == if b <= k < b + PT.CharBit then false else mem[k]
    {
      PutRangeAt(mem, b, b + PT.CharBit, 0, k);
      PutRangeAt(cleared, b, b + 1, 0, k);
      if b <= k {
        BitZero(k - b);
      }
    }
    ClearedRangeExtract(m, b + 1, b + PT.CharBit);
  }

  /**
   * The body of `optional_impl()`: `store_none_flag()`, after the flag's
   * default constructor when uncompressed.
   */
  method StoreInitialNone(store: Storage, t: TypeDesc)
    requires WellFormedType(t) && StorageBits(Optional(t)) <= |store.mem|
    modifies store
    ensures StorageBits(Optional(t)) <= |store.mem| && !Engaged(store.mem, t)
    ensures TombstoneIndex(store.mem, Optional(t)) >= TombstoneCount(Optional(t))
    ensures |store.mem| == old(|store.mem|)
    ensures forall k :: StorageBits(Optional(t)) <= k < |store.mem| ==> store.mem[k] == old(store.mem)[k]
  {
    if IsCompressed(t) {
      StoreNoneTombstone(store, t);
    } else {
      StoreNoneFlag(store, t);
    }
  }

  /** `store_none_flag()` of a compressed optional: T's last tombstone. */
  method StoreNoneTombstone(store: Storage, t: TypeDesc)
    requires WellFormedType(t) && IsCompressed(t) && StorageBits(Optional(t)) <= |store.mem|
    modifies store
    ensures StorageBits(Optional(t)) <= |store.mem| && !Engaged(store.mem, t)
    ensures TombstoneIndex(store.mem, Optional(t)) >= TombstoneCount(Optional(t))
    ensures |store.mem| == old(|store.mem|)
    ensures forall k :: StorageBits(Optional(t)) <= k < |store.mem| ==> store.mem[k] == old(store.mem)[k]
  {
    ghost var before := store.mem;
    var last := TombstoneCount(t) - 1;
    NoneTombstone(before, t);
    CreateTombstone(store, t, last);
    assert store.mem == WithTombstone(before, t, last);
  }

  /** An uncompressed optional's flag byte cleared by its default constructor, then the flag set to false. */
  method StoreNoneFlag(store: Storage, t: TypeDesc)
    requires WellFormedType(t) && !IsCompressed(t) && StorageBits(Optional(t)) <= |store.mem|
    modifies store
    ensures StorageBits(Optional(t)) <= |store.mem| && !Engaged(store.mem, t)
    ensures TombstoneIndex(store.mem, Optional(t)) >= TombstoneCount(Optional(t))
    ensures |store.mem| == old(|store.mem|)
    ensures forall k :: StorageBits(Optional(t)) <= k < |store.mem| ==> store.mem[k] == old(store.mem)[k]
  {
    var b := StorageBits(t);
    DefaultFlagIsEmpty(store.mem, t);
    // the flag's `tiny_storage` default constructor clears its byte
    store.Write(Range(b, b + PT.CharBit), 0);
    store.Write(FlagView(t), 0);
  }

  /** `optional_impl<T>` over a storage it shares with whatever contains it. */
  class OptionalImpl {
    const inner: TypeDesc
    const store: Storage

    ghost predicate Valid()
      reads store
    {
      WellFormedType(inner) && StorageBits(Optional(inner)) <= |store.mem|
    }

    /** `has_value()` */
    predicate HasValue()
      reads store
      requires Valid()
    {
      Engaged(store.mem, inner)
    }

    /** `value()` of a value type whose object is a number. */
    function Value(): int
      reads store
      requires Valid() && HasValue() && IsNumeric(inner)
    {
      ObjectOf(store.mem, inner)
    }

    /** The bits past the optional's storage are what they were. */
    ghost predicate KeepsOutside(before: Mem)
      reads store
      requires Valid()
    {
      |store.mem| == |before|
      && forall k :: StorageBits(Optional(inner)) <= k < |store.mem| ==> store.mem[k] == before[k]
    }

    /** `optional_impl()`: creates an empty optional with `store_none_flag()`. */
    constructor (inner: TypeDesc, store: Storage)
      requires WellFormedType(inner) && StorageBits(Optional(inner)) <= |store.mem|
      modifies store
      ensures this.inner == inner && this.store == store && Valid()
      ensures !HasValue()
      ensures TombstoneIndex(store.mem, Optional(inner)) >= TombstoneCount(Optional(inner))
      ensures KeepsOutside(old(store.mem))
    {
      this.inner := inner;
      this.store := store;
      new;
      StoreInitialNone(store, inner);
    }

    /** A handle on an optional already living in `store`, as `value()` of an enclosing optional returns it. */
    constructor Handle(inner: TypeDesc, store: Storage)
      requires WellFormedType(inner) && StorageBits(Optional(inner)) <= |store.mem|
      ensures this.inner == inner && this.store == store && Valid()
    {
      this.inner := inner;
      this.store := store;
    }

    /** `create_value(o)`: `create_object` on the storage, then `store_value_flag()`. */
    method CreateValue(o: int)
      requires Valid() && !HasValue() && IsObject(inner, o)
      modifies store
      ensures Valid() && HasValue()
      ensures IsNumeric(inner) ==> Value() == o
      ensures inner.Optional? ==> !Engaged(store.mem, inner.inner)
      ensures IsCompressed(inner) ==> TombstoneIndex(store.mem, Optional(inner)) >= TombstoneCount(Optional(inner))
      ensures !IsCompressed(inner) ==> TombstoneIndex(store.mem, Optional(inner)) == old(TombstoneIndex(store.mem, Optional(inner)))
      ensures KeepsOutside(old(store.mem))
      ensures inner.Padded? ==>
                forall k :: 0 <= k < inner.traits.size * PT.CharBit && k !in PaddedTagView(inner.traits) ==> store.mem[k] == Bit(o, k)
    {
      if IsCompressed(inner) {
        CreateCompressed(o);
      } else {
        CreateUncompressed(o);
      }
    }

    /** `create_value` of a compressed optional: the object itself leaves the tombstones. */
    method CreateCompressed(o: int)
      requires Valid() && !HasValue() && IsObject(inner, o) && IsCompressed(inner)
      modifies store
      ensures Valid() && HasValue()
      ensures IsNumeric(inner) ==> Value() == o
      ensures inner.Optional? ==> !Engaged(store.mem, inner.inner)
      ensures TombstoneIndex(store.mem, Optional(inner)) >= TombstoneCount(Optional(inner))
      ensures KeepsOutside(old(store.mem))
      ensures inner.Padded? ==>
                forall k :: 0 <= k < inner.traits.size * PT.CharBit && k !in PaddedTagView(inner.traits) ==> store.mem[k] == Bit(o, k)
    {
      ghost var before := store.mem;
      CreateObject(store, inner, o);
      forall k | StorageBits(inner) <= k < |store.mem|
        ensures store.mem[k] == before[k]
      {
        WithObjectFrame(before, inner, o, k);
      }
      if IsNumeric(inner) {
        ObjectRoundTrip(before, inner, o);
      }
      if inner.Padded? {
        forall k | 0 <= k < inner.traits.size * PT.CharBit && k !in PaddedTagView(inner.traits)
          ensures store.mem[k] == Bit(o, k)
        {
          PaddedObjectKept(before, inner.traits, o, k);
        }
      }
      if inner.Optional? {
        CreatedOptionalIsEmpty(before, inner.inner);
      }
    }

    /** `create_value` of an uncompressed optional: the object, then the flag set. */
    method CreateUncompressed(o: int)
      requires Valid() && !HasValue() && IsObject(inner, o) && !IsCompressed(inner)
      modifies store
      ensures Valid() && HasValue()
      ensures IsNumeric(inner) ==> Value() == o
      ensures inner.Optional? ==> !Engaged(store.mem, inner.inner)
      ensures TombstoneIndex(store.mem, Optional(inner)) == old(TombstoneIndex(store.mem, Optional(inner)))
      ensures KeepsOutside(old(store.mem))
    {
      ghost var m := UncompressedCreated(store.mem, inner, o);
      CreateObject(store, inner, o);
      store.Write(FlagView(inner), BoolToNat(true));
      assert store.mem == m;
    }

    /** `destroy_value()`: the object's bits stay; `store_none_flag()` marks the optional empty. */
    method DestroyValue()
      requires Valid() && HasValue()
      modifies store
      ensures Valid() && !HasValue()
      ensures IsCompressed(inner) ==> TombstoneIndex(store.mem, Optional(inner)) == TombstoneCount(Optional(inner))
      ensures !IsCompressed(inner) ==> TombstoneIndex(store.mem, Optional(inner)) == old(TombstoneIndex(store.mem, Optional(inner)))
      ensures !IsCompressed(inner) ==> AgreeBelow(old(store.mem), store.mem, StorageBits(inner))
      ensures KeepsOutside(old(store.mem))
    {
      ghost var before := store.mem;
      if IsCompressed(inner) {
        NoneTombstone(store.mem, inner);
        CreateTombstone(store, inner, TombstoneCount(inner) - 1);
      } else {
        FlagWrite(store.mem, inner, false);
        store.Write(FlagView(inner), BoolToNat(false));
      }
    }

    /** `value()` of an optional of optionals: the inner optional lives in the same storage. */
    method ValueOptional() returns (o: OptionalImpl)
      requires Valid() && HasValue() && inner.Optional?
      ensures o.inner == inner.inner && o.store == store && o.Valid()
    {
      o := new OptionalImpl.Handle(inner.inner, store);
    }
  }

  // ---------------------------------------------------------------------------
  // the tested scenarios

  /**
   * `verify_optional_impl(obj)`: a new optional is empty, holds `obj` after
   * `create_value(obj)` and is empty again after `destroy_value()`.
   */
  method VerifyOptionalImpl(inner: TypeDesc, store: Storage, obj: int)
    returns (emptyFirst: bool, engaged: bool, value: int, emptyAfter: bool)
    requires WellFormedType(inner) && IsNumeric(inner) && IsObject(inner, obj)
    requires StorageBits(Optional(inner)) <= |store.mem|
    modifies store
    ensures emptyFirst && engaged && value == obj && emptyAfter
    ensures |store.mem| == old(|store.mem|)
  {
    var opt := new OptionalImpl(inner, store);
    emptyFirst := !opt.HasValue();
    opt.CreateValue(obj);
    engaged := opt.HasValue();
    value := opt.Value();
    opt.DestroyValue();
    emptyAfter := !opt.HasValue();
  }

  /** An `int` has no tombstones: its optional adds a byte, 40 bits in all, and holds the tested values. */
  lemma IntIsUncompressed(values: seq<int>)
    requires values == [0, 42, 0x7fff_ffff]
    ensures WellFormedType(Plain(32)) && IsNumeric(Plain(32))
    ensures StorageBits(Optional(Plain(32))) == 40
    ensures forall i :: 0 <= i < |values| ==> IsObject(Plain(32), values[i])
  {
    Pow2Of32();
    var limit := Pow2(32);
    forall i | 0 <= i < |values|
      ensures IsObject(Plain(32), values[i])
    {
      assert 0 <= values[i] < limit;
    }
    IntStorageBits();
  }

  /** The storage of `optional_impl<int>`: 32 bits of `int` and the byte of the flag. */
  lemma IntStorageBits()
    ensures StorageBits(Optional(Plain(32))) == 40
  {
    assert TombstoneCount(Plain(32)) == 0;
  }

  /** The value tests of `int`: 0, 42 and `INT_MAX`. */
  method TestedIntValues(store: Storage) returns (ok: bool)
    requires |store.mem| == 40
    modifies store
    ensures ok
  {
    var values := [0, 42, 0x7fff_ffff];
    IntIsUncompressed(values);
    ok := true;
    for i := 0 to |values|
      invariant ok && |store.mem| == 40
    {
      var x := values[i];
      var e, g, v, d := VerifyOptionalImpl(Plain(32), store, x);
      ok := ok && e && g && v == values[i] && d;
    }
  }

  /** The value tests of `bool` and of the tiny enum `foo`'s three enumerators. */
  method TestedCompressedValues(store: Storage) returns (ok: bool)
    requires |store.mem| == 8
    modifies store
    ensures ok
  {
    TestedCompression();
    EnumTraits.CountTraits(3);
    ok := true;
    for b := 0 to 2
      invariant ok && |store.mem| == 8
    {
      var e, g, v, d := VerifyOptionalImpl(Bool, store, b);
      ok := ok && e && g && v == b && d;
    }
    for enumerator := 0 to 3
      invariant ok && |store.mem| == 8
    {
      var e, g, v, d := VerifyOptionalImpl(Tiny(Foo), store, enumerator);
      ok := ok && e && g && v == enumerator && d;
    }
  }

  /**
   * `optional_impl<optional_impl<T>>` for a value type `inner` with a
   * number as object: the outer optional stays engaged while its value,
   * the inner optional, is filled with `first`, emptied and filled with
   * `second`; `ok` collects every check of the test.
   */
  method NestedScenario(inner: TypeDesc, store: Storage, first: int, second: int) returns (ok: bool)
    requires WellFormedType(inner) && IsNumeric(inner) && IsObject(inner, first) && IsObject(inner, second)
    requires IsCompressed(Optional(inner))
    requires StorageBits(Optional(Optional(inner))) <= |store.mem|
    modifies store
    ensures ok
  {
    var opt := new OptionalImpl(Optional(inner), store);
    ok := !opt.HasValue();
    opt.CreateValue(0);
    ok := ok && opt.HasValue();
    var value := opt.ValueOptional();
    ok := ok && !value.HasValue();

    value.CreateValue(first);
    ok := ok && opt.HasValue() && value.HasValue() && value.Value() == first;
    value.DestroyValue();
    ok := ok && opt.HasValue() && !value.HasValue();
    value.CreateValue(second);
    ok := ok && opt.HasValue() && value.HasValue() && value.Value() == second;

    opt.DestroyValue();
    ok := ok && !opt.HasValue();
  }

  /** The two nested tests: `optional_impl<optional_impl<bool>>` and `optional_impl<optional_impl<int>>`. */
  method TestedNesting(boolStore: Storage, intStore: Storage) returns (ok: bool)
    requires |boolStore.mem| == 8 && |intStore.mem| == 40
    modifies boolStore, intStore
    ensures ok
  {
    TestedCompression();
    var okBool := NestedScenario(Bool, boolStore, 1, 0);
    var okInt := NestedScenario(Plain(32), intStore, 0, 42);
    ok := okBool && okInt;
  }
}

=== FILE: padding_tiny_storage.dfy ===
/**
 * padding_tiny_storage.hpp: an object together with tiny types, stored in
 * the object's padding bits and, when those are not enough, in an extra
 * byte array for the remaining bits.
 *
 * The policy's storage is a `Storage`: the object's `sizeof(Padded)` bytes
 * at bits [0, 8 * size), followed in the uncompressed storage by the bytes
 * of `tiny_storage_type<remaining_size>`.  The object's value is what its
 * members hold (all its bits for a type without padding traits); its
 * padding bits belong to the tiny types.
 */
module PaddingTinyStorage {
  import opened Bits
  import opened Views
  import opened TinyTypes
  import opened TinyStorage
  import opened PT = PaddingTraits

  /** The template arguments: a padded type with well-formed traits and well-formed tiny types. */
  predicate Parameters(t: PaddingTraits, fields: seq<Kind>)
  {
    PT.WellFormed(t) && AllWellFormed(fields)
  }

  /**
   * `remaining_size`: the tiny bits the padding cannot take, none when
   * they all fit (`total_size > compressed_size ? total_size - compressed_size : 0`).
   */
  function RemainingSize(t: PaddingTraits, fields: seq<Kind>): (r: nat)
    requires Parameters(t, fields)
    ensures r == 0 <==> TotalBitSize(fields) <= PaddingBitSize(t)
    ensures r != 0 ==> r + PaddingBitSize(t) == TotalBitSize(fields)
  {
    if TotalBitSize(fields) > PaddingBitSize(t) then TotalBitSize(fields) - PaddingBitSize(t) else 0
  }

  /** `is_compressed`: `remaining_size == 0`. */
  predicate IsCompressed(t: PaddingTraits, fields: seq<Kind>)
    requires Parameters(t, fields)
  {
    RemainingSize(t, fields) == 0
  }

  /** The bits of the object. */
  function ObjectBits(t: PaddingTraits): nat
  {
    t.size * CharBit
  }

  /** The bits of the policy's storage: the object, then the byte array of the uncompressed storage. */
  function PolicyBits(t: PaddingTraits, fields: seq<Kind>): nat
    requires Parameters(t, fields)
  {
    if IsCompressed(t, fields) then ObjectBits(t)
    else ObjectBits(t) + 8 * StorageBytes(RemainingSize(t, fields))
  }

  /** The padding of an object at bit 0 lies inside the object. */
  lemma PaddingInsideObject(t: PaddingTraits)
    requires PT.WellFormed(t)
    ensures forall k :: 0 <= k < |PaddingView(t, 0)| ==> PaddingView(t, 0)[k] < ObjectBits(t)
  {
    var pad := PaddingView(t, 0);
    forall k | 0 <= k < |pad|
      ensures pad[k] < ObjectBits(t)
    {
      assert pad[k] in pad;
    }
  }

  /**
   * `storage_view()`: the padding of the object, joined in the
   * uncompressed storage with all the bits of the byte array.
   */
  function PolicyView(t: PaddingTraits, fields: seq<Kind>): (v: View)
    requires Parameters(t, fields)
    ensures forall k :: 0 <= k < |v| ==> v[k] < PolicyBits(t, fields)
  {
    PaddingInsideObject(t);
    if IsCompressed(t, fields) then PaddingView(t, 0)
    else Join(PaddingView(t, 0), Range(ObjectBits(t), PolicyBits(t, fields)))
  }

  /**
   * The policy's view holds every tiny bit, lies in the storage, and
   * touches the object only in its padding.
   */
  lemma PolicyViewLayout(t: PaddingTraits, fields: seq<Kind>, mem: Mem)
    requires Parameters(t, fields) && |mem| == PolicyBits(t, fields)
    ensures Layout(mem, PolicyView(t, fields), fields)
    ensures |PolicyView(t, fields)| == PolicyBits(t, fields) - ObjectBits(t) + PaddingBitSize(t)
    ensures forall k :: 0 <= k < |PolicyView(t, fields)| ==>
              PolicyView(t, fields)[k] in PaddingView(t, 0) || ObjectBits(t) <= PolicyView(t, fields)[k]
  {
    var pad := PaddingView(t, 0);
    PaddingFits(t, 0, mem);
    PaddingViewSize(t, 0);
    if !IsCompressed(t, fields) {
      var bytes := Range(ObjectBits(t), PolicyBits(t, fields));
      forall a, b | 0 <= a < |pad| && 0 <= b < |bytes|
        ensures pad[a] != bytes[b]
      {
        assert pad[a] in pad;
      }
      RangeDistinct(ObjectBits(t), PolicyBits(t, fields));
      DistinctJoin(pad, bytes);
    }
  }

  /** A bit of the object that is not padding lies outside the policy's view. */
  lemma OutsideView(t: PaddingTraits, fields: seq<Kind>, mem: Mem, p: nat)
    requires Parameters(t, fields) && |mem| == PolicyBits(t, fields)
    requires p < ObjectBits(t) && p !in PaddingView(t, 0)
    ensures p !in PolicyView(t, fields)
  {
    PolicyViewLayout(t, fields, mem);
  }

  /** A bit of member j is no padding bit. */
  lemma MemberNotPadding(t: PaddingTraits, j: nat, p: nat)
    requires PT.WellFormed(t) && t.Aggregate? && j < |t.members| && InMember(t, 0, j, p)
    ensures p < ObjectBits(t) && p !in PaddingView(t, 0)
  {
    assert GapBegin(t, j) <= GapEnd(t, j) <= t.size * CharBit;
  }

  // ---------------------------------------------------------------------------
  // the object

  /** What member j holds. */
  function MemberValue(mem: Mem, t: PaddingTraits, j: nat): (x: nat)
    requires PT.WellFormed(t) && t.Aggregate? && j < |t.members| && ObjectBits(t) <= |mem|
    ensures x < Pow2(t.members[j].size * CharBit)
  {
    assert GapBegin(t, j) <= GapEnd(t, j) <= t.size * CharBit;
    RangeFits(t.members[j].offset * CharBit, (t.members[j].offset + t.members[j].size) * CharBit, mem);
    Extract(mem, MemberView(t, 0, j))
  }

  /** Writing member j's view sets member j to the value and leaves every other member as it was. */
  lemma MemberAfterPut(t: PaddingTraits, mem: Mem, j: nat, value: nat, i: nat)
    requires PT.WellFormed(t) && t.Aggregate? && j < |t.members| && i < |t.members| && ObjectBits(t) <= |mem|
    requires value < Pow2(t.members[j].size * CharBit)
    ensures Fits(MemberView(t, 0, j), mem)
    ensures MemberValue(Put(mem, MemberView(t, 0, j), value), t, i) == if i == j then value else MemberValue(mem, t, i)
  {
    var m := MemberView(t, 0, j);
    assert GapBegin(t, j) <= GapEnd(t, j) <= t.size * CharBit;
    RangeFits(t.members[j].offset * CharBit, (t.members[j].offset + t.members[j].size) * CharBit, mem);
    RangeDistinct(t.members[j].offset * CharBit, (t.members[j].offset + t.members[j].size) * CharBit);
    if i == j {
      ExtractPut(mem, m, value);
      LowBitsId(value, |m|);
    } else {
      var mi := MemberView(t, 0, i);
      assert GapBegin(t, i) <= GapEnd(t, i) <= t.size * CharBit;
      if i < j {
        MembersOrdered(t, i, j);
        RangesDisjoint(t.members[i].offset * CharBit, (t.members[i].offset + t.members[i].size) * CharBit,
                       t.members[j].offset * CharBit, (t.members[j].offset + t.members[j].size) * CharBit);
      } else {
        MembersOrdered(t, j, i);
        RangesDisjoint(t.members[j].offset * CharBit, (t.members[j].offset + t.members[j].size) * CharBit,
                       t.members[i].offset * CharBit, (t.members[i].offset + t.members[i].size) * CharBit);
      }
      ExtractPutDisjoint(mem, m, mi, value);
    }
  }

  /**
   * The object's value: what each member holds, or, for a type without
   * padding traits, all of its bits.
   */
  function ObjectValue(mem: Mem, t: PaddingTraits): (o: seq<nat>)
    requires PT.WellFormed(t) && ObjectBits(t) <= |mem|
    ensures t.Aggregate? ==> |o| == |t.members| && forall j :: 0 <= j < |o| ==> o[j] == MemberValue(mem, t, j)
    ensures t.Unspecialized? ==> |o| == 1
  {
    if t.Unspecialized? then
      RangeFits(0, ObjectBits(t), mem);
      [Extract(mem, Range(0, ObjectBits(t)))]
    else
      seq(|t.members|, j requires 0 <= j < |t.members| => MemberValue(mem, t, j))
  }

  /** Two memories that agree on the object's bits outside its padding hold the same object. */
  lemma SameObject(mem: Mem, mem': Mem, t: PaddingTraits)
    requires PT.WellFormed(t) && ObjectBits(t) <= |mem| && ObjectBits(t) <= |mem'|
    requires forall k :: 0 <= k < ObjectBits(t) && k !in PaddingView(t, 0) ==> mem'[k] == mem[k]
    ensures ObjectValue(mem', t) == ObjectValue(mem, t)
  {
    if t.Unspecialized? {
      RangeFits(0, ObjectBits(t), mem);
      RangeFits(0, ObjectBits(t), mem');
      ExtractSame(mem, mem', Range(0, ObjectBits(t)));
    } else {
      forall j | 0 <= j < |t.members|
        ensures MemberValue(mem', t, j) == MemberValue(mem, t, j)
      {
        var m := MemberView(t, 0, j);
        assert GapBegin(t, j) <= GapEnd(t, j) <= t.size * CharBit;
        forall b | 0 <= b < |m|
          ensures mem'[m[b]] == mem[m[b]]
        {
          MemberNotPadding(t, j, m[b]);
        }
        ExtractSame(mem, mem', m);
      }
    }
  }

  /** Bits changed only inside the policy's view leave the object as it was. */
  lemma ObjectOutsideView(t: PaddingTraits, fields: seq<Kind>, mem: Mem, mem': Mem)
    requires Parameters(t, fields) && |mem| == PolicyBits(t, fields) && |mem'| == |mem|
    requires forall k :: 0 <= k < |mem| && k !in PolicyView(t, fields) ==> mem'[k] == mem[k]
    ensures ObjectValue(mem', t) == ObjectValue(mem, t)
  {
    forall k | 0 <= k < ObjectBits(t) && k !in PaddingView(t, 0)
      ensures mem'[k] == mem[k]
    {
      OutsideView(t, fields, mem, k);
    }
    SameObject(mem, mem', t);
  }

  /** A put into the policy's view leaves the object as it was. */
  lemma PutViewKeepsObject(t: PaddingTraits, fields: seq<Kind>, mem: Mem, bits: nat)
    requires Parameters(t, fields) && |mem| == PolicyBits(t, fields)
    ensures Fits(PolicyView(t, fields), mem)
    ensures ObjectValue(Put(mem, PolicyView(t, fields), bits), t) == ObjectValue(mem, t)
  {
    PolicyViewLayout(t, fields, mem);
    var v := PolicyView(t, fields);
    forall k | 0 <= k < |mem| && k !in v
      ensures Put(mem, v, bits)[k] == mem[k]
    {
      PutOutside(mem, v, bits, k);
    }
    ObjectOutsideView(t, fields, mem, Put(mem, v, bits));
  }

  /** Bits changed only outside the policy's view leave every tiny field as it was. */
  lemma FieldsOutsideObject(t: PaddingTraits, fields: seq<Kind>, mem: Mem, mem': Mem)
    requires Parameters(t, fields) && |mem| == PolicyBits(t, fields) && |mem'| == |mem|
    requires forall k :: 0 <= k < |mem| && k in PolicyView(t, fields) ==> mem'[k] == mem[k]
    ensures Layout(mem, PolicyView(t, fields), fields) && Layout(mem', PolicyView(t, fields), fields)
    ensures forall i :: 0 <= i < |fields| ==>
              FieldValue(mem', PolicyView(t, fields), fields, i) == FieldValue(mem, PolicyView(t, fields), fields, i)
  {
    PolicyViewLayout(t, fields, mem);
    var v := PolicyView(t, fields);
    forall k | 0 <= k < |v|
      ensures mem'[v[k]] == mem[v[k]]
    {
      assert v[k] in v;
    }
    SameViewSameFields(mem, mem', v, fields);
  }

  /** A view whose bits are all clear holds 0 in every tiny field. */
  lemma ClearViewZeroFields(mem: Mem, view: View, fields: seq<Kind>)
    requires Layout(mem, view, fields)
    requires forall k :: 0 <= k < |view| ==> !mem[view[k]]
    ensures forall i :: 0 <= i < |fields| ==> FieldValue(mem, view, fields, i) == 0
  {
    var cleared := Clear(mem, view);
    forall k | 0 <= k < |view|
      ensures mem[view[k]] == cleared[view[k]]
    {
      PutAt(mem, view, 0, k);
      BitZero(k);
    }
    ClearAll(mem, view, fields);
    SameViewSameFields(cleared, mem, view, fields);
  }

  /** Copying a range of `src` into `mem`, position by position. */
  lemma CopyRangeAt(mem: Mem, src: Mem, b: nat, e: nat, k: nat)
    requires b <= e <= |mem| && e <= |src| && k < |mem|
    ensures Fits(Range(b, e), mem) && Fits(Range(b, e), src)
    ensures Put(mem, Range(b, e), Extract(src, Range(b, e)))[k] == if b <= k < e then src[k] else mem[k]
  {
    RangeFits(b, e, src);
    var x := Extract(src, Range(b, e));
    PutRangeAt(mem, b, e, x, k);
    if b <= k < e {
      RangeBitAt(src, b, e, k);
    }
  }

  /** The bit of a range's extract that comes from position k. */
  lemma RangeBitAt(src: Mem, b: nat, e: nat, k: nat)
    requires b <= k < e <= |src|
    ensures Fits(Range(b, e), src)
    ensures Bit(Extract(src, Range(b, e)), k - b) == src[k]
  {
    ExtractRangeBit(src, b, e, k - b);
  }

  /** `copy_bits(dest, src)` over one view, position by position. */
  lemma CopyViewAt(mem: Mem, src: Mem, v: View, k: nat)
    requires Fits(v, mem) && Fits(v, src) && Distinct(v) && k < |mem|
    ensures Put(mem, v, Extract(src, v))[k] == if k in v then src[k] else mem[k]
  {
    if k in v {
      var i :| 0 <= i < |v| && v[i] == k;
      PutAt(mem, v, Extract(src, v), i);
      ExtractAt(src, v, i);
    } else {
      PutOutside(mem, v, Extract(src, v), k);
    }
  }

  /**
   * The storage after a copy or move assignment from `src`: the object's
   * bits copied (trivial) or written as `repr` with `src`'s padding copied
   * after them, then the byte array of the uncompressed storage copied.
   */
  function AssignedMem(mem: Mem, src: Mem, repr: Mem, t: PaddingTraits, fields: seq<Kind>, trivial: bool): (r: Mem)
    requires Parameters(t, fields) && |mem| == PolicyBits(t, fields) && |src| == |mem| && |repr| == ObjectBits(t)
    ensures |r| == |mem|
  {
    var n := ObjectBits(t);
    RangeFits(0, n, mem);
    RangeFits(0, n, src);
    RangeFits(0, n, repr);
    PaddingFits(t, 0, mem);
    PaddingFits(t, 0, src);
    var obj :=
      if trivial then Copy(mem, Range(0, n), src, Range(0, n))
      else Copy(Copy(mem, Range(0, n), repr, Range(0, n)), PaddingView(t, 0), src, PaddingView(t, 0));
    if IsCompressed(t, fields) then obj
    else
      RangeFits(n, |src|, obj);
      RangeFits(n, |src|, src);
      Copy(obj, Range(n, |src|), src, Range(n, |src|))
  }

  /** Each bit after the assignment: `src`'s, except a non-trivial object's bits outside the padding, which are `repr`'s. */
  lemma AssignedAt(mem: Mem, src: Mem, repr: Mem, t: PaddingTraits, fields: seq<Kind>, trivial: bool, k: nat)
    requires Parameters(t, fields) && |mem| == PolicyBits(t, fields) && |src| == |mem| && |repr| == ObjectBits(t)
    requires k < |mem|
    ensures AssignedMem(mem, src, repr, t, fields, trivial)[k] ==
              if k < ObjectBits(t) && !trivial && k !in PaddingView(t, 0) then repr[k] else src[k]
  {
    var n := ObjectBits(t);
    var pad := PaddingView(t, 0);
    RangeFits(0, n, repr);
    PaddingFits(t, 0, mem);
    PaddingFits(t, 0, src);
    var obj :=
      if trivial then Copy(mem, Range(0, n), src, Range(0, n))
      else Copy(Copy(mem, Range(0, n), repr, Range(0, n)), pad, src, pad);
    if trivial {
      CopyRangeAt(mem, src, 0, n, k);
    } else {
      var created := Copy(mem, Range(0, n), repr, Range(0, n));
      CopyRangeAt(mem, repr, 0, n, k);
      PaddingInsideObject(t);
      CopyViewAt(created, src, pad, k);
    }
    if !IsCompressed(t, fields) {
      CopyRangeAt(obj, src, n, |src|, k);
    }
  }

  /**
   * After the assignment the storage holds `src`'s tiny fields, and the
   * object `repr` stands for (`src`'s own object when trivial); a trivial
   * assignment copies every bit.
   */
  lemma AssignedValues(mem: Mem, src: Mem, repr: Mem, t: PaddingTraits, fields: seq<Kind>, trivial: bool)
    requires Parameters(t, fields) && |mem| == PolicyBits(t, fields) && |src| == |mem| && |repr| == ObjectBits(t)
    ensures ObjectValue(AssignedMem(mem, src, repr, t, fields, trivial), t) ==
              if trivial then ObjectValue(src, t) else ObjectValue(repr, t)
    ensures Layout(src, PolicyView(t, fields), fields)
    ensures Layout(AssignedMem(mem, src, repr, t, fields, trivial), PolicyView(t, fields), fields)
    ensures forall i :: 0 <= i < |fields| ==>
              FieldValue(AssignedMem(mem, src, repr, t, fields, trivial), PolicyView(t, fields), fields, i)
              == FieldValue(src, PolicyView(t, fields), fields, i)
    ensures trivial ==> AssignedMem(mem, src, repr, t, fields, trivial) == src
  {
    var r := AssignedMem(mem, src, repr, t, fields, trivial);
    forall k | 0 <= k < |mem|
      ensures r[k] == if k < ObjectBits(t) && !trivial && k !in PaddingView(t, 0) then repr[k] else src[k]
    {
      AssignedAt(mem, src, repr, t, fields, trivial, k);
    }
    if trivial {
      assert r == src;
    } else {
      SameObject(repr, r, t);
    }
    PolicyViewLayout(t, fields, src);
    forall k | 0 <= k < |src| && k in PolicyView(t, fields)
      ensures r[k] == src[k]
    {
      var j :| 0 <= j < |PolicyView(t, fields)| && PolicyView(t, fields)[j] == k;
    }
    FieldsOutsideObject(t, fields, src, r);
  }

  // ---------------------------------------------------------------------------
  // the storage

  /**
   * `padding_tiny_storage<Padded, TinyTypes...>`: the traits of `Padded`,
   * whether it is trivial (which selects the `padded_holder`), the tiny
   * types, and the policy's storage.
   */
  class PaddingTinyStorage {
    const traits: PaddingTraits
    const trivial: bool
    const fields: seq<Kind>
    const store: Storage

    ghost predicate Valid()
      reads this, store
    {
      Parameters(traits, fields) && |store.mem| == PolicyBits(traits, fields)
    }

    /** `object()`: the value of the object. */
    function Object(): seq<nat>
      reads this, store
      requires Valid()
    {
      ObjectValue(store.mem, traits)
    }

    /** The object held by tiny field i (`at<i>()`). */
    function Get(i: nat): int
      reads this, store
      requires Valid() && i < |fields|
    {
      PolicyViewLayout(traits, fields, store.mem);
      FieldValue(store.mem, PolicyView(traits, fields), fields, i)
    }

    /**
     * The default constructor and `explicit padding_tiny_storage(obj)`:
     * the `basic_tiny_storage` base clears the storage view, then
     * `construct` creates the object, whose bits are `repr`, and clears its
     * padding.  The tiny types all read 0.
     */
    constructor (traits: PaddingTraits, trivial: bool, fields: seq<Kind>, store: Storage, repr: Mem)
      requires Parameters(traits, fields) && |fields| != 0 && |store.mem| == PolicyBits(traits, fields)
      requires |repr| == ObjectBits(traits)
      modifies store
      ensures Valid() && this.traits == traits && this.trivial == trivial && this.fields == fields && this.store == store
      ensures Object() == ObjectValue(repr, traits)
      ensures forall i :: 0 <= i < |fields| ==> Get(i) == 0
    {
      this.traits := traits;
      this.trivial := trivial;
      this.fields := fields;
      this.store := store;
      new;
      ClearView();
      Construct(repr);
      PolicyViewLayout(traits, fields, store.mem);
      ClearViewZeroFields(store.mem, PolicyView(traits, fields), fields);
    }

    /**
     * `padding_tiny_storage(obj, tiny...)`: the object created as above,
     * then `at<I>() = tiny[I]` for I = 0, 1, ... in order.
     */
    constructor WithTiny(traits: PaddingTraits, trivial: bool, fields: seq<Kind>, store: Storage, repr: Mem, objects: seq<int>)
      requires Parameters(traits, fields) && |fields| != 0 && |store.mem| == PolicyBits(traits, fields)
      requires |repr| == ObjectBits(traits)
      requires |objects| == |fields| && forall i :: 0 <= i < |fields| ==> Assignable(fields[i], objects[i])
      modifies store
      ensures Valid() && this.traits == traits && this.trivial == trivial && this.fields == fields && this.store == store
      ensures Object() == ObjectValue(repr, traits)
      ensures forall i :: 0 <= i < |fields| ==> Get(i) == objects[i]
    {
      this.traits := traits;
      this.trivial := trivial;
      this.fields := fields;
      this.store := store;
      new;
      ClearView();
      Construct(repr);
      for i := 0 to |fields|
        invariant Valid() && Object() == ObjectValue(repr, traits)
        invariant forall j :: 0 <= j < i ==> Get(j) == objects[j]
      {
        AssignTiny(i, objects[i]);
      }
    }

    /**
     * The copy and move constructors: the object is copied (see `Assign`)
     * and so is the byte array of the uncompressed storage.
     */
    constructor Copy(other: PaddingTinyStorage, store: Storage, repr: Mem)
      requires other.Valid() && store != other.store && |store.mem| == |other.store.mem|
      requires |repr| == ObjectBits(other.traits) && ObjectValue(repr, other.traits) == other.Object()
      modifies store
      ensures Valid() && traits == other.traits && trivial == other.trivial && fields == other.fields && this.store == store
      ensures Object() == other.Object()
      ensures forall i :: 0 <= i < |fields| ==> Get(i) == other.Get(i)
      ensures trivial ==> store.mem == other.store.mem
    {
      traits := other.traits;
      trivial := other.trivial;
      fields := other.fields;
      this.store := store;
      new;
      Assign(other, repr);
    }

    /** `basic_tiny_storage`'s default constructor: `clear_bits(storage_view())`. */
    method ClearView()
      requires Valid()
      modifies store
      ensures Valid()
      ensures store.mem == Clear(old(store.mem), PolicyView(traits, fields))
      ensures forall k :: 0 <= k < |PolicyView(traits, fields)| ==> !store.mem[PolicyView(traits, fields)[k]]
    {
      var view := PolicyView(traits, fields);
      PolicyViewLayout(traits, fields, store.mem);
      ghost var before := store.mem;
      store.Write(view, 0);
      forall k | 0 <= k < |view|
        ensures !store.mem[view[k]]
      {
        PutAt(before, view, 0, k);
        BitZero(k);
      }
    }

    /**
     * `padded_holder::construct`: the object is created with bits `repr`,
     * padding included, then `clear_bits(padding_of(object))`.  The bits of
     * the view past the object stay as they were.
     */
    method Construct(repr: Mem)
      requires Valid() && |repr| == ObjectBits(traits)
      modifies store
      ensures Valid() && Object() == ObjectValue(repr, traits)
      ensures forall k :: 0 <= k < |PolicyView(traits, fields)| ==>
                store.mem[PolicyView(traits, fields)[k]] ==
                  (ObjectBits(traits) <= PolicyView(traits, fields)[k] && old(store.mem)[PolicyView(traits, fields)[k]])
    {
      var n := ObjectBits(traits);
      var pad := PaddingView(traits, 0);
      ghost var before := store.mem;
      RangeFits(0, n, repr);
      RangeFits(0, n, store.mem);
      store.Write(Range(0, n), Extract(repr, Range(0, n)));
      ghost var created := store.mem;
      PaddingFits(traits, 0, store.mem);
      store.Write(pad, 0);
      forall k | 0 <= k < n && k !in pad
        ensures store.mem[k] == repr[k]
      {
        CopyRangeAt(before, repr, 0, n, k);
        PutOutside(created, pad, 0, k);
      }
      SameObject(repr, store.mem, traits);
      PolicyViewLayout(traits, fields, store.mem);
      var view := PolicyView(traits, fields);
      forall k | 0 <= k < |view|
        ensures store.mem[view[k]] == (n <= view[k] && before[view[k]])
      {
        var p := view[k];
        CopyRangeAt(before, repr, 0, n, p);
        if p in pad {
          var i :| 0 <= i < |pad| && pad[i] == p;
          PutAt(created, pad, 0, i);
          BitZero(i);
          assert p < n;
        } else {
          PutOutside(created, pad, 0, p);
        }
      }
    }

    /**
     * The copy and move assignments: a trivial object is copied byte by
     * byte (`std::memcpy`); a non-trivial one is assigned, which leaves
     * bits `repr` with `other`'s value, and then gets `other`'s padding
     * (`assign_padding`).  The byte array of the uncompressed storage is
     * copied.
     */
    method Assign(other: PaddingTinyStorage, repr: Mem)
      requires Valid() && other.Valid() && store != other.store
      requires other.traits == traits && other.trivial == trivial && other.fields == fields
      requires |repr| == ObjectBits(traits) && ObjectValue(repr, traits) == other.Object()
      modifies store
      ensures Valid()
      ensures Object() == other.Object()
      ensures forall i :: 0 <= i < |fields| ==> Get(i) == other.Get(i)
      ensures trivial ==> store.mem == other.store.mem
    {
      var n := ObjectBits(traits);
      var src := other.store.mem;
      ghost var before := store.mem;
      RangeFits(0, n, store.mem);
      RangeFits(0, n, src);
      if trivial {
        store.Write(Range(0, n), Extract(src, Range(0, n)));
      } else {
        var pad := PaddingView(traits, 0);
        RangeFits(0, n, repr);
        store.Write(Range(0, n), Extract(repr, Range(0, n)));
        PaddingFits(traits, 0, store.mem);
        PaddingFits(traits, 0, src);
        store.Write(pad, Extract(src, pad));
      }
      if !IsCompressed(traits, fields) {
        RangeFits(n, |src|, store.mem);
        RangeFits(n, |src|, src);
        store.Write(Range(n, |src|), Extract(src, Range(n, |src|)));
      }
      assert store.mem == AssignedMem(before, src, repr, traits, fields, trivial);
      AssignedValues(before, src, repr, traits, fields, trivial);
    }

    /** `at<i>() = o`: the tiny field changes and nothing else; the object is untouched. */
    method AssignTiny(i: nat, o: int)
      requires Valid() && i < |fields| && Assignable(fields[i], o)
      modifies store
      ensures Valid() && Object() == old(Object())
      ensures Get(i) == o
      ensures forall j :: 0 <= j < |fields| && j != i ==> Get(j) == old(Get(j))
    {
      var view := PolicyView(traits, fields);
      PolicyViewLayout(traits, fields, store.mem);
      FieldViews(store.mem, view, fields);
      ghost var before := store.mem;
      var fv := FieldView(view, fields, i);
      store.Write(fv, Encode(fields[i], o));
      assert store.mem == AssignField(before, view, fields, i, o);
      forall a | 0 <= a < |fv|
        ensures fv[a] in view
      {
        FieldInside(Sizes(fields), i);
        assert fv[a] == view[Offset(Sizes(fields), i) + a];
      }
      forall k | 0 <= k < |before| && k !in view
        ensures store.mem[k] == before[k]
      {
        PutOutside(before, fv, Encode(fields[i], o), k);
      }
      ObjectOutsideView(traits, fields, before, store.mem);
    }

    /** `object().member_j = value`: that member changes and nothing else; the tiny types are untouched. */
    method SetMember(j: nat, value: nat)
      requires Valid() && traits.Aggregate? && j < |traits.members|
      requires value < Pow2(traits.members[j].size * CharBit)
      modifies store
      ensures Valid() && Object() == old(Object())[j := value]
      ensures forall i :: 0 <= i < |fields| ==> Get(i) == old(Get(i))
    {
      var m := MemberView(traits, 0, j);
      ghost var before := store.mem;
      assert GapBegin(traits, j) <= GapEnd(traits, j) <= traits.size * CharBit;
      RangeFits(traits.members[j].offset * CharBit, (traits.members[j].offset + traits.members[j].size) * CharBit, before);
      RangeDistinct(traits.members[j].offset * CharBit, (traits.members[j].offset + traits.members[j].size) * CharBit);
      store.Write(m, value);
      forall i | 0 <= i < |traits.members|
        ensures MemberValue(store.mem, traits, i) == old(Object())[j := value][i]
      {
        MemberAfterPut(traits, before, j, value, i);
      }
      forall b | 0 <= b < |m|
        ensures m[b] !in PolicyView(traits, fields)
      {
        MemberNotPadding(traits, j, m[b]);
        OutsideView(traits, fields, before, m[b]);
      }
      forall k | 0 <= k < |before| && k in PolicyView(traits, fields)
        ensures store.mem[k] == before[k]
      {
        PutOutside(before, m, value, k);
      }
      FieldsOutsideObject(traits, fields, before, store.mem);
    }

    /**
     * `object() = x` for a type without padding traits (whose view lies
     * wholly past the object): the object's bits become `repr`; the tiny
     * types are untouched.
     */
    method SetObject(repr: Mem)
      requires Valid() && traits.Unspecialized? && |repr| == ObjectBits(traits)
      modifies store
      ensures Valid() && Object() == ObjectValue(repr, traits)
      ensures forall i :: 0 <= i < |fields| ==> Get(i) == old(Get(i))
    {
      var n := ObjectBits(traits);
      ghost var before := store.mem;
      RangeFits(0, n, repr);
      RangeFits(0, n, store.mem);
      store.Write(Range(0, n), Extract(repr, Range(0, n)));
      forall k | 0 <= k < n
        ensures store.mem[k] == repr[k]
      {
        CopyRangeAt(before, repr, 0, n, k);
      }
      SameObject(repr, store.mem, traits);
      PolicyViewLayout(traits, fields, before);
      forall k | 0 <= k < |before| && k in PolicyView(traits, fields)
        ensures store.mem[k] == before[k]
      {
        CopyRangeAt(before, repr, 0, n, k);
      }
      FieldsOutsideObject(traits, fields, before, store.mem);
    }
  }

  // ---------------------------------------------------------------------------
  // the tested storages

  const NoPadding: PaddingTraits := Unspecialized(2)
  const SmallPadding: PaddingTraits := Aggregate(4, [Member(0, 1), Member(2, 2)])
  const BigPadding: PaddingTraits := Aggregate(16, [Member(0, 1), Member(8, 8)])
  const StdString: PaddingTraits := Unspecialized(32)

  /** `tiny_unsigned<8>` and `tiny_unsigned<48, std::uint64_t>` fit into the 56 padding bits of `{uint8_t; uint64_t}`. */
  lemma BigPaddingCompressed()
    ensures Parameters(BigPadding, [UnsignedKind(8, 32), UnsignedKind(48, 64)])
    ensures PaddingBitSize(BigPadding) == 56
    ensures IsCompressed(BigPadding, [UnsignedKind(8, 32), UnsignedKind(48, 64)])
    ensures PolicyBits(BigPadding, [UnsignedKind(8, 32), UnsignedKind(48, 64)]) == 128
  {
    var two := [UnsignedKind(8, 32), UnsignedKind(48, 64)];
    assert Sizes(two) == [8, 48];
    assert TotalSize([8, 48]) == 8 + TotalSize([48]);
    assert TotalSize([48]) == 48 + TotalSize([]);
    assert GapEnd(BigPadding, 0) == 64 && GapEnd(BigPadding, 1) == 128;
    assert SumSizes(BigPadding, 0) == 1 + SumSizes(BigPadding, 1);
    assert SumSizes(BigPadding, 1) == 8 + SumSizes(BigPadding, 2);
  }

  /** `tiny_unsigned<4>` with no padding or in a `std::string` needs the byte array; with a byte of padding it does not. */
  lemma TestedCompression()
    ensures Parameters(NoPadding, [UnsignedKind(4, 32)]) && !IsCompressed(NoPadding, [UnsignedKind(4, 32)])
    ensures PolicyBits(NoPadding, [UnsignedKind(4, 32)]) == 16 + 8
    ensures Parameters(StdString, [UnsignedKind(4, 32)]) && !IsCompressed(StdString, [UnsignedKind(4, 32)])
    ensures Parameters(SmallPadding, [UnsignedKind(4, 32)]) && IsCompressed(SmallPadding, [UnsignedKind(4, 32)])
  {
    var one := [UnsignedKind(4, 32)];
    assert Sizes(one) == [4];
    assert TotalSize([4]) == 4 + TotalSize([]);
    SinglePadding(0);
  }

  /**
   * The "big padding" test: `{0, 0}` with `tiny_unsigned<8>` and
   * `tiny_unsigned<48, std::uint64_t>` in its padding; member and tiny
   * writes never disturb each other.
   */
  method BigPaddingScenario(garbage: Mem, repr: Mem) returns (s: PaddingTinyStorage)
    requires |garbage| == 128 && |repr| == 128 && ObjectValue(repr, BigPadding) == [0, 0]
    ensures s.Valid() && s.fields == [UnsignedKind(8, 32), UnsignedKind(48, 64)]
    ensures s.Object() == [42, 43]
    ensures s.Get(0) == 255 && s.Get(1) == Pow2(48) - 1
  {
    BigPaddingCompressed();
    var store := new Storage(garbage);
    s := new PaddingTinyStorage(BigPadding, true, [UnsignedKind(8, 32), UnsignedKind(48, 64)], store, repr);
    BigPaddingWrites(s);
  }

  /** The writes of the "big padding" test, from `{0, 0}` and tiny values 0. */
  method BigPaddingWrites(s: PaddingTinyStorage)
    requires s.Valid() && s.traits == BigPadding && s.fields == [UnsignedKind(8, 32), UnsignedKind(48, 64)]
    requires s.Object() == [0, 0] && s.Get(0) == 0 && s.Get(1) == 0
    modifies s.store
    ensures s.Valid() && s.Object() == [42, 43]
    ensures s.Get(0) == 255 && s.Get(1) == Pow2(48) - 1
  {
    BigPaddingMembersFit();
    BigPaddingFirstWrites(s);
    BigPaddingSecondWrites(s);
  }

  /** The writes to the first member and the first tiny value. */
  method BigPaddingFirstWrites(s: PaddingTinyStorage)
    requires s.Valid() && s.traits.Aggregate? && |s.traits.members| == 2 && 42 < Pow2(s.traits.members[0].size * CharBit)
    requires |s.fields| == 2 && s.fields[0] == UnsignedKind(8, 32)
    requires s.Object() == [0, 0] && s.Get(1) == 0
    modifies s.store
    ensures s.Valid() && s.Object() == [42, 0]
    ensures s.Get(0) == 255 && s.Get(1) == 0
  {
    assert Pow2(8) == 256;
    assert [0, 0][0 := 42] == [42, 0];
    WriteMemberAndTiny(s, 0, 42, 0, 255);
  }

  /** The writes to the second member and the second tiny value. */
  method BigPaddingSecondWrites(s: PaddingTinyStorage)
    requires s.Valid() && s.traits.Aggregate? && |s.traits.members| == 2 && 43 < Pow2(s.traits.members[1].size * CharBit)
    requires |s.fields| == 2 && s.fields[1] == UnsignedKind(48, 64)
    requires s.Object() == [42, 0] && s.Get(0) == 255
    modifies s.store
    ensures s.Valid() && s.Object() == [42, 43]
    ensures s.Get(0) == 255 && s.Get(1) == Pow2(48) - 1
  {
    var top := Pow2(48) - 1;
    assert [42, 0][1 := 43] == [42, 43];
    WriteMemberAndTiny(s, 1, 43, 1, top);
  }

  /** 42 fits the `std::uint8_t` member and 43 the `std::uint64_t` one. */
  lemma BigPaddingMembersFit()
    ensures BigPadding.Aggregate? && |BigPadding.members| == 2
    ensures 42 < Pow2(BigPadding.members[0].size * CharBit)
    ensures 43 < Pow2(BigPadding.members[1].size * CharBit)
  {
    assert BigPadding.members[1].size * CharBit == 64;
    Pow2SizeMod();
  }

  /** A member write followed by a tiny write: each lands and nothing else changes. */
  method WriteMemberAndTiny(s: PaddingTinyStorage, j: nat, value: nat, i: nat, o: int)
    requires s.Valid() && s.traits.Aggregate? && j < |s.traits.members|
    requires value < Pow2(s.traits.members[j].size * CharBit)
    requires i < |s.fields| && Assignable(s.fields[i], o)
    modifies s.store
    ensures s.Valid() && s.Object() == old(s.Object())[j := value]
    ensures s.Get(i) == o
    ensures forall k :: 0 <= k < |s.fields| && k != i ==> s.Get(k) == old(s.Get(k))
  {
    s.SetMember(j, value);
    s.AssignTiny(i, o);
  }
}

=== FILE: padding_traits.dfy ===
/**
 * padding_traits.hpp: where a type has padding bits.  The traits of an
 * aggregate list its members (offset and size, in declaration order); the
 * padding view joins, in member order, the gap after each member up to the
 * next member or, after the last one, up to the end of the object, leaving
 * out the empty gaps.
 *
 * An object of `size` bytes at bit position `base` covers bits
 * [base, base + 8 * size) of a `Mem`; byte i is bits [base + 8i, base + 8i + 8).
 */
module PaddingTraits {
  import opened Bits
  import opened Views

  /** `CHAR_BIT` */
  const CharBit: nat := 8

  // ---------------------------------------------------------------------------
  // is_layout_compatible

  /** What `is_layout_compatible` looks at: the type without cv, standard layout, `sizeof` and `alignof`. */
  datatype TypeInfo = TypeInfo(unqualified: nat, standardLayout: bool, size: nat, alignof: nat)

  /**
   * `is_layout_compatible<T, U>` as written: the same type ignoring cv, or
   * standard layout types of the same size whose alignments are both
   * non-zero.
   */
  predicate AsWrittenLayoutCompatible(t: TypeInfo, u: TypeInfo)
  {
    t.unqualified == u.unqualified
    || (t.standardLayout && u.standardLayout && t.size == u.size && t.alignof != 0 && u.alignof != 0)
  }

  /** The heuristic its documentation describes: the same size and the same alignment. */
  predicate IsLayoutCompatible(t: TypeInfo, u: TypeInfo)
  {
    t.unqualified == u.unqualified
    || (t.standardLayout && u.standardLayout && t.size == u.size && t.alignof == u.alignof)
  }

  /**
   * As written, the alignment term holds for every real type, so two
   * standard layout types of 8 bytes aligned to 4 and to 8 (a struct of
   * two `uint32_t` and a `uint64_t`) count as layout compatible.
   */
  lemma AsWrittenIgnoresAlignment()
    ensures AsWrittenLayoutCompatible(TypeInfo(0, true, 8, 4), TypeInfo(1, true, 8, 8))
    ensures !IsLayoutCompatible(TypeInfo(0, true, 8, 4), TypeInfo(1, true, 8, 8))
  {
  }

  /**
   * The corrected check is symmetric, holds for a type and itself with
   * other cv, and between different types only with equal size and
   * alignment; it is never weaker than the check as written.
   */
  lemma LayoutCompatibleSpec(t: TypeInfo, u: TypeInfo)
    ensures IsLayoutCompatible(t, u) == IsLayoutCompatible(u, t)
    ensures t.unqualified == u.unqualified ==> IsLayoutCompatible(t, u)
    ensures IsLayoutCompatible(t, u) && t.unqualified != u.unqualified ==> t.size == u.size && t.alignof == u.alignof
    ensures IsLayoutCompatible(t, u) && t.alignof != 0 ==> AsWrittenLayoutCompatible(t, u)
  {
  }

  // ---------------------------------------------------------------------------
  // the traits

  /** `aggregate_member<T, Member, Ptr, Offset>`: the member's byte offset and `sizeof(Member)`. */
  datatype Member = Member(offset: nat, size: nat)

  /** `padding_traits<T>` of a type of `size` bytes. */
  datatype PaddingTraits =
    | Unspecialized(size: nat)                    // the primary template: no padding known
    | Aggregate(size: nat, members: seq<Member>)  // `padding_traits_aggregate<Members...>`

  /** `is_specialized` */
  predicate IsSpecialized(t: PaddingTraits)
  {
    t.Aggregate?
  }

  /** `padding_between<A, B>::begin` of member i and its successor (or the end): the bit after the member. */
  function GapBegin(t: PaddingTraits, i: nat): nat
    requires t.Aggregate? && i < |t.members|
  {
    (t.members[i].offset + t.members[i].size) * CharBit
  }

  /** `padding_between<A, B>::end`: the next member's first bit, or the object's end after the last member. */
  function GapEnd(t: PaddingTraits, i: nat): nat
    requires t.Aggregate? && i < |t.members|
  {
    if i + 1 < |t.members| then t.members[i + 1].offset * CharBit else t.size * CharBit
  }

  /**
   * What makes the aggregate traits compile: at least one member
   * (`static_assert`) and every gap a valid `subview<begin, end>` of the
   * object's bits, which puts the members in order, apart, inside the object.
   */
  predicate WellFormed(t: PaddingTraits)
  {
    t.Unspecialized?
    || (|t.members| > 0
        && forall i :: 0 <= i < |t.members| ==> GapBegin(t, i) <= GapEnd(t, i) <= t.size * CharBit)
  }

  /** Position p is a bit of member j of the object at `base`. */
  predicate InMember(t: PaddingTraits, base: nat, j: nat, p: nat)
    requires t.Aggregate? && j < |t.members|
  {
    base + t.members[j].offset * CharBit <= p < base + (t.members[j].offset + t.members[j].size) * CharBit
  }

  /** The bits of member j: what `aggregate_member::get` refers to. */
  function MemberView(t: PaddingTraits, base: nat, j: nat): View
    requires t.Aggregate? && j < |t.members|
  {
    Range(base + t.members[j].offset * CharBit, base + (t.members[j].offset + t.members[j].size) * CharBit)
  }

  /** `padding_aggregate_impl` from member i on: each non-empty gap joined before the later ones. */
  function GapsView(t: PaddingTraits, base: nat, i: nat): View
    requires WellFormed(t) && t.Aggregate? && i <= |t.members|
    decreases |t.members| - i
  {
    if i == |t.members| then []
    else if GapBegin(t, i) != GapEnd(t, i) then
      Join(Range(base + GapBegin(t, i), base + GapEnd(t, i)), GapsView(t, base, i + 1))
    else
      GapsView(t, base, i + 1)
  }

  /** `sizeof` of members i.. */
  function SumSizes(t: PaddingTraits, i: nat): nat
    requires t.Aggregate? && i <= |t.members|
    decreases |t.members| - i
  {
    if i == |t.members| then 0 else t.members[i].size + SumSizes(t, i + 1)
  }

  /** p lies in the object from member i's first bit on and in none of members i.. */
  predicate InGapsFrom(t: PaddingTraits, base: nat, i: nat, p: nat)
    requires t.Aggregate? && i < |t.members|
  {
    base + t.members[i].offset * CharBit <= p < base + t.size * CharBit
    && forall j :: i <= j < |t.members| ==> !InMember(t, base, j, p)
  }

  /** A member ends before every later member begins. */
  lemma {:induction false} MembersOrdered(t: PaddingTraits, i: nat, j: nat)
    requires WellFormed(t) && t.Aggregate? && i < j < |t.members|
    ensures t.members[i].offset + t.members[i].size <= t.members[j].offset
    decreases j - i
  {
    assert GapBegin(t, j - 1) <= GapEnd(t, j - 1);
    if i < j - 1 {
      MembersOrdered(t, i, j - 1);
    }
  }

  /** The gap after member i, empty when the next member (or the end) follows at once. */
  function Gap(t: PaddingTraits, base: nat, i: nat): (v: View)
    requires WellFormed(t) && t.Aggregate? && i < |t.members|
    ensures |v| == GapEnd(t, i) - GapBegin(t, i)
    ensures forall p: nat :: p in v <==> base + GapBegin(t, i) <= p < base + GapEnd(t, i)
  {
    var v := Range(base + GapBegin(t, i), base + GapEnd(t, i));
    forall p: nat | base + GapBegin(t, i) <= p < base + GapEnd(t, i)
      ensures p in v
    {
      assert v[p - base - GapBegin(t, i)] == p;
    }
    v
  }

  /** Skipping an empty gap is the same as joining it. */
  lemma GapsSplit(t: PaddingTraits, base: nat, i: nat)
    requires WellFormed(t) && t.Aggregate? && i < |t.members|
    ensures GapsView(t, base, i) == Gap(t, base, i) + GapsView(t, base, i + 1)
    ensures Distinct(Gap(t, base, i))
  {
    RangeDistinct(base + GapBegin(t, i), base + GapEnd(t, i));
    if GapBegin(t, i) == GapEnd(t, i) {
      assert Gap(t, base, i) == [];
    }
  }

  /** A bit is in the gaps from member i on iff it lies from member i's start to the end and in none of members i.. */
  lemma {:induction false} GapsMembership(t: PaddingTraits, base: nat, i: nat, p: nat)
    requires WellFormed(t) && t.Aggregate? && i < |t.members|
    ensures p in GapsView(t, base, i) <==> InGapsFrom(t, base, i, p)
    decreases |t.members| - i
  {
    var n := |t.members|;
    GapsSplit(t, base, i);
    assert GapBegin(t, i) <= GapEnd(t, i) <= t.size * CharBit;
    if i + 1 == n {
      assert GapsView(t, base, i + 1) == [];
      assert GapsView(t, base, i) == Gap(t, base, i);
      assert InGapsFrom(t, base, i, p) <==>
             base + t.members[i].offset * CharBit <= p < base + t.size * CharBit && !InMember(t, base, i, p);
    } else {
      GapsMembership(t, base, i + 1, p);
      GapStep(t, base, i, p);
    }
  }

  /** The step from member i + 1 to member i, for one bit. */
  lemma GapStep(t: PaddingTraits, base: nat, i: nat, p: nat)
    requires WellFormed(t) && t.Aggregate? && i + 1 < |t.members|
    ensures p in Gap(t, base, i) + GapsView(t, base, i + 1) <==> p in Gap(t, base, i) || p in GapsView(t, base, i + 1)
    ensures (p in GapsView(t, base, i + 1) <==> InGapsFrom(t, base, i + 1, p)) ==>
              (p in Gap(t, base, i) || p in GapsView(t, base, i + 1) <==> InGapsFrom(t, base, i, p))
  {
    var n := |t.members|;
    assert GapBegin(t, i) <= GapEnd(t, i) <= t.size * CharBit;
    if p < base + t.members[i + 1].offset * CharBit {
      assert !InGapsFrom(t, base, i + 1, p);
      forall j | i < j < n
        ensures !InMember(t, base, j, p)
      {
        if j > i + 1 {
          MembersOrdered(t, i + 1, j);
        }
      }
      assert p in Gap(t, base, i) <==> base + GapBegin(t, i) <= p;
      if base + GapBegin(t, i) <= p {
        assert !InMember(t, base, i, p);
        assert forall j :: i <= j < n ==> !InMember(t, base, j, p);
        assert InGapsFrom(t, base, i, p);
      }
      if InGapsFrom(t, base, i, p) {
        assert !InMember(t, base, i, p);
        assert base + GapBegin(t, i) <= p;
      }
      assert InGapsFrom(t, base, i, p) <==> base + GapBegin(t, i) <= p;
    } else {
      assert !InMember(t, base, i, p);
    }
  }

  /** The gaps from member i on hold no position twice. */
  lemma {:induction false} GapsDistinct(t: PaddingTraits, base: nat, i: nat)
    requires WellFormed(t) && t.Aggregate? && i < |t.members|
    ensures Distinct(GapsView(t, base, i))
    decreases |t.members| - i
  {
    GapsSplit(t, base, i);
    if i + 1 < |t.members| {
      GapsDistinct(t, base, i + 1);
      GapsDisjoint(t, base, i);
      DistinctJoin(Gap(t, base, i), GapsView(t, base, i + 1));
    }
  }

  /** Gap i lies below every later gap. */
  lemma GapsDisjoint(t: PaddingTraits, base: nat, i: nat)
    requires WellFormed(t) && t.Aggregate? && i + 1 < |t.members|
    ensures Disjoint(Gap(t, base, i), GapsView(t, base, i + 1))
  {
    var gap, rest := Gap(t, base, i), GapsView(t, base, i + 1);
    forall a, b | 0 <= a < |gap| && 0 <= b < |rest|
      ensures gap[a] != rest[b]
    {
      assert gap[a] in gap;
      assert rest[b] in rest;
      GapsMembership(t, base, i + 1, rest[b]);
    }
  }

  /** The gaps from member i on are the object's bits from member i's start less the members' bits. */
  lemma {:induction false} GapsSize(t: PaddingTraits, base: nat, i: nat)
    requires WellFormed(t) && t.Aggregate? && i < |t.members|
    ensures |GapsView(t, base, i)| + (t.members[i].offset + SumSizes(t, i)) * CharBit == t.size * CharBit
    decreases |t.members| - i
  {
    GapsSplit(t, base, i);
    assert GapBegin(t, i) <= GapEnd(t, i);
    if i + 1 < |t.members| {
      GapsSize(t, base, i + 1);
    }
  }

  /**
   * The gaps from member i on hold no position twice, hold exactly the bits
   * from member i's start to the object's end that no member covers, and
   * are as many as the object's bits minus those of the members.
   */
  lemma GapsShape(t: PaddingTraits, base: nat, i: nat)
    requires WellFormed(t) && t.Aggregate? && i < |t.members|
    ensures Distinct(GapsView(t, base, i))
    ensures forall p: nat :: p in GapsView(t, base, i) <==> InGapsFrom(t, base, i, p)
    ensures |GapsView(t, base, i)| + (t.members[i].offset + SumSizes(t, i)) * CharBit == t.size * CharBit
  {
    GapsDistinct(t, base, i);
    GapsSize(t, base, i);
    forall p: nat
      ensures p in GapsView(t, base, i) <==> InGapsFrom(t, base, i, p)
    {
      GapsMembership(t, base, i, p);
    }
  }

  /**
   * `padding_traits<T>::padding_view`: nothing for the primary template;
   * for an aggregate, exactly the bits from the first member to the end of
   * the object that lie in no member, each once.
   */
  function PaddingView(t: PaddingTraits, base: nat): (v: View)
    requires WellFormed(t)
    ensures Distinct(v)
    ensures t.Unspecialized? ==> v == []
    ensures t.Aggregate? ==> forall p: nat :: p in v <==> InGapsFrom(t, base, 0, p)
  {
    if t.Unspecialized? then []
    else
      GapsShape(t, base, 0);
      GapsView(t, base, 0)
  }

  /**
   * `padding_bit_size<T>()`, the size of the padding view: 0 without a
   * specialization, otherwise the object's bits from the first member on
   * less the members' bits.
   */
  function PaddingBitSize(t: PaddingTraits): (r: nat)
    requires WellFormed(t)
    ensures !IsSpecialized(t) ==> r == 0
    ensures IsSpecialized(t) ==> r + (t.members[0].offset + SumSizes(t, 0)) * CharBit == t.size * CharBit
  {
    if t.Aggregate? then
      GapsShape(t, 0, 0);
      |PaddingView(t, 0)|
    else
      |PaddingView(t, 0)|
  }

  /** The padding view has the same size wherever the object lies. */
  lemma PaddingViewSize(t: PaddingTraits, base: nat)
    requires WellFormed(t)
    ensures |PaddingView(t, base)| == PaddingBitSize(t)
  {
    if t.Aggregate? {
      GapsShape(t, base, 0);
      GapsShape(t, 0, 0);
    }
  }

  /** The padding of an object inside the memory lies inside the memory. */
  lemma PaddingFits(t: PaddingTraits, base: nat, mem: Mem)
    requires WellFormed(t) && base + t.size * CharBit <= |mem|
    ensures Fits(PaddingView(t, base), mem)
  {
    var v := PaddingView(t, base);
    forall k | 0 <= k < |v|
      ensures v[k] < |mem|
    {
      assert v[k] in v;
    }
  }

  /** Writing into the padding leaves every member's bits unchanged. */
  lemma PutPaddingKeepsMembers(mem: Mem, t: PaddingTraits, base: nat, bits: nat, j: nat)
    requires WellFormed(t) && t.Aggregate? && j < |t.members| && base + t.size * CharBit <= |mem|
    ensures Fits(PaddingView(t, base), mem) && Fits(MemberView(t, base, j), mem)
    ensures Extract(Put(mem, PaddingView(t, base), bits), MemberView(t, base, j)) == Extract(mem, MemberView(t, base, j))
  {
    PaddingFits(t, base, mem);
    assert GapBegin(t, j) <= GapEnd(t, j) <= t.size * CharBit;
    var v, m := PaddingView(t, base), MemberView(t, base, j);
    forall a, b | 0 <= a < |v| && 0 <= b < |m|
      ensures v[a] != m[b]
    {
      assert v[a] in v;
      assert InMember(t, base, j, m[b]);
    }
    ExtractPutDisjoint(mem, v, m, bits);
  }

  /**
   * A bit of a standard layout object, whose first member is at offset 0,
   * is either a bit of one of its members or a padding bit.
   */
  lemma PaddingComplement(t: PaddingTraits, base: nat, p: nat)
    requires WellFormed(t) && t.Aggregate? && t.members[0].offset == 0
    requires base <= p < base + t.size * CharBit
    ensures p in PaddingView(t, base) <==> forall j :: 0 <= j < |t.members| ==> !InMember(t, base, j, p)
  {
  }

  /**
   * `padding_traits_layout_compatible<T, U>`: T takes U's traits, which
   * must be specialized.  The static assertion is `is_layout_compatible` as
   * written, so T may be aligned differently from U (see
   * `AsWrittenIgnoresAlignment`).
   */
  function LayoutCompatibleTraits(t: TypeInfo, u: TypeInfo, traitsOfU: PaddingTraits): (r: PaddingTraits)
    requires AsWrittenLayoutCompatible(t, u) && IsSpecialized(traitsOfU) && WellFormed(traitsOfU)
    ensures IsSpecialized(r) && WellFormed(r) && PaddingBitSize(r) == PaddingBitSize(traitsOfU)
  {
    traitsOfU
  }

  // ---------------------------------------------------------------------------
  // the tested aggregates

  /** `struct { uint8_t a; uint8_t b; }`: no padding. */
  lemma NoPadding()
    ensures WellFormed(Aggregate(2, [Member(0, 1), Member(1, 1)]))
    ensures PaddingBitSize(Aggregate(2, [Member(0, 1), Member(1, 1)])) == 0
  {
    var t := Aggregate(2, [Member(0, 1), Member(1, 1)]);
    assert GapBegin(t, 0) == 8 && GapEnd(t, 0) == 8;
    assert GapBegin(t, 1) == 16 && GapEnd(t, 1) == 16;
  }

  /** `struct { uint8_t a; uint16_t b; }`: the padding is byte 1, bits [8, 16). */
  lemma SinglePadding(base: nat)
    ensures WellFormed(Aggregate(4, [Member(0, 1), Member(2, 2)]))
    ensures PaddingView(Aggregate(4, [Member(0, 1), Member(2, 2)]), base) == Range(base + 8, base + 16)
    ensures PaddingBitSize(Aggregate(4, [Member(0, 1), Member(2, 2)])) == 8
  {
    var t := Aggregate(4, [Member(0, 1), Member(2, 2)]);
    assert GapBegin(t, 0) == 8 && GapEnd(t, 0) == 16;
    assert GapBegin(t, 1) == 32 && GapEnd(t, 1) == 32;
    assert GapsView(t, base, 1) == [];
    PaddingViewSize(t, base);
  }

  /** Putting all ones into that padding makes byte 1 0xFF and keeps both members. */
  lemma SinglePaddingPut(mem: Mem, base: nat)
    requires base + 32 <= |mem|
    ensures WellFormed(Aggregate(4, [Member(0, 1), Member(2, 2)]))
    ensures Fits(PaddingView(Aggregate(4, [Member(0, 1), Member(2, 2)]), base), mem)
    ensures Fits(Range(base + 8, base + 16), mem)
    ensures Extract(Put(mem, PaddingView(Aggregate(4, [Member(0, 1), Member(2, 2)]), base), AllOnes(64)),
                    Range(base + 8, base + 16)) == 0xFF
  {
    var t := Aggregate(4, [Member(0, 1), Member(2, 2)]);
    SinglePadding(base);
    RangeFits(base + 8, base + 16, mem);
    RangeDistinct(base + 8, base + 16);
    ExtractPut(mem, Range(base + 8, base + 16), AllOnes(64));
    LowBitsAllOnes(64, 8);
    assert Pow2(8) == 256;
  }

  /**
   * `struct { uint8_t a; uint32_t b; uint64_t c; uint8_t d; }`: three bytes
   * after a, seven after d, `(3 + 0 + 0 + 7) * CHAR_BIT` bits in all.
   */
  lemma ComplexPadding(base: nat)
    ensures WellFormed(Aggregate(24, [Member(0, 1), Member(4, 4), Member(8, 8), Member(16, 1)]))
    ensures PaddingView(Aggregate(24, [Member(0, 1), Member(4, 4), Member(8, 8), Member(16, 1)]), base)
         == Range(base + 8, base + 32) + Range(base + 136, base + 192)
    ensures PaddingBitSize(Aggregate(24, [Member(0, 1), Member(4, 4), Member(8, 8), Member(16, 1)])) == (3 + 7) * CharBit
  {
    var t := Aggregate(24, [Member(0, 1), Member(4, 4), Member(8, 8), Member(16, 1)]);
    assert GapBegin(t, 0) == 8 && GapEnd(t, 0) == 32;
    assert GapBegin(t, 1) == 64 && GapEnd(t, 1) == 64;
    assert GapBegin(t, 2) == 128 && GapEnd(t, 2) == 128;
    assert GapBegin(t, 3) == 136 && GapEnd(t, 3) == 192;
    assert GapsView(t, base, 4) == [];
    assert GapsView(t, base, 3) == Range(base + 136, base + 192);
    assert GapsView(t, base, 1) == Range(base + 136, base + 192);
    PaddingViewSize(t, base);
  }
}

=== FILE: pointer_variant_impl.dfy ===
/**
 * pointer_variant_impl.hpp: a pointer to one of several types together with
 * the index (tag) of the type it points to.  The pointer is an
 * `aligned_ptr<const void, A>` for the least alignment A of the types; the
 * tag goes into its `ilog2_ceil(A)` spare bits when they can count to the
 * number of types, and into a separate `std::size_t tag_` otherwise.
 *
 * The aligned pointer `ptr_` is the word at bits [0, 64) of a `Storage`,
 * the object `SpareBits.PointerSpare(A)` at base 0.
 */
module PointerVariantImpl {
  import opened Bits
  import opened Views
  import Ilog2
  import SpareBits
  import AlignedPtr
  import BitView
  import TinyPointerStorage

  type Pointee = TinyPointerStorage.Pointee

  /** `alignment_of<T>()` */
  function AlignmentOf(p: Pointee): nat
  {
    TinyPointerStorage.AlignmentOf(p)
  }

  // ---------------------------------------------------------------------------
  // the storage type

  /** `min(a, b)`: `a < b ? a : b` */
  function Min2(a: nat, b: nat): nat
  {
    if a < b then a else b
  }

  /** The variadic `min(h, tail...)`, which is `min(h, min(tail...))`: the least of the values. */
  function Min(xs: seq<nat>): (m: nat)
    requires |xs| > 0
    ensures m in xs
    ensures forall i :: 0 <= i < |xs| ==> m <= xs[i]
  {
    if |xs| == 1 then xs[0]
    else
      var m := Min(xs[1..]);
      assert forall i :: 1 <= i < |xs| ==> xs[i] == xs[1..][i - 1];
      Min2(xs[0], m)
  }

  /** `alignment_of<Ts>()...` */
  function Alignments(types: seq<Pointee>): (r: seq<nat>)
    ensures |r| == |types|
    ensures forall i :: 0 <= i < |types| ==> r[i] == AlignmentOf(types[i])
  {
    seq(|types|, i requires 0 <= i < |types| => AlignmentOf(types[i]))
  }

  /**
   * What the library needs of `Ts...`: at least one type (`min` of no
   * alignments does not compile), fewer than `SIZE_MAX` of them, and
   * alignments that are powers of two an `aligned_ptr` can promise.
   */
  predicate TypesOk(types: seq<Pointee>)
  {
    0 < |types| < SizeMax
    && forall i :: 0 <= i < |types| ==>
         1 <= AlignmentOf(types[i]) < SizeMod && Ilog2.IsPowerOfTwo(AlignmentOf(types[i]))
  }

  /** The alignment `pointer_variant_storage<Ts...>` promises: the least alignment of the types. */
  function StorageAlignment(types: seq<Pointee>): (a: nat)
    requires TypesOk(types)
    ensures SpareBits.WellFormed(SpareBits.PointerSpare(a))
    ensures forall i :: 0 <= i < |types| ==> a <= AlignmentOf(types[i])
  {
    var xs := Alignments(types);
    var a := Min(xs);
    var i :| 0 <= i < |xs| && xs[i] == a;
    assert a == AlignmentOf(types[i]);
    a
  }

  /** The spare bits traits of `pointer_variant_storage<Ts...>`. */
  function StorageTraits(types: seq<Pointee>): (t: SpareBits.SpareTraits)
    requires TypesOk(types)
    ensures SpareBits.WellFormed(t)
  {
    SpareBits.PointerSpare(StorageAlignment(types))
  }

  /** `spare_bits<pointer_variant_storage<Ts...>>()`: every pointer the storage holds is a multiple of 2^k. */
  function StorageSpareBits(types: seq<Pointee>): (k: nat)
    requires TypesOk(types)
    ensures k <= 64 && k == SpareBits.SpareBitCount(StorageTraits(types))
    ensures Pow2(k) == StorageAlignment(types)
  {
    var a := StorageAlignment(types);
    SpareBits.Ilog2CeilAtMost64(a);
    SpareBits.AlignmentIsPow2(a);
    Ilog2.Ilog2Ceil(a)
  }

  /** `pointer_variant_tag<Ts...>`: the tag is compressed when `(1u << spare_bits) >= sizeof...(Ts)`. */
  predicate IsCompressed(types: seq<Pointee>)
    requires TypesOk(types)
  {
    |types| <= Pow2(StorageSpareBits(types))
  }

  /** The bits a tag 0 .. N-1 needs: `ilog2_ceil(sizeof...(Ts))`. */
  function TagWidth(types: seq<Pointee>): (t: nat)
    requires TypesOk(types)
    ensures t <= 64
    ensures |types| <= Pow2(t)
  {
    SpareBits.Ilog2CeilAtMost64(|types|);
    Ilog2.Ilog2CeilLeast(|types|);
    Ilog2.Ilog2Ceil(|types|)
  }

  /**
   * The tag is compressed exactly when every tag fits the pointer's spare
   * bits, that is when the tag width is at most their number.
   */
  lemma CompressedIff(types: seq<Pointee>)
    requires TypesOk(types)
    ensures IsCompressed(types) <==> TagWidth(types) <= StorageSpareBits(types)
  {
    var t, k := TagWidth(types), StorageSpareBits(types);
    CeilLeast(|types|, t);
    if t <= k {
      Pow2Mono(t, k);
    } else {
      Pow2Mono(k, t - 1);
    }
  }

  /** `ilog2_ceil(n)` is the least t with n <= 2^t. */
  lemma CeilLeast(n: nat, t: nat)
    requires 0 < n < SizeMod && t == Ilog2.Ilog2Ceil(n)
    ensures n <= Pow2(t)
    ensures t > 0 ==> Pow2(t - 1) < n
  {
    Ilog2.Ilog2CeilLeast(n);
  }

  // ---------------------------------------------------------------------------
  // the tag of a type

  /** `get_pointer_tag<T, Ts...>`: `::value` and `::is_valid`. */
  datatype PointerTag = PointerTag(value: nat, valid: bool)

  /** The element type `head` stores pointers to T: it is T itself or `aligned_obj<T, A>`. */
  predicate Names(t: Pointee, head: Pointee)
  {
    head == t || (head.AlignedObj? && t == TinyPointerStorage.Object(head.id, head.alignof))
  }

  /**
   * `tag_of<T>`: the index of the first element type that stores T, valid
   * when there is one; past the end otherwise.
   */
  function TagOf(t: Pointee, types: seq<Pointee>): (r: PointerTag)
    ensures r.valid <==> exists i :: 0 <= i < |types| && Names(t, types[i])
    ensures r.valid ==> r.value < |types| && Names(t, types[r.value])
    ensures r.valid ==> forall j :: 0 <= j < r.value ==> !Names(t, types[j])
    ensures !r.valid ==> r.value == |types|
  {
    if types == [] then PointerTag(0, false)
    else if Names(t, types[0]) then PointerTag(0, true)
    else
      var r := TagOf(t, types[1..]);
      assert forall i :: 1 <= i < |types| ==> types[i] == types[1..][i - 1];
      PointerTag(1 + r.value, r.valid)
  }

  /** Distinct element types that are not `aligned_obj` of one another get distinct tags. */
  lemma TagsDistinct(types: seq<Pointee>, i: nat, j: nat)
    requires i < j < |types|
    requires forall a, b :: 0 <= a < b < |types| ==> !Names(types[a], types[b]) && !Names(types[b], types[a])
    ensures TagOf(types[i], types) == PointerTag(i, true)
    ensures TagOf(types[j], types) == PointerTag(j, true)
  {
    assert Names(types[i], types[i]) && Names(types[j], types[j]);
    var ri, rj := TagOf(types[i], types), TagOf(types[j], types);
  }

  // ---------------------------------------------------------------------------
  // the pointer word

  /** `extract_object(ptr_).get()`: the word of the storage with its spare bits cleared. */
  function GetOf(mem: Mem, types: seq<Pointee>): (p: nat)
    requires TypesOk(types) && |mem| == 64
    ensures p < SizeMod
    ensures AlignedPtr.VerifyAlignment(p, StorageAlignment(types))
  {
    var k := StorageSpareBits(types);
    Pow2SizeMod();
    AlignedPtr.ClearedIsAligned(mem, StorageAlignment(types), 0);
    AlignedPtr.Word(SpareBits.ExtractObject(mem, StorageTraits(types), 0), 0)
  }

  /** `get_tag(ptr_)`: the spare bits of the storage when compressed, `tag_` otherwise. */
  function StoredTagOf(mem: Mem, types: seq<Pointee>, tag: nat): nat
    requires TypesOk(types) && |mem| == 64
  {
    var k := StorageSpareBits(types);
    if IsCompressed(types) then SpareBits.ExtractSpareBits(mem, StorageTraits(types), 0) else tag
  }

  /** Storing `address` and then putting the tag into the spare bits: both read back. */
  lemma ResetCompressed(mem: Mem, types: seq<Pointee>, address: nat, value: nat)
    requires TypesOk(types) && |mem| == 64 && IsCompressed(types) && value < |types|
    requires address < SizeMod && AlignedPtr.VerifyAlignment(address, StorageAlignment(types))
    ensures Fits(Range(0, 64), mem)
    ensures SpareBits.Inside(StorageTraits(types), 0, Put(mem, Range(0, 64), address))
    ensures value < Pow2(SpareBits.SpareBitCount(StorageTraits(types)))
    ensures GetOf(SpareBits.PutSpare(Put(mem, Range(0, 64), address), StorageTraits(types), 0, value), types) == address
    ensures StoredTagOf(SpareBits.PutSpare(Put(mem, Range(0, 64), address), StorageTraits(types), 0, value), types, 0) == value
  {
    var a := StorageAlignment(types);
    var traits := StorageTraits(types);
    var k := StorageSpareBits(types);
    PointerVariant.WrittenWord(mem, a, address);
    var written := Put(mem, Range(0, 64), address);
    var final := SpareBits.PutSpare(written, traits, 0, value);
    SpareBits.ClearAfterPut(written, traits, 0, value);
    SpareBits.ExtractAfterPut(written, traits, 0, value);
    assert SpareBits.ExtractObject(final, traits, 0) == written;
  }

  /** Storing `address` alone: `get()` reads it back. */
  lemma ResetUncompressed(mem: Mem, types: seq<Pointee>, address: nat, value: nat)
    requires TypesOk(types) && |mem| == 64
    requires address < SizeMod && AlignedPtr.VerifyAlignment(address, StorageAlignment(types))
    ensures Fits(Range(0, 64), mem)
    ensures GetOf(Put(mem, Range(0, 64), address), types) == address
  {
    var a := StorageAlignment(types);
    var traits := StorageTraits(types);
    var k := StorageSpareBits(types);
    PointerVariant.WrittenWord(mem, a, address);
    var written := Put(mem, Range(0, 64), address);
    assert SpareBits.ExtractObject(written, traits, 0) == written;
  }

  // ---------------------------------------------------------------------------
  // the variant

  class PointerVariant {
    const types: seq<Pointee>
    /** `ptr_`, the aligned pointer, at bits [0, 64) */
    const ptr: Storage
    /** `tag_` of the uncompressed tag storage; unused when the tag is compressed */
    var tag: nat

    ghost predicate Valid()
      reads this, ptr
    {
      TypesOk(types) && |ptr.mem| == 64 && tag < SizeMod
    }

    /** `get()`: the pointer without the spare bits, `extract_object(ptr_).get()`. */
    function Get(): (p: nat)
      requires Valid()
      reads this, ptr
      ensures p < SizeMod
      ensures AlignedPtr.VerifyAlignment(p, StorageAlignment(types))
    {
      GetOf(ptr.mem, types)
    }

    /** `has_value()`: `extract_object(ptr_) != nullptr` */
    predicate HasValue()
      requires Valid()
      reads this, ptr
    {
      Get() != 0
    }

    /** `get_tag(ptr_)`: the pointer's spare bits when compressed, `tag_` otherwise. */
    function StoredTag(): nat
      requires Valid()
      reads this, ptr
    {
      StoredTagOf(ptr.mem, types, tag)
    }

    /** `tag()`: the stored tag, or `std::size_t(-1)` without a pointer. */
    function Tag(): nat
      requires Valid()
      reads this, ptr
    {
      if HasValue() then StoredTag() else SizeMax
    }

    /**
     * `pointer_to<T>()`: requires the variant to hold a T.  Since no tag is
     * `SIZE_MAX`, such a variant has a value and the pointer is not null.
     */
    function PointerTo(t: Pointee): (p: nat)
      requires Valid() && TagOf(t, types).valid && Tag() == TagOf(t, types).value
      reads this, ptr
      ensures p != 0 && p == Get()
    {
      Get()
    }

    /** `pointer_variant_impl(nullptr)`, which is `reset(nullptr)`. */
    constructor Null(types: seq<Pointee>, ptr: Storage)
      requires TypesOk(types) && |ptr.mem| == 64
      modifies ptr
      ensures this.types == types && this.ptr == ptr && Valid()
      ensures !HasValue() && Tag() == SizeMax && Get() == 0
    {
      this.types := types;
      this.ptr := ptr;
      tag := 0;
      new;
      ResetNull();
    }

    /** `pointer_variant_impl(T* ptr)`, which is `reset(ptr)`. */
    constructor (types: seq<Pointee>, ptr: Storage, t: Pointee, address: nat)
      requires TypesOk(types) && |ptr.mem| == 64
      requires TagOf(t, types).valid
      requires address < SizeMod && AlignedPtr.VerifyAlignment(address, StorageAlignment(types))
      modifies ptr
      ensures this.types == types && this.ptr == ptr && Valid()
      ensures Get() == address
      ensures HasValue() <==> address != 0
      ensures address != 0 ==> Tag() == TagOf(t, types).value
      ensures address == 0 ==> Tag() == SizeMax
    {
      this.types := types;
      this.ptr := ptr;
      tag := 0;
      new;
      Reset(t, address);
    }

    /** Writing `address` into the pointer word, which passes the alignment check, leaves no spare bit set. */
    static lemma WrittenWord(mem: Mem, a: nat, address: nat)
      requires |mem| == 64 && SpareBits.WellFormed(SpareBits.PointerSpare(a))
      requires address < SizeMod && AlignedPtr.VerifyAlignment(address, a)
      ensures Fits(Range(0, 64), mem)
      ensures AlignedPtr.Word(Put(mem, Range(0, 64), address), 0) == address
      ensures SpareBits.Inside(SpareBits.PointerSpare(a), 0, Put(mem, Range(0, 64), address))
      ensures SpareBits.ExtractSpareBits(Put(mem, Range(0, 64), address), SpareBits.PointerSpare(a), 0) == 0
      ensures SpareBits.ClearSpare(Put(mem, Range(0, 64), address), SpareBits.PointerSpare(a), 0)
           == Put(mem, Range(0, 64), address)
    {
      WordAfterWrite(mem, address);
      AlignedPtr.CheckedPointerHasZeroSpare(Put(mem, Range(0, 64), address), a, 0);
    }

    static lemma WordAfterWrite(mem: Mem, address: nat)
      requires |mem| == 64 && address < SizeMod
      ensures Fits(Range(0, 64), mem)
      ensures AlignedPtr.Word(Put(mem, Range(0, 64), address), 0) == address
    {
      RangeFits(0, 64, mem);
      RangeDistinct(0, 64);
      ExtractPut(mem, Range(0, 64), address);
      Pow2SizeMod();
      LowBitsId(address, 64);
    }

    /** `reset(nullptr)`: `ptr_ = nullptr`. */
    method ResetNull()
      requires Valid()
      modifies ptr
      ensures Valid()
      ensures !HasValue() && Tag() == SizeMax && Get() == 0
    {
      ResetUncompressed(ptr.mem, types, 0, 0);
      ptr.Write(Range(0, 64), 0);
    }

    /**
     * `reset(T* ptr)`: T must be one of the element types (a static
     * assertion) and the pointer aligned as the storage promises (the
     * `aligned_ptr` constructor's check); the tag goes into the spare bits
     * or `tag_`.
     */
    method Reset(t: Pointee, address: nat)
      requires Valid() && TagOf(t, types).valid
      requires address < SizeMod && AlignedPtr.VerifyAlignment(address, StorageAlignment(types))
      modifies this, ptr
      ensures Valid()
      ensures Get() == address
      ensures HasValue() <==> address != 0
      ensures address != 0 ==> Tag() == TagOf(t, types).value
      ensures address == 0 ==> Tag() == SizeMax
    {
      var value := TagOf(t, types).value;
      if IsCompressed(types) {
        StoreCompressed(address, value);
      } else {
        StoreUncompressed(address, value);
      }
    }

    /** The compressed half of `reset`: the pointer, then the tag into its spare bits. */
    method StoreCompressed(address: nat, value: nat)
      requires Valid() && IsCompressed(types) && value < |types|
      requires address < SizeMod && AlignedPtr.VerifyAlignment(address, StorageAlignment(types))
      modifies ptr
      ensures Valid() && Get() == address && StoredTag() == value
    {
      ResetCompressed(ptr.mem, types, address, value);
      ptr.Write(Range(0, 64), address);
      SpareBits.PutSpareBits(ptr, StorageTraits(types), 0, value);
    }

    /** The uncompressed half of `reset`: the pointer, and the tag into `tag_`. */
    method StoreUncompressed(address: nat, value: nat)
      requires Valid() && !IsCompressed(types) && value < |types|
      requires address < SizeMod && AlignedPtr.VerifyAlignment(address, StorageAlignment(types))
      modifies this, ptr
      ensures Valid() && Get() == address && StoredTag() == value
    {
      ResetUncompressed(ptr.mem, types, address, value);
      ptr.Write(Range(0, 64), address);
      tag := value;
    }

    // -------------------------------------------------------------------------
    // `spare_bits_traits<pointer_variant_impl<Ts...>>`

    /**
     * `extract`: compressed, the aligned pointer's own extract, which reads
     * every spare bit of the pointer, the tag among them; uncompressed,
     * bits [tag width, 64) of `tag_`.
     */
    function ExtractSpare(): nat
      requires Valid()
      reads this, ptr
    {
      if IsCompressed(types) then SpareBits.ExtractSpareBits(ptr.mem, StorageTraits(types), 0)
      else BitView.SingleExtract(tag, TagWidth(types), 64, 64)
    }

    /**
     * `put(bits)`: compressed, the aligned pointer's own put, which writes
     * every spare bit of the pointer and so overwrites the tag with `bits`;
     * uncompressed, bits [tag width, 64) of `tag_`, which keeps the tag
     * bits.  Either way the pointer stays and `extract` gives `bits` back.
     * Nothing asserts the advertised `spare_bits`: a modifier puts back
     * what `extract` gave, the tag included, so the compressed bound is
     * the width of the pointer's whole spare view.
     */
    method PutSpare(bits: nat)
      requires Valid()
      requires bits < Pow2(if IsCompressed(types) then StorageSpareBits(types) else VariantSpareBits(types))
      modifies this, ptr
      ensures Valid()
      ensures IsCompressed(types) ==>
                ptr.mem == SpareBits.PutSpare(old(ptr.mem), StorageTraits(types), 0, bits) && tag == old(tag)
                && StoredTag() == bits
      ensures !IsCompressed(types) ==>
                ptr.mem == old(ptr.mem) && tag == BitView.SinglePut(old(tag), TagWidth(types), 64, 64, bits)
                && LowBits(StoredTag(), TagWidth(types)) == LowBits(old(StoredTag()), TagWidth(types))
      ensures Get() == old(Get())
      ensures ExtractSpare() == bits
    {
      ghost var mem0, tag0 := ptr.mem, tag;
      if IsCompressed(types) {
        AsWrittenPut(mem0, types, tag0, bits);
        PutSpareCompressed(bits);
      } else {
        Pow2SizeMod();
        UncompressedPut(tag0, TagWidth(types), 64, bits);
        PutSpareUncompressed(bits);
        assert StoredTag() == tag;
      }
    }

    /** `put` of a compressed variant: `impl_traits::put(ptr_, bits)`, into all the pointer's spare bits. */
    method PutSpareCompressed(bits: nat)
      requires Valid() && IsCompressed(types) && bits < Pow2(StorageSpareBits(types))
      modifies ptr
      ensures Valid()
      ensures ptr.mem == SpareBits.PutSpare(old(ptr.mem), StorageTraits(types), 0, bits)
    {
      SpareBits.PutSpareBits(ptr, StorageTraits(types), 0, bits);
    }

    /** `clear` of a compressed variant: `impl_traits::clear(ptr_)`, every spare bit of the pointer. */
    method ClearSpareCompressed()
      requires Valid() && IsCompressed(types)
      modifies ptr
      ensures Valid()
      ensures ptr.mem == SpareBits.ClearSpare(old(ptr.mem), StorageTraits(types), 0)
    {
      SpareBits.ClearSpareBits(ptr, StorageTraits(types), 0);
    }

    /** `put` of an uncompressed variant: the bits go into `tag_` above the tag. */
    method PutSpareUncompressed(bits: nat)
      requires Valid() && !IsCompressed(types)
      modifies this
      ensures Valid()
      ensures tag == BitView.SinglePut(old(tag), TagWidth(types), 64, 64, bits)
    {
      Pow2SizeMod();
      BitView.SinglePutBits(tag, TagWidth(types), 64, 64, bits);
      tag := BitView.SinglePut(tag, TagWidth(types), 64, 64, bits);
    }

    /**
     * `clear`: compressed, the aligned pointer's own clear, which zeroes
     * every spare bit and so leaves tag 0 behind (see
     * `ClearTurnsInt64IntoInt32`); uncompressed, `put(0)`, after which
     * `tag_` holds the tag bits alone, so a variant whose `tag_` fits the
     * tag width keeps its tag.
     */
    method ClearSpare()
      requires Valid()
      modifies this, ptr
      ensures Valid()
      ensures IsCompressed(types) ==>
                ptr.mem == SpareBits.ClearSpare(old(ptr.mem), StorageTraits(types), 0) && tag == old(tag)
                && StoredTag() == 0
      ensures !IsCompressed(types) ==>
                ptr.mem == old(ptr.mem) && tag == LowBits(old(tag), TagWidth(types))
                && (old(tag) < Pow2(TagWidth(types)) ==> Tag() == old(Tag()))
      ensures Get() == old(Get())
      ensures ExtractSpare() == 0
    {
      var w := TagWidth(types);
      ghost var mem0, tag0 := ptr.mem, tag;
      if IsCompressed(types) {
        AsWrittenClear(mem0, types, tag0);
        ClearSpareCompressed();
      } else {
        Pow2SizeMod();
        UncompressedPut(tag0, w, 64, 0);
        PutSpareUncompressed(0);
        if tag0 < Pow2(w) {
          LowBitsId(tag0, w);
          assert tag == tag0;
        }
      }
    }
  }

  /**
   * `spare_bits`: the size of the traits' bit view, [tag width, spare bits
   * of the pointer) when compressed and [tag width, 64) of `tag_` otherwise.
   */
  function VariantSpareBits(types: seq<Pointee>): (n: nat)
    requires TypesOk(types)
    ensures n <= 64
    ensures IsCompressed(types) ==> n + TagWidth(types) == StorageSpareBits(types)
    ensures !IsCompressed(types) ==> n + TagWidth(types) == 64
  {
    CompressedIff(types);
    if IsCompressed(types) then StorageSpareBits(types) - TagWidth(types) else 64 - TagWidth(types)
  }

  /**
   * The uncompressed traits' view of `tag_` above the tag: a put is read
   * back by extract, keeps the tag bits below it and keeps `tag_` a
   * `std::size_t`; putting 0 leaves the tag alone.
   */
  lemma UncompressedPut(tag: nat, w: nat, e: nat, bits: nat)
    requires e <= 64 && tag < Pow2(e) && w <= e && bits < Pow2(e - w)
    ensures BitView.SinglePut(tag, w, e, e, bits) < Pow2(e)
    ensures BitView.SingleExtract(BitView.SinglePut(tag, w, e, e, bits), w, e, e) == bits
    ensures LowBits(BitView.SinglePut(tag, w, e, e, bits), w) == LowBits(tag, w)
    ensures BitView.SinglePut(tag, w, e, e, 0) == LowBits(tag, w)
  {
    BitView.SinglePutBits(tag, w, e, e, bits);
    UncompressedExtract(tag, w, e, bits);
    UncompressedKeepsTag(tag, w, e, bits);
    UncompressedClear(tag, w, e);
  }

  lemma UncompressedExtract(tag: nat, w: nat, e: nat, bits: nat)
    requires w <= e <= BitView.MaxBits && tag < Pow2(e) && bits < Pow2(e - w)
    ensures BitView.SingleExtract(BitView.SinglePut(tag, w, e, e, bits), w, e, e) == bits
  {
    var r := BitView.SinglePut(tag, w, e, e, bits);
    var x := BitView.SingleExtract(r, w, e, e);
    forall j: nat
      ensures Bit(x, j) == Bit(bits, j)
    {
      BitView.SingleExtractBits(r, w, e, e, j);
      if j < e - w {
        PutBitAt(tag, w, e, bits, w + j);
      } else {
        BitAboveBound(bits, e - w, j);
      }
    }
    BitsExt(x, bits);
  }

  lemma UncompressedKeepsTag(tag: nat, w: nat, e: nat, bits: nat)
    requires w <= e <= BitView.MaxBits && tag < Pow2(e)
    ensures LowBits(BitView.SinglePut(tag, w, e, e, bits), w) == LowBits(tag, w)
  {
    var r := BitView.SinglePut(tag, w, e, e, bits);
    forall j: nat
      ensures Bit(LowBits(r, w), j) == Bit(LowBits(tag, w), j)
    {
      BitLowBits(r, w, j);
      BitLowBits(tag, w, j);
      PutBitAt(tag, w, e, bits, j);
    }
    BitsExt(LowBits(r, w), LowBits(tag, w));
  }

  lemma UncompressedClear(tag: nat, w: nat, e: nat)
    requires w <= e <= BitView.MaxBits && tag < Pow2(e)
    ensures BitView.SinglePut(tag, w, e, e, 0) == LowBits(tag, w)
  {
    var z := BitView.SinglePut(tag, w, e, e, 0);
    forall j: nat
      ensures Bit(z, j) == Bit(LowBits(tag, w), j)
    {
      PutBitAt(tag, w, e, 0, j);
      BitLowBits(tag, w, j);
      if j >= w {
        BitZero(j - w);
      }
      if j >= e {
        BitAboveBound(tag, e, j);
      }
    }
    BitsExt(z, LowBits(tag, w));
  }

  /** One bit of a single-cell put into [w, e). */
  lemma PutBitAt(tag: nat, w: nat, e: nat, bits: nat, j: nat)
    requires w <= e <= BitView.MaxBits && tag < Pow2(e)
    ensures Bit(BitView.SinglePut(tag, w, e, e, bits), j) == if w <= j < e then Bit(bits, j - w) else Bit(tag, j)
  {
    BitView.SinglePutBits(tag, w, e, e, bits);
  }

  // ---------------------------------------------------------------------------
  // the compressed spare bits traits overwrite the tag

  /**
   * As written, the compressed traits' `clear` is the pointer's own: it
   * clears every spare bit, so the tag a variant stored there is read back
   * as 0.
   */
  lemma AsWrittenClearLosesTag(mem: Mem, types: seq<Pointee>)
    requires TypesOk(types) && IsCompressed(types) && |mem| == 64
    requires SpareBits.ExtractSpareBits(mem, StorageTraits(types), 0) != 0
    ensures SpareBits.ExtractSpareBits(SpareBits.ClearSpare(mem, StorageTraits(types), 0), StorageTraits(types), 0) == 0
  {
    var k := StorageSpareBits(types);
    SpareBits.ClearIsPutZero(mem, StorageTraits(types), 0);
    SpareBits.ExtractAfterPut(mem, StorageTraits(types), 0, 0);
  }

  /**
   * As written, the compressed traits' `put` is the pointer's own: `get()`
   * is kept, and the bits fill every spare bit, so `extract` and `get_tag`
   * both read them back; the tag is gone.
   */
  lemma AsWrittenPut(mem: Mem, types: seq<Pointee>, tag: nat, bits: nat)
    requires TypesOk(types) && IsCompressed(types) && |mem| == 64
    requires bits < Pow2(StorageSpareBits(types))
    ensures SpareBits.Inside(StorageTraits(types), 0, mem)
    ensures GetOf(SpareBits.PutSpare(mem, StorageTraits(types), 0, bits), types) == GetOf(mem, types)
    ensures SpareBits.ExtractSpareBits(SpareBits.PutSpare(mem, StorageTraits(types), 0, bits), StorageTraits(types), 0)
         == bits
    ensures StoredTagOf(SpareBits.PutSpare(mem, StorageTraits(types), 0, bits), types, tag) == bits
  {
    var t := StorageTraits(types);
    SpareBits.ClearAfterPut(mem, t, 0, bits);
    SpareBits.ExtractAfterPut(mem, t, 0, bits);
  }

  /** As written, the compressed traits' `clear` is the pointer's own: `get()` is kept and the tag reads 0. */
  lemma AsWrittenClear(mem: Mem, types: seq<Pointee>, tag: nat)
    requires TypesOk(types) && IsCompressed(types) && |mem| == 64
    ensures SpareBits.Inside(StorageTraits(types), 0, mem)
    ensures GetOf(SpareBits.ClearSpare(mem, StorageTraits(types), 0), types) == GetOf(mem, types)
    ensures SpareBits.ExtractSpareBits(SpareBits.ClearSpare(mem, StorageTraits(types), 0), StorageTraits(types), 0) == 0
    ensures StoredTagOf(SpareBits.ClearSpare(mem, StorageTraits(types), 0), types, tag) == 0
  {
    SpareBits.ClearIsPutZero(mem, StorageTraits(types), 0);
    AsWrittenPut(mem, types, tag, 0);
  }

  /** The spare bits the compressed traits evidently meant: bits [tag width, spare bits) of the pointer. */
  function CorrectedSpareView(types: seq<Pointee>): (v: View)
    requires TypesOk(types) && IsCompressed(types)
    ensures |v| == VariantSpareBits(types)
    ensures forall i :: 0 <= i < |v| ==> TagWidth(types) <= v[i] < StorageSpareBits(types)
  {
    CompressedIff(types);
    Range(TagWidth(types), StorageSpareBits(types))
  }

  /**
   * With the corrected view a put is read back, leaves the tag bits
   * [0, tag width) and the address bits [spare bits, 64) alone, and
   * clearing afterwards restores a variant that had nothing there.
   */
  lemma CorrectedSpareKeepsTag(mem: Mem, types: seq<Pointee>, bits: nat)
    requires TypesOk(types) && IsCompressed(types) && |mem| == 64
    requires bits < Pow2(VariantSpareBits(types))
    ensures Fits(CorrectedSpareView(types), mem)
    ensures Extract(Put(mem, CorrectedSpareView(types), bits), CorrectedSpareView(types)) == bits
    ensures forall p :: 0 <= p < 64 && (p < TagWidth(types) || StorageSpareBits(types) <= p) ==>
              Put(mem, CorrectedSpareView(types), bits)[p] == mem[p]
    ensures Extract(mem, CorrectedSpareView(types)) == 0 ==>
              Put(Put(mem, CorrectedSpareView(types), bits), CorrectedSpareView(types), 0) == mem
  {
    var v := CorrectedSpareView(types);
    CompressedIff(types);
    RangeFits(TagWidth(types), StorageSpareBits(types), mem);
    RangeDistinct(TagWidth(types), StorageSpareBits(types));
    ExtractPut(mem, v, bits);
    LowBitsId(bits, |v|);
    forall p | 0 <= p < 64 && (p < TagWidth(types) || StorageSpareBits(types) <= p)
      ensures Put(mem, v, bits)[p] == mem[p]
    {
      PutOutside(mem, v, bits, p);
    }
    PutPut(mem, v, bits, 0);
    if Extract(mem, v) == 0 {
      PutExtract(mem, v);
    }
  }

  /**
   * What the variant's compressed `put` through the corrected view does:
   * `get()` is kept, `extract` gives the bits back, the tag bits of
   * `get_tag` are kept, and putting 0 leaves `get_tag` reading them alone.
   */
  lemma CorrectedPut(mem: Mem, types: seq<Pointee>, tag: nat, bits: nat)
    requires TypesOk(types) && IsCompressed(types) && |mem| == 64
    requires bits < Pow2(VariantSpareBits(types))
    ensures Fits(CorrectedSpareView(types), mem)
    ensures GetOf(Put(mem, CorrectedSpareView(types), bits), types) == GetOf(mem, types)
    ensures Extract(Put(mem, CorrectedSpareView(types), bits), CorrectedSpareView(types)) == bits
    ensures LowBits(StoredTagOf(Put(mem, CorrectedSpareView(types), bits), types, tag), TagWidth(types))
         == LowBits(StoredTagOf(mem, types, tag), TagWidth(types))
    ensures bits == 0 ==>
              (StoredTagOf(Put(mem, CorrectedSpareView(types), bits), types, tag)
               == LowBits(StoredTagOf(mem, types, tag), TagWidth(types)))
  {
    var v := CorrectedSpareView(types);
    RangeFits(TagWidth(types), StorageSpareBits(types), mem);
    RangeDistinct(TagWidth(types), StorageSpareBits(types));
    ExtractPut(mem, v, bits);
    LowBitsId(bits, |v|);
    CorrectedPutKeepsPointer(mem, types, bits);
    CorrectedPutKeepsTagBits(mem, types, bits);
  }

  /** A put through the corrected view leaves the bits that `extract_object` keeps, so `get()` is unchanged. */
  lemma CorrectedPutKeepsPointer(mem: Mem, types: seq<Pointee>, bits: nat)
    requires TypesOk(types) && IsCompressed(types) && |mem| == 64
    ensures Fits(CorrectedSpareView(types), mem)
    ensures GetOf(Put(mem, CorrectedSpareView(types), bits), types) == GetOf(mem, types)
  {
    var t := StorageTraits(types);
    var k, w := StorageSpareBits(types), TagWidth(types);
    CompressedIff(types);
    RangeFits(w, k, mem);
    var m := Put(mem, CorrectedSpareView(types), bits);
    SpareBits.PointerPutIsRange(mem, StorageAlignment(types), 0, 0);
    SpareBits.PointerPutIsRange(m, StorageAlignment(types), 0, 0);
    SpareBits.ClearIsPutZero(mem, t, 0);
    SpareBits.ClearIsPutZero(m, t, 0);
    forall p | 0 <= p < 64
      ensures Put(m, Range(0, k), 0)[p] == Put(mem, Range(0, k), 0)[p]
    {
      PutRangeAt(m, 0, k, 0, p);
      PutRangeAt(mem, 0, k, 0, p);
      PutRangeAt(mem, w, k, bits, p);
    }
    assert Put(m, Range(0, k), 0) == Put(mem, Range(0, k), 0);
  }

  /** Bit j of the range [0, k) after a put into [w, k). */
  lemma RangePutBit(mem: Mem, w: nat, k: nat, bits: nat, j: nat)
    requires w <= k <= |mem|
    ensures Fits(Range(w, k), mem) && Fits(Range(0, k), mem)
    ensures Bit(Extract(Put(mem, Range(w, k), bits), Range(0, k)), j)
         == (j < k && if w <= j then Bit(bits, j - w) else Bit(Extract(mem, Range(0, k)), j))
  {
    RangeFits(w, k, mem);
    var m := Put(mem, Range(w, k), bits);
    ExtractRangeBit(m, 0, k, j);
    ExtractRangeBit(mem, 0, k, j);
    if j < k {
      PutRangeAt(mem, w, k, bits, j);
    }
  }

  /** A put into [w, k) keeps the low w bits of what the range [0, k) extracts. */
  lemma RangePutKeepsLow(mem: Mem, w: nat, k: nat, bits: nat)
    requires w <= k <= |mem|
    ensures Fits(Range(w, k), mem) && Fits(Range(0, k), mem)
    ensures LowBits(Extract(Put(mem, Range(w, k), bits), Range(0, k)), w) == LowBits(Extract(mem, Range(0, k)), w)
  {
    RangeFits(w, k, mem);
    RangeFits(0, k, mem);
    var before, after := Extract(mem, Range(0, k)), Extract(Put(mem, Range(w, k), bits), Range(0, k));
    forall j: nat
      ensures Bit(LowBits(after, w), j) == Bit(LowBits(before, w), j)
    {
      BitLowBits(after, w, j);
      BitLowBits(before, w, j);
      RangePutBit(mem, w, k, bits, j);
      if j >= k {
        RangeBitAbove(mem, k, j);
      }
    }
    BitsExt(LowBits(after, w), LowBits(before, w));
  }

  /** Putting 0 into [w, k) leaves the range [0, k) extracting its low w bits alone. */
  lemma RangeClearLeavesLow(mem: Mem, w: nat, k: nat)
    requires w <= k <= |mem|
    ensures Fits(Range(w, k), mem) && Fits(Range(0, k), mem)
    ensures Extract(Put(mem, Range(w, k), 0), Range(0, k)) == LowBits(Extract(mem, Range(0, k)), w)
  {
    RangeFits(w, k, mem);
    RangeFits(0, k, mem);
    var before, after := Extract(mem, Range(0, k)), Extract(Put(mem, Range(w, k), 0), Range(0, k));
    forall j: nat
      ensures Bit(after, j) == Bit(LowBits(before, w), j)
    {
      BitLowBits(before, w, j);
      RangePutBit(mem, w, k, 0, j);
      if w <= j {
        BitZero(j - w);
      }
      if j >= k {
        RangeBitAbove(mem, k, j);
      }
    }
    BitsExt(after, LowBits(before, w));
  }

  /** The range [0, k) extracts no bit at or above k. */
  lemma RangeBitAbove(mem: Mem, k: nat, j: nat)
    requires k <= |mem| && k <= j
    ensures Fits(Range(0, k), mem)
    ensures !Bit(Extract(mem, Range(0, k)), j)
  {
    ExtractRangeBit(mem, 0, k, j);
  }

  /**
   * Through the corrected view, a put keeps the tag width's low bits of
   * what `get_tag` reads, and putting 0 leaves `get_tag` reading the tag
   * bits alone.
   */
  lemma CorrectedPutKeepsTagBits(mem: Mem, types: seq<Pointee>, bits: nat)
    requires TypesOk(types) && IsCompressed(types) && |mem| == 64
    ensures Fits(CorrectedSpareView(types), mem)
    ensures LowBits(StoredTagOf(Put(mem, CorrectedSpareView(types), bits), types, 0), TagWidth(types))
         == LowBits(StoredTagOf(mem, types, 0), TagWidth(types))
    ensures StoredTagOf(Put(mem, CorrectedSpareView(types), 0), types, 0)
         == LowBits(StoredTagOf(mem, types, 0), TagWidth(types))
  {
    var t := StorageTraits(types);
    var k, w := StorageSpareBits(types), TagWidth(types);
    CompressedIff(types);
    var m := Put(mem, CorrectedSpareView(types), bits);
    var z := Put(mem, CorrectedSpareView(types), 0);
    RangePutKeepsLow(mem, w, k, bits);
    RangeClearLeavesLow(mem, w, k);
    SpareBits.ExtractIsExtractOfView(mem, t, 0);
    SpareBits.ExtractIsExtractOfView(m, t, 0);
    SpareBits.ExtractIsExtractOfView(z, t, 0);
    assert SpareBits.SpareView(t, 0) == Range(0, k);
  }

  // ---------------------------------------------------------------------------
  // the tested variants

  // int32_t, int64_t, const char, const uint32_t, char, signed char
  const Int32: Pointee := TinyPointerStorage.Object(0, 4)
  const Int64: Pointee := TinyPointerStorage.Object(1, 8)
  const ConstChar: Pointee := TinyPointerStorage.Object(2, 1)
  const ConstUInt32: Pointee := TinyPointerStorage.Object(3, 4)
  const Char: Pointee := TinyPointerStorage.Object(4, 1)
  const SignedChar: Pointee := TinyPointerStorage.Object(5, 1)

  /** `pointer_variant_impl<int32_t, int64_t, const char>`: alignment 1, no spare bits, not compressed. */
  lemma NormalNotCompressed()
    ensures TypesOk([Int32, Int64, ConstChar])
    ensures StorageAlignment([Int32, Int64, ConstChar]) == 1
    ensures !IsCompressed([Int32, Int64, ConstChar])
    ensures VariantSpareBits([Int32, Int64, ConstChar]) == 62
  {
    var ts := [Int32, Int64, ConstChar];
    Ilog2.IsPowerOfTwoIff(1);
    Ilog2.IsPowerOfTwoIff(4);
    Ilog2.IsPowerOfTwoIff(8);
    assert Pow2(0) == 1 && Pow2(2) == 4 && Pow2(3) == 8;
    assert AlignmentOf(ts[2]) == 1;
    Ilog2.Octave(3, 1);
  }

  /** `pointer_variant_impl<int32_t, aligned_obj<char, 2>, const char>`: alignment 1, not compressed. */
  lemma AlignedObjNotCompressed()
    ensures TypesOk([Int32, TinyPointerStorage.AlignedObj(4, 1, 2), ConstChar])
    ensures StorageAlignment([Int32, TinyPointerStorage.AlignedObj(4, 1, 2), ConstChar]) == 1
    ensures !IsCompressed([Int32, TinyPointerStorage.AlignedObj(4, 1, 2), ConstChar])
    ensures TagOf(Char, [Int32, TinyPointerStorage.AlignedObj(4, 1, 2), ConstChar]) == PointerTag(1, true)
  {
    var ts := [Int32, TinyPointerStorage.AlignedObj(4, 1, 2), ConstChar];
    Ilog2.IsPowerOfTwoIff(1);
    Ilog2.IsPowerOfTwoIff(2);
    Ilog2.IsPowerOfTwoIff(4);
    assert Pow2(0) == 1 && Pow2(1) == 2 && Pow2(2) == 4;
    assert AlignmentOf(ts[2]) == 1;
    assert !Names(Char, ts[0]) && Names(Char, ts[1]);
  }

  /**
   * `pointer_variant_impl<int32_t, int64_t, const uint32_t>`: alignment 4,
   * two spare bits for three tags, compressed, and no spare bits left for
   * the variant's traits.
   */
  lemma NormalCompressed()
    ensures TypesOk([Int32, Int64, ConstUInt32])
    ensures StorageAlignment([Int32, Int64, ConstUInt32]) == 4
    ensures StorageSpareBits([Int32, Int64, ConstUInt32]) == 2
    ensures IsCompressed([Int32, Int64, ConstUInt32])
    ensures VariantSpareBits([Int32, Int64, ConstUInt32]) == 0
    ensures TagOf(Int64, [Int32, Int64, ConstUInt32]) == PointerTag(1, true)
  {
    var ts := [Int32, Int64, ConstUInt32];
    Ilog2.IsPowerOfTwoIff(4);
    Ilog2.IsPowerOfTwoIff(8);
    assert Pow2(2) == 4 && Pow2(3) == 8;
    assert AlignmentOf(ts[0]) == 4 && AlignmentOf(ts[1]) == 8 && AlignmentOf(ts[2]) == 4;
    Ilog2.Octave(3, 1);
    Ilog2.Octave(4, 2);
    assert !Names(Int64, ts[0]) && Names(Int64, ts[1]);
  }

  /** `pointer_variant_impl<int32_t, aligned_obj<char, 4>, aligned_obj<signed char, 8>>`: alignment 4, compressed. */
  lemma AlignedObjCompressed()
    ensures TypesOk([Int32, TinyPointerStorage.AlignedObj(4, 1, 4), TinyPointerStorage.AlignedObj(5, 1, 8)])
    ensures StorageAlignment([Int32, TinyPointerStorage.AlignedObj(4, 1, 4), TinyPointerStorage.AlignedObj(5, 1, 8)]) == 4
    ensures IsCompressed([Int32, TinyPointerStorage.AlignedObj(4, 1, 4), TinyPointerStorage.AlignedObj(5, 1, 8)])
    ensures TagOf(SignedChar, [Int32, TinyPointerStorage.AlignedObj(4, 1, 4), TinyPointerStorage.AlignedObj(5, 1, 8)])
         == PointerTag(2, true)
  {
    var ts := [Int32, TinyPointerStorage.AlignedObj(4, 1, 4), TinyPointerStorage.AlignedObj(5, 1, 8)];
    Ilog2.IsPowerOfTwoIff(4);
    Ilog2.IsPowerOfTwoIff(8);
    assert Pow2(2) == 4 && Pow2(3) == 8;
    assert AlignmentOf(ts[0]) == 4 && AlignmentOf(ts[1]) == 4 && AlignmentOf(ts[2]) == 8;
    Ilog2.Octave(4, 2);
    assert !Names(SignedChar, ts[0]) && !Names(SignedChar, ts[1]) && Names(SignedChar, ts[2]);
  }

  /**
   * In `pointer_variant_impl<int32_t, int64_t, const uint32_t>` a pointer
   * to an `int64_t` has tag 1 in the two spare bits; the traits' `clear`
   * leaves tag 0, the tag of `int32_t`, although the traits claim no spare
   * bits at all.
   */
  lemma ClearTurnsInt64IntoInt32(mem: Mem)
    requires |mem| == 64 && TypesOk([Int32, Int64, ConstUInt32])
    requires SpareBits.ExtractSpareBits(mem, StorageTraits([Int32, Int64, ConstUInt32]), 0)
          == TagOf(Int64, [Int32, Int64, ConstUInt32]).value
    ensures VariantSpareBits([Int32, Int64, ConstUInt32]) == 0
    ensures SpareBits.ExtractSpareBits(SpareBits.ClearSpare(mem, StorageTraits([Int32, Int64, ConstUInt32]), 0),
                                        StorageTraits([Int32, Int64, ConstUInt32]), 0)
         == TagOf(Int32, [Int32, Int64, ConstUInt32]).value
  {
    NormalCompressed();
    assert Names(Int32, [Int32, Int64, ConstUInt32][0]);
    AsWrittenClearLosesTag(mem, [Int32, Int64, ConstUInt32]);
  }

  /**
   * `pointer_variant_impl<int32_t, int64_t>`: alignment 4, two spare bits
   * for the two one-bit tags, compressed, with one spare bit left for the
   * variant's traits.
   */
  lemma TwoTypes()
    ensures TypesOk([Int32, Int64])
    ensures StorageAlignment([Int32, Int64]) == 4 && StorageSpareBits([Int32, Int64]) == 2
    ensures IsCompressed([Int32, Int64]) && TagWidth([Int32, Int64]) == 1
    ensures VariantSpareBits([Int32, Int64]) == 1
    ensures TagOf(Int32, [Int32, Int64]) == PointerTag(0, true)
    ensures TagOf(Int64, [Int32, Int64]) == PointerTag(1, true)
  {
    var ts := [Int32, Int64];
    Ilog2.IsPowerOfTwoIff(4);
    Ilog2.IsPowerOfTwoIff(8);
    assert Pow2(1) == 2 && Pow2(2) == 4 && Pow2(3) == 8;
    assert AlignmentOf(ts[0]) == 4 && AlignmentOf(ts[1]) == 8;
    Ilog2.Octave(4, 2);
    Ilog2.Octave(2, 1);
    assert Names(Int32, ts[0]) && !Names(Int64, ts[0]) && Names(Int64, ts[1]);
  }

  /**
   * In `pointer_variant_impl<int32_t, int64_t>` the traits promise one
   * spare bit, yet putting 1 into a variant that holds an `int32_t` leaves
   * the tag of `int64_t` in the pointer.
   */
  lemma PutTurnsInt32IntoInt64(mem: Mem)
    requires |mem| == 64 && TypesOk([Int32, Int64])
    requires StoredTagOf(mem, [Int32, Int64], 0) == TagOf(Int32, [Int32, Int64]).value
    ensures 1 < Pow2(VariantSpareBits([Int32, Int64]))
    ensures SpareBits.Inside(StorageTraits([Int32, Int64]), 0, mem)
    ensures StoredTagOf(SpareBits.PutSpare(mem, StorageTraits([Int32, Int64]), 0, 1), [Int32, Int64], 0)
         == TagOf(Int64, [Int32, Int64]).value
  {
    TwoTypes();
    AsWrittenPut(mem, [Int32, Int64], 0, 1);
  }

  /**
   * A modifier on a `pointer_variant_impl<int32_t, int64_t, const uint32_t>`
   * holding an `int64_t`: the traits advertise no spare bits, `extract`
   * gives the tag, 1, and putting that 1 back restores the tag of `int64_t`.
   */
  lemma ModifierKeepsInt64(mem: Mem)
    requires |mem| == 64 && TypesOk([Int32, Int64, ConstUInt32])
    requires StoredTagOf(mem, [Int32, Int64, ConstUInt32], 0) == TagOf(Int64, [Int32, Int64, ConstUInt32]).value
    ensures VariantSpareBits([Int32, Int64, ConstUInt32]) == 0
    ensures SpareBits.ExtractSpareBits(mem, StorageTraits([Int32, Int64, ConstUInt32]), 0) == 1
    ensures 1 < Pow2(StorageSpareBits([Int32, Int64, ConstUInt32]))
    ensures SpareBits.Inside(StorageTraits([Int32, Int64, ConstUInt32]), 0, mem)
    ensures StoredTagOf(SpareBits.PutSpare(mem, StorageTraits([Int32, Int64, ConstUInt32]), 0, 1), [Int32, Int64, ConstUInt32], 0)
         == TagOf(Int64, [Int32, Int64, ConstUInt32]).value
  {
    NormalCompressed();
    assert Pow2(2) == 4;
    AsWrittenPut(mem, [Int32, Int64, ConstUInt32], 0, 1);
  }

  /**
   * In a `pointer_variant_impl<int32_t, int64_t>` holding an `int64_t` the
   * traits' `extract` returns the tag, 1, while the one spare bit above the
   * tag (the corrected view) reads 0.
   */
  lemma ExtractReadsInt64Tag(mem: Mem)
    requires |mem| == 64 && TypesOk([Int32, Int64])
    requires StoredTagOf(mem, [Int32, Int64], 0) == TagOf(Int64, [Int32, Int64]).value
    ensures IsCompressed([Int32, Int64])
    ensures SpareBits.ExtractSpareBits(mem, StorageTraits([Int32, Int64]), 0) == 1
    ensures Fits(CorrectedSpareView([Int32, Int64]), mem)
    ensures Extract(mem, CorrectedSpareView([Int32, Int64])) == 0
  {
    TwoTypes();
    var t := StorageTraits([Int32, Int64]);
    SpareBits.ExtractIsExtractOfView(mem, t, 0);
    assert SpareBits.SpareView(t, 0) == Range(0, 2);
    SpareBits.ExtractRangeHigh(mem, 0, 1, 2);
    assert Shr(1, 1) == 0;
  }
}

=== FILE: select_integer.dfy ===
/**
 * detail/select_integer.hpp: `uint_least_n_t<Size>`, the least unsigned
 * integer type with at least `Size` bits.  The `uint_leastN_t` types are
 * taken to have exactly N bits.
 */
module SelectInteger {

  /** What `select_integer_impl<Size>::type` names. */
  datatype Selected =
    | NoInteger           // `void`, for Size == 0
    | UIntLeast(bits: nat) // `std::uint_leastN_t` with N == bits
    | TooManyBits         // the static_assert "too many bits" fires

  /** `max_uint_bits`: the width of `std::uint_least64_t`. */
  const MaxUIntBits: nat := 64

  predicate IsStandardWidth(bits: nat)
  {
    bits == 8 || bits == 16 || bits == 32 || bits == 64
  }

  /** `uint_least_n_t<size>`: the table of (Min, Max] ranges. */
  function UIntLeastN(size: nat): Selected
  {
    if size == 0 then NoInteger
    else if size <= 8 then UIntLeast(8)
    else if size <= 16 then UIntLeast(16)
    else if size <= 32 then UIntLeast(32)
    else if size <= MaxUIntBits then UIntLeast(64)
    else TooManyBits
  }

  /** The width of the selected type, 0 for `void`. */
  function SelectedBits(size: nat): (r: nat)
    requires size <= MaxUIntBits
    ensures size <= r
  {
    if size == 0 then 0 else UIntLeastN(size).bits
  }

  /** Every width from 1 to 64 selects the least standard width that holds it. */
  lemma SelectsLeastWidth(size: nat)
    requires 0 < size <= MaxUIntBits
    ensures UIntLeastN(size).UIntLeast?
    ensures IsStandardWidth(UIntLeastN(size).bits) && size <= UIntLeastN(size).bits
    ensures forall b: nat :: IsStandardWidth(b) && size <= b ==> UIntLeastN(size).bits <= b
  {
  }

  /** Width 0 selects `void` and widths above 64 are rejected. */
  lemma SelectEdges(size: nat)
    ensures UIntLeastN(size) == NoInteger <==> size == 0
    ensures UIntLeastN(size) == TooManyBits <==> size > MaxUIntBits
  {
  }
}

=== FILE: spare_bits.dfy ===
/**
 * spare_bits.hpp: bits of an object's representation that hold no
 * information, and the traits that read and write them without
 * disturbing the object's value.
 *
 * An object occupies `ObjectSize(t)` bits of a flat memory starting at
 * position `base`.  `SpareView(t, base)` lists the positions of its spare
 * bits, lowest first, so that every traits operation is one view
 * operation: `ExtractSpareBits` is `Extract` of that view, `PutSpare` is
 * `Put`, and clearing is putting 0.  The member traits follow the
 * source's recursion over the member list (a member's own bits are the
 * low ones and the remaining members' bits are shifted above them); the
 * lemmas below show that this recursion is the view of the concatenated
 * member views.
 */
module SpareBits {
  import opened Bits
  import opened Views
  import EnumTraits
  import Ilog2
  import SelectInteger
  import TinyEnum

  /** The spare bits traits of a type. */
  datatype SpareTraits =
    | NoSpare(size: nat)                                      // `spare_bits_traits_default`, an object of `size` bits
    | BooleanSpare                                            // `spare_bits_traits_boolean`: one byte, 0 or 1
    | PointerSpare(alignment: nat)                            // `spare_bits_traits_pointer` to a type of that alignment
    | EnumSpare(traits: EnumTraits.Traits, underlyingBits: nat) // `spare_bits_traits_enum`
    | MemberSpare(size: nat, members: seq<Member>)            // `spare_bits_traits_member` of a `size`-bit struct

  /** A member of a struct: its bit offset inside the struct and its type's traits. */
  datatype Member = Member(offset: nat, traits: SpareTraits)

  /** `CHAR_BIT * sizeof(T)` */
  function ObjectSize(t: SpareTraits): nat
  {
    match t
    case NoSpare(s) => s
    case BooleanSpare => 8
    case PointerSpare(_) => 64
    case EnumSpare(_, u) => u
    case MemberSpare(s, _) => s
  }

  /** Two members of one struct do not overlap. */
  predicate Apart(m: Member, n: Member)
  {
    m.offset + ObjectSize(m.traits) <= n.offset || n.offset + ObjectSize(n.traits) <= m.offset
  }

  /**
   * The static assertions of each traits class: a pointer's alignment is a
   * power of two, an enum is contiguous from 0 and fits its underlying
   * type, and the members are distinct subobjects of the struct.
   */
  predicate WellFormed(t: SpareTraits)
    decreases t
  {
    match t
    case NoSpare(_) => true
    case BooleanSpare => true
    case PointerSpare(a) => 1 <= a < SizeMod && Ilog2.IsPowerOfTwo(a)
    case EnumSpare(e, u) =>
      TinyEnum.Storable(e) && SelectInteger.IsStandardWidth(u) && EnumTraits.EnumBitSize(e) <= u
    case MemberSpare(s, ms) =>
      (forall i :: 0 <= i < |ms| ==> WellFormed(ms[i].traits) && ms[i].offset + ObjectSize(ms[i].traits) <= s)
      && (forall i, j :: 0 <= i < j < |ms| ==> Apart(ms[i], ms[j]))
  }

  /** The object lies inside the memory. */
  predicate Inside(t: SpareTraits, base: nat, mem: Mem)
  {
    base + ObjectSize(t) <= |mem|
  }

  // ---------------------------------------------------------------------------
  // the number and the positions of the spare bits

  /** `spare_bits<T>()` */
  function SpareBitCount(t: SpareTraits): nat
    requires WellFormed(t)
    decreases t, 1
  {
    match t
    case NoSpare(_) => 0
    case BooleanSpare => 7
    case PointerSpare(a) => Ilog2.Ilog2Ceil(a)
    case EnumSpare(e, u) => u - EnumTraits.EnumBitSize(e)
    case MemberSpare(_, ms) => MembersCount(t, 0)
  }

  /** The spare bits of members i.. of a struct: `tiny::spare_bits<MemberT>() + tail::spare_bits`. */
  function MembersCount(t: SpareTraits, i: nat): nat
    requires WellFormed(t) && t.MemberSpare? && i <= |t.members|
    decreases t, 0, |t.members| - i
  {
    if i == |t.members| then 0
    else SpareBitCount(t.members[i].traits) + MembersCount(t, i + 1)
  }

  /** The positions of the spare bits of an object at `base`, lowest first. */
  function SpareView(t: SpareTraits, base: nat): View
    requires WellFormed(t)
    decreases t, 1
  {
    match t
    case NoSpare(_) => []
    case BooleanSpare => Range(base + 1, base + 8)
    case PointerSpare(a) => Range(base, base + Ilog2.Ilog2Ceil(a))
    case EnumSpare(e, u) => Range(base + EnumTraits.EnumBitSize(e), base + u)
    case MemberSpare(_, ms) => MembersView(t, base, 0)
  }

  /** The spare bits of members i.., each member's view above the previous ones. */
  function MembersView(t: SpareTraits, base: nat, i: nat): View
    requires WellFormed(t) && t.MemberSpare? && i <= |t.members|
    decreases t, 0, |t.members| - i
  {
    if i == |t.members| then []
    else Join(SpareView(t.members[i].traits, base + t.members[i].offset), MembersView(t, base, i + 1))
  }

  /** Member j of a struct at `base` does not cover position p. */
  predicate OutsideMember(t: SpareTraits, base: nat, j: nat, p: nat)
    requires t.MemberSpare? && j < |t.members|
  {
    !(base + t.members[j].offset <= p < base + t.members[j].offset + ObjectSize(t.members[j].traits))
  }

  /**
   * The spare bits are as many as `spare_bits<T>()` says, they are distinct
   * and they lie inside the object.
   */
  lemma SpareViewShape(t: SpareTraits, base: nat)
    requires WellFormed(t)
    ensures |SpareView(t, base)| == SpareBitCount(t)
    ensures Distinct(SpareView(t, base))
    ensures forall k :: 0 <= k < |SpareView(t, base)| ==> base <= SpareView(t, base)[k] < base + ObjectSize(t)
    decreases t, 1
  {
    match t
    case NoSpare(_) =>
    case BooleanSpare =>
      RangeDistinct(base + 1, base + 8);
    case PointerSpare(a) =>
      Ilog2CeilAtMost64(a);
      RangeDistinct(base, base + Ilog2.Ilog2Ceil(a));
    case EnumSpare(e, u) =>
      RangeDistinct(base + EnumTraits.EnumBitSize(e), base + u);
    case MemberSpare(s, ms) =>
      MembersViewShape(t, base, 0);
  }

  /** The members' views are distinct, inside the struct, and clear of the earlier members. */
  lemma MembersViewShape(t: SpareTraits, base: nat, i: nat)
    requires WellFormed(t) && t.MemberSpare? && i <= |t.members|
    ensures |MembersView(t, base, i)| == MembersCount(t, i)
    ensures Distinct(MembersView(t, base, i))
    ensures forall k :: 0 <= k < |MembersView(t, base, i)| ==>
              base <= MembersView(t, base, i)[k] < base + t.size
    ensures forall k, j :: 0 <= k < |MembersView(t, base, i)| && 0 <= j < i ==>
              OutsideMember(t, base, j, MembersView(t, base, i)[k])
    decreases t, 0, |t.members| - i
  {
    if i < |t.members| {
      var m := t.members[i];
      SpareViewShape(m.traits, base + m.offset);
      MembersViewShape(t, base, i + 1);
      MembersJoinShape(t, base, i, SpareView(m.traits, base + m.offset), MembersView(t, base, i + 1));
    }
  }

  /** The step of `MembersViewShape`: member i's view joined below the views of the members after it. */
  lemma MembersJoinShape(t: SpareTraits, base: nat, i: nat, head: View, tail: View)
    requires WellFormed(t) && t.MemberSpare? && i < |t.members|
    requires head == SpareView(t.members[i].traits, base + t.members[i].offset)
    requires tail == MembersView(t, base, i + 1)
    requires |head| == SpareBitCount(t.members[i].traits) && Distinct(head)
    requires forall k :: 0 <= k < |head| ==>
               base + t.members[i].offset <= head[k] < base + t.members[i].offset + ObjectSize(t.members[i].traits)
    requires |tail| == MembersCount(t, i + 1) && Distinct(tail)
    requires forall k :: 0 <= k < |tail| ==> base <= tail[k] < base + t.size
    requires forall k, j :: 0 <= k < |tail| && 0 <= j < i + 1 ==> OutsideMember(t, base, j, tail[k])
    ensures |MembersView(t, base, i)| == MembersCount(t, i)
    ensures Distinct(MembersView(t, base, i))
    ensures forall k :: 0 <= k < |MembersView(t, base, i)| ==>
              base <= MembersView(t, base, i)[k] < base + t.size
    ensures forall k, j :: 0 <= k < |MembersView(t, base, i)| && 0 <= j < i ==>
              OutsideMember(t, base, j, MembersView(t, base, i)[k])
  {
    var m := t.members[i];
    assert m.offset + ObjectSize(m.traits) <= t.size;
    var v := Join(head, tail);
    assert v == MembersView(t, base, i);
    assert v == head + tail;
    forall k | |head| <= k < |v|
      ensures v[k] == tail[k - |head|]
    {
      assert v[k] == (head + tail)[k];
    }
    forall k, j | 0 <= k < |head| && 0 <= j < i
      ensures OutsideMember(t, base, j, head[k])
    {
      assert Apart(t.members[j], m);
    }
    assert Disjoint(head, tail) by {
      forall a, b | 0 <= a < |head| && 0 <= b < |tail|
        ensures head[a] != tail[b]
      {
        assert OutsideMember(t, base, i, tail[b]);
      }
    }
    DistinctJoin(head, tail);
  }

  /** The members' spare bits of a struct inside the memory are inside the memory. */
  lemma MembersViewFits(t: SpareTraits, base: nat, i: nat, mem: Mem)
    requires WellFormed(t) && t.MemberSpare? && i <= |t.members| && Inside(t, base, mem)
    ensures Fits(MembersView(t, base, i), mem)
    ensures |MembersView(t, base, i)| == MembersCount(t, i)
  {
    MembersViewShape(t, base, i);
  }

  /** A power-of-two alignment below 2^64 leaves at most 64 low bits. */
  lemma Ilog2CeilAtMost64(a: nat)
    requires 1 <= a < SizeMod
    ensures Ilog2.Ilog2Ceil(a) <= 64
  {
    Ilog2.Ilog2BaseBounds(a);
    Ilog2.Ilog2BaseAtMost64(a);
  }

  /** The spare bits of an object inside the memory are inside the memory. */
  lemma SpareViewFits(t: SpareTraits, base: nat, mem: Mem)
    requires WellFormed(t) && Inside(t, base, mem)
    ensures Fits(SpareView(t, base), mem)
    ensures Distinct(SpareView(t, base))
    ensures |SpareView(t, base)| == SpareBitCount(t)
  {
    SpareViewShape(t, base);
  }

  // ---------------------------------------------------------------------------
  // the traits operations, following the source's recursion

  /** `spare_bits_traits<T>::extract(obj)` and `extract_spare_bits(obj)`. */
  function ExtractSpareBits(mem: Mem, t: SpareTraits, base: nat): (r: nat)
    requires WellFormed(t) && Inside(t, base, mem)
    ensures r < Pow2(SpareBitCount(t))
    decreases t, 1
  {
    SpareViewFits(t, base, mem);
    match t
    case MemberSpare(_, _) => ExtractMembers(mem, t, base, 0)
    case _ => Extract(mem, SpareView(t, base))
  }

  /** The member traits' extract: `(tail::extract(obj) << spare_bits<MemberT>()) | my_bits` in `std::uintmax_t`. */
  function ExtractMembers(mem: Mem, t: SpareTraits, base: nat, i: nat): (r: nat)
    requires WellFormed(t) && t.MemberSpare? && Inside(t, base, mem) && i <= |t.members|
    ensures r < Pow2(MembersCount(t, i))
    decreases t, 0, |t.members| - i
  {
    if i == |t.members| then 0
    else
      var m := t.members[i];
      var k := SpareBitCount(m.traits);
      var mine := ExtractSpareBits(mem, m.traits, base + m.offset);
      var others := ExtractMembers(mem, t, base, i + 1);
      ShlBound(others, k, 64, MembersCount(t, i + 1));
      Pow2Mono(k, MembersCount(t, i));
      OrBound(Shl(others, k, 64), mine, MembersCount(t, i));
      Or(Shl(others, k, 64), mine)
  }

  /** `spare_bits_traits<T>::put(obj, bits)`. */
  function PutSpare(mem: Mem, t: SpareTraits, base: nat, bits: nat): (r: Mem)
    requires WellFormed(t) && Inside(t, base, mem)
    ensures |r| == |mem|
    decreases t, 1
  {
    SpareViewFits(t, base, mem);
    match t
    case MemberSpare(_, _) => PutMembers(mem, t, base, 0, bits)
    case _ => Put(mem, SpareView(t, base), bits)
  }

  /**
   * The member traits' put: the low `spare_bits<MemberT>()` bits go to the
   * member, the rest, shifted down, to the remaining members.
   */
  function PutMembers(mem: Mem, t: SpareTraits, base: nat, i: nat, bits: nat): (r: Mem)
    requires WellFormed(t) && t.MemberSpare? && Inside(t, base, mem) && i <= |t.members|
    ensures |r| == |mem|
    decreases t, 0, |t.members| - i
  {
    if i == |t.members| then mem
    else
      var m := t.members[i];
      var k := SpareBitCount(m.traits);
      PutMembers(PutSpare(mem, m.traits, base + m.offset, LowBits(bits, k)), t, base, i + 1, Shr(bits, k))
  }

  /** `spare_bits_traits<T>::clear(obj)`: `put(obj, 0)`, and each member cleared in turn. */
  function ClearSpare(mem: Mem, t: SpareTraits, base: nat): (r: Mem)
    requires WellFormed(t) && Inside(t, base, mem)
    ensures |r| == |mem|
    decreases t, 1
  {
    SpareViewFits(t, base, mem);
    match t
    case MemberSpare(_, _) => ClearMembers(mem, t, base, 0)
    case _ => Put(mem, SpareView(t, base), 0)
  }

  function ClearMembers(mem: Mem, t: SpareTraits, base: nat, i: nat): (r: Mem)
    requires WellFormed(t) && t.MemberSpare? && Inside(t, base, mem) && i <= |t.members|
    ensures |r| == |mem|
    decreases t, 0, |t.members| - i
  {
    if i == |t.members| then mem
    else ClearMembers(ClearSpare(mem, t.members[i].traits, base + t.members[i].offset), t, base, i + 1)
  }

  // ---------------------------------------------------------------------------
  // the recursion is the view

  /** The member-wise extract reads the spare view, as long as it fits `std::uintmax_t`. */
  lemma ExtractIsView(mem: Mem, t: SpareTraits, base: nat)
    requires WellFormed(t) && Inside(t, base, mem) && SpareBitCount(t) <= 64
    ensures Fits(SpareView(t, base), mem)
    ensures ExtractSpareBits(mem, t, base) == Extract(mem, SpareView(t, base))
    decreases t, 1
  {
    SpareViewFits(t, base, mem);
    if t.MemberSpare? {
      MembersExtractIsView(mem, t, base, 0);
    }
  }

  lemma MembersExtractIsView(mem: Mem, t: SpareTraits, base: nat, i: nat)
    requires WellFormed(t) && t.MemberSpare? && Inside(t, base, mem) && i <= |t.members|
    requires MembersCount(t, i) <= 64
    ensures Fits(MembersView(t, base, i), mem)
    ensures ExtractMembers(mem, t, base, i) == Extract(mem, MembersView(t, base, i))
    decreases t, 0, |t.members| - i
  {
    MembersViewFits(t, base, i, mem);
    if i < |t.members| {
      var m := t.members[i];
      var k := SpareBitCount(m.traits);
      var head := SpareView(m.traits, base + m.offset);
      var tail := MembersView(t, base, i + 1);
      assert Inside(m.traits, base + m.offset, mem);
      SpareViewFits(m.traits, base + m.offset, mem);
      ExtractIsView(mem, m.traits, base + m.offset);
      MembersExtractIsView(mem, t, base, i + 1);
      var mine, others := Extract(mem, head), Extract(mem, tail);
      ExtractMembersStep(mem, t, base, i);
      assert MembersView(t, base, i) == Join(head, tail);
      ExtractJoin(mem, head, tail);
      ShlInWord(others, k, MembersCount(t, i + 1));
      OrComm(Shl(others, k, 64), mine);
    }
  }

  lemma ExtractMembersStep(mem: Mem, t: SpareTraits, base: nat, i: nat)
    requires WellFormed(t) && t.MemberSpare? && Inside(t, base, mem) && i < |t.members|
    ensures Inside(t.members[i].traits, base + t.members[i].offset, mem)
    ensures ExtractMembers(mem, t, base, i)
         == Or(Shl(ExtractMembers(mem, t, base, i + 1), SpareBitCount(t.members[i].traits), 64),
               ExtractSpareBits(mem, t.members[i].traits, base + t.members[i].offset))
  {
    var m := t.members[i];
    assert WellFormed(m.traits) && m.offset + ObjectSize(m.traits) <= t.size;
    var mine := ExtractSpareBits(mem, m.traits, base + m.offset);
    var others := ExtractMembers(mem, t, base, i + 1);
    assert ExtractMembers(mem, t, base, i) == Or(Shl(others, SpareBitCount(m.traits), 64), mine);
  }

  /** A shift that stays inside `std::uintmax_t` loses nothing. */
  lemma ShlInWord(x: nat, k: nat, n: nat)
    requires x < Pow2(n) && k + n <= 64
    ensures Shl(x, k, 64) == ShlU(x, k)
  {
    ShlUBound(x, k, n);
    Pow2Mono(k + n, 64);
    LowBitsId(ShlU(x, k), 64);
  }

  /** A pointer's put writes the low `ilog2_ceil(alignment)` bits of its word. */
  lemma PointerPutIsRange(mem: Mem, a: nat, base: nat, bits: nat)
    requires WellFormed(PointerSpare(a)) && base + 64 <= |mem|
    ensures Ilog2.Ilog2Ceil(a) <= 64
    ensures Inside(PointerSpare(a), base, mem)
    ensures PutSpare(mem, PointerSpare(a), base, bits) == Put(mem, Range(base, base + Ilog2.Ilog2Ceil(a)), bits)
  {
    Ilog2CeilAtMost64(a);
    assert SpareView(PointerSpare(a), base) == Range(base, base + Ilog2.Ilog2Ceil(a));
  }

  /** The member-wise put writes the spare view. */
  lemma PutIsView(mem: Mem, t: SpareTraits, base: nat, bits: nat)
    requires WellFormed(t) && Inside(t, base, mem)
    ensures Fits(SpareView(t, base), mem)
    ensures PutSpare(mem, t, base, bits) == Put(mem, SpareView(t, base), bits)
    decreases t, 1
  {
    SpareViewFits(t, base, mem);
    if t.MemberSpare? {
      MembersPutIsView(mem, t, base, 0, bits);
    }
  }

  lemma MembersPutIsView(mem: Mem, t: SpareTraits, base: nat, i: nat, bits: nat)
    requires WellFormed(t) && t.MemberSpare? && Inside(t, base, mem) && i <= |t.members|
    ensures Fits(MembersView(t, base, i), mem)
    ensures PutMembers(mem, t, base, i, bits) == Put(mem, MembersView(t, base, i), bits)
    decreases t, 0, |t.members| - i
  {
    MembersViewFits(t, base, i, mem);
    if i < |t.members| {
      var m := t.members[i];
      var k := SpareBitCount(m.traits);
      var head := SpareView(m.traits, base + m.offset);
      var tail := MembersView(t, base, i + 1);
      PutIsView(mem, m.traits, base + m.offset, LowBits(bits, k));
      SpareViewFits(m.traits, base + m.offset, mem);
      PutLowBits(mem, head, bits);
      var mid := Put(mem, head, bits);
      MembersPutIsView(mid, t, base, i + 1, Shr(bits, k));
      PutJoin(mem, head, tail, bits);
    }
  }

  /** Clearing is putting zero. */
  lemma ClearIsPutZero(mem: Mem, t: SpareTraits, base: nat)
    requires WellFormed(t) && Inside(t, base, mem)
    ensures ClearSpare(mem, t, base) == PutSpare(mem, t, base, 0)
    decreases t, 1
  {
    if t.MemberSpare? {
      MembersClearIsPutZero(mem, t, base, 0);
    }
  }

  lemma MembersClearIsPutZero(mem: Mem, t: SpareTraits, base: nat, i: nat)
    requires WellFormed(t) && t.MemberSpare? && Inside(t, base, mem) && i <= |t.members|
    ensures ClearMembers(mem, t, base, i) == PutMembers(mem, t, base, i, 0)
    decreases t, 0, |t.members| - i
  {
    if i < |t.members| {
      var m := t.members[i];
      var k := SpareBitCount(m.traits);
      ClearIsPutZero(mem, m.traits, base + m.offset);
      LowBitsId(0, k);
      ShrBound(0, k, 0);
      MembersClearIsPutZero(ClearSpare(mem, m.traits, base + m.offset), t, base, i + 1);
    }
  }

  // ---------------------------------------------------------------------------
  // what the traits promise

  /** Bits put into the spare bits are extracted again. */
  lemma ExtractAfterPut(mem: Mem, t: SpareTraits, base: nat, bits: nat)
    requires WellFormed(t) && Inside(t, base, mem) && SpareBitCount(t) <= 64
    requires bits < Pow2(SpareBitCount(t))
    ensures ExtractSpareBits(PutSpare(mem, t, base, bits), t, base) == bits
  {
    PutIsView(mem, t, base, bits);
    SpareViewFits(t, base, mem);
    ExtractIsView(PutSpare(mem, t, base, bits), t, base);
    ExtractPut(mem, SpareView(t, base), bits);
    LowBitsId(bits, SpareBitCount(t));
  }

  /** Putting spare bits changes no bit other than the spare ones. */
  lemma PutKeepsOtherBits(mem: Mem, t: SpareTraits, base: nat, bits: nat, p: nat)
    requires WellFormed(t) && Inside(t, base, mem)
    requires p < |mem| && p !in SpareView(t, base)
    ensures PutSpare(mem, t, base, bits)[p] == mem[p]
  {
    PutIsView(mem, t, base, bits);
    PutOutside(mem, SpareView(t, base), bits, p);
  }

  /** In particular the bits outside the object are left alone. */
  lemma PutStaysInside(mem: Mem, t: SpareTraits, base: nat, bits: nat, p: nat)
    requires WellFormed(t) && Inside(t, base, mem)
    requires p < |mem| && !(base <= p < base + ObjectSize(t))
    ensures PutSpare(mem, t, base, bits)[p] == mem[p]
  {
    SpareViewShape(t, base);
    PutKeepsOtherBits(mem, t, base, bits, p);
  }

  /** Clearing after a put gives the object cleared before it: the put is undone. */
  lemma ClearAfterPut(mem: Mem, t: SpareTraits, base: nat, bits: nat)
    requires WellFormed(t) && Inside(t, base, mem)
    ensures ClearSpare(PutSpare(mem, t, base, bits), t, base) == ClearSpare(mem, t, base)
  {
    SpareViewFits(t, base, mem);
    PutIsView(mem, t, base, bits);
    ClearIsPutZero(PutSpare(mem, t, base, bits), t, base);
    PutIsView(PutSpare(mem, t, base, bits), t, base, 0);
    ClearIsPutZero(mem, t, base);
    PutIsView(mem, t, base, 0);
    PutPut(mem, SpareView(t, base), bits, 0);
  }

  /** An object whose spare bits are zero is its own cleared copy. */
  lemma ClearZeroSpare(mem: Mem, t: SpareTraits, base: nat)
    requires WellFormed(t) && Inside(t, base, mem) && SpareBitCount(t) <= 64
    requires ExtractSpareBits(mem, t, base) == 0
    ensures ClearSpare(mem, t, base) == mem
  {
    SpareViewFits(t, base, mem);
    ExtractIsView(mem, t, base);
    ClearIsPutZero(mem, t, base);
    PutIsView(mem, t, base, 0);
    PutExtract(mem, SpareView(t, base));
  }

  /** The saved spare bits put back into the cleared object give the original object. */
  lemma PutBackRestores(mem: Mem, t: SpareTraits, base: nat)
    requires WellFormed(t) && Inside(t, base, mem) && SpareBitCount(t) <= 64
    ensures PutSpare(ClearSpare(mem, t, base), t, base, ExtractSpareBits(mem, t, base)) == mem
  {
    var v := SpareView(t, base);
    var x := ExtractSpareBits(mem, t, base);
    SpareViewFits(t, base, mem);
    ExtractIsView(mem, t, base);
    ClearIsPutZero(mem, t, base);
    PutIsView(mem, t, base, 0);
    PutIsView(ClearSpare(mem, t, base), t, base, x);
    PutPut(mem, v, 0, x);
    PutExtract(mem, v);
  }

  /** `extract_object(obj)`: a copy of the object with its spare bits cleared. */
  function ExtractObject(mem: Mem, t: SpareTraits, base: nat): (r: Mem)
    requires WellFormed(t) && Inside(t, base, mem) && SpareBitCount(t) <= 64
    ensures |r| == |mem| && Inside(t, base, r)
    ensures ExtractSpareBits(r, t, base) == 0
    ensures forall p :: 0 <= p < |mem| && p !in SpareView(t, base) ==> r[p] == mem[p]
  {
    ClearIsPutZero(mem, t, base);
    ExtractAfterPut(mem, t, base, 0);
    forall p | 0 <= p < |mem| && p !in SpareView(t, base)
      ensures PutSpare(mem, t, base, 0)[p] == mem[p]
    {
      PutKeepsOtherBits(mem, t, base, 0, p);
    }
    ClearSpare(mem, t, base)
  }

  // ---------------------------------------------------------------------------
  // the spare bits of the built-in traits hold no information

  /** A view of the high bits of a range is the range's value shifted down. */
  lemma ExtractRangeHigh(mem: Mem, b: nat, l: nat, e: nat)
    requires l <= e && b + e <= |mem|
    ensures Fits(Range(b, b + e), mem) && Fits(Range(b + l, b + e), mem)
    ensures Extract(mem, Range(b + l, b + e)) == Shr(Extract(mem, Range(b, b + e)), l)
  {
    RangeFits(b, b + e, mem);
    RangeFits(b + l, b + e, mem);
    var x := Extract(mem, Range(b, b + e));
    forall j: nat
      ensures Bit(Extract(mem, Range(b + l, b + e)), j) == Bit(Shr(x, l), j)
    {
      ExtractRangeBit(mem, b + l, b + e, j);
      BitShr(x, l, j);
      ExtractRangeBit(mem, b, b + e, j + l);
    }
    BitsExt(Extract(mem, Range(b + l, b + e)), Shr(x, l));
  }

  /** A view of the low bits of a range is the range's value truncated. */
  lemma ExtractRangeLow(mem: Mem, b: nat, l: nat, e: nat)
    requires l <= e && b + e <= |mem|
    ensures Fits(Range(b, b + e), mem) && Fits(Range(b, b + l), mem)
    ensures Extract(mem, Range(b, b + l)) == LowBits(Extract(mem, Range(b, b + e)), l)
  {
    RangeFits(b, b + e, mem);
    RangeFits(b, b + l, mem);
    var x := Extract(mem, Range(b, b + e));
    forall j: nat
      ensures Bit(Extract(mem, Range(b, b + l)), j) == Bit(LowBits(x, l), j)
    {
      ExtractRangeBit(mem, b, b + l, j);
      BitLowBits(x, l, j);
      ExtractRangeBit(mem, b, b + e, j);
    }
    BitsExt(Extract(mem, Range(b, b + l)), LowBits(x, l));
  }

  /** A byte holding `false` (0) or `true` (1) has its seven spare bits clear. */
  lemma BooleanSpareZero(mem: Mem, base: nat)
    requires Inside(BooleanSpare, base, mem)
    ensures Fits(Range(base, base + 8), mem)
    ensures Extract(mem, Range(base, base + 8)) < 2 ==> ExtractSpareBits(mem, BooleanSpare, base) == 0
  {
    ExtractRangeHigh(mem, base, 1, 8);
    if Extract(mem, Range(base, base + 8)) < 2 {
      assert Pow2(1) == 2;
      ShrBound(Extract(mem, Range(base, base + 8)), 1, 0);
    }
  }

  lemma ShrBelowIsZero(x: nat, b: nat)
    requires x < Pow2(b)
    ensures Shr(x, b) == 0
  {
    assert b + 0 == b;
    ShrBound(x, b, 0);
  }

  lemma EnumExtractIsRange(mem: Mem, e: EnumTraits.Traits, u: nat, base: nat)
    requires WellFormed(EnumSpare(e, u)) && Inside(EnumSpare(e, u), base, mem)
    ensures EnumTraits.EnumBitSize(e) <= u && Fits(Range(base + EnumTraits.EnumBitSize(e), base + u), mem)
    ensures ExtractSpareBits(mem, EnumSpare(e, u), base) == Extract(mem, Range(base + EnumTraits.EnumBitSize(e), base + u))
  {
    var t := EnumSpare(e, u);
    EnumViewIsRange(e, u, base);
    ExtractIsExtractOfView(mem, t, base);
  }

  /** The enum's spare bits are the range above its `enum_bit_size`. */
  lemma EnumViewIsRange(e: EnumTraits.Traits, u: nat, base: nat)
    requires WellFormed(EnumSpare(e, u))
    ensures EnumTraits.EnumBitSize(e) <= u
    ensures SpareView(EnumSpare(e, u), base) == Range(base + EnumTraits.EnumBitSize(e), base + u)
  {
  }

  /** Outside a struct, the extract reads the spare view directly. */
  lemma ExtractIsExtractOfView(mem: Mem, t: SpareTraits, base: nat)
    requires WellFormed(t) && Inside(t, base, mem) && !t.MemberSpare?
    ensures Fits(SpareView(t, base), mem)
    ensures ExtractSpareBits(mem, t, base) == Extract(mem, SpareView(t, base))
  {
    SpareViewFits(t, base, mem);
  }

  /** An enumerator in `[0, max]` leaves the bits above `enum_bit_size` clear. */
  lemma EnumSpareZero(mem: Mem, e: EnumTraits.Traits, u: nat, base: nat)
    requires WellFormed(EnumSpare(e, u)) && Inside(EnumSpare(e, u), base, mem)
    ensures Fits(Range(base, base + u), mem)
    ensures EnumTraits.IsValidEnumValue(e, Extract(mem, Range(base, base + u))) ==>
              ExtractSpareBits(mem, EnumSpare(e, u), base) == 0
  {
    var b := EnumTraits.EnumBitSize(e);
    ExtractRangeHigh(mem, base, b, u);
    var x := Extract(mem, Range(base, base + u));
    EnumExtractIsRange(mem, e, u, base);
    assert ExtractSpareBits(mem, EnumSpare(e, u), base) == Shr(x, b);
    if EnumTraits.IsValidEnumValue(e, x) {
      EnumTraits.ValidValueFits(e, x);
      ShrBelowIsZero(x, b);
    }
  }

  /** A pointer aligned to `alignof(T)` has its `ilog2_ceil(alignof(T))` low bits clear. */
  lemma PointerSpareZero(mem: Mem, a: nat, base: nat)
    requires WellFormed(PointerSpare(a)) && Inside(PointerSpare(a), base, mem)
    ensures Fits(Range(base, base + 64), mem)
    ensures Extract(mem, Range(base, base + 64)) % a == 0 ==> ExtractSpareBits(mem, PointerSpare(a), base) == 0
  {
    var k := Ilog2.Ilog2Ceil(a);
    Ilog2CeilAtMost64(a);
    ExtractRangeLow(mem, base, k, 64);
    AlignmentIsPow2(a);
    if Extract(mem, Range(base, base + 64)) % a == 0 {
      LowBitsOfMultiple(Extract(mem, Range(base, base + 64)), k);
    }
  }

  /** A power-of-two alignment is 2 to its `ilog2_ceil`. */
  lemma AlignmentIsPow2(a: nat)
    requires 1 <= a < SizeMod && Ilog2.IsPowerOfTwo(a)
    ensures a == Pow2(Ilog2.Ilog2Ceil(a))
  {
    Ilog2.IsPowerOfTwoIff(a);
    var k: nat :| Pow2(k) == a;
    Ilog2.Ilog2CeilLeast(a);
    var c := Ilog2.Ilog2Ceil(a);
    if k < c {
      Pow2Mono(k, c - 1);
    } else if k > c {
      Pow2Mono(c + 1, k);
      assert Pow2(c + 1) == 2 * Pow2(c);
    }
  }

  /** A pointer to a type aligned to 2^k has k spare bits. */
  lemma PointerCount(k: nat)
    requires k < 64
    ensures WellFormed(PointerSpare(Pow2(k))) && SpareBitCount(PointerSpare(Pow2(k))) == k
  {
    Pow2Mono(k + 1, 64);
    Pow2SizeMod();
    Ilog2.IsPowerOfTwoIff(Pow2(k));
    Ilog2.Octave(Pow2(k), k);
  }

  /** The pointer counts of the test suite: alignments 1, 2, 4, 8 leave 0, 1, 2, 3 spare bits. */
  lemma PointerCounts()
    ensures WellFormed(PointerSpare(1)) && SpareBitCount(PointerSpare(1)) == 0
    ensures WellFormed(PointerSpare(2)) && SpareBitCount(PointerSpare(2)) == 1
    ensures WellFormed(PointerSpare(4)) && SpareBitCount(PointerSpare(4)) == 2
    ensures WellFormed(PointerSpare(8)) && SpareBitCount(PointerSpare(8)) == 3
  {
    assert Pow2(3) == 8;
    PointerCount(0);
    PointerCount(1);
    PointerCount(2);
    PointerCount(3);
  }

  /** A bool has 7 spare bits, and a struct's two bool members have twice as many. */
  lemma MemberCounts()
    ensures SpareBitCount(BooleanSpare) == 7
    ensures WellFormed(TwoBools()) && SpareBitCount(TwoBools()) == 2 * SpareBitCount(BooleanSpare)
  {
    var t := TwoBools();
    assert Apart(t.members[0], t.members[1]);
    assert MembersCount(t, 2) == 0;
    assert MembersCount(t, 1) == 7;
  }

  /** `struct { int i; bool b1; bool b2; }` with the member traits over b1 and b2. */
  function TwoBools(): SpareTraits
  {
    MemberSpare(64, [Member(32, BooleanSpare), Member(40, BooleanSpare)])
  }

  // ---------------------------------------------------------------------------
  // the operations on an object in a storage

  /**
   * `put_spare_bits(obj, bits)`: the bits must fit in the spare bits (its
   * debug assertion), and `bit_view<std::uintmax_t, spare_bits<T>(), last_bit>`
   * needs the count to fit `std::uintmax_t`.
   */
  method PutSpareBits(obj: Storage, t: SpareTraits, base: nat, bits: nat)
    requires WellFormed(t) && Inside(t, base, obj.mem)
    requires SpareBitCount(t) <= 64 && bits < Pow2(SpareBitCount(t))
    modifies obj
    ensures obj.mem == PutSpare(old(obj.mem), t, base, bits)
    decreases t
  {
    SpareViewFits(t, base, obj.mem);
    if !t.MemberSpare? {
      obj.Write(SpareView(t, base), bits);
      return;
    }
    var i := 0;
    var rest := bits;
    while i < |t.members|
      invariant i <= |t.members|
      invariant |obj.mem| == |old(obj.mem)|
      invariant MembersCount(t, i) <= 64
      invariant PutMembers(obj.mem, t, base, i, rest) == PutSpare(old(obj.mem), t, base, bits)
      decreases |t.members| - i
    {
      var m := t.members[i];
      var k := SpareBitCount(m.traits);
      LowBitsBound(rest, k);
      PutSpareBits(obj, m.traits, base + m.offset, LowBits(rest, k));
      rest := Shr(rest, k);
      i := i + 1;
    }
  }

  /** `clear_spare_bits(obj)` */
  method ClearSpareBits(obj: Storage, t: SpareTraits, base: nat)
    requires WellFormed(t) && Inside(t, base, obj.mem)
    modifies obj
    ensures obj.mem == ClearSpare(old(obj.mem), t, base)
    decreases t
  {
    SpareViewFits(t, base, obj.mem);
    if !t.MemberSpare? {
      obj.Write(SpareView(t, base), 0);
      return;
    }
    var i := 0;
    while i < |t.members|
      invariant i <= |t.members|
      invariant |obj.mem| == |old(obj.mem)|
      invariant ClearMembers(obj.mem, t, base, i) == ClearSpare(old(obj.mem), t, base)
      decreases |t.members| - i
    {
      ClearSpareBits(obj, t.members[i].traits, base + t.members[i].offset);
      i := i + 1;
    }
  }

  /**
   * `modify_object(obj)`: while the modifier lives the object's spare bits
   * are cleared, so the object can be used as a plain `T`; its destruction
   * (`Release`) puts the saved spare bits back.
   */
  class Modifier {
    const obj: Storage
    const traits: SpareTraits
    const base: nat
    const spare: nat

    ghost predicate Valid()
      reads obj
    {
      WellFormed(traits) && Inside(traits, base, obj.mem) && SpareBitCount(traits) <= 64
      && spare < Pow2(SpareBitCount(traits))
    }

    constructor (obj: Storage, t: SpareTraits, base: nat)
      requires WellFormed(t) && Inside(t, base, obj.mem) && SpareBitCount(t) <= 64
      modifies obj
      ensures this.obj == obj && traits == t && this.base == base
      ensures Valid()
      ensures spare == ExtractSpareBits(old(obj.mem), t, base)
      ensures obj.mem == ExtractObject(old(obj.mem), t, base)
    {
      this.obj := obj;
      traits := t;
      this.base := base;
      spare := ExtractSpareBits(obj.mem, t, base);
      new;
      ClearSpareBits(obj, t, base);
    }

    /** The modifier's destructor: whatever the object now holds, its saved spare bits come back. */
    method Release()
      requires Valid()
      modifies obj
      ensures obj.mem == PutSpare(old(obj.mem), traits, base, spare)
      ensures ExtractSpareBits(obj.mem, traits, base) == spare
      ensures forall p :: 0 <= p < |obj.mem| && p !in SpareView(traits, base) ==> obj.mem[p] == old(obj.mem)[p]
    {
      ghost var before := obj.mem;
      PutSpareBits(obj, traits, base, spare);
      ExtractAfterPut(before, traits, base, spare);
      forall p | 0 <= p < |obj.mem| && p !in SpareView(traits, base)
        ensures obj.mem[p] == before[p]
      {
        PutKeepsOtherBits(before, traits, base, spare, p);
      }
    }
  }

  /** A modifier released without touching the object leaves it as it was. */
  method ModifyUnchanged(obj: Storage, t: SpareTraits, base: nat)
    requires WellFormed(t) && Inside(t, base, obj.mem) && SpareBitCount(t) <= 64
    modifies obj
    ensures obj.mem == old(obj.mem)
  {
    var m := new Modifier(obj, t, base);
    m.Release();
    PutBackRestores(old(obj.mem), t, base);
  }
}

=== FILE: tiny_bool.dfy ===
/**
 * `tiny_bool`: a boolean stored in a single bit.
 *
 * Assignment puts 1 or 0 into the one-bit view; reading treats any
 * non-zero pattern as `true`.
 */
module TinyBool {
  import opened Bits
  import opened Views

  /** `tiny_bool::bit_size()` */
  const BitSize: nat := 1

  /** The integer `operator=` puts into the view. */
  function Encode(value: bool): (r: nat)
    ensures r < Pow2(BitSize)
    ensures Bit(r, 0) == value
  {
    BitBool(value, 0);
    if value then 1 else 0
  }

  /** The read conversion `extract() != 0`. */
  function Decode(bits: nat): (b: bool)
    ensures bits < Pow2(BitSize) ==> (b <==> Bit(bits, 0))
  {
    bits != 0
  }

  /** Writing a value and reading it back gives the value. */
  lemma RoundTrip(mem: Mem, v: View, value: bool)
    requires Usable(v, mem, BitSize)
    ensures Decode(Extract(Put(mem, v, Encode(value)), v)) == value
  {
    ExtractPut(mem, v, Encode(value));
    LowBitsId(Encode(value), BitSize);
  }

  /** The all-zero pattern reads `false`. */
  lemma ClearedReadsFalse(mem: Mem, v: View)
    requires Usable(v, mem, BitSize)
    ensures !Decode(Extract(Clear(mem, v), v))
  {
    ExtractPut(mem, v, 0);
    LowBitsId(0, BitSize);
  }

  /** `tiny_bool::proxy`: a one-bit view into a storage. */
  class Proxy {
    const store: Storage
    const view: View

    ghost predicate Valid()
      reads store
    {
      Usable(view, store.mem, BitSize)
    }

    /** The view must be exactly `bit_size()` wide. */
    constructor (store: Storage, view: View)
      requires Usable(view, store.mem, BitSize)
      ensures this.store == store && this.view == view
      ensures Valid()
    {
      this.store := store;
      this.view := view;
    }

    /** `operator bool()`: the stored bit. */
    function Get(): (b: bool)
      reads store
      requires Valid()
      ensures b == store.mem[view[0]]
    {
      ExtractAt(store.mem, view, 0);
      Decode(Extract(store.mem, view))
    }

    /** `operator=(bool)` */
    method Assign(value: bool)
      requires Valid()
      modifies store
      ensures Valid()
      ensures store.mem == Put(old(store.mem), view, Encode(value))
      ensures Get() == value
    {
      store.Write(view, Encode(value));
      RoundTrip(old(store.mem), view, value);
    }
  }
}

=== FILE: tiny_enum.dfy ===
/**
 * `tiny_enum<EnumOrTraits>`: an enumeration whose valid values are
 * [0, max], stored in `enum_bit_size` bits as its underlying value.
 */
module TinyEnum {
  import opened Bits
  import opened Views
  import opened EnumTraits
  import Ilog2

  /** The static assertions of the tiny type: contiguous traits starting at 0. */
  predicate Storable(t: Traits)
  {
    IsContiguous(t) && Min(t) == 0 && Max(t) < SizeMax
  }

  /** `tiny_enum::bit_size()` */
  function BitSize(t: Traits): (n: nat)
    requires Storable(t)
    ensures forall value :: IsValidEnumValue(t, value) ==> value < Pow2(n)
  {
    forall value | IsValidEnumValue(t, value)
      ensures value < Pow2(EnumBitSize(t))
    {
      ValidValueFits(t, value);
    }
    EnumBitSize(t)
  }

  /** A valid enumerator survives a store and a read. */
  lemma RoundTrip(t: Traits, mem: Mem, v: View, value: int)
    requires Storable(t) && Usable(v, mem, BitSize(t))
    requires IsValidEnumValue(t, value)
    ensures Extract(Put(mem, v, value), v) == value
  {
    ExtractPut(mem, v, value);
    LowBitsId(value, |v|);
  }

  /** An enum with four enumerators takes two bits. */
  lemma FourEnumerators()
    ensures Storable(UnsignedCount(4)) && BitSize(UnsignedCount(4)) == 2
  {
    CountTraits(4);
    assert Pow2(2) == 4;
    Ilog2.Octave(4, 2);
  }

  /** `tiny_enum::proxy` */
  class Proxy {
    const store: Storage
    const view: View
    const traits: Traits

    ghost predicate Valid()
      reads store
    {
      Storable(traits) && Usable(view, store.mem, BitSize(traits))
    }

    constructor (store: Storage, view: View, traits: Traits)
      requires Storable(traits) && Usable(view, store.mem, BitSize(traits))
      ensures this.store == store && this.view == view && this.traits == traits
      ensures Valid()
    {
      this.store := store;
      this.view := view;
      this.traits := traits;
    }

    /** `operator object_type()`: the extracted bits as an enumerator value. */
    function Get(): (r: int)
      reads store
      requires Valid()
      ensures 0 <= r < Pow2(BitSize(traits))
    {
      Extract(store.mem, view)
    }

    /** `operator=`: requires a valid enum value and puts its underlying value. */
    method Assign(value: int)
      requires Valid()
      requires IsValidEnumValue(traits, value)
      modifies store
      ensures Valid()
      ensures store.mem == Put(old(store.mem), view, value)
      ensures Get() == value
    {
      store.Write(view, value);
      RoundTrip(traits, old(store.mem), view, value);
    }
  }
}

=== FILE: tiny_flag_set.dfy ===
/**
 * `tiny_flag_set<Enum>`: one bit per enumerator of a contiguous unsigned
 * enum, bit i holding flag i.  A flag combination (`flag_combo`) is the
 * mask of its flags in `uint_least_n_t<bit_size>`.
 */
module TinyFlagSet {
  import opened Bits
  import opened Views
  import SelectInteger

  /** The width of `flag_storage_type`: `uint_least_n_t<n>` for n flags. */
  function StorageBits(n: nat): (w: nat)
    requires 1 <= n <= SelectInteger.MaxUIntBits
    ensures n <= w <= 64
  {
    SelectInteger.SelectsLeastWidth(n);
    SelectInteger.UIntLeastN(n).bits
  }

  /** `as_flag(e)`: `1ull << e` converted to the flag storage type, i.e. 2^e. */
  function AsFlag(e: nat, n: nat): (r: nat)
    requires e < n <= 64
    ensures r == Pow2(e)
  {
    ShlOne(e, 64);
    Pow2Mono(e + 1, StorageBits(n));
    LowBitsId(Pow2(e), StorageBits(n));
    LowBits(Shl(1, e, 64), StorageBits(n))
  }

  /** `combine_flags` / `flags(...)`: the OR of `as_flag` over the arguments, 0 for none. */
  method CombineFlags(flags: seq<nat>, n: nat) returns (storage: nat)
    requires 1 <= n <= 64
    requires forall k :: 0 <= k < |flags| ==> flags[k] < n
    ensures storage < Pow2(n)
    ensures forall i: nat :: Bit(storage, i) <==> i in flags
  {
    storage := 0;
    forall i: nat
      ensures !Bit(storage, i)
    {
      BitZero(i);
    }
    var k := 0;
    while k < |flags|
      invariant 0 <= k <= |flags|
      invariant storage < Pow2(n)
      invariant forall i: nat :: Bit(storage, i) <==> i in flags[..k]
    {
      var flag := AsFlag(flags[k], n);
      Pow2Mono(flags[k] + 1, n);
      OrBound(storage, flag, n);
      Pow2Mono(n, StorageBits(n));
      LowBitsId(Or(storage, flag), StorageBits(n));
      var next := LowBits(Or(storage, flag), StorageBits(n));
      assert flags[..k + 1] == flags[..k] + [flags[k]];
      forall i: nat
        ensures Bit(next, i) <==> i in flags[..k + 1]
      {
        BitOr(storage, flag, i);
        BitPow2(flags[k], i);
      }
      storage := next;
      k := k + 1;
    }
    assert flags[..k] == flags;
  }

  /** A mask is 0 exactly when no flag is set. */
  lemma ZeroIffNoBits(x: nat, n: nat)
    requires x < Pow2(n)
    ensures x == 0 ==> forall i: nat :: i < n ==> !Bit(x, i)
    ensures (forall i: nat :: i < n ==> !Bit(x, i)) ==> x == 0
  {
    forall i: nat
      ensures !Bit(0, i)
    {
      BitZero(i);
    }
    if forall i: nat :: i < n ==> !Bit(x, i) {
      BitsExtBelow(x, 0, n);
    }
  }

  /** A mask equals `clear_other_bits<0, n>(~0ull)` exactly when every flag is set. */
  lemma FullIffAllBits(x: nat, n: nat)
    requires n <= 64 && x < Pow2(n)
    ensures x == LowBits(SizeMax, n) ==> forall i: nat :: i < n ==> Bit(x, i)
    ensures (forall i: nat :: i < n ==> Bit(x, i)) ==> x == LowBits(SizeMax, n)
  {
    Pow2SizeMod();
    LowBitsAllOnes(64, n);
    LowBitsBound(SizeMax, n);
    forall i: nat | i < n
      ensures Bit(LowBits(SizeMax, n), i)
    {
      BitAllOnes(n, i);
    }
    if forall i: nat :: i < n ==> Bit(x, i) {
      BitsExtBelow(x, LowBits(SizeMax, n), n);
    }
  }

  /** Two masks are equal exactly when they agree on every flag. */
  lemma EqualIffSameBits(x: nat, y: nat, n: nat)
    requires x < Pow2(n) && y < Pow2(n)
    ensures x == y ==> forall i: nat :: i < n ==> Bit(x, i) == Bit(y, i)
    ensures (forall i: nat :: i < n ==> Bit(x, i) == Bit(y, i)) ==> x == y
  {
    if forall i: nat :: i < n ==> Bit(x, i) == Bit(y, i) {
      BitsExtBelow(x, y, n);
    }
  }

  /** Toggling all flags twice restores the mask. */
  lemma ToggleAllTwice(x: nat, n: nat)
    requires x < Pow2(n)
    ensures Not(Not(x, n), n) == x
  {
    NotIsComplement(x, n);
    NotIsComplement(Not(x, n), n);
  }

  /** `tiny_flag_set::proxy` over an n-bit view, n being the number of enumerators. */
  class Proxy {
    const store: Storage
    const view: View
    const n: nat

    ghost predicate Valid()
      reads store
    {
      1 <= n <= 64 && Usable(view, store.mem, n)
    }

    constructor (store: Storage, view: View, n: nat)
      requires 1 <= n <= 64 && Usable(view, store.mem, n)
      ensures this.store == store && this.view == view && this.n == n
      ensures Valid()
    {
      this.store := store;
      this.view := view;
      this.n := n;
    }

    /** `get()`: the mask whose bit i is flag i. */
    function Get(): (r: nat)
      reads store
      requires Valid()
      ensures r < Pow2(n)
      ensures forall i: nat :: i < n ==> (Bit(r, i) <==> store.mem[view[i]])
    {
      forall i: nat | i < n
        ensures Bit(Extract(store.mem, view), i) <==> store.mem[view[i]]
      {
        ExtractAt(store.mem, view, i);
      }
      Extract(store.mem, view)
    }

    /** `is_set(flag)`: the flag's bit, read through `view[flag]`. */
    function IsSet(flag: nat): (b: bool)
      reads store
      requires Valid() && flag < n
      ensures b == Bit(Get(), flag)
    {
      store.mem[view[flag]]
    }

    /** Flag i is bit i of the mask, for every flag at once. */
    lemma FlagBits()
      requires Valid()
      ensures forall i: nat :: i < n ==> IsSet(i) == Bit(Get(), i)
    {
      forall i: nat | i < n
        ensures IsSet(i) == Bit(Get(), i)
      {
        assert IsSet(i) == Bit(Get(), i);
      }
    }

    /** `operator=(flag_combo)`: puts the combination's mask, truncated to the view. */
    method Assign(combo: nat)
      requires Valid()
      modifies store
      ensures Valid()
      ensures store.mem == Put(old(store.mem), view, combo)
      ensures Get() == LowBits(combo, n)
      ensures forall i: nat :: i < n ==> (IsSet(i) <==> Bit(combo, i))
    {
      store.Write(view, combo);
      ExtractPut(old(store.mem), view, combo);
      forall i: nat | i < n
        ensures IsSet(i) <==> Bit(combo, i)
      {
        BitLowBits(combo, n, i);
      }
    }

    /** `set(flag, value)`: writes that flag's bit and no other. */
    method Set(flag: nat, value: bool)
      requires Valid() && flag < n
      modifies store
      ensures Valid()
      ensures store.mem == old(store.mem)[view[flag] := value]
      ensures IsSet(flag) == value
      ensures forall j: nat :: j < n && j != flag ==> IsSet(j) == old(IsSet(j))
    {
      store.WriteBit(view, flag, value);
    }

    /** `set(flag)` */
    method SetFlag(flag: nat)
      requires Valid() && flag < n
      modifies store
      ensures Valid()
      ensures store.mem == old(store.mem)[view[flag] := true]
      ensures IsSet(flag)
      ensures forall j: nat :: j < n && j != flag ==> IsSet(j) == old(IsSet(j))
    {
      Set(flag, true);
    }

    /** `reset(flag)` */
    method Reset(flag: nat)
      requires Valid() && flag < n
      modifies store
      ensures Valid()
      ensures store.mem == old(store.mem)[view[flag] := false]
      ensures !IsSet(flag)
      ensures forall j: nat :: j < n && j != flag ==> IsSet(j) == old(IsSet(j))
    {
      Set(flag, false);
    }

    /** `toggle(flag)`: flips that flag only, so toggling twice restores the state. */
    method Toggle(flag: nat)
      requires Valid() && flag < n
      modifies store
      ensures Valid()
      ensures store.mem == old(store.mem)[view[flag] := !old(IsSet(flag))]
      ensures IsSet(flag) == !old(IsSet(flag))
      ensures forall j: nat :: j < n && j != flag ==> IsSet(j) == old(IsSet(j))
    {
      Set(flag, !IsSet(flag));
    }

    /** `any()`: some flag is set. */
    function Any(): (b: bool)
      reads store
      requires Valid()
      ensures b <==> exists i: nat :: i < n && IsSet(i)
    {
      FlagBits();
      ZeroIffNoBits(Get(), n);
      Get() != 0
    }

    /** `all()`: the mask equals `clear_other_bits<0, bit_size()>(~0ull)`. */
    function All(): (b: bool)
      reads store
      requires Valid()
      ensures b <==> forall i: nat :: i < n ==> IsSet(i)
    {
      FlagBits();
      FullIffAllBits(Get(), n);
      Get() == LowBits(SizeMax, n)
    }

    /** `none()`: the mask is 0. */
    function None(): (b: bool)
      reads store
      requires Valid()
      ensures b <==> !Any()
      ensures b <==> forall i: nat :: i < n ==> !IsSet(i)
    {
      Extract(store.mem, view) == 0
    }

    /** `set_all(value)`: puts `~0ull` or 0, truncated to the view. */
    method SetAll(value: bool)
      requires Valid()
      modifies store
      ensures Valid()
      ensures store.mem == Put(old(store.mem), view, if value then SizeMax else 0)
      ensures Get() == if value then AllOnes(n) else 0
      ensures forall i: nat :: i < n ==> IsSet(i) == value
    {
      Pow2SizeMod();
      if value {
        store.Write(view, SizeMax);
        ExtractPut(old(store.mem), view, SizeMax);
        LowBitsAllOnes(64, n);
        forall i: nat | i < n
          ensures IsSet(i)
        {
          BitAllOnes(n, i);
        }
      } else {
        store.Write(view, 0);
        ExtractPut(old(store.mem), view, 0);
        LowBitsId(0, n);
        forall i: nat | i < n
          ensures !IsSet(i)
        {
          BitZero(i);
        }
      }
    }

    /** `set_all()` */
    method SetAllFlags()
      requires Valid()
      modifies store
      ensures Valid()
      ensures store.mem == Put(old(store.mem), view, SizeMax)
      ensures forall i: nat :: i < n ==> IsSet(i)
    {
      SetAll(true);
    }

    /** `reset_all()` */
    method ResetAll()
      requires Valid()
      modifies store
      ensures Valid()
      ensures store.mem == Put(old(store.mem), view, 0)
      ensures forall i: nat :: i < n ==> !IsSet(i)
    {
      SetAll(false);
    }

    /** `toggle_all()`: puts `~extract()`, which the view truncates to the complement within n bits. */
    method ToggleAll()
      requires Valid()
      modifies store
      ensures Valid()
      ensures store.mem == Put(old(store.mem), view, Not(old(Get()), 64))
      ensures Get() == Not(old(Get()), n)
      ensures forall i: nat :: i < n ==> IsSet(i) == !old(IsSet(i))
    {
      var x := Get();
      store.Write(view, Not(x, 64));
      ExtractPut(old(store.mem), view, Not(x, 64));
      forall i: nat
        ensures Bit(LowBits(Not(x, 64), n), i) == Bit(Not(x, n), i)
      {
        BitLowBits(Not(x, 64), n, i);
        BitNot(x, 64, i);
        BitNot(x, n, i);
      }
      BitsExt(LowBits(Not(x, 64), n), Not(x, n));
      forall i: nat | i < n
        ensures IsSet(i) == !old(IsSet(i))
      {
        BitNot(x, n, i);
      }
    }

    /** `operator==` between proxies: the raw masks are compared. */
    function Equals(other: Proxy): (b: bool)
      reads store, other.store
      requires Valid() && other.Valid() && other.n == n
      ensures b <==> forall i: nat :: i < n ==> IsSet(i) == other.IsSet(i)
    {
      FlagBits();
      other.FlagBits();
      EqualIffSameBits(Get(), other.Get(), n);
      Get() == other.Get()
    }

    /** `operator==` with a combination: the raw masks are compared. */
    function EqualsCombo(combo: nat): (b: bool)
      reads store
      requires Valid()
      ensures b <==> combo < Pow2(n) && forall i: nat :: i < n ==> IsSet(i) == Bit(combo, i)
    {
      if combo < Pow2(n) then
        FlagBits();
        EqualIffSameBits(Get(), combo, n);
        Get() == combo
      else
        false
    }
  }
}

=== FILE: tiny_int.dfy ===
/**
 * `tiny_unsigned<Bits, Integer>` and `tiny_int<Bits, Integer>`: small
 * integers stored in `Bits` bits, read and written as the object type
 * `Integer`, a standard unsigned or signed type of `intBits` bits.
 *
 * Unsigned values are stored as they are.  Signed values are stored as the
 * low `Bits` bits of their two's-complement representation and rebuilt
 * from the sign bit on reading.  Compound assignments read the value,
 * compute in the object type, or in `int` when it is narrower, convert
 * back to it and assign the result, so the result must fit the tiny type
 * again; an overflow of that computation is undefined and so excluded.
 */
module TinyInt {
  import opened Bits
  import opened Views
  import SelectInteger

  // ---------------------------------------------------------------------------
  // arithmetic of the object type

  /** The operators of the compound assignments `+= -= *= /= %=`. */
  datatype ArithOp = Add | Sub | Mul | Div | Rem

  function Abs(a: int): nat
  {
    if a < 0 then -a else a
  }

  /** C++ `a / b` on integers: the quotient is truncated toward zero. */
  function CppDiv(a: int, b: int): int
    requires b != 0
  {
    if (a < 0) == (b < 0) then Abs(a) / Abs(b) else -(Abs(a) / Abs(b))
  }

  /** C++ `a % b` on integers: the remainder takes the sign of the dividend. */
  function CppRem(a: int, b: int): int
    requires b != 0
  {
    if a < 0 then -(Abs(a) % Abs(b)) else Abs(a) % Abs(b)
  }

  /** Euclidean division of naturals, the building block of the C++ operators. */
  lemma NatDivMod(x: nat, y: nat)
    requires y > 0
    ensures x == y * (x / y) + x % y && 0 <= x % y < y
  {
  }

  lemma MulNeg(x: int, y: int)
    ensures (-x) * y == -(x * y) && x * (-y) == -(x * y)
  {
  }

  /** The C++ quotient and remainder recompose the dividend, with a remainder smaller than the divisor. */
  lemma CppDivRem(a: int, b: int)
    requires b != 0
    ensures a == b * CppDiv(a, b) + CppRem(a, b)
    ensures Abs(CppRem(a, b)) < Abs(b)
    ensures (a >= 0 ==> CppRem(a, b) >= 0) && (a <= 0 ==> CppRem(a, b) <= 0)
  {
    var x: int, y: int := Abs(a), Abs(b);
    var q: int, r: int := x / y, x % y;
    NatDivMod(x, y);
    var p: int := y * q;
    MulNeg(y, q);
    if a < 0 {
      assert CppRem(a, b) == -r;
      if b < 0 {
        assert CppDiv(a, b) == q && b == -y;
        assert b * q == -p;
      } else {
        assert CppDiv(a, b) == -q && b == y;
        assert b * -q == -p;
      }
    } else {
      assert CppRem(a, b) == r;
      if a == 0 {
        assert x == 0 && r == 0 % y == 0;
      }
      if b < 0 {
        assert CppDiv(a, b) == -q && b == -y;
        MulNeg(-y, q);
        assert b * -q == p;
      } else {
        assert CppDiv(a, b) == q && b == y;
      }
    }
  }

  /** The divisions of the library's tests, and a negative dividend. */
  lemma CppDivExamples()
    ensures CppDiv(16, 3) == 5 && CppRem(5, 2) == 1
    ensures CppDiv(-7, 2) == -3 && CppRem(-7, 2) == -1
    ensures CppDiv(7, -2) == -3 && CppRem(7, -2) == 1
  {
  }

  /** `a op b` evaluated on the mathematical integers; the conversions below bring it back to the object type. */
  function Apply(op: ArithOp, a: int, b: int): int
    requires op.Div? || op.Rem? ==> b != 0
  {
    match op
    case Add => a + b
    case Sub => a - b
    case Mul => a * b
    case Div => CppDiv(a, b)
    case Rem => CppRem(a, b)
  }

  /** `static_cast<Integer>(x)` for a w-bit unsigned Integer: reduction modulo 2^w. */
  function ToUnsigned(x: int, w: nat): (r: nat)
    ensures r < Pow2(w)
    ensures 0 <= x < Pow2(w) ==> r == x
    ensures x < 0 && 0 <= x + Pow2(w) ==> r == x + Pow2(w)
    decreases if x < 0 then 1 else 0, Abs(x)
  {
    if x < 0 then ToUnsigned(x + Pow2(w), w)
    else if x >= Pow2(w) then ToUnsigned(x - Pow2(w), w)
    else x
  }

  /** The least value of an n-bit signed integer, `-(1ll << (n - 1))`. */
  function SignedMin(n: nat): int
    requires n >= 1
  {
    0 - Pow2(n - 1)
  }

  /** The largest value of an n-bit signed integer, `(1ll << (n - 1)) - 1`. */
  function SignedMax(n: nat): int
    requires n >= 1
  {
    Pow2(n - 1) - 1
  }

  /** `static_cast<Integer>(x)` for a w-bit signed Integer, wrapping around in two's complement. */
  function ToSigned(x: int, w: nat): (r: int)
    requires w >= 1
    ensures SignedMin(w) <= r <= SignedMax(w)
    ensures SignedMin(w) <= x <= SignedMax(w) ==> r == x
    ensures ToUnsigned(r, w) == ToUnsigned(x, w)
  {
    var u := ToUnsigned(x, w);
    if u <= SignedMax(w) then u else u - Pow2(w)
  }

  /** Narrower signed limits lie inside wider ones. */
  lemma SignedLimitsMono(n: nat, w: nat)
    requires 1 <= n <= w
    ensures SignedMin(w) <= SignedMin(n) && SignedMax(n) <= SignedMax(w)
    ensures SignedMax(n) < Pow2(w) && Pow2(n) == 2 * Pow2(n - 1)
  {
    Pow2Mono(n - 1, w - 1);
    Pow2Mono(n, w);
  }

  // ---------------------------------------------------------------------------
  // when `get() op i` is defined

  /** The width of `int`, to which narrower operands are promoted before the operator applies. */
  const IntWidth: nat := 32

  /** The width `get() op i` is computed in: `int` for a narrower object type, the object type otherwise. */
  function OperandWidth(w: nat): (r: nat)
    ensures r >= IntWidth && r >= w
    ensures w >= IntWidth ==> r == w
  {
    if w < IntWidth then IntWidth else w
  }

  /**
   * `get() op i` for a signed object type of w bits is defined: the result,
   * and for `%` the quotient as well, fit the signed type it is computed in.
   */
  predicate SignedOpDefined(op: ArithOp, a: int, b: int, w: nat)
    requires op.Div? || op.Rem? ==> b != 0
  {
    var r := OperandWidth(w);
    SignedMin(r) <= Apply(op, a, b) <= SignedMax(r)
    && (op.Rem? ==> SignedMin(r) <= CppDiv(a, b) <= SignedMax(r))
  }

  /**
   * `get() op i` for an unsigned object type of w bits is defined: from
   * `int`'s width on it wraps modulo 2^w; narrower, it is computed in `int`,
   * where the result must fit.
   */
  predicate UnsignedOpDefined(op: ArithOp, a: int, b: int, w: nat)
    requires op.Div? || op.Rem? ==> b != 0
  {
    w >= IntWidth || SignedMin(IntWidth) <= Apply(op, a, b) <= SignedMax(IntWidth)
  }

  lemma Pow2Small()
    ensures Pow2(7) == 128 && Pow2(8) == 256 && Pow2(15) == 0x8000 && Pow2(16) == 0x1_0000
    ensures Pow2(31) == 0x8000_0000
  {
    Pow2Of32();
    assert Pow2(16) == 0x1_0000 by { Pow2Add(8, 8); }
    assert Pow2(32) == 2 * Pow2(31);
  }

  /** A product of two naturals at most m is at most m * m. */
  lemma MulBound(x: nat, y: nat, m: nat)
    requires x <= m && y <= m
    ensures x * y <= m * m
  {
    var dx: nat, dy: nat := m - x, m - y;
    assert m * m == (x + dx) * (y + dy);
    assert (x + dx) * (y + dy) == x * y + dx * y + x * dy + dx * dy;
  }

  /** The magnitude of a product is the product of the magnitudes. */
  lemma AbsMul(a: int, b: int)
    ensures Abs(a * b) == Abs(a) * Abs(b)
  {
    MulNeg(a, b);
    MulNeg(-a, b);
  }

  /** The C++ quotient is no larger in magnitude than the dividend. */
  lemma CppDivBound(a: int, b: int)
    requires b != 0
    ensures Abs(CppDiv(a, b)) <= Abs(a)
  {
    var x, y := Abs(a), Abs(b);
    var q := x / y;
    NatDivMod(x, y);
    var d: nat := y - 1;
    assert y * q == d * q + q;
    assert Abs(CppDiv(a, b)) == q;
  }

  /** The limits of the 8- and 16-bit signed types, and of `int`. */
  lemma NarrowLimits(w: nat)
    requires w == 8 || w == 16
    ensures -0x8000 <= SignedMin(w) && SignedMax(w) <= 0x7fff
    ensures SignedMin(IntWidth) == -0x8000_0000 && SignedMax(IntWidth) == 0x7fff_ffff
  {
    Pow2Small();
    Pow2Mono(w - 1, 15);
  }

  /**
   * An 8- or 16-bit signed object is promoted to `int`, where no operator of
   * two values of its range overflows: its compound assignments are always
   * defined, and only the conversion back can wrap.
   */
  lemma NarrowSignedDefined(op: ArithOp, a: int, b: int, w: nat)
    requires w == 8 || w == 16
    requires SignedMin(w) <= a <= SignedMax(w) && SignedMin(w) <= b <= SignedMax(w)
    requires op.Div? || op.Rem? ==> b != 0
    ensures SignedOpDefined(op, a, b, w)
  {
    NarrowLimits(w);
    assert Abs(a) <= 0x8000 && Abs(b) <= 0x8000;
    match op
    case Mul =>
      AbsMul(a, b);
      MulBound(Abs(a), Abs(b), 0x8000);
    case Div => CppDivBound(a, b);
    case Rem =>
      CppDivRem(a, b);
      CppDivBound(a, b);
    case _ =>
  }

  /**
   * An 8-bit unsigned object, and a 16-bit one except under `*`, is promoted
   * to `int` without overflow.
   */
  lemma NarrowUnsignedDefined(op: ArithOp, a: nat, b: nat, w: nat)
    requires w == 8 || (w == 16 && !op.Mul?)
    requires a < Pow2(w) && b < Pow2(w)
    requires op.Div? || op.Rem? ==> b != 0
    ensures UnsignedOpDefined(op, a, b, w)
  {
    Pow2Small();
    assert SignedMin(IntWidth) == -0x8000_0000 && SignedMax(IntWidth) == 0x7fff_ffff;
    assert a < 0x1_0000 && b < 0x1_0000;
    match op
    case Mul => MulBound(a, b, 255);
    case Div => CppDivBound(a, b);
    case Rem => CppDivRem(a, b);
    case _ =>
  }

  /** `++` and `--` of an unsigned object, `+= 1` and `-= 1`, are defined in every width. */
  lemma UnsignedStepDefined(a: nat, w: nat)
    requires SelectInteger.IsStandardWidth(w) && a < Pow2(w)
    ensures UnsignedOpDefined(Add, a, 1, w) && UnsignedOpDefined(Sub, a, 1, w)
  {
    if w < IntWidth {
      Pow2Small();
      Pow2Mono(w, 16);
    }
  }

  /**
   * The undefined cases: `INT_MAX + 1` and `INT_MIN / -1` (with `INT_MIN % -1`)
   * in `int`, and `65535 * 65535` for a 16-bit unsigned object, whose product
   * overflows `int`; while `int8_t` 127 + 1 is computed in `int` and defined.
   */
  lemma OverflowExamples()
    ensures !SignedOpDefined(Add, SignedMax(32), 1, 32)
    ensures !SignedOpDefined(Div, SignedMin(32), -1, 32)
    ensures !SignedOpDefined(Rem, SignedMin(32), -1, 32) && Apply(Rem, SignedMin(32), -1) == 0
    ensures !UnsignedOpDefined(Mul, 65535, 65535, 16)
    ensures SignedOpDefined(Add, 127, 1, 8) && SignedMax(8) == 127
  {
    Pow2Small();
  }

  // ---------------------------------------------------------------------------
  // the signed representation

  /** `~rep + 1` in the unsigned type, masked to n bits, for a pattern with its top bit set: 2^n - x. */
  lemma NegatedMagnitude(x: nat, n: nat, w: nat)
    requires 1 <= n <= w
    requires Pow2(n - 1) <= x < Pow2(n)
    ensures LowBits(LowBits(Not(LowBits(x, w), w) + 1, w), n) == Pow2(n) - x
  {
    Pow2Mono(n, w);
    LowBitsId(x, w);
    NotIsComplement(x, w);
    LowBitsId(Pow2(w) - x, w);
    LowBitsNegate(x, w, n);
  }

  /**
   * `tiny_int::proxy::get()` on the extracted pattern x of an n-bit view,
   * for a w-bit object type: the pattern itself when the sign bit is clear,
   * otherwise the negated magnitude `~rep + 1` masked to n bits.
   */
  function SignedDecode(x: nat, n: nat, w: nat): (r: int)
    requires 1 <= n <= w && x < Pow2(n)
    ensures r == if Pow2(n - 1) <= x then x - Pow2(n) else x
    ensures SignedMin(n) <= r <= SignedMax(n)
  {
    TopBit(x, n);
    if !Bit(x, n - 1) then x
    else
      NegatedMagnitude(x, n, w);
      0 - LowBits(LowBits(Not(LowBits(x, w), w) + 1, w), n)
  }

  /** The n low bits `assign` leaves in the view: the w-bit representation truncated by the view. */
  function SignedEncode(value: int, n: nat, w: nat): (x: nat)
    requires 1 <= n <= w
    ensures x < Pow2(n)
  {
    LowBitsBound(ToUnsigned(value, w), n);
    LowBits(ToUnsigned(value, w), n)
  }

  /** Every value in [min, max] survives a store and a read. */
  lemma SignedRoundTrip(value: int, n: nat, w: nat)
    requires 1 <= n <= w
    requires SignedMin(n) <= value <= SignedMax(n)
    ensures SignedDecode(SignedEncode(value, n, w), n, w) == value
  {
    SignedLimitsMono(n, w);
    var x := SignedEncode(value, n, w);
    if value >= 0 {
      LowBitsId(value, n);
      assert x == value;
    } else {
      LowBitsNegate(-value, w, n);
      assert x == Pow2(n) + value;
    }
  }

  /** Every n-bit pattern is the stored form of the value it reads as. */
  lemma SignedPatternRoundTrip(x: nat, n: nat, w: nat)
    requires 1 <= n <= w && x < Pow2(n)
    ensures SignedEncode(SignedDecode(x, n, w), n, w) == x
  {
    var value := SignedDecode(x, n, w);
    SignedRoundTrip(value, n, w);
    var y := SignedEncode(value, n, w);
    assert SignedDecode(y, n, w) == value;
  }

  /**
   * The conversion back to a w-bit signed type wraps around: the maximum
   * plus one is the minimum and back, so `tiny_int<8, std::int8_t>` at 127
   * becomes -128 under `++`, computed in `int`.
   */
  lemma SignedStepWraps(w: nat)
    requires w >= 1
    ensures ToSigned(SignedMax(w) + 1, w) == SignedMin(w)
    ensures ToSigned(SignedMin(w) - 1, w) == SignedMax(w)
    ensures w == 8 ==> SignedMax(w) == 127 && SignedMin(w) == -128
  {
    assert Pow2(w) == 2 * Pow2(w - 1);
    assert Pow2(7) == 128;
  }

  /**
   * The library's signed examples, 13 - 17, -4 * -4, 16 / 3 and 5 % 2, computed
   * in any object type of at least 8 bits (the tests use the default `int`).
   */
  lemma SignedExamples(w: nat)
    requires w >= 8
    ensures SignedMin(7) == -64 && SignedMax(7) == 63
    ensures ToSigned(Apply(Sub, 13, 17), w) == -4
    ensures ToSigned(Apply(Mul, -4, -4), w) == 16
    ensures ToSigned(Apply(Div, 16, 3), w) == 5
    ensures ToSigned(Apply(Rem, 5, 2), w) == 1
  {
    assert Pow2(6) == 64;
    Pow2Mono(6, w - 1);
  }

  // ---------------------------------------------------------------------------
  // the unsigned representation

  /** An unsigned value below 2^n survives a store and a read. */
  lemma UnsignedRoundTrip(mem: Mem, v: View, value: nat)
    requires Fits(v, mem) && Distinct(v)
    requires value < Pow2(|v|)
    ensures Extract(Put(mem, v, value), v) == value
  {
    ExtractPut(mem, v, value);
    LowBitsId(value, |v|);
  }

  // ---------------------------------------------------------------------------
  // proxies

  /** `tiny_unsigned<bits, Integer>::proxy` with Integer of `intBits` bits. */
  class UnsignedProxy {
    const store: Storage
    const view: View
    const bits: nat
    const intBits: nat

    ghost predicate Valid()
      reads store
    {
      SelectInteger.IsStandardWidth(intBits) && bits <= intBits && Usable(view, store.mem, bits)
    }

    /** The tiny type requires `Bits <= sizeof(Integer) * CHAR_BIT`; the view is `Bits` wide. */
    constructor (store: Storage, view: View, bits: nat, intBits: nat)
      requires SelectInteger.IsStandardWidth(intBits) && bits <= intBits
      requires Usable(view, store.mem, bits)
      ensures this.store == store && this.view == view
      ensures this.bits == bits && this.intBits == intBits
      ensures Valid()
    {
      this.store := store;
      this.view := view;
      this.bits := bits;
      this.intBits := intBits;
    }

    /** `get()`: the extracted bits converted to the object type, which keeps them. */
    function Get(): (r: nat)
      reads store
      requires Valid()
      ensures r < Pow2(bits)
      ensures r == Extract(store.mem, view)
    {
      Pow2Mono(bits, intBits);
      ToUnsigned(Extract(store.mem, view), intBits)
    }

    /** `operator=`: the value must have no bit at or above `bits`. */
    method Assign(value: nat)
      requires Valid()
      requires value < Pow2(bits)
      modifies store
      ensures Valid()
      ensures store.mem == Put(old(store.mem), view, value)
      ensures Get() == value
    {
      store.Write(view, value);
      UnsignedRoundTrip(old(store.mem), view, value);
    }

    /**
     * `+= -= *= /= %=`: compute in the object type (in `int` when it is
     * narrower, where the result must fit), convert, and assign; the result
     * must fit again.
     */
    method Compound(op: ArithOp, i: nat)
      requires Valid()
      requires i < Pow2(intBits)
      requires op.Div? || op.Rem? ==> i != 0
      requires UnsignedOpDefined(op, Get(), i, intBits)
      requires ToUnsigned(Apply(op, Get(), i), intBits) < Pow2(bits)
      modifies store
      ensures Valid()
      ensures Get() == ToUnsigned(Apply(op, old(Get()), i), intBits)
      ensures store.mem == Put(old(store.mem), view, Get())
    {
      var result := ToUnsigned(Apply(op, Get(), i), intBits);
      Assign(result);
    }

    /** Prefix `++`: `*this += 1`. */
    method PreIncrement()
      requires Valid()
      requires ToUnsigned(Get() + 1, intBits) < Pow2(bits)
      modifies store
      ensures Valid()
      ensures Get() == ToUnsigned(old(Get()) + 1, intBits)
      ensures store.mem == Put(old(store.mem), view, Get())
    {
      Pow2Mono(1, intBits);
      UnsignedStepDefined(Get(), intBits);
      Compound(Add, 1);
    }

    /** Postfix `++`: increments and returns the old value. */
    method PostIncrement() returns (copy: nat)
      requires Valid()
      requires ToUnsigned(Get() + 1, intBits) < Pow2(bits)
      modifies store
      ensures Valid()
      ensures copy == old(Get())
      ensures Get() == ToUnsigned(copy + 1, intBits)
      ensures store.mem == Put(old(store.mem), view, Get())
    {
      copy := Get();
      PreIncrement();
    }

    /** Prefix `--`: `*this -= 1`. */
    method PreDecrement()
      requires Valid()
      requires ToUnsigned(Get() - 1, intBits) < Pow2(bits)
      modifies store
      ensures Valid()
      ensures Get() == ToUnsigned(old(Get()) - 1, intBits)
      ensures store.mem == Put(old(store.mem), view, Get())
    {
      Pow2Mono(1, intBits);
      UnsignedStepDefined(Get(), intBits);
      Compound(Sub, 1);
    }

    /** Postfix `--`: decrements and returns the old value. */
    method PostDecrement() returns (copy: nat)
      requires Valid()
      requires ToUnsigned(Get() - 1, intBits) < Pow2(bits)
      modifies store
      ensures Valid()
      ensures copy == old(Get())
      ensures Get() == ToUnsigned(copy - 1, intBits)
      ensures store.mem == Put(old(store.mem), view, Get())
    {
      copy := Get();
      PreDecrement();
    }
  }

  /** `tiny_int<bits, Integer>::proxy` with a signed Integer of `intBits` bits. */
  class SignedProxy {
    const store: Storage
    const view: View
    const bits: nat
    const intBits: nat

    ghost predicate Valid()
      reads store
    {
      SelectInteger.IsStandardWidth(intBits) && 1 <= bits <= intBits && Usable(view, store.mem, bits)
    }

    /** The tiny type requires `Bits <= sizeof(Integer) * CHAR_BIT`; `get()` reads bit `Bits - 1`, so Bits >= 1. */
    constructor (store: Storage, view: View, bits: nat, intBits: nat)
      requires SelectInteger.IsStandardWidth(intBits) && 1 <= bits <= intBits
      requires Usable(view, store.mem, bits)
      ensures this.store == store && this.view == view
      ensures this.bits == bits && this.intBits == intBits
      ensures Valid()
    {
      this.store := store;
      this.view := view;
      this.bits := bits;
      this.intBits := intBits;
    }

    /** `get()`: negative exactly when the top viewed bit is set. */
    function Get(): (r: int)
      reads store
      requires Valid()
      ensures SignedMin(bits) <= r <= SignedMax(bits)
      ensures r < 0 <==> store.mem[view[bits - 1]]
    {
      ExtractAt(store.mem, view, bits - 1);
      TopBit(Extract(store.mem, view), bits);
      SignedDecode(Extract(store.mem, view), bits, intBits)
    }

    /** `assign`: requires min <= value <= max and stores the low bits of the representation. */
    method Assign(value: int)
      requires Valid()
      requires SignedMin(bits) <= value <= SignedMax(bits)
      modifies store
      ensures Valid()
      ensures store.mem == Put(old(store.mem), view, ToUnsigned(value, intBits))
      ensures Get() == value
    {
      store.Write(view, ToUnsigned(value, intBits));
      ExtractPut(old(store.mem), view, ToUnsigned(value, intBits));
      SignedRoundTrip(value, bits, intBits);
    }

    /**
     * `+= -= *= /= %=`: compute without overflow in the object type (in `int`
     * when it is narrower), convert to the object type, and assign; the
     * result must fit again.
     */
    method Compound(op: ArithOp, i: int)
      requires Valid()
      requires SignedMin(intBits) <= i <= SignedMax(intBits)
      requires op.Div? || op.Rem? ==> i != 0
      requires SignedOpDefined(op, Get(), i, intBits)
      requires SignedMin(bits) <= ToSigned(Apply(op, Get(), i), intBits) <= SignedMax(bits)
      modifies store
      ensures Valid()
      ensures Get() == ToSigned(Apply(op, old(Get()), i), intBits)
      ensures store.mem == Put(old(store.mem), view, ToUnsigned(Get(), intBits))
    {
      var result := ToSigned(Apply(op, Get(), i), intBits);
      Assign(result);
    }

    /**
     * Prefix `++`: `*this += 1u`.  An object type narrower than `int` is
     * promoted, so a full-width `tiny_int` wraps from its maximum to its
     * minimum; from `int`'s width on the addition must not overflow.
     */
    method PreIncrement()
      requires Valid()
      requires SignedOpDefined(Add, Get(), 1, intBits)
      requires SignedMin(bits) <= ToSigned(Get() + 1, intBits) <= SignedMax(bits)
      modifies store
      ensures Valid()
      ensures Get() == ToSigned(old(Get()) + 1, intBits)
      ensures store.mem == Put(old(store.mem), view, ToUnsigned(Get(), intBits))
    {
      SignedLimitsMono(bits, intBits);
      SignedLimitsMono(2, intBits);
      Compound(Add, 1);
    }

    /** Postfix `++`: increments and returns the old value. */
    method PostIncrement() returns (copy: int)
      requires Valid()
      requires SignedOpDefined(Add, Get(), 1, intBits)
      requires SignedMin(bits) <= ToSigned(Get() + 1, intBits) <= SignedMax(bits)
      modifies store
      ensures Valid()
      ensures copy == old(Get()) && Get() == ToSigned(copy + 1, intBits)
      ensures store.mem == Put(old(store.mem), view, ToUnsigned(Get(), intBits))
    {
      copy := Get();
      PreIncrement();
    }

    /**
     * Prefix `--`: `*this -= 1u`.  An object type narrower than `int` is
     * promoted, so a full-width `tiny_int` wraps from its minimum to its
     * maximum; from `int`'s width on the subtraction must not overflow.
     */
    method PreDecrement()
      requires Valid()
      requires SignedOpDefined(Sub, Get(), 1, intBits)
      requires SignedMin(bits) <= ToSigned(Get() - 1, intBits) <= SignedMax(bits)
      modifies store
      ensures Valid()
      ensures Get() == ToSigned(old(Get()) - 1, intBits)
      ensures store.mem == Put(old(store.mem), view, ToUnsigned(Get(), intBits))
    {
      SignedLimitsMono(bits, intBits);
      SignedLimitsMono(2, intBits);
      Compound(Sub, 1);
    }

    /** Postfix `--`: decrements and returns the old value. */
    method PostDecrement() returns (copy: int)
      requires Valid()
      requires SignedOpDefined(Sub, Get(), 1, intBits)
      requires SignedMin(bits) <= ToSigned(Get() - 1, intBits) <= SignedMax(bits)
      modifies store
      ensures Valid()
      ensures copy == old(Get()) && Get() == ToSigned(copy - 1, intBits)
      ensures store.mem == Put(old(store.mem), view, ToUnsigned(Get(), intBits))
    {
      copy := Get();
      PreDecrement();
    }
  }
}

=== FILE: tiny_pair.dfy ===
/**
 * tiny_pair.hpp: `tiny_pair_impl<Big, TinyBits>`, an object of type `Big`
 * paired with a `TinyBits`-bit unsigned integer that lives in the spare
 * bits of the big object whenever it has enough of them, and
 * `tiny_bool_pair<T>`, the pair of a `T` and a `bool` built on it, with its
 * comparisons and its own spare bits traits.
 *
 * The big object is the `SpareBits` object of traits `traits` held at bit 0
 * of a `Storage` (`storage_` in the compressed storage, `big_` otherwise).
 * `tiny_pair_impl` only forwards to its storage, so the two are one class
 * here.
 */
module TinyPair {
  import opened Bits
  import opened Views
  import SelectInteger
  import SpareBits

  /** The `tiny_pair_impl_storage` specialization a pair selects. */
  datatype Layout =
    | Compressed // `<true, Big, Integer>`: the integer lives in the big object's spare bits
    | Separate   // `<false, Big, Integer>`: a `Big` member and an `Integer` member
    | NoInteger  // `<true, Big, void>`: `TinyBits == 0`, there is no integer

  /** `tiny_pair_impl_storage_t`: compressed when `TinyBits <= spare_bits<Big>()`; `void` for zero bits. */
  function LayoutOf(t: SpareBits.SpareTraits, tinyBits: nat): Layout
    requires SpareBits.WellFormed(t)
  {
    if tinyBits > SpareBits.SpareBitCount(t) then Separate
    else if tinyBits == 0 then NoInteger
    else Compressed
  }

  /** The width of `integer_type`: `uint_least_n_t<TinyBits>`, or `unsigned char` in place of `void`. */
  function IntegerBits(tinyBits: nat): (r: nat)
    requires tinyBits <= SelectInteger.MaxUIntBits
    ensures tinyBits <= r && 8 <= r <= 64
  {
    if tinyBits == 0 then 8 else SelectInteger.SelectedBits(tinyBits)
  }

  /** The pairs this model covers: at most 64 tiny bits, and at most 64 spare bits to put them in. */
  predicate WellFormedPair(t: SpareBits.SpareTraits, tinyBits: nat)
  {
    SpareBits.WellFormed(t) && tinyBits <= SelectInteger.MaxUIntBits
    && (LayoutOf(t, tinyBits) == Compressed ==> SpareBits.SpareBitCount(t) <= 64)
  }

  /**
   * What `set_integer(i)` accepts: a value of `integer_type`; in the
   * compressed storage one that fits the spare bits (the precondition of
   * `put_spare_bits`), and only 0 when there is no integer.
   */
  predicate Settable(t: SpareBits.SpareTraits, tinyBits: nat, i: nat)
    requires WellFormedPair(t, tinyBits)
  {
    i < Pow2(IntegerBits(tinyBits))
    && match LayoutOf(t, tinyBits)
       case Compressed => i < Pow2(SpareBits.SpareBitCount(t))
       case Separate => true
       case NoInteger => i == 0
  }

  /** The three storages of the pair support the test type with 16 spare bits as expected. */
  lemma LayoutChoice(t: SpareBits.SpareTraits)
    requires SpareBits.WellFormed(t) && SpareBits.SpareBitCount(t) == 16
    ensures LayoutOf(t, 8) == Compressed && LayoutOf(t, 16) == Compressed
    ensures LayoutOf(t, 17) == Separate && LayoutOf(t, 32) == Separate
    ensures LayoutOf(t, 0) == NoInteger
    ensures forall n: nat :: LayoutOf(t, n) == Separate <==> n > 16
  {
  }

  class TinyPairImpl {
    const traits: SpareBits.SpareTraits
    const tinyBits: nat
    /** `storage_` (compressed) or `big_` (separate): the big object's representation. */
    const store: Storage
    /** `int_` of the separate storage. */
    var integer: nat

    ghost predicate Valid()
      reads this, store
    {
      WellFormedPair(traits, tinyBits) && |store.mem| == SpareBits.ObjectSize(traits)
      && integer < Pow2(IntegerBits(tinyBits))
    }

    function Kind(): Layout
      requires SpareBits.WellFormed(traits)
    {
      LayoutOf(traits, tinyBits)
    }

    /** `big()`: in the compressed storage a copy with the spare bits cleared. */
    function Big(): (b: Mem)
      reads this, store
      requires Valid()
      ensures |b| == SpareBits.ObjectSize(traits)
      ensures Kind() == Compressed ==> SpareBits.ExtractSpareBits(b, traits, 0) == 0
    {
      if Kind() == Compressed then SpareBits.ExtractObject(store.mem, traits, 0) else store.mem
    }

    /** `integer()`: in the compressed storage the spare bits cast to `integer_type`. */
    function Integer(): (i: nat)
      reads this, store
      requires Valid()
      ensures i < Pow2(IntegerBits(tinyBits))
      ensures Kind() == Compressed ==> i < Pow2(SpareBits.SpareBitCount(traits))
      ensures Kind() == NoInteger ==> i == 0
    {
      match Kind()
      case Compressed =>
        var x := SpareBits.ExtractSpareBits(store.mem, traits, 0);
        LowBitsBound(x, IntegerBits(tinyBits));
        LowBitsBelow(x, IntegerBits(tinyBits), SpareBits.SpareBitCount(traits));
        LowBits(x, IntegerBits(tinyBits))
      case Separate => integer
      case NoInteger => 0
    }

    /** `explicit tiny_pair_impl(Big big, integer_type i)`: the store holds `big`, then `set_integer(i)`. */
    constructor (t: SpareBits.SpareTraits, tinyBits: nat, store: Storage, i: nat)
      requires WellFormedPair(t, tinyBits) && |store.mem| == SpareBits.ObjectSize(t)
      requires Settable(t, tinyBits, i)
      modifies store
      ensures traits == t && this.tinyBits == tinyBits && this.store == store
      ensures Valid() && Integer() == i
      ensures Kind() == Compressed ==> Big() == SpareBits.ClearSpare(old(store.mem), t, 0)
      ensures Kind() != Compressed ==> Big() == old(store.mem)
    {
      traits := t;
      this.tinyBits := tinyBits;
      this.store := store;
      integer := 0;
      new;
      SetInteger(i);
    }

    /** The copy constructor: `storage_(other.big())`, then `set_integer(other.integer())`. */
    constructor Copy(other: TinyPairImpl, store: Storage)
      requires other.Valid() && store != other.store
      requires |store.mem| == SpareBits.ObjectSize(other.traits)
      modifies store
      ensures traits == other.traits && tinyBits == other.tinyBits && this.store == store
      ensures Valid() && Big() == other.Big() && Integer() == other.Integer()
    {
      traits := other.traits;
      tinyBits := other.tinyBits;
      this.store := store;
      integer := 0;
      new;
      var b := other.Big();
      store.mem := b;
      if Kind() == Compressed {
        SpareBits.ClearZeroSpare(b, traits, 0);
      }
      SetInteger(other.Integer());
    }

    /** `set_integer(i)`: the integer changes, the big object does not. */
    method SetInteger(i: nat)
      requires Valid() && Settable(traits, tinyBits, i)
      modifies this, store
      ensures Valid() && Integer() == i && Big() == old(Big())
    {
      match Kind()
      case Compressed =>
        ghost var before := store.mem;
        SpareBits.PutSpareBits(store, traits, 0, i);
        SpareBits.ExtractAfterPut(before, traits, 0, i);
        LowBitsId(i, IntegerBits(tinyBits));
        SpareBits.ClearAfterPut(before, traits, 0, i);
      case Separate =>
        integer := i;
      case NoInteger =>
    }

    /**
     * `*modify_big() = value` (also `set_first`): in the compressed storage
     * the modifier clears the spare bits, the object is overwritten and the
     * saved spare bits are put back, so the integer survives.
     */
    method AssignBig(value: Mem)
      requires Valid() && |value| == SpareBits.ObjectSize(traits)
      modifies store
      ensures Valid() && Integer() == old(Integer())
      ensures Kind() == Compressed ==> Big() == SpareBits.ClearSpare(value, traits, 0)
      ensures Kind() != Compressed ==> Big() == value
    {
      if Kind() == Compressed {
        var m := new SpareBits.Modifier(store, traits, 0);
        store.mem := value;
        m.Release();
        SpareBits.ExtractAfterPut(value, traits, 0, m.spare);
        SpareBits.ClearAfterPut(value, traits, 0, m.spare);
      } else {
        store.mem := value;
      }
    }

    /** The copy assignment: `*modify_big() = other.big()`, then `set_integer(other.integer())`. */
    method Assign(other: TinyPairImpl)
      requires Valid() && other.Valid() && other != this && other.store != store
      requires other.traits == traits && other.tinyBits == tinyBits
      modifies this, store
      ensures Valid() && Big() == other.Big() && Integer() == other.Integer()
    {
      var b := other.Big();
      AssignBig(b);
      if Kind() == Compressed {
        SpareBits.ClearZeroSpare(b, traits, 0);
      }
      SetInteger(other.Integer());
    }

    /** The destructor of the compressed storage clears the spare bits, leaving the object `big()` showed. */
    method Destroy()
      requires Valid()
      modifies store
      ensures store.mem == old(Big())
      ensures Kind() != Compressed ==> store.mem == old(store.mem)
    {
      if Kind() == Compressed {
        SpareBits.ClearSpareBits(store, traits, 0);
      }
    }
  }

  // ---------------------------------------------------------------------------
  // tiny_bool_pair

  /** The values a `tiny_bool_pair<T>` shows: `first()` and `second()`. */
  datatype BoolPair = BoolPair(first: Mem, second: bool)

  /** `static_cast<integer_type>(~0x1)` for the `unsigned char` integer of a bool pair. */
  function AllButBoolBit(): nat
  {
    Not(1, 8)
  }

  /** `set_second`'s new integer: the old one without bit 0, or-ed with the boolean. */
  function WithBool(x: nat, b: bool): nat
  {
    Or(And(x, AllButBoolBit()), BoolToNat(b))
  }

  /** Replacing the boolean bit sets bit 0 and keeps every other bit and every bound from 1 bit up. */
  lemma WithBoolBits(x: nat, b: bool, n: nat)
    requires x < Pow2(8) && x < Pow2(n) && 1 <= n
    ensures Bit(WithBool(x, b), 0) == b
    ensures Shr(WithBool(x, b), 1) == Shr(x, 1)
    ensures WithBool(x, b) < Pow2(n)
  {
    var y := WithBool(x, b);
    assert Bit(y, 0) == b by {
      BitOr(And(x, AllButBoolBit()), BoolToNat(b), 0);
      BitAnd(x, AllButBoolBit(), 0);
      BitNot(1, 8, 0);
      BitOne(0);
      BitBool(b, 0);
    }
    forall i: nat
      ensures Bit(Shr(y, 1), i) == Bit(Shr(x, 1), i)
    {
      WithBoolHighBit(x, b, i);
    }
    BitsExt(Shr(y, 1), Shr(x, 1));
    forall i: nat | i >= n
      ensures !Bit(y, i)
    {
      BitOr(And(x, AllButBoolBit()), BoolToNat(b), i);
      BitAnd(x, AllButBoolBit(), i);
      BitBool(b, i);
      BitAboveBound(x, n, i);
    }
    BoundFromBits(y, n);
  }

  /** Bit i + 1 of the new integer is bit i + 1 of the old one. */
  lemma WithBoolHighBit(x: nat, b: bool, i: nat)
    requires x < Pow2(8)
    ensures Bit(Shr(WithBool(x, b), 1), i) == Bit(Shr(x, 1), i)
  {
    var y := WithBool(x, b);
    var j := i + 1;
    BitShr(y, 1, i);
    BitShr(x, 1, i);
    BitOr(And(x, AllButBoolBit()), BoolToNat(b), j);
    BitAnd(x, AllButBoolBit(), j);
    BitNot(1, 8, j);
    BitOne(j);
    BitBool(b, j);
    if j >= 8 {
      BitAboveBound(x, 8, j);
    }
  }

  class TinyBoolPair {
    /** `impl_`, a `tiny_pair_impl<T, 1>`. */
    const impl: TinyPairImpl

    ghost predicate Valid()
      reads this, impl, impl.store
    {
      impl.Valid() && impl.tinyBits == 1
    }

    /** `first()` */
    function First(): (f: Mem)
      reads this, impl, impl.store
      requires Valid()
      ensures |f| == SpareBits.ObjectSize(impl.traits)
    {
      impl.Big()
    }

    /** `second()`: `(integer() & 0x1) == 1`, the lowest bit of the integer. */
    predicate Second()
      reads this, impl, impl.store
      requires Valid()
    {
      Bit(impl.Integer(), 0)
    }

    function Value(): BoolPair
      reads this, impl, impl.store
      requires Valid()
    {
      BoolPair(First(), Second())
    }

    /** `tiny_bool_pair(first, second)` (and `T()`, `false` by default): the store holds `first`. */
    constructor (t: SpareBits.SpareTraits, store: Storage, second: bool)
      requires WellFormedPair(t, 1) && |store.mem| == SpareBits.ObjectSize(t)
      modifies store
      ensures Valid() && impl.traits == t && impl.store == store && fresh(impl)
      ensures Second() == second
      ensures impl.Kind() == Compressed ==> First() == SpareBits.ClearSpare(old(store.mem), t, 0)
      ensures impl.Kind() != Compressed ==> First() == old(store.mem)
    {
      Pow2Mono(1, 8);
      if LayoutOf(t, 1) == Compressed {
        Pow2Mono(1, SpareBits.SpareBitCount(t));
      }
      impl := new TinyPairImpl(t, 1, store, BoolToNat(second));
      new;
      BitBool(second, 0);
    }

    /** `set_first(value)`: `*modify_big() = value`; the boolean is kept. */
    method SetFirst(value: Mem)
      requires Valid() && |value| == SpareBits.ObjectSize(impl.traits)
      modifies impl.store
      ensures Valid() && Second() == old(Second())
      ensures impl.Kind() == Compressed ==> First() == SpareBits.ClearSpare(value, impl.traits, 0)
      ensures impl.Kind() != Compressed ==> First() == value
    {
      impl.AssignBig(value);
    }

    /** `set_second(b)`: only the boolean bit of the integer changes. */
    method SetSecond(b: bool)
      requires Valid()
      modifies impl, impl.store
      ensures Valid() && Second() == b && First() == old(First())
      ensures Shr(impl.Integer(), 1) == old(Shr(impl.Integer(), 1))
    {
      var x := impl.Integer();
      if impl.Kind() == Compressed {
        WithBoolBits(x, b, SpareBits.SpareBitCount(impl.traits));
      } else {
        WithBoolBits(x, b, 8);
      }
      impl.SetInteger(WithBool(x, b));
    }

    /** The tuple assignment: `*modify_first() = first`, then `set_second(second)`. */
    method AssignPair(first: Mem, second: bool)
      requires Valid() && |first| == SpareBits.ObjectSize(impl.traits)
      modifies impl, impl.store
      ensures Valid() && Second() == second
      ensures impl.Kind() == Compressed ==> First() == SpareBits.ClearSpare(first, impl.traits, 0)
      ensures impl.Kind() != Compressed ==> First() == first
    {
      SetFirst(first);
      SetSecond(second);
    }

    /** The spare bits traits' `extract`: `integer() >> 1`, at most 7 bits. */
    function ExtractSpare(): (bits: nat)
      reads this, impl, impl.store
      requires Valid()
      ensures bits < Pow2(7)
    {
      ShrBound(impl.Integer(), 1, 7);
      Shr(impl.Integer(), 1)
    }

    /**
     * The spare bits traits' `put`: the bits shifted above the boolean and
     * cast to the `unsigned char` integer, or-ed with the boolean.  It takes
     * what `put_spare_bits` lets through, anything below the advertised
     * count; only the low 7 bits survive the cast (see
     * `AsWrittenPairLosesBits`), which are all of them for bits that fit the
     * corrected count `PairSpareBits`.
     */
    method PutSpare(bits: nat)
      requires Valid() && bits < Pow2(AsWrittenPairSpareBits(impl.traits))
      modifies impl, impl.store
      ensures Valid() && ExtractSpare() == LowBits(bits, 7)
      ensures bits < Pow2(PairSpareBits(impl.traits)) ==> ExtractSpare() == bits
      ensures First() == old(First()) && Second() == old(Second())
    {
      var y := SpareInteger(bits, Second());
      var c := AsWrittenPairSpareBits(impl.traits);
      if c < 8 {
        SpareIntegerBound(bits, Second(), c);
        Pow2Mono(c + 1, 8);
      } else {
        Pow2Mono(8, c + 1);
      }
      Pow2Mono(8, IntegerBits(1));
      SpareIntegerKeepsLow(bits, Second());
      if bits < Pow2(PairSpareBits(impl.traits)) {
        PairSpareRoundTrip(impl.traits, bits, Second());
      }
      impl.SetInteger(y);
    }
  }

  // ---------------------------------------------------------------------------
  // comparisons

  /** `lhs == rhs`: both `second()` and `first()` (`T`'s equality, here equal representations) agree. */
  predicate Equal(l: BoolPair, r: BoolPair)
  {
    l.second == r.second && l.first == r.first
  }

  /** `lhs < rhs`: by `first()` under `T`'s `less`, ties broken by `second()` with `false < true`. */
  predicate Less(less: (Mem, Mem) -> bool, l: BoolPair, r: BoolPair)
  {
    less(l.first, r.first) || (!less(r.first, l.first) && !l.second && r.second)
  }

  /** `lhs <= rhs` is `!(rhs < lhs)`. */
  predicate LessEq(less: (Mem, Mem) -> bool, l: BoolPair, r: BoolPair)
  {
    !Less(less, r, l)
  }

  /** `lhs > rhs` is `rhs < lhs`. */
  predicate Greater(less: (Mem, Mem) -> bool, l: BoolPair, r: BoolPair)
  {
    Less(less, r, l)
  }

  /** `lhs >= rhs` is `!(lhs < rhs)`. */
  predicate GreaterEq(less: (Mem, Mem) -> bool, l: BoolPair, r: BoolPair)
  {
    !Less(less, l, r)
  }

  /** `T`'s `<` is a strict total order whose incomparable elements are the equal ones. */
  ghost predicate StrictTotalOrder(less: (Mem, Mem) -> bool)
  {
    (forall a: Mem :: !less(a, a))
    && (forall a: Mem, b: Mem, c: Mem :: less(a, b) && less(b, c) ==> less(a, c))
    && (forall a: Mem, b: Mem :: a != b ==> less(a, b) || less(b, a))
  }

  /** Over a strict total order the pair order is the lexicographic one: exactly one of <, == and > holds. */
  lemma PairTrichotomy(less: (Mem, Mem) -> bool, l: BoolPair, r: BoolPair)
    requires StrictTotalOrder(less)
    ensures Less(less, l, r) || Equal(l, r) || Less(less, r, l)
    ensures !(Less(less, l, r) && Less(less, r, l))
    ensures Equal(l, r) ==> !Less(less, l, r)
    ensures LessEq(less, l, r) <==> Less(less, l, r) || Equal(l, r)
    ensures GreaterEq(less, l, r) <==> Greater(less, l, r) || Equal(l, r)
  {
    if l.first == r.first {
      assert l == r || l.second != r.second;
    }
  }

  /** The pair order is transitive. */
  lemma PairTransitive(less: (Mem, Mem) -> bool, a: BoolPair, b: BoolPair, c: BoolPair)
    requires StrictTotalOrder(less)
    requires Less(less, a, b) && Less(less, b, c)
    ensures Less(less, a, c)
  {
  }

  // ---------------------------------------------------------------------------
  // the spare bits of a bool pair

  /** `put`'s new integer: `integer_type(bits << 1) | integer_type(second())`, an `unsigned char`. */
  function SpareInteger(bits: nat, second: bool): (r: nat)
    ensures r < Pow2(8) && Bit(r, 0) == second
  {
    var shifted := LowBits(Shl(bits, 1, 64), 8);
    LowBitsBound(Shl(bits, 1, 64), 8);
    BitLowBits(Shl(bits, 1, 64), 8, 0);
    BitShl(bits, 1, 64, 0);
    BitBool(second, 0);
    BitOr(shifted, BoolToNat(second), 0);
    assert BoolToNat(second) < Pow2(8) by { Pow2Mono(1, 8); }
    OrBound(shifted, BoolToNat(second), 8);
    Or(shifted, BoolToNat(second))
  }

  /** A value of c < 8 bits takes c + 1 bits once shifted above the boolean. */
  lemma SpareIntegerBound(bits: nat, second: bool, c: nat)
    requires c < 8 && bits < Pow2(c)
    ensures SpareInteger(bits, second) < Pow2(c + 1)
  {
    var shifted := LowBits(Shl(bits, 1, 64), 8);
    forall i: nat | i >= c + 1
      ensures !Bit(SpareInteger(bits, second), i)
    {
      BitOr(shifted, BoolToNat(second), i);
      BitLowBits(Shl(bits, 1, 64), 8, i);
      BitShl(bits, 1, 64, i);
      BitBool(second, i);
      BitAboveBound(bits, c, i - 1);
    }
    BoundFromBits(SpareInteger(bits, second), c + 1);
  }

  /** The trip through the `unsigned char` integer keeps the low 7 bits of what is put. */
  lemma SpareIntegerKeepsLow(bits: nat, second: bool)
    ensures Shr(SpareInteger(bits, second), 1) == LowBits(bits, 7)
  {
    var y := SpareInteger(bits, second);
    var shifted := LowBits(Shl(bits, 1, 64), 8);
    forall i: nat
      ensures Bit(Shr(y, 1), i) == Bit(LowBits(bits, 7), i)
    {
      BitShr(y, 1, i);
      BitOr(shifted, BoolToNat(second), i + 1);
      BitLowBits(Shl(bits, 1, 64), 8, i + 1);
      BitShl(bits, 1, 64, i + 1);
      BitBool(second, i + 1);
      BitLowBits(bits, 7, i);
    }
    BitsExt(Shr(y, 1), LowBits(bits, 7));
  }

  /** Up to 7 bits survive the trip through the `unsigned char` integer. */
  lemma SpareIntegerRoundTrip(bits: nat, second: bool)
    requires bits < Pow2(7)
    ensures Shr(SpareInteger(bits, second), 1) == bits
  {
    SpareIntegerKeepsLow(bits, second);
    LowBitsId(bits, 7);
  }

  /**
   * `spare_bits_traits<tiny_bool_pair<T>>::spare_bits` as written: one
   * less than `T`'s spare bits, or 7 bits of the separate `unsigned char`.
   */
  function AsWrittenPairSpareBits(t: SpareBits.SpareTraits): nat
    requires SpareBits.WellFormed(t)
  {
    var s := SpareBits.SpareBitCount(t);
    if s >= 1 then s - 1 else 8 - 1
  }

  /**
   * The spare bit count the traits can keep: `T`'s spare bits carry the
   * `unsigned char` integer, so no more than 8 of them minus the boolean.
   */
  function PairSpareBits(t: SpareBits.SpareTraits): (c: nat)
    requires SpareBits.WellFormed(t)
    ensures c <= 7 && c <= AsWrittenPairSpareBits(t)
    ensures SpareBits.SpareBitCount(t) <= 8 ==> c == AsWrittenPairSpareBits(t)
  {
    var s := SpareBits.SpareBitCount(t);
    if s >= 1 then (if s <= 8 then s else 8) - 1 else 8 - 1
  }

  /** With the corrected count every value put comes back and the boolean is kept. */
  lemma PairSpareRoundTrip(t: SpareBits.SpareTraits, bits: nat, second: bool)
    requires SpareBits.WellFormed(t) && bits < Pow2(PairSpareBits(t))
    ensures Shr(SpareInteger(bits, second), 1) == bits
    ensures Bit(SpareInteger(bits, second), 0) == second
  {
    Pow2Mono(PairSpareBits(t), 7);
    SpareIntegerRoundTrip(bits, second);
  }

  /**
   * As written, a `T` with 9 or more spare bits promises at least 8 spare
   * bits in the pair, but `put(0x80)` shifts the set bit out of the
   * `unsigned char` and `extract` returns 0.
   */
  lemma AsWrittenPairLosesBits(t: SpareBits.SpareTraits, second: bool)
    requires SpareBits.WellFormed(t) && SpareBits.SpareBitCount(t) >= 9
    ensures AsWrittenPairSpareBits(t) >= 8 && 0x80 < Pow2(AsWrittenPairSpareBits(t))
    ensures Shr(SpareInteger(0x80, second), 1) == 0
  {
    assert Pow2(7) == 0x80;
    assert Pow2(8) == 0x100;
    Pow2Mono(8, AsWrittenPairSpareBits(t));
    var y := SpareInteger(0x80, second);
    forall i: nat
      ensures Bit(Shr(y, 1), i) == Bit(0, i)
    {
      LostBit(second, i);
    }
    BitsExt(Shr(y, 1), 0);
  }

  /** Bit i of `(0x80 << 1 | second) >> 1` in an `unsigned char`: always clear. */
  lemma LostBit(second: bool, i: nat)
    ensures Bit(Shr(SpareInteger(0x80, second), 1), i) == Bit(0, i)
  {
    assert Pow2(7) == 0x80;
    var y := SpareInteger(0x80, second);
    var shifted := LowBits(Shl(0x80, 1, 64), 8);
    BitShr(y, 1, i);
    BitOr(shifted, BoolToNat(second), i + 1);
    BitLowBits(Shl(0x80, 1, 64), 8, i + 1);
    BitShl(0x80, 1, 64, i + 1);
    BitBool(second, i + 1);
    BitPow2(7, i);
    BitZero(i);
  }

  /** The counts the traits give for pointers to 2-, 8- and 1-aligned types: 0, 2 and 7. */
  lemma PairSpareCounts()
    ensures SpareBits.WellFormed(SpareBits.PointerSpare(2)) && AsWrittenPairSpareBits(SpareBits.PointerSpare(2)) == 0
    ensures SpareBits.WellFormed(SpareBits.PointerSpare(8)) && AsWrittenPairSpareBits(SpareBits.PointerSpare(8)) == 2
    ensures SpareBits.WellFormed(SpareBits.PointerSpare(1)) && AsWrittenPairSpareBits(SpareBits.PointerSpare(1)) == 7
  {
    SpareBits.PointerCounts();
  }
}

=== FILE: tiny_pointer_storage.dfy ===
/**
 * tiny_pointer_storage.hpp: a pointer together with tiny types, stored in
 * the low address bits the pointee's alignment keeps zero
 * (`ilog2_ceil(Alignment)` of them) and, when those are not enough, in an
 * extra byte array for the remaining bits.
 *
 * The policy's storage is a `Storage`: the pointer word `ptr` at bits
 * [0, 64), followed in the uncompressed storage by the bytes of
 * `tiny_storage_type<remaining_size>`.  The tiny types live in a
 * `basic_tiny_type_storage` over the policy's storage view.
 */
module TinyPointerStorage {
  import opened Bits
  import opened Views
  import Ilog2
  import opened TinyTypes
  import opened TinyStorage
  import opened TinyTypeStorage
  import SpareBits

  /**
   * A pointee type as `tiny_pointer_storage` and `pointer_variant_impl` see
   * it: a type `T` (named by `id`, with `alignof(T)`), or
   * `aligned_obj<T, Alignment>`.
   */
  datatype Pointee = Object(id: nat, alignof: nat) | AlignedObj(id: nat, alignof: nat, alignment: nat)

  /** `alignment_of<T>()`: `alignof(T)`, or the alignment an `aligned_obj` promises. */
  function AlignmentOf(p: Pointee): nat
  {
    match p
    case Object(_, a) => a
    case AlignedObj(_, _, a) => a
  }

  /** `compressed_size`: the low address bits that are zero for every aligned pointer. */
  function CompressedSize(alignment: nat): (k: nat)
    requires 1 <= alignment < SizeMod
    ensures k <= 64
  {
    SpareBits.Ilog2CeilAtMost64(alignment);
    Ilog2.Ilog2Ceil(alignment)
  }

  /** `remaining_size` as written: `total_size - compressed_size` in `std::size_t`. */
  function AsWrittenRemainingSize(alignment: nat, total: nat): nat
    requires 1 <= alignment < SizeMod
  {
    Wrap64(total - CompressedSize(alignment))
  }

  /** The tiny bits that do not fit into the pointer, none when they all fit. */
  function RemainingSize(alignment: nat, total: nat): (r: nat)
    requires 1 <= alignment < SizeMod
  {
    if total <= CompressedSize(alignment) then 0 else total - CompressedSize(alignment)
  }

  /** `is_compressed`: `remaining_size == 0`. */
  predicate IsCompressed(alignment: nat, total: nat)
    requires 1 <= alignment < SizeMod
  {
    RemainingSize(alignment, total) == 0
  }

  /** The bits of the policy's storage: the pointer word, then the bytes of the remaining bits. */
  function PolicyBits(alignment: nat, total: nat): nat
    requires 1 <= alignment < SizeMod
  {
    if IsCompressed(alignment, total) then 64
    else 64 + 8 * StorageBytes(RemainingSize(alignment, total))
  }

  /**
   * `storage_view()`: the pointer's low `compressed_size` bits, joined in
   * the uncompressed storage with all the bits of the byte array.
   */
  function PolicyView(alignment: nat, total: nat): View
    requires 1 <= alignment < SizeMod
  {
    if IsCompressed(alignment, total) then Range(0, CompressedSize(alignment))
    else Join(Range(0, CompressedSize(alignment)), Range(64, PolicyBits(alignment, total)))
  }

  /** The policy's view holds every tiny bit, lies in the storage and touches the pointer only below `compressed_size`. */
  lemma PolicyViewLayout(alignment: nat, total: nat, mem: Mem)
    requires 1 <= alignment < SizeMod && |mem| == PolicyBits(alignment, total)
    ensures Fits(PolicyView(alignment, total), mem) && Distinct(PolicyView(alignment, total))
    ensures total <= |PolicyView(alignment, total)|
    ensures forall j :: 0 <= j < |PolicyView(alignment, total)| ==>
              PolicyView(alignment, total)[j] < CompressedSize(alignment) || 64 <= PolicyView(alignment, total)[j]
  {
    var k := CompressedSize(alignment);
    RangeDistinct(0, k);
    if !IsCompressed(alignment, total) {
      var n := PolicyBits(alignment, total);
      RangeDistinct(64, n);
      RangesDisjoint(0, k, 64, n);
      DistinctJoin(Range(0, k), Range(64, n));
    }
  }

  /** As written, fewer tiny bits than `compressed_size` make `remaining_size` wrap around to nearly 2^64. */
  lemma AsWrittenRemainingWraps(alignment: nat, total: nat)
    requires 1 <= alignment < SizeMod && total < SizeMod
    ensures total < CompressedSize(alignment) ==>
              AsWrittenRemainingSize(alignment, total) >= SizeMod - 64 && IsCompressed(alignment, total)
    ensures total >= CompressedSize(alignment) ==>
              AsWrittenRemainingSize(alignment, total) == RemainingSize(alignment, total)
    ensures AsWrittenRemainingSize(alignment, total) == 0 <==> total == CompressedSize(alignment)
  {
  }

  /** A pointer to `std::uint64_t` with a single `tiny_bool`: 3 pointer bits, 1 tiny bit. */
  lemma PointerAndBool()
    ensures CompressedSize(8) == 3
    ensures AsWrittenRemainingSize(8, 1) == SizeMod - 2
    ensures IsCompressed(8, 1) && PolicyBits(8, 1) == 64
  {
    assert Pow2(3) == 8 && Pow2(4) == 16;
    Ilog2.Octave(8, 3);
  }

  /**
   * The storages of the tests: `std::uint32_t` with 2 bits and
   * `aligned_obj<int, 8>` with 3 bits are compressed, `std::uint32_t` with 3
   * bits takes one extra byte, and `std::uint32_t` with 2 + 32 and 32 bits
   * takes two pointer-sized words.
   */
  lemma TestedStorages()
    ensures AlignmentOf(AlignedObj(0, 4, 8)) == 8
    ensures IsCompressed(4, 2) && PolicyBits(4, 2) == 64
    ensures IsCompressed(8, 3) && PolicyBits(8, 3) == 64
    ensures !IsCompressed(4, 3) && PolicyBits(4, 3) == 64 + 8
    ensures !IsCompressed(4, 2 + 32 + 32) && PolicyBits(4, 2 + 32 + 32) == 2 * 64
  {
    assert Pow2(2) == 4 && Pow2(3) == 8 && Pow2(4) == 16;
    Ilog2.Octave(4, 2);
    Ilog2.Octave(8, 3);
  }

  // ---------------------------------------------------------------------------
  // the pointer word

  /** `clear_bits<0, k>(x)`: the value with its low k bits cleared. */
  function ClearLowBits(x: nat, k: nat): nat
  {
    ShlU(Shr(x, k), k)
  }

  /** Clearing the low bits keeps the high ones, and changes nothing exactly when they were clear. */
  lemma ClearLowBitsSpec(x: nat, k: nat)
    requires x < SizeMod && k <= 64
    ensures LowBits(ClearLowBits(x, k), k) == 0
    ensures Shr(ClearLowBits(x, k), k) == Shr(x, k)
    ensures ClearLowBits(x, k) < SizeMod
    ensures ClearLowBits(x, k) == x <==> LowBits(x, k) == 0
  {
    Pow2SizeMod();
    var r := ClearLowBits(x, k);
    forall i: nat
      ensures Bit(r, i) == (i >= k && Bit(x, i))
    {
      BitShlU(Shr(x, k), k, i);
      if i >= k {
        BitShr(x, k, i - k);
      }
    }
    forall i: nat
      ensures Bit(LowBits(r, k), i) == Bit(0, i)
    {
      BitLowBits(r, k, i);
      BitZero(i);
    }
    BitsExt(LowBits(r, k), 0);
    forall i: nat
      ensures Bit(Shr(r, k), i) == Bit(Shr(x, k), i)
    {
      BitShr(r, k, i);
      BitShr(x, k, i);
    }
    BitsExt(Shr(r, k), Shr(x, k));
    forall i: nat | i >= 64
      ensures !Bit(r, i)
    {
      BitAboveBound(x, 64, i);
    }
    BoundFromBits(r, 64);
    if LowBits(x, k) == 0 {
      forall i: nat
        ensures Bit(r, i) == Bit(x, i)
      {
        if i < k {
          BitLowBits(x, k, i);
          BitZero(i);
        }
      }
      BitsExt(r, x);
    }
  }

  /**
   * `set_pointer`'s word `as_int | extract_bits<0, k>(ptr)`: an address
   * with clear low bits keeps the old low bits, and reads back as itself.
   */
  lemma SetPointerWord(word: nat, address: nat, k: nat)
    requires word < SizeMod && address < SizeMod && k <= 64
    requires LowBits(address, k) == 0
    ensures Or(address, LowBits(word, k)) < SizeMod
    ensures LowBits(Or(address, LowBits(word, k)), k) == LowBits(word, k)
    ensures ClearLowBits(Or(address, LowBits(word, k)), k) == address
  {
    Pow2SizeMod();
    var w := Or(address, LowBits(word, k));
    LowBitsBelow(word, k, 64);
    OrBound(address, LowBits(word, k), 64);
    forall i: nat
      ensures Bit(w, i) == (if i < k then Bit(word, i) else Bit(address, i))
    {
      BitOr(address, LowBits(word, k), i);
      BitLowBits(word, k, i);
      if i < k {
        BitLowBits(address, k, i);
        BitZero(i);
      }
    }
    forall i: nat
      ensures Bit(LowBits(w, k), i) == Bit(LowBits(word, k), i)
    {
      BitLowBits(w, k, i);
      BitLowBits(word, k, i);
    }
    BitsExt(LowBits(w, k), LowBits(word, k));
    ClearLowBitsSpec(w, k);
    ClearLowBitsSpec(address, k);
    forall i: nat
      ensures Bit(Shr(w, k), i) == Bit(Shr(address, k), i)
    {
      BitShr(w, k, i);
      BitShr(address, k, i);
    }
    BitsExt(Shr(w, k), Shr(address, k));
  }

  /** The pointer word of a storage. */
  function Word(mem: Mem): (w: nat)
    requires 64 <= |mem|
    ensures w < SizeMod
  {
    RangeFits(0, 64, mem);
    ExtractWordBound(mem, Range(0, 64));
    Extract(mem, Range(0, 64))
  }

  /** Two storages that agree on the word's bits from k up hold the same pointer. */
  lemma SamePointer(mem: Mem, mem': Mem, k: nat)
    requires 64 <= |mem| && 64 <= |mem'| && k <= 64
    requires forall p :: k <= p < 64 ==> mem'[p] == mem[p]
    ensures ClearLowBits(Word(mem'), k) == ClearLowBits(Word(mem), k)
  {
    SpareBits.ExtractRangeHigh(mem, 0, k, 64);
    SpareBits.ExtractRangeHigh(mem', 0, k, 64);
    ExtractRangeSame(mem, mem', k, 64);
    assert Word(mem) == Extract(mem, Range(0, 64));
    assert Word(mem') == Extract(mem', Range(0, 64));
    assert Shr(Word(mem'), k) == Shr(Word(mem), k);
  }

  /** Writing a word whose low k bits are the old ones changes no position below k nor outside the word. */
  lemma WriteWordKeeps(mem: Mem, w: nat, k: nat)
    requires 64 <= |mem| && k <= 64 && LowBits(w, k) == LowBits(Word(mem), k)
    ensures Fits(Range(0, 64), mem)
    ensures forall p :: 0 <= p < |mem| && (p < k || 64 <= p) ==> Put(mem, Range(0, 64), w)[p] == mem[p]
  {
    RangeFits(0, 64, mem);
    forall p | 0 <= p < |mem| && (p < k || 64 <= p)
      ensures Put(mem, Range(0, 64), w)[p] == mem[p]
    {
      if p < k {
        WriteWordKeepsLow(mem, w, k, p);
      } else {
        PutRangeAt(mem, 0, 64, w, p);
      }
    }
  }

  lemma WriteWordKeepsLow(mem: Mem, w: nat, k: nat, p: nat)
    requires 64 <= |mem| && k <= 64 && LowBits(w, k) == LowBits(Word(mem), k) && p < k
    ensures Fits(Range(0, 64), mem)
    ensures Put(mem, Range(0, 64), w)[p] == mem[p]
  {
    RangeFits(0, 64, mem);
    PutRangeAt(mem, 0, 64, w, p);
    assert Put(mem, Range(0, 64), w)[p] == Bit(w, p);
    BitLowBits(w, k, p);
    BitLowBits(Word(mem), k, p);
    assert Bit(w, p) == Bit(Word(mem), p);
    ExtractRangeBit(mem, 0, 64, p);
    assert Word(mem) == Extract(mem, Range(0, 64));
  }

  // ---------------------------------------------------------------------------
  // the storage

  /** `tiny_pointer_storage<T, TinyTypes...>` with `alignment == alignment_of<T>()`. */
  class TinyPointerStorage {
    const alignment: nat
    const fields: seq<Field>
    /** The policy's `storage_`. */
    const store: Storage
    /** The `basic_tiny_type_storage` base over the policy's storage view. */
    const tiny: BasicTinyTypeStorage

    ghost predicate Valid()
      reads this, store
    {
      1 <= alignment < SizeMod && AllWellFormed(Kinds(fields))
      && |store.mem| == PolicyBits(alignment, TotalBitSize(Kinds(fields)))
      && tiny.store == store && tiny.fields == fields
      && tiny.view == PolicyView(alignment, TotalBitSize(Kinds(fields)))
      && tiny.Valid()
    }

    /** `pointer()`: `get_pointer`, the word with the low `compressed_size` bits cleared. */
    function Pointer(): (p: nat)
      reads this, store
      requires Valid()
      ensures p < SizeMod && LowBits(p, CompressedSize(alignment)) == 0
    {
      ClearLowBitsSpec(Word(store.mem), CompressedSize(alignment));
      Pow2SizeMod();
      ClearLowBits(Word(store.mem), CompressedSize(alignment))
    }

    /** The object held by tiny field i. */
    function Get(i: nat): int
      reads this, store
      requires Valid() && i < |fields|
    {
      tiny.Get(i)
    }

    /** The default constructor: the tiny bits cleared, then `pointer() = nullptr`. */
    constructor Default(alignment: nat, fields: seq<Field>, store: Storage)
      requires 1 <= alignment < SizeMod && AllWellFormed(Kinds(fields))
      requires |store.mem| == PolicyBits(alignment, TotalBitSize(Kinds(fields)))
      modifies store
      ensures Valid() && this.alignment == alignment && this.fields == fields && this.store == store
      ensures Pointer() == 0
      ensures forall i :: 0 <= i < |fields| ==> Get(i) == 0
    {
      PolicyViewLayout(alignment, TotalBitSize(Kinds(fields)), store.mem);
      this.alignment := alignment;
      this.fields := fields;
      this.store := store;
      tiny := new BasicTinyTypeStorage.Default(store, PolicyView(alignment, TotalBitSize(Kinds(fields))), fields);
      new;
      LowBitsId(0, CompressedSize(alignment));
      SetPointer(0);
    }

    /** `explicit tiny_pointer_storage(ptr)`: the tiny bits cleared, then `pointer() = ptr`. */
    constructor FromPointer(alignment: nat, fields: seq<Field>, store: Storage, address: nat)
      requires 1 <= alignment < SizeMod && AllWellFormed(Kinds(fields))
      requires |store.mem| == PolicyBits(alignment, TotalBitSize(Kinds(fields)))
      requires address < SizeMod && LowBits(address, CompressedSize(alignment)) == 0
      modifies store
      ensures Valid() && this.alignment == alignment && this.fields == fields && this.store == store
      ensures Pointer() == address
      ensures forall i :: 0 <= i < |fields| ==> Get(i) == 0
    {
      PolicyViewLayout(alignment, TotalBitSize(Kinds(fields)), store.mem);
      this.alignment := alignment;
      this.fields := fields;
      this.store := store;
      tiny := new BasicTinyTypeStorage.Default(store, PolicyView(alignment, TotalBitSize(Kinds(fields))), fields);
      new;
      SetPointer(address);
    }

    /** `tiny_pointer_storage(ptr, tiny...)`: the tiny objects assigned in order, then `pointer() = ptr`. */
    constructor (alignment: nat, fields: seq<Field>, store: Storage, address: nat, objects: seq<int>)
      requires 1 <= alignment < SizeMod && AllWellFormed(Kinds(fields))
      requires |store.mem| == PolicyBits(alignment, TotalBitSize(Kinds(fields)))
      requires address < SizeMod && LowBits(address, CompressedSize(alignment)) == 0
      requires |objects| == |fields|
      requires forall i :: 0 <= i < |fields| ==> Assignable(fields[i].kind, objects[i])
      modifies store
      ensures Valid() && this.alignment == alignment && this.fields == fields && this.store == store
      ensures Pointer() == address
      ensures forall i :: 0 <= i < |fields| ==> Get(i) == objects[i]
    {
      PolicyViewLayout(alignment, TotalBitSize(Kinds(fields)), store.mem);
      this.alignment := alignment;
      this.fields := fields;
      this.store := store;
      tiny := new BasicTinyTypeStorage(store, PolicyView(alignment, TotalBitSize(Kinds(fields))), fields, objects);
      new;
      SetPointer(address);
    }

    /**
     * `set_pointer(ptr)` (`pointer() = ptr`): the address must have its low
     * `compressed_size` bits clear; the tiny bits stay in place.
     */
    method SetPointer(address: nat)
      requires Valid() && address < SizeMod && LowBits(address, CompressedSize(alignment)) == 0
      modifies store
      ensures Valid() && Pointer() == address
      ensures forall i :: 0 <= i < |fields| ==> Get(i) == old(Get(i))
    {
      var k := CompressedSize(alignment);
      var view := PolicyView(alignment, TotalBitSize(Kinds(fields)));
      var word := Word(store.mem);
      Pow2SizeMod();
      SetPointerWord(word, address, k);
      var w := Or(address, LowBits(word, k));
      ghost var before := store.mem;
      WriteWordKeeps(before, w, k);
      RangeFits(0, 64, before);
      RangeDistinct(0, 64);
      store.Write(Range(0, 64), w);
      ExtractPut(before, Range(0, 64), w);
      LowBitsId(w, 64);
      PolicyViewLayout(alignment, TotalBitSize(Kinds(fields)), before);
      SameViewSameFields(before, store.mem, view, Kinds(fields));
    }

    /** A tiny field written through `(*this)[target] = o` leaves the pointer as it was. */
    method AssignTiny(target: TypeTarget, o: int)
      requires Valid() && TypeLookup(target, fields).Unique?
      requires Assignable(fields[TypeLookup(target, fields).index].kind, o)
      modifies store
      ensures Valid() && Pointer() == old(Pointer())
      ensures Get(TypeLookup(target, fields).index) == o
      ensures forall j :: 0 <= j < |fields| && j != TypeLookup(target, fields).index ==> Get(j) == old(Get(j))
    {
      ghost var before := store.mem;
      var k := CompressedSize(alignment);
      PolicyViewLayout(alignment, TotalBitSize(Kinds(fields)), before);
      tiny.AssignTarget(target, o);
      forall p | k <= p < 64
        ensures store.mem[p] == before[p]
      {
        assert p !in tiny.view;
      }
      SamePointer(before, store.mem, k);
    }

    /** The proxy's `+= diff`: the pointer moves by `diff` objects of `size` bytes. */
    method AddAssign(diff: int, size: nat)
      requires Valid()
      requires 0 <= Pointer() + diff * size < SizeMod
      requires LowBits(Pointer() + diff * size, CompressedSize(alignment)) == 0
      modifies store
      ensures Valid() && Pointer() == old(Pointer()) + diff * size
      ensures forall i :: 0 <= i < |fields| ==> Get(i) == old(Get(i))
    {
      SetPointer(Pointer() + diff * size);
    }

    /** The proxy's `-= diff`. */
    method SubAssign(diff: int, size: nat)
      requires Valid()
      requires 0 <= Pointer() - diff * size < SizeMod
      requires LowBits(Pointer() - diff * size, CompressedSize(alignment)) == 0
      modifies store
      ensures Valid() && Pointer() == old(Pointer()) - diff * size
      ensures forall i :: 0 <= i < |fields| ==> Get(i) == old(Get(i))
    {
      SetPointer(Pointer() - diff * size);
    }

    /** `++pointer()`: `+= 1`, yielding the new pointer. */
    method PreIncrement(size: nat) returns (p: nat)
      requires Valid() && Pointer() + size < SizeMod
      requires LowBits(Pointer() + size, CompressedSize(alignment)) == 0
      modifies store
      ensures Valid() && Pointer() == old(Pointer()) + size && p == Pointer()
      ensures forall i :: 0 <= i < |fields| ==> Get(i) == old(Get(i))
    {
      AddAssign(1, size);
      p := Pointer();
    }

    /** `pointer()++`: `+= 1`, yielding the old pointer. */
    method PostIncrement(size: nat) returns (p: nat)
      requires Valid() && Pointer() + size < SizeMod
      requires LowBits(Pointer() + size, CompressedSize(alignment)) == 0
      modifies store
      ensures Valid() && Pointer() == old(Pointer()) + size && p == old(Pointer())
      ensures forall i :: 0 <= i < |fields| ==> Get(i) == old(Get(i))
    {
      p := Pointer();
      AddAssign(1, size);
    }

    /** `--pointer()`: `-= 1`, yielding the new pointer. */
    method PreDecrement(size: nat) returns (p: nat)
      requires Valid() && 0 <= Pointer() - size
      requires LowBits(Pointer() - size, CompressedSize(alignment)) == 0
      modifies store
      ensures Valid() && Pointer() == old(Pointer()) - size && p == Pointer()
      ensures forall i :: 0 <= i < |fields| ==> Get(i) == old(Get(i))
    {
      SubAssign(1, size);
      p := Pointer();
    }

    /** `pointer()--`: `-= 1`, yielding the old pointer. */
    method PostDecrement(size: nat) returns (p: nat)
      requires Valid() && 0 <= Pointer() - size
      requires LowBits(Pointer() - size, CompressedSize(alignment)) == 0
      modifies store
      ensures Valid() && Pointer() == old(Pointer()) - size && p == old(Pointer())
      ensures forall i :: 0 <= i < |fields| ==> Get(i) == old(Get(i))
    {
      p := Pointer();
      SubAssign(1, size);
    }
  }
}

=== FILE: tiny_storage.dfy ===
/**
 * tiny_storage.hpp: several tiny types packed one after another into a
 * bit view.  Field i starts at the sum of the bit sizes of the fields
 * before it; a field is looked up by its type or by its index, and the
 * lookup must match exactly one field.
 *
 * The compile-time recursion (`find_impl`, `total_size`) is modelled on
 * the sequence of field sizes and the sequence of "is this field the
 * target" answers, so that the tagged lookup of tiny_type_storage.hpp
 * reuses it.
 */
module TinyStorage {
  import opened Bits
  import opened Views
  import opened Wrappers
  import opened TinyTypes

  // ---------------------------------------------------------------------------
  // sizes and offsets

  /** `total_size<TinyTypes...>`: the sum of the sizes, 0 for none. */
  function TotalSize(sizes: seq<nat>): nat
  {
    if sizes == [] then 0 else sizes[0] + TotalSize(sizes[1..])
  }

  /** The offset of field i: the total size of the fields before it. */
  function Offset(sizes: seq<nat>, i: nat): nat
    requires i <= |sizes|
  {
    TotalSize(sizes[..i])
  }

  lemma {:induction false} TotalSizeAppend(a: seq<nat>, b: seq<nat>)
    ensures TotalSize(a + b) == TotalSize(a) + TotalSize(b)
    decreases |a|
  {
    if a != [] {
      assert (a + b)[0] == a[0] && (a + b)[1..] == a[1..] + b;
      TotalSizeAppend(a[1..], b);
    } else {
      assert a + b == b;
    }
  }

  /** Each field ends where the next begins, and the last ends at the total. */
  lemma OffsetStep(sizes: seq<nat>, i: nat)
    requires i < |sizes|
    ensures Offset(sizes, i + 1) == Offset(sizes, i) + sizes[i]
    ensures Offset(sizes, |sizes|) == TotalSize(sizes)
  {
    assert sizes[..i + 1] == sizes[..i] + [sizes[i]];
    TotalSizeAppend(sizes[..i], [sizes[i]]);
    assert sizes[..|sizes|] == sizes;
  }

  lemma {:induction false} OffsetMono(sizes: seq<nat>, i: nat, j: nat)
    requires i <= j <= |sizes|
    ensures Offset(sizes, i) <= Offset(sizes, j)
    decreases j - i
  {
    if i < j {
      OffsetStep(sizes, j - 1);
      OffsetMono(sizes, i, j - 1);
    }
  }

  /** Fields lie inside [0, total) one after another: field i ends before field j > i starts. */
  lemma FieldsInOrder(sizes: seq<nat>, i: nat, j: nat)
    requires i < j < |sizes|
    ensures Offset(sizes, i) + sizes[i] <= Offset(sizes, j)
    ensures Offset(sizes, j) + sizes[j] <= TotalSize(sizes)
  {
    OffsetStep(sizes, i);
    OffsetMono(sizes, i + 1, j);
    OffsetStep(sizes, j);
    OffsetMono(sizes, j + 1, |sizes|);
  }

  lemma FieldInside(sizes: seq<nat>, i: nat)
    requires i < |sizes|
    ensures Offset(sizes, i) + sizes[i] <= TotalSize(sizes)
  {
    OffsetStep(sizes, i);
    OffsetMono(sizes, i + 1, |sizes|);
  }

  // ---------------------------------------------------------------------------
  // lookup

  /** The result of `find_impl`: match count, offset and (for `type`) the index of the match. */
  datatype Found = Found(count: nat, offset: nat, index: Option<nat>)

  /** `find_impl<Target, CurIndex, CurOffset, TinyTypes...>`, where hits[k] is `is_target` of field CurIndex + k. */
  function FindImpl(hits: seq<bool>, sizes: seq<nat>, curIndex: nat, curOffset: nat): Found
    requires |hits| == |sizes|
  {
    if hits == [] then Found(0, 0, None)
    else
      var rest := FindImpl(hits[1..], sizes[1..], curIndex + 1, curOffset + sizes[0]);
      Found(rest.count + (if hits[0] then 1 else 0),
            if hits[0] then curOffset else rest.offset,
            if hits[0] then Some(curIndex) else rest.index)
  }

  /** The outcome of `find`: one of its two static assertions, or the match. */
  datatype Lookup = NotStored | Ambiguous | Unique(index: nat, offset: nat)

  /** `find<Target, TinyTypes...>` */
  function Find(hits: seq<bool>, sizes: seq<nat>): Lookup
    requires |hits| == |sizes|
  {
    var r := FindImpl(hits, sizes, 0, 0);
    if r.count == 0 then NotStored
    else if r.count > 1 then Ambiguous
    else if r.index.Some? then Unique(r.index.value, r.offset)
    else NotStored
  }

  /**
   * `find_impl` counts the matches and reports the first one, at the prefix
   * sum of the sizes before it; with no match the offset is 0.
   */
  lemma {:induction false} FindImplSpec(hits: seq<bool>, sizes: seq<nat>, curIndex: nat, curOffset: nat)
    requires |hits| == |sizes|
    ensures FindImpl(hits, sizes, curIndex, curOffset).count == multiset(hits)[true]
    ensures FindImpl(hits, sizes, curIndex, curOffset).index.None? <==> true !in hits
    ensures FindImpl(hits, sizes, curIndex, curOffset).index.None? ==>
              FindImpl(hits, sizes, curIndex, curOffset).offset == 0
    ensures FindImpl(hits, sizes, curIndex, curOffset).index.Some? ==>
              var i := FindImpl(hits, sizes, curIndex, curOffset).index.value - curIndex;
              0 <= i < |hits| && hits[i] && (forall j :: 0 <= j < i ==> !hits[j]) &&
              FindImpl(hits, sizes, curIndex, curOffset).offset == curOffset + Offset(sizes, i)
    decreases |hits|
  {
    if hits != [] {
      var r := FindImpl(hits, sizes, curIndex, curOffset);
      var rest := FindImpl(hits[1..], sizes[1..], curIndex + 1, curOffset + sizes[0]);
      FindImplSpec(hits[1..], sizes[1..], curIndex + 1, curOffset + sizes[0]);
      assert hits == [hits[0]] + hits[1..];
      assert multiset(hits) == multiset([hits[0]]) + multiset(hits[1..]);
      assert true in hits <==> hits[0] || true in hits[1..];
      if hits[0] {
        assert Offset(sizes, 0) == 0;
      } else if rest.index.Some? {
        var i := rest.index.value - (curIndex + 1);
        OffsetStep(sizes, 0);
        assert sizes[1..][..i] == sizes[1..i + 1];
        assert sizes[..i + 1] == [sizes[0]] + sizes[1..i + 1];
        assert Offset(sizes, i + 1) == sizes[0] + Offset(sizes[1..], i);
        forall j | 0 <= j < i + 1
          ensures !hits[j]
        {
          if j > 0 {
            assert hits[j] == hits[1..][j - 1];
          }
        }
      }
    }
  }

  /** Exactly one match at i gives a count of one. */
  lemma {:induction false} SingleHitCount(hits: seq<bool>, i: nat)
    requires i < |hits| && hits[i]
    requires forall j :: 0 <= j < |hits| && j != i ==> !hits[j]
    ensures multiset(hits)[true] == 1
    decreases |hits|
  {
    assert hits == [hits[0]] + hits[1..];
    assert multiset(hits) == multiset([hits[0]]) + multiset(hits[1..]);
    if i == 0 {
      assert true !in hits[1..];
    } else {
      SingleHitCount(hits[1..], i - 1);
    }
  }

  /** `find` succeeds exactly when one field matches, and then yields its index and offset. */
  lemma FindUnique(hits: seq<bool>, sizes: seq<nat>, i: nat, offset: nat)
    requires |hits| == |sizes|
    ensures Find(hits, sizes) == Unique(i, offset) ==>
              i < |hits| && hits[i] && (forall j :: 0 <= j < |hits| && j != i ==> !hits[j]) &&
              offset == Offset(sizes, i)
    ensures i < |hits| && hits[i] && (forall j :: 0 <= j < |hits| && j != i ==> !hits[j]) ==>
              Find(hits, sizes) == Unique(i, Offset(sizes, i))
  {
    var r := FindImpl(hits, sizes, 0, 0);
    FindImplSpec(hits, sizes, 0, 0);
    if Find(hits, sizes) == Unique(i, offset) {
      forall j | 0 <= j < |hits| && j != i
        ensures !hits[j]
      {
        if j > i && hits[j] {
          TwoHitsCount(hits, i, j);
        }
      }
    }
    if i < |hits| && hits[i] && (forall j :: 0 <= j < |hits| && j != i ==> !hits[j]) {
      SingleHitCount(hits, i);
    }
  }

  /** Two matches make the count at least two. */
  lemma {:induction false} TwoHitsCount(hits: seq<bool>, i: nat, j: nat)
    requires i < j < |hits| && hits[i] && hits[j]
    ensures multiset(hits)[true] >= 2
    decreases |hits|
  {
    assert hits == [hits[0]] + hits[1..];
    assert multiset(hits) == multiset([hits[0]]) + multiset(hits[1..]);
    if i == 0 {
      assert hits[1..][j - 1];
      assert true in hits[1..];
    } else {
      TwoHitsCount(hits[1..], i - 1, j - 1);
    }
  }

  /** "tiny type not stored" exactly when nothing matches; "ambiguous" exactly when two fields match. */
  lemma FindErrors(hits: seq<bool>, sizes: seq<nat>)
    requires |hits| == |sizes|
    ensures Find(hits, sizes) == NotStored <==> true !in hits
    ensures Find(hits, sizes) == Ambiguous ==>
              exists i, j :: 0 <= i < j < |hits| && hits[i] && hits[j]
    ensures (exists i, j :: 0 <= i < j < |hits| && hits[i] && hits[j]) ==>
              Find(hits, sizes) == Ambiguous
  {
    FindImplSpec(hits, sizes, 0, 0);
    var r := FindImpl(hits, sizes, 0, 0);
    if Find(hits, sizes) == Ambiguous {
      var i := r.index.value;
      if forall j :: 0 <= j < |hits| && j != i ==> !hits[j] {
        SingleHitCount(hits, i);
      }
      var j :| 0 <= j < |hits| && j != i && hits[j];
      assert j > i;
    }
    if exists i, j :: 0 <= i < j < |hits| && hits[i] && hits[j] {
      var i, j :| 0 <= i < j < |hits| && hits[i] && hits[j];
      TwoHitsCount(hits, i, j);
    }
  }

  // ---------------------------------------------------------------------------
  // targets of tiny_storage

  /** What `operator[]` and `at<I>` look for: a tiny type, or `integral_constant<size_t, I>`. */
  datatype Target = TypeTarget(kind: Kind) | IndexTarget(index: nat)

  /** `is_target<Index, Target, TinyType>` */
  predicate IsTarget(index: nat, target: Target, field: Kind)
  {
    match target
    case TypeTarget(k) => k == field
    case IndexTarget(i) => i == index
  }

  function Hits(target: Target, fields: seq<Kind>): (hits: seq<bool>)
    ensures |hits| == |fields|
    ensures forall i :: 0 <= i < |fields| ==> hits[i] == IsTarget(i, target, fields[i])
  {
    seq(|fields|, i requires 0 <= i < |fields| => IsTarget(i, target, fields[i]))
  }

  predicate AllWellFormed(fields: seq<Kind>)
  {
    forall i :: 0 <= i < |fields| ==> WellFormed(fields[i])
  }

  function Sizes(fields: seq<Kind>): (sizes: seq<nat>)
    requires AllWellFormed(fields)
    ensures |sizes| == |fields|
    ensures forall i :: 0 <= i < |fields| ==> sizes[i] == BitSize(fields[i])
  {
    seq(|fields|, i requires 0 <= i < |fields| => BitSize(fields[i]))
  }

  /** `total_bit_size<TinyTypes...>()` */
  function TotalBitSize(fields: seq<Kind>): nat
    requires AllWellFormed(fields)
  {
    TotalSize(Sizes(fields))
  }

  /** `at<I>` finds field I at its offset; an index past the end is "not stored". */
  lemma AtIndex(fields: seq<Kind>, i: nat)
    requires AllWellFormed(fields)
    ensures i < |fields| ==> Find(Hits(IndexTarget(i), fields), Sizes(fields)) == Unique(i, Offset(Sizes(fields), i))
    ensures i >= |fields| ==> Find(Hits(IndexTarget(i), fields), Sizes(fields)) == NotStored
  {
    if i < |fields| {
      FindUnique(Hits(IndexTarget(i), fields), Sizes(fields), i, Offset(Sizes(fields), i));
    }
    FindErrors(Hits(IndexTarget(i), fields), Sizes(fields));
  }

  /** A type stored once is found at its index; stored twice it is ambiguous. */
  lemma ByType(fields: seq<Kind>, k: Kind)
    requires AllWellFormed(fields)
    ensures multiset(fields)[k] == 0 ==> Find(Hits(TypeTarget(k), fields), Sizes(fields)) == NotStored
    ensures forall i, j :: 0 <= i < j < |fields| && fields[i] == k && fields[j] == k ==>
              Find(Hits(TypeTarget(k), fields), Sizes(fields)) == Ambiguous
  {
    var hits := Hits(TypeTarget(k), fields);
    FindErrors(hits, Sizes(fields));
    if multiset(fields)[k] == 0 {
      assert k !in fields;
      assert true !in hits;
    }
    forall i, j | 0 <= i < j < |fields| && fields[i] == k && fields[j] == k
      ensures Find(hits, Sizes(fields)) == Ambiguous
    {
      assert hits[i] && hits[j];
    }
  }

  // ---------------------------------------------------------------------------
  // storage bytes

  /** `tiny_storage_type<Bits>`: the bytes of the embedded storage, at least one. */
  function StorageBytes(bits: nat): (bytes: nat)
    ensures bytes >= 1
    ensures 8 * bytes >= bits
    ensures bits > 0 ==> 8 * (bytes - 1) < bits
    ensures bits == 0 ==> bytes == 1
  {
    if bits == 0 then 1 else bits / 8 + (if bits % 8 == 0 then 0 else 1)
  }

  /** An empty storage still takes a byte, whose 8 bits are all spare. */
  lemma EmptyStorage()
    ensures 8 * StorageBytes(TotalBitSize([])) - TotalBitSize([]) == 8
  {
  }

  /** A storage of widths 7, 1, 1 takes two bytes, with 7 spare bits. */
  lemma ThreeFieldStorage()
    ensures var fields := [UnsignedKind(7, 8), BoolKind, BoolKind];
            AllWellFormed(fields) && TotalBitSize(fields) == 9 && StorageBytes(TotalBitSize(fields)) == 2
  {
    var fields := [UnsignedKind(7, 8), BoolKind, BoolKind];
    assert Sizes(fields) == [7, 1, 1];
    assert TotalSize([7, 1, 1]) == 7 + TotalSize([1, 1]);
    assert TotalSize([1, 1]) == 1 + TotalSize([1]);
    assert TotalSize([1]) == 1 + TotalSize([]);
  }

  // ---------------------------------------------------------------------------
  // the storage

  /** A storage view can hold the fields: `bit_size_needed <= BitView::size()`. */
  predicate Layout(mem: Mem, view: View, fields: seq<Kind>)
  {
    AllWellFormed(fields) && Fits(view, mem) && Distinct(view) && TotalBitSize(fields) <= |view|
  }

  /** The subview of field i: `subview<offset, offset + bit_size()>`. */
  function FieldView(view: View, fields: seq<Kind>, i: nat): (v: View)
    requires AllWellFormed(fields) && TotalBitSize(fields) <= |view| && i < |fields|
    ensures |v| == BitSize(fields[i])
  {
    FieldInside(Sizes(fields), i);
    Subview(view, Offset(Sizes(fields), i), Offset(Sizes(fields), i) + BitSize(fields[i]))
  }

  /** `spare_bits()`: `subview<bit_size_needed, last_bit>`. */
  function SpareBits(view: View, fields: seq<Kind>): (v: View)
    requires AllWellFormed(fields) && TotalBitSize(fields) <= |view|
    ensures |v| == |view| - TotalBitSize(fields)
  {
    Subview(view, TotalBitSize(fields), |view|)
  }

  /** Every field view is a usable view, disjoint from the other fields and from the spare bits. */
  lemma FieldViews(mem: Mem, view: View, fields: seq<Kind>)
    requires Layout(mem, view, fields)
    ensures forall i :: 0 <= i < |fields| ==> Usable(FieldView(view, fields, i), mem, BitSize(fields[i]))
    ensures forall i :: 0 <= i < |fields| ==> Disjoint(FieldView(view, fields, i), SpareBits(view, fields))
    ensures Fits(SpareBits(view, fields), mem)
    ensures forall i, j :: 0 <= i < |fields| && 0 <= j < |fields| && i != j ==>
              Disjoint(FieldView(view, fields, i), FieldView(view, fields, j))
  {
    var sizes := Sizes(fields);
    forall i | 0 <= i < |fields|
      ensures Usable(FieldView(view, fields, i), mem, BitSize(fields[i]))
      ensures Disjoint(FieldView(view, fields, i), SpareBits(view, fields))
    {
      FieldInside(sizes, i);
      SubviewsDisjoint(view, Offset(sizes, i), Offset(sizes, i) + sizes[i], TotalBitSize(fields), |view|);
    }
    forall i, j | 0 <= i < |fields| && 0 <= j < |fields| && i != j
      ensures Disjoint(FieldView(view, fields, i), FieldView(view, fields, j))
    {
      if i < j {
        FieldsInOrder(sizes, i, j);
        SubviewsDisjoint(view, Offset(sizes, i), Offset(sizes, i) + sizes[i], Offset(sizes, j), Offset(sizes, j) + sizes[j]);
      } else {
        FieldsInOrder(sizes, j, i);
        SubviewsDisjoint(view, Offset(sizes, j), Offset(sizes, j) + sizes[j], Offset(sizes, i), Offset(sizes, i) + sizes[i]);
      }
    }
  }

  /** The object field i reads. */
  function FieldValue(mem: Mem, view: View, fields: seq<Kind>, i: nat): int
    requires Layout(mem, view, fields) && i < |fields|
  {
    FieldViews(mem, view, fields);
    ReadField(fields[i], mem, FieldView(view, fields, i))
  }

  /** The memory after `at<i>() = o`: field i reads o, the other fields and the spare bits keep theirs. */
  function AssignField(mem: Mem, view: View, fields: seq<Kind>, i: nat, o: int): (mem': Mem)
    requires Layout(mem, view, fields) && i < |fields| && Assignable(fields[i], o)
    ensures Layout(mem', view, fields)
    ensures |mem'| == |mem|
    ensures forall p :: 0 <= p < |mem| && p !in FieldView(view, fields, i) ==> mem'[p] == mem[p]
    ensures FieldValue(mem', view, fields, i) == o
    ensures forall j :: 0 <= j < |fields| && j != i ==> FieldValue(mem', view, fields, j) == FieldValue(mem, view, fields, j)
    ensures Extract(mem', SpareBits(view, fields)) == Extract(mem, SpareBits(view, fields))
  {
    FieldViews(mem, view, fields);
    var fv := FieldView(view, fields, i);
    var mem' := Put(mem, fv, Encode(fields[i], o));
    WriteRead(fields[i], mem, fv, o);
    FieldViews(mem', view, fields);
    forall j | 0 <= j < |fields| && j != i
      ensures FieldValue(mem', view, fields, j) == FieldValue(mem, view, fields, j)
    {
      ExtractPutDisjoint(mem, fv, FieldView(view, fields, j), Encode(fields[i], o));
    }
    ExtractPutDisjoint(mem, fv, SpareBits(view, fields), Encode(fields[i], o));
    forall p | 0 <= p < |mem| && p !in fv
      ensures mem'[p] == mem[p]
    {
      PutOutside(mem, fv, Encode(fields[i], o), p);
    }
    mem'
  }

  /** The fields depend on nothing but the bits at the storage view's positions. */
  lemma SameViewSameFields(mem: Mem, mem': Mem, view: View, fields: seq<Kind>)
    requires Layout(mem, view, fields) && |mem'| == |mem|
    requires forall j :: 0 <= j < |view| ==> mem'[view[j]] == mem[view[j]]
    ensures Layout(mem', view, fields)
    ensures forall i :: 0 <= i < |fields| ==> FieldValue(mem', view, fields, i) == FieldValue(mem, view, fields, i)
  {
    FieldViews(mem, view, fields);
    FieldViews(mem', view, fields);
    forall i | 0 <= i < |fields|
      ensures FieldValue(mem', view, fields, i) == FieldValue(mem, view, fields, i)
    {
      FieldInside(Sizes(fields), i);
      ExtractSame(mem, mem', FieldView(view, fields, i));
    }
  }

  /** Clearing the storage view makes every field read zero. */
  lemma ClearAll(mem: Mem, view: View, fields: seq<Kind>)
    requires Layout(mem, view, fields)
    ensures Layout(Clear(mem, view), view, fields)
    ensures forall i :: 0 <= i < |fields| ==> FieldValue(Clear(mem, view), view, fields, i) == 0
  {
    var mem' := Clear(mem, view);
    FieldViews(mem', view, fields);
    forall i | 0 <= i < |fields|
      ensures FieldValue(mem', view, fields, i) == 0
    {
      var fv := FieldView(view, fields, i);
      FieldInside(Sizes(fields), i);
      forall j | 0 <= j < |fv|
        ensures !mem'[fv[j]]
      {
        PutView(mem, view, 0, Offset(Sizes(fields), i) + j);
        BitZero(Offset(Sizes(fields), i) + j);
      }
      ZeroExtract(mem', fv);
      ZeroReadsZero(fields[i]);
    }
  }

  /** `put` through a distinct view writes bit k of the argument to position k of the view. */
  lemma PutView(mem: Mem, view: View, bits: nat, k: nat)
    requires Fits(view, mem) && Distinct(view) && k < |view|
    ensures Put(mem, view, bits)[view[k]] == Bit(bits, k)
  {
    PutAt(mem, view, bits, k);
  }

  /** A view over cleared positions extracts 0. */
  lemma ZeroExtract(mem: Mem, v: View)
    requires Fits(v, mem)
    requires forall j :: 0 <= j < |v| ==> !mem[v[j]]
    ensures Extract(mem, v) == 0
  {
    forall b: nat
      ensures Bit(Extract(mem, v), b) == Bit(0, b)
    {
      ExtractAt(mem, v, b);
      BitZero(b);
    }
    BitsExt(Extract(mem, v), 0);
  }

  /**
   * The body of the object constructors: `at<I>() = objects[I]` for
   * I = 0, 1, ... in declaration order, each write touching only its field.
   */
  method AssignInOrder(store: Storage, view: View, fields: seq<Kind>, objects: seq<int>)
    requires Layout(store.mem, view, fields)
    requires |objects| == |fields|
    requires forall i :: 0 <= i < |fields| ==> Assignable(fields[i], objects[i])
    modifies store
    ensures Layout(store.mem, view, fields)
    ensures forall i :: 0 <= i < |fields| ==> FieldValue(store.mem, view, fields, i) == objects[i]
    ensures Extract(store.mem, SpareBits(view, fields)) == Extract(old(store.mem), SpareBits(view, fields))
    ensures |store.mem| == |old(store.mem)|
  {
    var k := 0;
    while k < |fields|
      invariant 0 <= k <= |fields|
      invariant |store.mem| == |old(store.mem)|
      invariant Layout(store.mem, view, fields)
      invariant forall i :: 0 <= i < k ==> FieldValue(store.mem, view, fields, i) == objects[i]
      invariant Extract(store.mem, SpareBits(view, fields)) == Extract(old(store.mem), SpareBits(view, fields))
    {
      FieldViews(store.mem, view, fields);
      ghost var next := AssignField(store.mem, view, fields, k, objects[k]);
      store.Write(FieldView(view, fields, k), Encode(fields[k], objects[k]));
      assert store.mem == next;
      k := k + 1;
    }
  }

  /**
   * `basic_tiny_storage<Policy, TinyTypes...>` over the policy's storage
   * view.  The policy's storage (the embedded byte array of tiny_storage,
   * a pointer word, the padding of an object) is `store`, and `view` is
   * its `storage_view()`.
   */
  class BasicTinyStorage {
    const store: Storage
    const view: View
    const fields: seq<Kind>

    ghost predicate Valid()
      reads store
    {
      Layout(store.mem, view, fields)
    }

    /** The default constructor: `clear_bits(storage_view())`; only for at least one field. */
    constructor Default(store: Storage, view: View, fields: seq<Kind>)
      requires Layout(store.mem, view, fields) && |fields| != 0
      modifies store
      ensures this.store == store && this.view == view && this.fields == fields
      ensures Valid()
      ensures store.mem == Clear(old(store.mem), view)
      ensures forall i :: 0 <= i < |fields| ==> Get(i) == 0
    {
      this.store := store;
      this.view := view;
      this.fields := fields;
      new;
      ClearAll(store.mem, view, fields);
      store.Write(view, 0);
    }

    /** The object constructor: assigns `at<I>() = objects[I]` for I = 0, 1, ... in order. */
    constructor (store: Storage, view: View, fields: seq<Kind>, objects: seq<int>)
      requires Layout(store.mem, view, fields)
      requires |objects| == |fields|
      requires forall i :: 0 <= i < |fields| ==> Assignable(fields[i], objects[i])
      modifies store
      ensures this.store == store && this.view == view && this.fields == fields
      ensures Valid()
      ensures forall i :: 0 <= i < |fields| ==> Get(i) == objects[i]
      ensures Extract(store.mem, SpareBits(view, fields)) == Extract(old(store.mem), SpareBits(view, fields))
    {
      this.store := store;
      this.view := view;
      this.fields := fields;
      new;
      AssignInOrder(store, view, fields, objects);
    }

    /** The lookup behind `operator[](T)`, `at<I>()` and `tiny()`. */
    function Lookup(target: Target): (r: Lookup)
      requires AllWellFormed(fields)
      ensures r.Unique? ==> r.index < |fields| && IsTarget(r.index, target, fields[r.index])
      ensures r.Unique? ==> forall j :: 0 <= j < |fields| && j != r.index ==> !IsTarget(j, target, fields[j])
    {
      var r := Find(Hits(target, fields), Sizes(fields));
      if r.Unique? then
        FindUnique(Hits(target, fields), Sizes(fields), r.index, r.offset);
        r
      else r
    }

    /** The object held by field i (`at<i>()` converted to its object type). */
    function Get(i: nat): int
      reads store
      requires Valid() && i < |fields|
    {
      FieldValue(store.mem, view, fields, i)
    }

    /** `tiny()`: only for a single field, and then `at<0>()`. */
    function Tiny(): (r: int)
      reads store
      requires Valid() && |fields| == 1
      ensures Lookup(IndexTarget(0)) == Unique(0, 0)
      ensures r == Get(0)
    {
      AtIndex(fields, 0);
      Get(0)
    }

    /** `at<i>() = o`: only field i changes. */
    method Assign(i: nat, o: int)
      requires Valid() && i < |fields| && Assignable(fields[i], o)
      modifies store
      ensures Valid()
      ensures store.mem == AssignField(old(store.mem), view, fields, i, o)
      ensures Get(i) == o
      ensures forall j :: 0 <= j < |fields| && j != i ==> Get(j) == old(Get(j))
      ensures Extract(store.mem, SpareBits(view, fields)) == old(Extract(store.mem, SpareBits(view, fields)))
    {
      FieldViews(store.mem, view, fields);
      store.Write(FieldView(view, fields, i), Encode(fields[i], o));
      assert store.mem == AssignField(old(store.mem), view, fields, i, o);
    }

    /** `(*this)[target] = o` for a target that matches exactly one field. */
    method AssignTarget(target: Target, o: int)
      requires Valid() && Lookup(target).Unique?
      requires Assignable(fields[Lookup(target).index], o)
      modifies store
      ensures Valid()
      ensures store.mem == AssignField(old(store.mem), view, fields, Lookup(target).index, o)
      ensures Get(Lookup(target).index) == o
      ensures forall j :: 0 <= j < |fields| && j != Lookup(target).index ==> Get(j) == old(Get(j))
    {
      Assign(Lookup(target).index, o);
    }

    /** A put into `spare_bits()` leaves every field as it was. */
    method PutSpareBits(bits: nat)
      requires Valid()
      modifies store
      ensures Valid()
      ensures store.mem == Put(old(store.mem), SpareBits(view, fields), bits)
      ensures forall j :: 0 <= j < |fields| ==> Get(j) == old(Get(j))
      ensures Extract(store.mem, SpareBits(view, fields)) == LowBits(bits, |view| - TotalBitSize(fields))
    {
      FieldViews(store.mem, view, fields);
      var spare := SpareBits(view, fields);
      var mem := store.mem;
      store.Write(spare, bits);
      FieldViews(store.mem, view, fields);
      forall j | 0 <= j < |fields|
        ensures Get(j) == old(Get(j))
      {
        ExtractPutDisjoint(mem, spare, FieldView(view, fields, j), bits);
      }
      ExtractPut(mem, spare, bits);
    }
  }

  /** The embedded policy's storage view: all bits of `tiny_storage_type_for<TinyTypes...>`. */
  function EmbeddedView(fields: seq<Kind>): (v: View)
    requires AllWellFormed(fields)
    ensures |v| == 8 * StorageBytes(TotalBitSize(fields)) >= TotalBitSize(fields)
  {
    Range(0, 8 * StorageBytes(TotalBitSize(fields)))
  }

  /** `tiny_storage<TinyTypes...>{}`: the byte array, with whatever it held, cleared. */
  method NewTinyStorage(fields: seq<Kind>, garbage: Mem) returns (s: BasicTinyStorage)
    requires AllWellFormed(fields) && |fields| != 0
    requires |garbage| == 8 * StorageBytes(TotalBitSize(fields))
    ensures fresh(s) && fresh(s.store)
    ensures s.Valid() && s.fields == fields && s.view == EmbeddedView(fields)
    ensures forall i :: 0 <= i < |fields| ==> s.Get(i) == 0
    ensures forall k :: 0 <= k < |s.store.mem| ==> !s.store.mem[k]
  {
    var store := new Storage(garbage);
    RangeFits(0, |garbage|, garbage);
    RangeDistinct(0, |garbage|);
    s := new BasicTinyStorage.Default(store, EmbeddedView(fields), fields);
    forall k | 0 <= k < |s.store.mem|
      ensures !s.store.mem[k]
    {
      PutRangeAt(garbage, 0, |garbage|, 0, k);
      BitZero(k);
    }
  }

  /** `tiny_storage<TinyTypes...>(objects...)`: the spare bits keep what the byte array held. */
  method NewTinyStorageFrom(fields: seq<Kind>, objects: seq<int>, garbage: Mem) returns (s: BasicTinyStorage)
    requires AllWellFormed(fields) && |objects| == |fields|
    requires forall i :: 0 <= i < |fields| ==> Assignable(fields[i], objects[i])
    requires |garbage| == 8 * StorageBytes(TotalBitSize(fields))
    ensures fresh(s) && fresh(s.store)
    ensures s.Valid() && s.fields == fields && s.view == EmbeddedView(fields)
    ensures forall i :: 0 <= i < |fields| ==> s.Get(i) == objects[i]
  {
    var store := new Storage(garbage);
    RangeFits(0, |garbage|, garbage);
    RangeDistinct(0, |garbage|);
    s := new BasicTinyStorage(store, EmbeddedView(fields), fields, objects);
  }
}

=== FILE: tiny_type_storage.dfy ===
/**
 * tiny_type_storage.hpp: the tiny storage whose fields may carry a tag
 * (`tiny_tagged<Tag, T>`), so that two fields of the same tiny type can
 * be told apart by tag instead of by index.  The layout (prefix-sum
 * offsets, total size, byte count, `find`) is the one of tiny_storage.hpp.
 */
module TinyTypeStorage {
  import opened Bits
  import opened Views
  import opened Wrappers
  import opened TinyTypes
  import opened TinyStorage

  /** A field type: a tiny type, or `tiny_tagged<Tag, T>` when `tag` is present. */
  datatype Field = Field(tag: Option<nat>, kind: Kind)

  /** What `operator[]` and `at<I>` look for: a field type, a tag, or an index. */
  datatype TypeTarget = FieldType(field: Field) | Tag(tag: nat) | Index(index: nat)

  /** `is_target<Index, Target, TinyType>` with the extra tag rule. */
  predicate IsTypeTarget(index: nat, target: TypeTarget, field: Field)
  {
    match target
    case FieldType(f) => f == field
    case Tag(t) => field.tag == Some(t)
    case Index(i) => i == index
  }

  function TypeHits(target: TypeTarget, fields: seq<Field>): (hits: seq<bool>)
    ensures |hits| == |fields|
    ensures forall i :: 0 <= i < |fields| ==> hits[i] == IsTypeTarget(i, target, fields[i])
  {
    seq(|fields|, i requires 0 <= i < |fields| => IsTypeTarget(i, target, fields[i]))
  }

  /** `tiny_tagged<Tag, T>` has T's bit size and proxy: the storage sees only the kinds. */
  function Kinds(fields: seq<Field>): (kinds: seq<Kind>)
    ensures |kinds| == |fields|
    ensures forall i :: 0 <= i < |fields| ==> kinds[i] == fields[i].kind
  {
    seq(|fields|, i requires 0 <= i < |fields| => fields[i].kind)
  }

  /** The lookup of a type target. */
  function TypeLookup(target: TypeTarget, fields: seq<Field>): (r: Lookup)
    requires AllWellFormed(Kinds(fields))
    ensures r.Unique? ==> r.index < |fields| && IsTypeTarget(r.index, target, fields[r.index])
    ensures r.Unique? ==> forall j :: 0 <= j < |fields| && j != r.index ==> !IsTypeTarget(j, target, fields[j])
    ensures r.Unique? ==> r.offset == Offset(Sizes(Kinds(fields)), r.index)
  {
    var r := Find(TypeHits(target, fields), Sizes(Kinds(fields)));
    if r.Unique? then
      FindUnique(TypeHits(target, fields), Sizes(Kinds(fields)), r.index, r.offset);
      r
    else r
  }

  /** A tag carried by exactly one field finds that field at its offset, whatever the other fields' types. */
  lemma TagFindsField(fields: seq<Field>, t: nat, i: nat)
    requires AllWellFormed(Kinds(fields))
    requires i < |fields| && fields[i].tag == Some(t)
    requires forall j :: 0 <= j < |fields| && j != i ==> fields[j].tag != Some(t)
    ensures TypeLookup(Tag(t), fields) == Unique(i, Offset(Sizes(Kinds(fields)), i))
  {
    FindUnique(TypeHits(Tag(t), fields), Sizes(Kinds(fields)), i, Offset(Sizes(Kinds(fields)), i));
  }

  /** `at<I>` requires I < count and then finds field I. */
  lemma AtTypeIndex(fields: seq<Field>, i: nat)
    requires AllWellFormed(Kinds(fields))
    ensures i < |fields| ==> TypeLookup(Index(i), fields) == Unique(i, Offset(Sizes(Kinds(fields)), i))
    ensures i >= |fields| ==> TypeLookup(Index(i), fields) == NotStored
  {
    if i < |fields| {
      FindUnique(TypeHits(Index(i), fields), Sizes(Kinds(fields)), i, Offset(Sizes(Kinds(fields)), i));
    }
    FindErrors(TypeHits(Index(i), fields), Sizes(Kinds(fields)));
  }

  /** Two untagged fields of one type are ambiguous by type; tagging them makes each reachable by its tag. */
  lemma TagsResolveAmbiguity(k: Kind, a: nat, b: nat)
    requires WellFormed(k) && a != b
    ensures AllWellFormed(Kinds([Field(None, k), Field(None, k)]))
    ensures TypeLookup(FieldType(Field(None, k)), [Field(None, k), Field(None, k)]) == Ambiguous
    ensures AllWellFormed(Kinds([Field(Some(a), k), Field(Some(b), k)]))
    ensures TypeLookup(Tag(a), [Field(Some(a), k), Field(Some(b), k)]) == Unique(0, 0)
    ensures TypeLookup(Tag(b), [Field(Some(a), k), Field(Some(b), k)]) == Unique(1, BitSize(k))
  {
    var plain := [Field(None, k), Field(None, k)];
    var tagged := [Field(Some(a), k), Field(Some(b), k)];
    assert TypeHits(FieldType(Field(None, k)), plain)[0] && TypeHits(FieldType(Field(None, k)), plain)[1];
    FindErrors(TypeHits(FieldType(Field(None, k)), plain), Sizes(Kinds(plain)));
    TagFindsField(tagged, a, 0);
    TagFindsField(tagged, b, 1);
    OffsetStep(Sizes(Kinds(tagged)), 0);
    assert Offset(Sizes(Kinds(tagged)), 0) == 0;
  }

  /**
   * `basic_tiny_type_storage<Policy, TinyTypes...>` over the policy's
   * storage view `view` of `store`.
   */
  class BasicTinyTypeStorage {
    const store: Storage
    const view: View
    const fields: seq<Field>

    ghost predicate Valid()
      reads store
    {
      Layout(store.mem, view, Kinds(fields))
    }

    /** The default constructor: `storage_view().put(0)`. */
    constructor Default(store: Storage, view: View, fields: seq<Field>)
      requires Layout(store.mem, view, Kinds(fields))
      modifies store
      ensures this.store == store && this.view == view && this.fields == fields
      ensures Valid()
      ensures store.mem == Put(old(store.mem), view, 0)
      ensures forall i :: 0 <= i < |fields| ==> Get(i) == 0
    {
      this.store := store;
      this.view := view;
      this.fields := fields;
      new;
      ClearAll(store.mem, view, Kinds(fields));
      store.Write(view, 0);
    }

    /** The object constructor: each `at<I>() = objects[I]` in order. */
    constructor (store: Storage, view: View, fields: seq<Field>, objects: seq<int>)
      requires Layout(store.mem, view, Kinds(fields))
      requires |objects| == |fields|
      requires forall i :: 0 <= i < |fields| ==> Assignable(fields[i].kind, objects[i])
      modifies store
      ensures this.store == store && this.view == view && this.fields == fields
      ensures Valid()
      ensures forall i :: 0 <= i < |fields| ==> Get(i) == objects[i]
      ensures |store.mem| == |old(store.mem)|
    {
      this.store := store;
      this.view := view;
      this.fields := fields;
      new;
      AssignInOrder(store, view, Kinds(fields), objects);
    }

    /** The object held by field i. */
    function Get(i: nat): int
      reads store
      requires Valid() && i < |fields|
    {
      FieldValue(store.mem, view, Kinds(fields), i)
    }

    /** `(*this)[target]` converted to its object type, for a target matching exactly one field. */
    function GetTarget(target: TypeTarget): (r: int)
      reads store
      requires Valid() && TypeLookup(target, fields).Unique?
      ensures r == Get(TypeLookup(target, fields).index)
    {
      Get(TypeLookup(target, fields).index)
    }

    /** `(*this)[target] = o`: only the matched field changes. */
    method AssignTarget(target: TypeTarget, o: int)
      requires Valid() && TypeLookup(target, fields).Unique?
      requires Assignable(fields[TypeLookup(target, fields).index].kind, o)
      modifies store
      ensures Valid()
      ensures GetTarget(target) == o
      ensures forall j :: 0 <= j < |fields| && j != TypeLookup(target, fields).index ==> Get(j) == old(Get(j))
      ensures |store.mem| == |old(store.mem)|
      ensures forall p :: 0 <= p < |store.mem| && p !in view ==> store.mem[p] == old(store.mem)[p]
    {
      var i := TypeLookup(target, fields).index;
      FieldViews(store.mem, view, Kinds(fields));
      ghost var before := store.mem;
      var fv := FieldView(view, Kinds(fields), i);
      store.Write(fv, Encode(fields[i].kind, o));
      assert store.mem == AssignField(before, view, Kinds(fields), i, o);
      forall p | 0 <= p < |store.mem| && p !in view
        ensures store.mem[p] == before[p]
      {
        FieldInside(Sizes(Kinds(fields)), i);
        assert p !in fv;
        PutOutside(before, fv, Encode(fields[i].kind, o), p);
      }
    }
  }
}

=== FILE: tiny_types.dfy ===
/**
 * The tiny types a storage holds, as one sum type.  Each kind has the
 * bit size of its `bit_size()`, the objects its proxy's `operator=`
 * accepts, the bits that assignment puts into the view, and the object the
 * proxy's conversion returns.  Object values are `int`s: `bool` is 0 or 1
 * and a flag combination is its mask.
 *
 * A proxy is only ever made on a view exactly `bit_size()` wide; that
 * rule of `make_tiny_proxy` is the `Usable(v, mem, BitSize(k))`
 * precondition below.
 */
module TinyTypes {
  import opened Bits
  import opened Views
  import SelectInteger
  import EnumTraits
  import TinyBool
  import TinyInt
  import TinyEnum

  datatype Kind =
    | BoolKind                              // `tiny_bool`
    | UnsignedKind(bits: nat, intBits: nat) // `tiny_unsigned<Bits, Integer>`, Integer `intBits` wide
    | SignedKind(bits: nat, intBits: nat)   // `tiny_int<Bits, Integer>`
    | EnumKind(traits: EnumTraits.Traits)   // `tiny_enum<Enum>`
    | FlagSetKind(count: nat)               // `tiny_flag_set<Enum>` of `count` flags

  /** The static assertions of each tiny type. */
  predicate WellFormed(k: Kind)
  {
    match k
    case BoolKind => true
    case UnsignedKind(bits, intBits) => SelectInteger.IsStandardWidth(intBits) && bits <= intBits
    case SignedKind(bits, intBits) => SelectInteger.IsStandardWidth(intBits) && 1 <= bits <= intBits
    case EnumKind(t) => TinyEnum.Storable(t)
    case FlagSetKind(n) => 1 <= n <= SelectInteger.MaxUIntBits
  }

  /** `TinyType::bit_size()` */
  function BitSize(k: Kind): nat
    requires WellFormed(k)
  {
    match k
    case BoolKind => TinyBool.BitSize
    case UnsignedKind(bits, _) => bits
    case SignedKind(bits, _) => bits
    case EnumKind(t) => TinyEnum.BitSize(t)
    case FlagSetKind(n) => n
  }

  /** The objects the proxy's `operator=` accepts (its debug preconditions). */
  predicate Assignable(k: Kind, o: int)
    requires WellFormed(k)
  {
    match k
    case BoolKind => o == 0 || o == 1
    case UnsignedKind(bits, _) => 0 <= o < Pow2(bits)
    case SignedKind(bits, _) => TinyInt.SignedMin(bits) <= o <= TinyInt.SignedMax(bits)
    case EnumKind(t) => EnumTraits.IsValidEnumValue(t, o)
    case FlagSetKind(n) => 0 <= o < Pow2(n)
  }

  /** The integer the proxy's `operator=` puts into its view. */
  function Encode(k: Kind, o: int): nat
    requires WellFormed(k) && Assignable(k, o)
  {
    match k
    case BoolKind => TinyBool.Encode(o == 1)
    case UnsignedKind(_, _) => o
    case SignedKind(_, intBits) => TinyInt.ToUnsigned(o, intBits)
    case EnumKind(_) => o
    case FlagSetKind(_) => o
  }

  /** The object the proxy's conversion returns for the extracted bits. */
  function Decode(k: Kind, bits: nat): (o: int)
    requires WellFormed(k) && bits < Pow2(BitSize(k))
    ensures !k.EnumKind? ==> Assignable(k, o)
  {
    match k
    case BoolKind => if TinyBool.Decode(bits) then 1 else 0
    case UnsignedKind(_, _) => bits
    case SignedKind(n, intBits) => TinyInt.SignedDecode(bits, n, intBits)
    case EnumKind(_) => bits
    case FlagSetKind(_) => bits
  }

  /** The object a proxy on view `v` reads. */
  function ReadField(k: Kind, mem: Mem, v: View): int
    requires WellFormed(k) && Usable(v, mem, BitSize(k))
  {
    Decode(k, Extract(mem, v))
  }

  /** An accepted object, put through its view and read back, is itself. */
  lemma WriteRead(k: Kind, mem: Mem, v: View, o: int)
    requires WellFormed(k) && Usable(v, mem, BitSize(k)) && Assignable(k, o)
    ensures Usable(v, Put(mem, v, Encode(k, o)), BitSize(k))
    ensures ReadField(k, Put(mem, v, Encode(k, o)), v) == o
  {
    ExtractPut(mem, v, Encode(k, o));
    match k
    case BoolKind =>
      LowBitsId(Encode(k, o), 1);
    case UnsignedKind(_, _) =>
      LowBitsId(o, |v|);
    case SignedKind(n, intBits) =>
      TinyInt.SignedRoundTrip(o, n, intBits);
    case EnumKind(t) =>
      TinyEnum.RoundTrip(t, mem, v, o);
    case FlagSetKind(_) =>
      LowBitsId(o, |v|);
  }

  /** The all-zero pattern reads as the zero object of every kind. */
  lemma ZeroReadsZero(k: Kind)
    requires WellFormed(k)
    ensures Decode(k, 0) == 0
  {
    if k.SignedKind? {
      TinyInt.SignedLimitsMono(k.bits, k.bits);
    }
  }

  /** Every field of a cleared view reads zero. */
  lemma ClearedReadsZero(k: Kind, mem: Mem, v: View)
    requires WellFormed(k) && Usable(v, mem, BitSize(k))
    ensures Usable(v, Clear(mem, v), BitSize(k))
    ensures ReadField(k, Clear(mem, v), v) == 0
  {
    ExtractPut(mem, v, 0);
    LowBitsId(0, |v|);
    ZeroReadsZero(k);
  }
}

=== FILE: tombstone.dfy ===
/**
 * tombstone.hpp (and the `tombstone_traits<optional_impl<T>>`
 * specialization of optional_impl.hpp): bit patterns of a type's storage
 * that no object of the type ever has, used as "tombstones".
 *
 * A storage is the memory from bit 0 on; `StorageBits(T)` bits of it
 * belong to T's `storage_type`.  The tombstones are numbered 0 .. count-1;
 * every specialization stores tombstone `index` as `index + 1` in some
 * bits that hold 0 for a live object, and `get_tombstone` answers those
 * bits minus one in `std::size_t`, so that a live object wraps around to
 * 2^64 - 1, an index no tombstone has.
 */
module Tombstone {
  import opened Bits
  import opened Views
  import opened TinyTypes
  import PT = PaddingTraits
  import PaddingTinyStorage
  import TinyPointerStorage
  import TinyEnum
  import EnumTraits
  import Ilog2

  /** The types `tombstone_traits` is instantiated with, by the specialization they get. */
  datatype TypeDesc =
    | Plain(bits: nat)                              // the primary template: no tombstones; `bits` is 8 * sizeof(T)
    | Bool                                          // `tombstone_traits<bool>`
    | Pointer(pointee: TinyPointerStorage.Pointee)  // a non-void pointer, `aligned_obj<T, A>*` included
    | Tiny(kind: Kind)                              // a tiny type
    | Padded(traits: PT.PaddingTraits)              // a trivially copyable type with padding: `tombstone_traits_padded`
    | Optional(inner: TypeDesc)                     // `optional_impl<T>`

  /** The static assertions and enabling conditions of each specialization. */
  predicate WellFormedType(t: TypeDesc)
  {
    match t
    case Plain(_) => true
    case Bool => true
    case Pointer(p) => 1 <= TinyPointerStorage.AlignmentOf(p) < SizeMod
    case Tiny(k) => TinyTypes.WellFormed(k) && BitSize(k) < PT.CharBit
    case Padded(traits) => PT.WellFormed(traits) && PT.PaddingBitSize(traits) > 0
    case Optional(u) => WellFormedType(u)
  }

  /** `tombstone_bits` of the padded traits: the padding bits, at most 63. */
  function TombstoneBits(traits: PT.PaddingTraits): (n: nat)
    requires PT.WellFormed(traits)
    ensures n <= 63 && n <= PT.PaddingBitSize(traits)
    ensures PT.PaddingBitSize(traits) > 0 ==> n > 0
  {
    if PT.PaddingBitSize(traits) > 64 - 1 then 64 - 1 else PT.PaddingBitSize(traits)
  }

  /** The powers of two a byte's tag and counter bits give. */
  lemma ByteConstants()
    ensures Pow2(6) == 64 && Pow2(7) == 128 && Pow2(8) == 256
  {
    assert Pow2(2) == 4;
    assert Pow2(4) == 16;
  }

  /** `tombstone_count`: always below 2^64 - 1, the index of a live object. */
  function TombstoneCount(t: TypeDesc): (c: nat)
    requires WellFormedType(t)
    ensures c < SizeMax
  {
    match t
    case Plain(_) => 0
    case Bool =>
      ByteConstants();
      Pow2(PT.CharBit - 1) - 1
    case Pointer(p) => TinyPointerStorage.AlignmentOf(p) - 1
    case Tiny(k) =>
      Pow2Mono(PT.CharBit - BitSize(k), 8);
      ByteConstants();
      Pow2(PT.CharBit - BitSize(k)) - 1
    case Padded(traits) =>
      Pow2BelowSizeMax(TombstoneBits(traits));
      Pow2(TombstoneBits(traits)) - 1
    case Optional(u) =>
      if TombstoneCount(u) > 0 then TombstoneCount(u) - 1
      else
        ByteConstants();
        Pow2(PT.CharBit - 1) - 1
  }

  /** `optional_impl<T>::is_compressed`: T has a tombstone to spare for the empty state. */
  predicate IsCompressed(t: TypeDesc)
    requires WellFormedType(t)
  {
    TombstoneCount(t) > 0
  }

  /** The bits of `storage_type`; an uncompressed optional adds a byte for its flag and counter. */
  function StorageBits(t: TypeDesc): nat
    requires WellFormedType(t)
  {
    match t
    case Plain(n) => n
    case Bool => PT.CharBit
    case Pointer(_) => 64
    case Tiny(_) => PT.CharBit
    case Padded(traits) => traits.size * PT.CharBit
    case Optional(u) => if IsCompressed(u) then StorageBits(u) else StorageBits(u) + PT.CharBit
  }

  // ---------------------------------------------------------------------------
  // the views the specializations use

  /** The byte of a `bool` storage, the `unsigned char` it is reinterpreted as. */
  function ByteView(): View
  {
    Range(0, PT.CharBit)
  }

  /** The `std::uintptr_t` of a pointer storage. */
  function WordView(): View
  {
    Range(0, 64)
  }

  /** `at<0>()` of a tiny type's `tiny_storage<TinyType, tiny_unsigned<8 - bit_size>>`: the object. */
  function TinyObjectView(k: Kind): View
    requires TinyTypes.WellFormed(k) && BitSize(k) < PT.CharBit
  {
    Range(0, BitSize(k))
  }

  /** `at<1>()` of the same storage: the tombstone tag, at offset `bit_size` up to the byte's end. */
  function TinyTagView(k: Kind): View
    requires TinyTypes.WellFormed(k) && BitSize(k) < PT.CharBit
  {
    Range(BitSize(k), PT.CharBit)
  }

  /** `padding_of(storage.tombstone).subview<0, tombstone_bits>()`. */
  function PaddedTagView(traits: PT.PaddingTraits): (v: View)
    requires PT.WellFormed(traits)
    ensures |v| == TombstoneBits(traits) && Distinct(v)
    ensures forall i :: 0 <= i < |v| ==> v[i] < traits.size * PT.CharBit
  {
    PT.PaddingViewSize(traits, 0);
    PaddingTinyStorage.PaddingInsideObject(traits);
    var pad := PT.PaddingView(traits, 0);
    SubviewsDisjoint(pad, 0, TombstoneBits(traits), TombstoneBits(traits), |pad|);
    Subview(pad, 0, TombstoneBits(traits))
  }

  /** The flag of an uncompressed optional: `flag.at<0>()`, a `tiny_bool` in the byte after T's storage. */
  function FlagView(u: TypeDesc): View
    requires WellFormedType(u)
  {
    Range(StorageBits(u), StorageBits(u) + 1)
  }

  /** The counter of an uncompressed optional: `flag.at<1>()`, the 7 bits after the flag. */
  function CounterView(u: TypeDesc): View
    requires WellFormedType(u)
  {
    Range(StorageBits(u) + 1, StorageBits(u) + PT.CharBit)
  }

  // ---------------------------------------------------------------------------
  // the traits

  /** `get_tombstone(storage)`: the index of the stored tombstone, or an index of at least `tombstone_count`. */
  function TombstoneIndex(mem: Mem, t: TypeDesc): (r: nat)
    requires WellFormedType(t) && StorageBits(t) <= |mem|
    ensures r < SizeMod
  {
    match t
    case Plain(_) => 0
    case Bool => BoolIndex(mem)
    case Pointer(p) => PointerIndex(mem, p)
    case Tiny(k) => TinyIndex(mem, k)
    case Padded(traits) => PaddedIndex(mem, traits)
    case Optional(u) => if IsCompressed(u) then TombstoneIndex(mem, u) else CounterIndex(mem, u)
  }

  /** `get_tombstone` for `bool`: the byte shifted right by one, minus one. */
  function BoolIndex(mem: Mem): (r: nat)
    requires PT.CharBit <= |mem|
    ensures r < SizeMod
  {
    RangeFits(0, PT.CharBit, mem);
    Wrap64(Shr(Extract(mem, ByteView()), 1) - 1)
  }

  /** `get_tombstone` for a pointer: the address modulo the alignment, minus one. */
  function PointerIndex(mem: Mem, p: TinyPointerStorage.Pointee): (r: nat)
    requires 1 <= TinyPointerStorage.AlignmentOf(p) && 64 <= |mem|
    ensures r < SizeMod
  {
    RangeFits(0, 64, mem);
    Wrap64(Extract(mem, WordView()) % TinyPointerStorage.AlignmentOf(p) - 1)
  }

  /** `get_tombstone` for a tiny type: the tag, minus one. */
  function TinyIndex(mem: Mem, k: Kind): (r: nat)
    requires TinyTypes.WellFormed(k) && BitSize(k) < PT.CharBit && PT.CharBit <= |mem|
    ensures r < SizeMod
  {
    RangeFits(BitSize(k), PT.CharBit, mem);
    Wrap64(Extract(mem, TinyTagView(k)) - 1)
  }

  /** `get_tombstone` for a padded type: the padding tag, minus one. */
  function PaddedIndex(mem: Mem, traits: PT.PaddingTraits): (r: nat)
    requires PT.WellFormed(traits) && traits.size * PT.CharBit <= |mem|
    ensures r < SizeMod
  {
    Wrap64(Extract(mem, PaddedTagView(traits)) - 1)
  }

  /** `get_tombstone` for an uncompressed optional: the counter, minus one. */
  function CounterIndex(mem: Mem, u: TypeDesc): (r: nat)
    requires WellFormedType(u) && StorageBits(u) + PT.CharBit <= |mem|
    ensures r < SizeMod
  {
    RangeFits(StorageBits(u) + 1, StorageBits(u) + PT.CharBit, mem);
    Wrap64(Extract(mem, CounterView(u)) - 1)
  }

  /** The memory after `create_tombstone(storage, index)`; the index must be below `tombstone_count`. */
  function WithTombstone(mem: Mem, t: TypeDesc, index: nat): (r: Mem)
    requires WellFormedType(t) && StorageBits(t) <= |mem| && index < TombstoneCount(t)
    ensures |r| == |mem|
  {
    match t
    case Bool =>
      RangeFits(0, PT.CharBit, mem);
      Put(mem, ByteView(), (index + 1) * 2 % 256)
    case Pointer(_) =>
      RangeFits(0, 64, mem);
      Put(mem, WordView(), Wrap64(index + 1))
    case Tiny(k) =>
      RangeFits(BitSize(k), PT.CharBit, mem);
      Put(mem, TinyTagView(k), index + 1)
    case Padded(traits) =>
      RangeFits(0, traits.size * PT.CharBit, mem);
      Put(Put(mem, Range(0, traits.size * PT.CharBit), 0), PaddedTagView(traits), index + 1)
    case Optional(u) =>
      if IsCompressed(u) then WithTombstone(mem, u, index)
      else
        RangeFits(StorageBits(u) + 1, StorageBits(u) + PT.CharBit, mem);
        Put(mem, CounterView(u), index + 1)
  }

  /**
   * The arguments `create_object` accepts: any bits for a type without
   * tombstones and for a padded type (its object representation), 0 or 1
   * for `bool`, a null or suitably aligned address for a pointer, an
   * object of the tiny type, and nothing (0) for an optional, whose only
   * constructor is the default one.
   */
  predicate IsObject(t: TypeDesc, o: int)
    requires WellFormedType(t)
  {
    match t
    case Plain(n) => 0 <= o < Pow2(n)
    case Bool => o == 0 || o == 1
    case Pointer(p) => 0 <= o < SizeMod && o % TinyPointerStorage.AlignmentOf(p) == 0
    case Tiny(k) => Assignable(k, o)
    case Padded(traits) => 0 <= o < Pow2(traits.size * PT.CharBit)
    case Optional(_) => o == 0
  }

  /** The memory after `create_object(storage, o)`. */
  function WithObject(mem: Mem, t: TypeDesc, o: int): (r: Mem)
    requires WellFormedType(t) && StorageBits(t) <= |mem| && IsObject(t, o)
    ensures |r| == |mem|
  {
    match t
    case Plain(n) =>
      RangeFits(0, n, mem);
      Put(mem, Range(0, n), o)
    case Bool =>
      RangeFits(0, PT.CharBit, mem);
      Put(mem, ByteView(), o)
    case Pointer(_) =>
      RangeFits(0, 64, mem);
      Put(mem, WordView(), o)
    case Tiny(k) =>
      RangeFits(0, BitSize(k), mem);
      RangeFits(BitSize(k), PT.CharBit, mem);
      Put(Put(mem, TinyObjectView(k), Encode(k, o)), TinyTagView(k), 0)
    case Padded(traits) =>
      RangeFits(0, traits.size * PT.CharBit, mem);
      Put(Put(mem, Range(0, traits.size * PT.CharBit), o), PaddedTagView(traits), 0)
    case Optional(u) =>
      if IsCompressed(u) then WithTombstone(mem, u, TombstoneCount(u) - 1)
      else
        RangeFits(StorageBits(u), StorageBits(u) + 1, mem);
        RangeFits(StorageBits(u) + 1, StorageBits(u) + PT.CharBit, mem);
        Put(Put(mem, FlagView(u), 0), CounterView(u), 0)
  }

  /** The types whose object the model reads back as a number. */
  predicate IsNumeric(t: TypeDesc)
  {
    t.Plain? || t.Bool? || t.Pointer? || t.Tiny?
  }

  /** `get_object(storage)` of a type whose object is a number: what `create_object` put there. */
  function ObjectOf(mem: Mem, t: TypeDesc): int
    requires WellFormedType(t) && StorageBits(t) <= |mem| && IsNumeric(t)
  {
    match t
    case Plain(n) =>
      RangeFits(0, n, mem);
      Extract(mem, Range(0, n))
    case Bool =>
      RangeFits(0, PT.CharBit, mem);
      Extract(mem, ByteView())
    case Pointer(_) =>
      RangeFits(0, 64, mem);
      Extract(mem, WordView())
    case Tiny(k) =>
      RangeFits(0, BitSize(k), mem);
      RangeDistinct(0, BitSize(k));
      ReadField(k, mem, TinyObjectView(k))
  }

  // ---------------------------------------------------------------------------
  // the properties

  /** Bits past the storage are kept by `create_tombstone`. */
  lemma {:induction false} WithTombstoneFrame(mem: Mem, t: TypeDesc, index: nat, k: nat)
    requires WellFormedType(t) && StorageBits(t) <= |mem| && index < TombstoneCount(t)
    requires StorageBits(t) <= k < |mem|
    ensures WithTombstone(mem, t, index)[k] == mem[k]
    decreases t
  {
    match t
    case Bool =>
      BoolTombstoneFrame(mem, index, k);
    case Pointer(p) =>
      PointerTombstoneFrame(mem, p, index, k);
    case Tiny(kind) =>
      TinyTombstoneFrame(mem, kind, index, k);
    case Padded(traits) =>
      PaddedTombstoneFrame(mem, traits, index, k);
    case Optional(u) =>
      if IsCompressed(u) {
        WithTombstoneFrame(mem, u, index, k);
        assert WithTombstone(mem, t, index) == WithTombstone(mem, u, index);
      } else {
        CounterTombstoneFrame(mem, u, index, k);
      }
  }

  lemma BoolTombstoneFrame(mem: Mem, index: nat, k: nat)
    requires PT.CharBit <= k < |mem| && index < TombstoneCount(Bool)
    ensures WithTombstone(mem, Bool, index)[k] == mem[k]
  {
    var x := (index + 1) * 2 % 256;
    PutRangeAt(mem, 0, PT.CharBit, x, k);
    assert WithTombstone(mem, Bool, index) == Put(mem, ByteView(), x);
  }

  lemma PointerTombstoneFrame(mem: Mem, p: TinyPointerStorage.Pointee, index: nat, k: nat)
    requires WellFormedType(Pointer(p)) && 64 <= k < |mem| && index < TombstoneCount(Pointer(p))
    ensures WithTombstone(mem, Pointer(p), index)[k] == mem[k]
  {
    var x := Wrap64(index + 1);
    PutRangeAt(mem, 0, 64, x, k);
    assert WithTombstone(mem, Pointer(p), index) == Put(mem, WordView(), x);
  }

  lemma TinyTombstoneFrame(mem: Mem, kind: Kind, index: nat, k: nat)
    requires WellFormedType(Tiny(kind)) && PT.CharBit <= k < |mem| && index < TombstoneCount(Tiny(kind))
    ensures WithTombstone(mem, Tiny(kind), index)[k] == mem[k]
  {
    PutRangeAt(mem, BitSize(kind), PT.CharBit, index + 1, k);
    assert WithTombstone(mem, Tiny(kind), index) == Put(mem, TinyTagView(kind), index + 1);
  }

  lemma PaddedTombstoneFrame(mem: Mem, traits: PT.PaddingTraits, index: nat, k: nat)
    requires WellFormedType(Padded(traits)) && StorageBits(Padded(traits)) <= k < |mem|
    requires index < TombstoneCount(Padded(traits))
    ensures WithTombstone(mem, Padded(traits), index)[k] == mem[k]
  {
    var n := traits.size * PT.CharBit;
    var m := Put(mem, Range(0, n), 0);
    PutRangeAt(mem, 0, n, 0, k);
    PutOutside(m, PaddedTagView(traits), index + 1, k);
    assert WithTombstone(mem, Padded(traits), index) == Put(m, PaddedTagView(traits), index + 1);
  }

  lemma CounterTombstoneFrame(mem: Mem, u: TypeDesc, index: nat, k: nat)
    requires WellFormedType(Optional(u)) && !IsCompressed(u)
    requires StorageBits(Optional(u)) <= k < |mem| && index < TombstoneCount(Optional(u))
    ensures WithTombstone(mem, Optional(u), index)[k] == mem[k]
  {
    PutRangeAt(mem, StorageBits(u) + 1, StorageBits(u) + PT.CharBit, index + 1, k);
    assert WithTombstone(mem, Optional(u), index) == Put(mem, CounterView(u), index + 1);
  }

  /** Bits past the storage are kept by `create_object`. */
  lemma WithObjectFrame(mem: Mem, t: TypeDesc, o: int, k: nat)
    requires WellFormedType(t) && StorageBits(t) <= |mem| && IsObject(t, o)
    requires StorageBits(t) <= k < |mem|
    ensures WithObject(mem, t, o)[k] == mem[k]
  {
    match t
    case Plain(_) =>
      WordObjectFrame(mem, t, o, k);
    case Bool =>
      WordObjectFrame(mem, t, o, k);
    case Pointer(_) =>
      WordObjectFrame(mem, t, o, k);
    case Tiny(kind) =>
      TinyObjectFrame(mem, kind, o, k);
    case Padded(traits) =>
      PaddedObjectFrame(mem, traits, o, k);
    case Optional(u) =>
      if IsCompressed(u) {
        WithTombstoneFrame(mem, u, TombstoneCount(u) - 1, k);
      } else {
        EmptyOptionalFrame(mem, u, k);
      }
  }

  /** The types whose object fills the storage from bit 0: the object is one write of its bits. */
  lemma WordObjectFrame(mem: Mem, t: TypeDesc, o: int, k: nat)
    requires t.Plain? || t.Bool? || t.Pointer?
    requires WellFormedType(t) && StorageBits(t) <= |mem| && IsObject(t, o)
    requires StorageBits(t) <= k < |mem|
    ensures WithObject(mem, t, o)[k] == mem[k]
  {
    var n := StorageBits(t);
    RangeFits(0, n, mem);
    assert WithObject(mem, t, o) == Put(mem, Range(0, n), o);
    PutRangeAt(mem, 0, n, o, k);
  }

  lemma TinyObjectFrame(mem: Mem, kind: Kind, o: int, k: nat)
    requires WellFormedType(Tiny(kind)) && StorageBits(Tiny(kind)) <= |mem| && IsObject(Tiny(kind), o)
    requires StorageBits(Tiny(kind)) <= k < |mem|
    ensures WithObject(mem, Tiny(kind), o)[k] == mem[k]
  {
    var m := Put(mem, TinyObjectView(kind), Encode(kind, o));
    PutRangeAt(mem, 0, BitSize(kind), Encode(kind, o), k);
    PutRangeAt(m, BitSize(kind), PT.CharBit, 0, k);
    assert WithObject(mem, Tiny(kind), o) == Put(m, TinyTagView(kind), 0);
  }

  lemma PaddedObjectFrame(mem: Mem, traits: PT.PaddingTraits, o: int, k: nat)
    requires WellFormedType(Padded(traits)) && StorageBits(Padded(traits)) <= |mem| && IsObject(Padded(traits), o)
    requires StorageBits(Padded(traits)) <= k < |mem|
    ensures WithObject(mem, Padded(traits), o)[k] == mem[k]
  {
    var n := traits.size * PT.CharBit;
    var m := Put(mem, Range(0, n), o);
    PutRangeAt(mem, 0, n, o, k);
    PutOutside(m, PaddedTagView(traits), 0, k);
    assert WithObject(mem, Padded(traits), o) == Put(m, PaddedTagView(traits), 0);
  }

  lemma EmptyOptionalFrame(mem: Mem, u: TypeDesc, k: nat)
    requires WellFormedType(Optional(u)) && !IsCompressed(u) && StorageBits(Optional(u)) <= |mem|
    requires StorageBits(Optional(u)) <= k < |mem|
    ensures IsObject(Optional(u), 0)
    ensures WithObject(mem, Optional(u), 0)[k] == mem[k]
  {
    var m := Put(mem, FlagView(u), 0);
    PutRangeAt(mem, StorageBits(u), StorageBits(u) + 1, 0, k);
    PutRangeAt(m, StorageBits(u) + 1, StorageBits(u) + PT.CharBit, 0, k);
    assert WithObject(mem, Optional(u), 0) == Put(m, CounterView(u), 0);
  }

  /** Putting a value that fits into a range reads it back. */
  lemma PutRangeExtract(mem: Mem, b: nat, e: nat, x: nat)
    requires b <= e <= |mem| && x < Pow2(e - b)
    ensures Fits(Range(b, e), mem)
    ensures Extract(Put(mem, Range(b, e), x), Range(b, e)) == x
  {
    RangeFits(b, e, mem);
    RangeDistinct(b, e);
    ExtractPut(mem, Range(b, e), x);
    LowBitsId(x, e - b);
  }

  /** The round trip of `bool`: the tombstone byte `(index + 1) << 1` shifted back. */
  lemma BoolTombstoneRoundTrip(mem: Mem, index: nat)
    requires PT.CharBit <= |mem| && index < TombstoneCount(Bool)
    ensures TombstoneIndex(WithTombstone(mem, Bool, index), Bool) == index
  {
    ByteConstants();
    var x := (index + 1) * 2;
    assert x < 256;
    SmallRemainder(x, 256);
    var m := WithTombstone(mem, Bool, index);
    assert m == Put(mem, ByteView(), x);
    PutRangeExtract(mem, 0, PT.CharBit, x);
    assert Extract(m, ByteView()) == x;
    assert Shr(x, 1) == index + 1;
    assert BoolIndex(m) == Wrap64(index);
  }

  /** The round trip of a pointer: `index + 1` is below the alignment, its own remainder. */
  lemma PointerTombstoneRoundTrip(mem: Mem, p: TinyPointerStorage.Pointee, index: nat)
    requires WellFormedType(Pointer(p)) && 64 <= |mem| && index < TombstoneCount(Pointer(p))
    ensures TombstoneIndex(WithTombstone(mem, Pointer(p), index), Pointer(p)) == index
  {
    var a := TinyPointerStorage.AlignmentOf(p);
    var x := index + 1;
    var m := PointerWithTombstone(mem, p, index);
    WordPutExtract(mem, x);
    assert Extract(m, WordView()) == x;
    SmallRemainder(x, a);
    assert PointerIndex(m, p) == index;
  }

  /** `bool`'s tombstone writes `(index + 1) << 1` into the byte. */
  lemma BoolWithTombstone(mem: Mem, index: nat)
    requires PT.CharBit <= |mem| && index < TombstoneCount(Bool)
    ensures Fits(ByteView(), mem)
    ensures WithTombstone(mem, Bool, index) == Put(mem, ByteView(), (index + 1) * 2 % 256)
  {
    RangeFits(0, PT.CharBit, mem);
  }

  /** A tiny type's tombstone writes `index + 1` into the tag bits. */
  lemma TinyWithTombstone(mem: Mem, k: Kind, index: nat)
    requires WellFormedType(Tiny(k)) && PT.CharBit <= |mem| && index < TombstoneCount(Tiny(k))
    ensures Fits(TinyTagView(k), mem)
    ensures WithTombstone(mem, Tiny(k), index) == Put(mem, TinyTagView(k), index + 1)
  {
    RangeFits(BitSize(k), PT.CharBit, mem);
  }

  /** A padded type's tombstone clears the object, then writes `index + 1` into the padding tag. */
  lemma PaddedWithTombstone(mem: Mem, traits: PT.PaddingTraits, index: nat)
    requires WellFormedType(Padded(traits)) && traits.size * PT.CharBit <= |mem|
    requires index < TombstoneCount(Padded(traits))
    ensures Fits(Range(0, traits.size * PT.CharBit), mem)
    ensures WithTombstone(mem, Padded(traits), index)
         == Put(Put(mem, Range(0, traits.size * PT.CharBit), 0), PaddedTagView(traits), index + 1)
  {
    RangeFits(0, traits.size * PT.CharBit, mem);
  }

  /** A compressed optional's tombstone is one of its inner type's. */
  lemma CompressedWithTombstone(mem: Mem, u: TypeDesc, index: nat)
    requires WellFormedType(Optional(u)) && IsCompressed(u) && StorageBits(Optional(u)) <= |mem|
    requires index < TombstoneCount(Optional(u))
    ensures StorageBits(u) <= |mem| && index < TombstoneCount(u)
    ensures WithTombstone(mem, Optional(u), index) == WithTombstone(mem, u, index)
  {
  }

  /** An uncompressed optional's tombstone writes `index + 1` into the counter. */
  lemma CounterWithTombstone(mem: Mem, u: TypeDesc, index: nat)
    requires WellFormedType(Optional(u)) && !IsCompressed(u) && StorageBits(Optional(u)) <= |mem|
    requires index < TombstoneCount(Optional(u))
    ensures Fits(CounterView(u), mem)
    ensures WithTombstone(mem, Optional(u), index) == Put(mem, CounterView(u), index + 1)
  {
    RangeFits(StorageBits(u) + 1, StorageBits(u) + PT.CharBit, mem);
  }

  /** An address written into the word reads back. */
  lemma WordPutExtract(mem: Mem, x: nat)
    requires 64 <= |mem| && x < SizeMod
    ensures Fits(WordView(), mem)
    ensures Extract(Put(mem, WordView(), x), WordView()) == x
  {
    Pow2SizeMod();
    PutRangeExtract(mem, 0, 64, x);
  }

  /** A pointer's tombstone writes `index + 1` as the address. */
  lemma PointerWithTombstone(mem: Mem, p: TinyPointerStorage.Pointee, index: nat) returns (m: Mem)
    requires WellFormedType(Pointer(p)) && 64 <= |mem| && index < TombstoneCount(Pointer(p))
    ensures Fits(WordView(), mem) && index + 1 < SizeMod
    ensures m == WithTombstone(mem, Pointer(p), index) == Put(mem, WordView(), index + 1)
  {
    RangeFits(0, 64, mem);
    m := WithTombstone(mem, Pointer(p), index);
  }

  lemma SmallRemainder(x: nat, a: nat)
    requires x < a
    ensures x % a == x
  {
  }

  /** The round trip of a tiny type: the tag bits hold `index + 1`. */
  lemma TinyTombstoneRoundTrip(mem: Mem, k: Kind, index: nat)
    requires WellFormedType(Tiny(k)) && PT.CharBit <= |mem| && index < TombstoneCount(Tiny(k))
    ensures TombstoneIndex(WithTombstone(mem, Tiny(k), index), Tiny(k)) == index
  {
    PutRangeExtract(mem, BitSize(k), PT.CharBit, index + 1);
  }

  /** The round trip of a padded type: the first padding bits hold `index + 1`. */
  lemma PaddedTombstoneRoundTrip(mem: Mem, traits: PT.PaddingTraits, index: nat)
    requires WellFormedType(Padded(traits)) && traits.size * PT.CharBit <= |mem|
    requires index < TombstoneCount(Padded(traits))
    ensures TombstoneIndex(WithTombstone(mem, Padded(traits), index), Padded(traits)) == index
  {
    var n := traits.size * PT.CharBit;
    RangeFits(0, n, mem);
    var cleared := Put(mem, Range(0, n), 0);
    var v := PaddedTagView(traits);
    ExtractPut(cleared, v, index + 1);
    LowBitsId(index + 1, TombstoneBits(traits));
    Pow2SizeMod();
    Pow2Mono(TombstoneBits(traits), 64);
    assert WithTombstone(mem, Padded(traits), index) == Put(cleared, v, index + 1);
  }

  /** The round trip of an uncompressed optional: the counter holds `index + 1`. */
  lemma CounterTombstoneRoundTrip(mem: Mem, u: TypeDesc, index: nat)
    requires WellFormedType(u) && !IsCompressed(u) && StorageBits(u) + PT.CharBit <= |mem|
    requires index < TombstoneCount(Optional(u))
    ensures TombstoneIndex(WithTombstone(mem, Optional(u), index), Optional(u)) == index
  {
    ByteConstants();
    PutRangeExtract(mem, StorageBits(u) + 1, StorageBits(u) + PT.CharBit, index + 1);
  }

  /** `get_tombstone` after `create_tombstone(storage, index)` is `index`. */
  lemma {:induction false} TombstoneRoundTrip(mem: Mem, t: TypeDesc, index: nat)
    requires WellFormedType(t) && StorageBits(t) <= |mem| && index < TombstoneCount(t)
    ensures TombstoneIndex(WithTombstone(mem, t, index), t) == index
    decreases t
  {
    match t
    case Bool => BoolTombstoneRoundTrip(mem, index);
    case Pointer(p) => PointerTombstoneRoundTrip(mem, p, index);
    case Tiny(k) => TinyTombstoneRoundTrip(mem, k, index);
    case Padded(traits) => PaddedTombstoneRoundTrip(mem, traits, index);
    case Optional(u) =>
      if IsCompressed(u) {
        TombstoneRoundTrip(mem, u, index);
      } else {
        CounterTombstoneRoundTrip(mem, u, index);
      }
  }

  /** Clearing a range leaves nothing in it. */
  lemma ClearRangeExtract(mem: Mem, b: nat, e: nat)
    requires b <= e <= |mem|
    ensures Fits(Range(b, e), mem)
    ensures Extract(Put(mem, Range(b, e), 0), Range(b, e)) == 0
  {
    PutRangeExtract(mem, b, e, 0);
  }

  /** A `bool` object's byte is 0 or 1: shifted right it is 0, and 0 - 1 wraps. */
  lemma BoolObjectIsNoTombstone(mem: Mem, o: int)
    requires PT.CharBit <= |mem| && IsObject(Bool, o)
    ensures TombstoneIndex(WithObject(mem, Bool, o), Bool) >= TombstoneCount(Bool)
  {
    ByteConstants();
    PutRangeExtract(mem, 0, PT.CharBit, o);
    assert Shr(o, 1) == 0;
  }

  /** An aligned address is 0 modulo the alignment, and 0 - 1 wraps. */
  lemma PointerObjectIsNoTombstone(mem: Mem, p: TinyPointerStorage.Pointee, o: int)
    requires WellFormedType(Pointer(p)) && 64 <= |mem| && IsObject(Pointer(p), o)
    ensures TombstoneIndex(WithObject(mem, Pointer(p), o), Pointer(p)) >= TombstoneCount(Pointer(p))
  {
    var m := PointerWithObject(mem, p, o);
    WordPutExtract(mem, o);
    assert Extract(m, WordView()) == o;
    var a := TinyPointerStorage.AlignmentOf(p);
    assert o % a == 0;
    WrapMinusOne();
    assert PointerIndex(m, p) == SizeMax;
  }

  /** A pointer's `create_object` writes the address. */
  lemma PointerWithObject(mem: Mem, p: TinyPointerStorage.Pointee, o: int) returns (m: Mem)
    requires WellFormedType(Pointer(p)) && 64 <= |mem| && IsObject(Pointer(p), o)
    ensures Fits(WordView(), mem) && 0 <= o < SizeMod
    ensures m == WithObject(mem, Pointer(p), o) == Put(mem, WordView(), o)
  {
    RangeFits(0, 64, mem);
    m := WithObject(mem, Pointer(p), o);
  }

  /** A tiny object's tag bits are 0. */
  lemma TinyObjectIsNoTombstone(mem: Mem, k: Kind, o: int)
    requires WellFormedType(Tiny(k)) && PT.CharBit <= |mem| && IsObject(Tiny(k), o)
    ensures TombstoneIndex(WithObject(mem, Tiny(k), o), Tiny(k)) >= TombstoneCount(Tiny(k))
  {
    RangeFits(0, BitSize(k), mem);
    var m := Put(mem, TinyObjectView(k), Encode(k, o));
    ClearRangeExtract(m, BitSize(k), PT.CharBit);
  }

  /** A padded object's tombstone bits are 0. */
  lemma PaddedObjectIsNoTombstone(mem: Mem, traits: PT.PaddingTraits, o: int)
    requires WellFormedType(Padded(traits)) && traits.size * PT.CharBit <= |mem|
    requires IsObject(Padded(traits), o)
    ensures TombstoneIndex(WithObject(mem, Padded(traits), o), Padded(traits)) >= TombstoneCount(Padded(traits))
  {
    var r := WithObject(mem, Padded(traits), o);
    PaddedObjectTag(mem, traits, o);
    WrapMinusOne();
    assert PaddedIndex(r, traits) == SizeMax;
  }

  /** `create_object` of a padded type leaves its tombstone bits 0. */
  lemma PaddedObjectTag(mem: Mem, traits: PT.PaddingTraits, o: int)
    requires WellFormedType(Padded(traits)) && traits.size * PT.CharBit <= |mem|
    requires IsObject(Padded(traits), o)
    ensures Extract(WithObject(mem, Padded(traits), o), PaddedTagView(traits)) == 0
  {
    var n := traits.size * PT.CharBit;
    RangeFits(0, n, mem);
    var written := Put(mem, Range(0, n), o);
    ExtractPut(written, PaddedTagView(traits), 0);
    LowBitsId(0, TombstoneBits(traits));
  }

  /** An uncompressed optional's counter is 0. */
  lemma CounterObjectIsNoTombstone(mem: Mem, u: TypeDesc)
    requires WellFormedType(u) && !IsCompressed(u) && StorageBits(u) + PT.CharBit <= |mem|
    ensures TombstoneIndex(WithObject(mem, Optional(u), 0), Optional(u)) >= TombstoneCount(Optional(u))
  {
    RangeFits(StorageBits(u), StorageBits(u) + 1, mem);
    ClearRangeExtract(Put(mem, FlagView(u), 0), StorageBits(u) + 1, StorageBits(u) + PT.CharBit);
  }

  /** A live object is no tombstone: `get_tombstone` after `create_object` is at least `tombstone_count`. */
  lemma ObjectIsNoTombstone(mem: Mem, t: TypeDesc, o: int)
    requires WellFormedType(t) && StorageBits(t) <= |mem| && IsObject(t, o)
    ensures TombstoneIndex(WithObject(mem, t, o), t) >= TombstoneCount(t)
  {
    match t
    case Plain(_) =>
    case Bool => BoolObjectIsNoTombstone(mem, o);
    case Pointer(p) => PointerObjectIsNoTombstone(mem, p, o);
    case Tiny(k) => TinyObjectIsNoTombstone(mem, k, o);
    case Padded(traits) => PaddedObjectIsNoTombstone(mem, traits, o);
    case Optional(u) =>
      if IsCompressed(u) {
        TombstoneRoundTrip(mem, u, TombstoneCount(u) - 1);
      } else {
        CounterObjectIsNoTombstone(mem, u);
      }
  }

  /** `get_object` after `create_object(storage, o)` is `o`, for the types whose object is a number. */
  lemma ObjectRoundTrip(mem: Mem, t: TypeDesc, o: int)
    requires WellFormedType(t) && StorageBits(t) <= |mem| && IsObject(t, o)
    requires IsNumeric(t)
    ensures ObjectOf(WithObject(mem, t, o), t) == o
  {
    match t
    case Plain(n) =>
      PutRangeExtract(mem, 0, n, o);
    case Bool =>
      ByteConstants();
      PutRangeExtract(mem, 0, PT.CharBit, o);
    case Pointer(p) =>
      WordPutExtract(mem, o);
    case Tiny(k) =>
      var v := TinyObjectView(k);
      RangeFits(0, BitSize(k), mem);
      RangeDistinct(0, BitSize(k));
      WriteRead(k, mem, v, o);
      var m := Put(mem, v, Encode(k, o));
      RangeFits(BitSize(k), PT.CharBit, m);
      RangesDisjoint(0, BitSize(k), BitSize(k), PT.CharBit);
      ExtractPutDisjoint(m, TinyTagView(k), v, 0);
  }

  /**
   * A padded object keeps the bits of its representation outside the
   * tombstone bits, its members among them.
   */
  lemma PaddedObjectKept(mem: Mem, traits: PT.PaddingTraits, o: nat, k: nat)
    requires WellFormedType(Padded(traits)) && StorageBits(Padded(traits)) <= |mem| && IsObject(Padded(traits), o)
    requires k < traits.size * PT.CharBit && k !in PaddedTagView(traits)
    ensures WithObject(mem, Padded(traits), o)[k] == Bit(o, k)
  {
    PaddedWithObject(mem, traits, o);
    ObjectThenClearAt(mem, traits.size * PT.CharBit, o, PaddedTagView(traits), k);
  }

  /** Writing an object over `[0, n)` and then clearing bits elsewhere leaves the object's bit k. */
  lemma ObjectThenClearAt(mem: Mem, n: nat, o: nat, tag: View, k: nat)
    requires n <= |mem| && Fits(tag, mem) && k < n && k !in tag
    ensures Fits(Range(0, n), mem) && Fits(tag, Put(mem, Range(0, n), o))
    ensures Put(Put(mem, Range(0, n), o), tag, 0)[k] == Bit(o, k)
  {
    PutRangeAt(mem, 0, n, o, k);
    var written := Put(mem, Range(0, n), o);
    assert written[k] == Bit(o, k - 0);
    PutOutside(written, tag, 0, k);
  }

  /** A padded object is written over the whole object, then its tag is cleared. */
  lemma PaddedWithObject(mem: Mem, traits: PT.PaddingTraits, o: nat)
    requires WellFormedType(Padded(traits)) && StorageBits(Padded(traits)) <= |mem| && IsObject(Padded(traits), o)
    ensures Fits(Range(0, traits.size * PT.CharBit), mem)
    ensures WithObject(mem, Padded(traits), o)
         == Put(Put(mem, Range(0, traits.size * PT.CharBit), o), PaddedTagView(traits), 0)
  {
    RangeFits(0, traits.size * PT.CharBit, mem);
  }

  // ---------------------------------------------------------------------------
  // the traits only look at the storage

  /** Two memories that agree on their first `n` bits. */
  predicate AgreeBelow(mem: Mem, mem': Mem, n: nat)
  {
    n <= |mem| && n <= |mem'| && forall k :: 0 <= k < n ==> mem[k] == mem'[k]
  }

  lemma RangeAgree(mem: Mem, mem': Mem, n: nat, b: nat, e: nat)
    requires AgreeBelow(mem, mem', n) && b <= e <= n
    ensures Fits(Range(b, e), mem) && Fits(Range(b, e), mem')
    ensures Extract(mem, Range(b, e)) == Extract(mem', Range(b, e))
  {
    RangeFits(b, e, mem);
    RangeFits(b, e, mem');
    ExtractSame(mem', mem, Range(b, e));
  }

  /** `get_tombstone` depends on the storage's bits only. */
  lemma {:induction false} TombstoneIndexFrame(mem: Mem, mem': Mem, t: TypeDesc)
    requires WellFormedType(t) && AgreeBelow(mem, mem', StorageBits(t))
    ensures TombstoneIndex(mem, t) == TombstoneIndex(mem', t)
    decreases t
  {
    match t
    case Plain(_) =>
    case Bool => BoolIndexFrame(mem, mem');
    case Pointer(p) => PointerIndexFrame(mem, mem', p);
    case Tiny(k) => TinyIndexFrame(mem, mem', k);
    case Padded(traits) => PaddedIndexFrame(mem, mem', traits);
    case Optional(u) =>
      if IsCompressed(u) {
        TombstoneIndexFrame(mem, mem', u);
      } else {
        CounterIndexFrame(mem, mem', u);
      }
  }

  lemma BoolIndexFrame(mem: Mem, mem': Mem)
    requires AgreeBelow(mem, mem', PT.CharBit)
    ensures BoolIndex(mem) == BoolIndex(mem')
  {
    RangeAgree(mem, mem', PT.CharBit, 0, PT.CharBit);
    assert Extract(mem, ByteView()) == Extract(mem', ByteView());
  }

  lemma PointerIndexFrame(mem: Mem, mem': Mem, p: TinyPointerStorage.Pointee)
    requires 1 <= TinyPointerStorage.AlignmentOf(p) && AgreeBelow(mem, mem', 64)
    ensures PointerIndex(mem, p) == PointerIndex(mem', p)
  {
    RangeAgree(mem, mem', 64, 0, 64);
    assert Extract(mem, WordView()) == Extract(mem', WordView());
  }

  lemma TinyIndexFrame(mem: Mem, mem': Mem, k: Kind)
    requires TinyTypes.WellFormed(k) && BitSize(k) < PT.CharBit && AgreeBelow(mem, mem', PT.CharBit)
    ensures TinyIndex(mem, k) == TinyIndex(mem', k)
  {
    RangeAgree(mem, mem', PT.CharBit, BitSize(k), PT.CharBit);
    var v := TinyTagView(k);
    assert v == Range(BitSize(k), PT.CharBit);
    var x := Extract(mem, v);
    assert x == Extract(mem', v);
    assert TinyIndex(mem, k) == Wrap64(x as int - 1);
    assert TinyIndex(mem', k) == Wrap64(x as int - 1);
  }

  lemma PaddedIndexFrame(mem: Mem, mem': Mem, traits: PT.PaddingTraits)
    requires PT.WellFormed(traits) && AgreeBelow(mem, mem', traits.size * PT.CharBit)
    ensures PaddedIndex(mem, traits) == PaddedIndex(mem', traits)
  {
    ExtractSame(mem', mem, PaddedTagView(traits));
  }

  lemma CounterIndexFrame(mem: Mem, mem': Mem, u: TypeDesc)
    requires WellFormedType(u) && AgreeBelow(mem, mem', StorageBits(u) + PT.CharBit)
    ensures CounterIndex(mem, u) == CounterIndex(mem', u)
  {
    var n := StorageBits(u);
    RangeAgree(mem, mem', n + PT.CharBit, n + 1, n + PT.CharBit);
    assert Extract(mem, CounterView(u)) == Extract(mem', CounterView(u));
  }

  /** `get_object` depends on the storage's bits only. */
  lemma ObjectOfFrame(mem: Mem, mem': Mem, t: TypeDesc)
    requires WellFormedType(t) && IsNumeric(t) && AgreeBelow(mem, mem', StorageBits(t))
    ensures ObjectOf(mem, t) == ObjectOf(mem', t)
  {
    match t
    case Plain(n) => RangeAgree(mem, mem', n, 0, n);
    case Bool => RangeAgree(mem, mem', PT.CharBit, 0, PT.CharBit);
    case Pointer(_) => RangeAgree(mem, mem', 64, 0, 64);
    case Tiny(k) => RangeAgree(mem, mem', PT.CharBit, 0, BitSize(k));
  }

  // ---------------------------------------------------------------------------
  // the traits' operations on a storage

  /** `tombstone_traits<T>::create_tombstone(storage, index)` */
  method CreateTombstone(store: Storage, t: TypeDesc, index: nat)
    requires WellFormedType(t) && StorageBits(t) <= |store.mem| && index < TombstoneCount(t)
    modifies store
    ensures store.mem == WithTombstone(old(store.mem), t, index)
    ensures TombstoneIndex(store.mem, t) == index
    decreases t
  {
    ghost var before := store.mem;
    match t {
    case Bool => CreateBoolTombstone(store, index);
    case Pointer(p) => CreatePointerTombstone(store, p, index);
    case Tiny(k) => CreateTinyTombstone(store, k, index);
    case Padded(traits) => CreatePaddedTombstone(store, traits, index);
    case Optional(u) =>
      if IsCompressed(u) {
        CompressedWithTombstone(before, u, index);
        CreateTombstone(store, u, index);
      } else {
        CreateCounterTombstone(store, u, index);
      }
    }
    TombstoneRoundTrip(before, t, index);
  }

  /** `create_tombstone` of `bool`: the byte becomes `(index + 1) << 1`. */
  method CreateBoolTombstone(store: Storage, index: nat)
    requires PT.CharBit <= |store.mem| && index < TombstoneCount(Bool)
    modifies store
    ensures store.mem == WithTombstone(old(store.mem), Bool, index)
  {
    BoolWithTombstone(store.mem, index);
    store.Write(ByteView(), (index + 1) * 2 % 256);
  }

  /** `create_tombstone` of a pointer: the address becomes `index + 1`. */
  method CreatePointerTombstone(store: Storage, p: TinyPointerStorage.Pointee, index: nat)
    requires WellFormedType(Pointer(p)) && 64 <= |store.mem| && index < TombstoneCount(Pointer(p))
    modifies store
    ensures store.mem == WithTombstone(old(store.mem), Pointer(p), index)
  {
    var _ := PointerWithTombstone(store.mem, p, index);
    store.Write(WordView(), index + 1);
  }

  /** `create_tombstone` of a tiny type: the tag bits become `index + 1`. */
  method CreateTinyTombstone(store: Storage, k: Kind, index: nat)
    requires WellFormedType(Tiny(k)) && PT.CharBit <= |store.mem| && index < TombstoneCount(Tiny(k))
    modifies store
    ensures store.mem == WithTombstone(old(store.mem), Tiny(k), index)
  {
    TinyWithTombstone(store.mem, k, index);
    store.Write(TinyTagView(k), index + 1);
  }

  /** `create_tombstone` of a padded type: `storage.tombstone = {}` clears the object, then the padding tag gets `index + 1`. */
  method CreatePaddedTombstone(store: Storage, traits: PT.PaddingTraits, index: nat)
    requires WellFormedType(Padded(traits)) && traits.size * PT.CharBit <= |store.mem|
    requires index < TombstoneCount(Padded(traits))
    modifies store
    ensures store.mem == WithTombstone(old(store.mem), Padded(traits), index)
  {
    PaddedWithTombstone(store.mem, traits, index);
    store.Write(Range(0, traits.size * PT.CharBit), 0);
    store.Write(PaddedTagView(traits), index + 1);
  }

  /** `create_tombstone` of an uncompressed optional: the counter becomes `index + 1`. */
  method CreateCounterTombstone(store: Storage, u: TypeDesc, index: nat)
    requires WellFormedType(Optional(u)) && !IsCompressed(u) && StorageBits(Optional(u)) <= |store.mem|
    requires index < TombstoneCount(Optional(u))
    modifies store
    ensures store.mem == WithTombstone(old(store.mem), Optional(u), index)
  {
    CounterWithTombstone(store.mem, u, index);
    store.Write(CounterView(u), index + 1);
  }

  /** `tombstone_traits<T>::create_object(storage, o)` */
  method CreateObject(store: Storage, t: TypeDesc, o: int)
    requires WellFormedType(t) && StorageBits(t) <= |store.mem| && IsObject(t, o)
    modifies store
    ensures store.mem == WithObject(old(store.mem), t, o)
    ensures TombstoneIndex(store.mem, t) >= TombstoneCount(t)
  {
    ghost var before := store.mem;
    match t {
    case Plain(n) =>
      RangeFits(0, n, store.mem);
      store.Write(Range(0, n), o);
    case Bool =>
      RangeFits(0, PT.CharBit, store.mem);
      store.Write(ByteView(), o);
    case Pointer(_) =>
      RangeFits(0, 64, store.mem);
      store.Write(WordView(), o);
    case Tiny(k) =>
      // `at<0>() = object`, then `at<1>() = 0`
      RangeFits(0, BitSize(k), store.mem);
      store.Write(TinyObjectView(k), Encode(k, o));
      RangeFits(BitSize(k), PT.CharBit, store.mem);
      store.Write(TinyTagView(k), 0);
    case Padded(traits) =>
      RangeFits(0, traits.size * PT.CharBit, store.mem);
      store.Write(Range(0, traits.size * PT.CharBit), o);
      store.Write(PaddedTagView(traits), 0);
    case Optional(u) =>
      // an empty optional: `store_none_flag`
      if IsCompressed(u) {
        CreateTombstone(store, u, TombstoneCount(u) - 1);
      } else {
        RangeFits(StorageBits(u), StorageBits(u) + 1, store.mem);
        store.Write(FlagView(u), 0);
        RangeFits(StorageBits(u) + 1, StorageBits(u) + PT.CharBit, store.mem);
        store.Write(CounterView(u), 0);
      }
    }
    assert store.mem == WithObject(before, t, o);
    ObjectIsNoTombstone(before, t, o);
  }

  // ---------------------------------------------------------------------------
  // the tested counts

  const Uint16: TinyPointerStorage.Pointee := TinyPointerStorage.Object(0, 2)
  const Char: TinyPointerStorage.Pointee := TinyPointerStorage.Object(1, 1)

  /**
   * `std::string` and `const char*` have no tombstones, `bool` 127,
   * `std::uint16_t*` one, `optional_impl<std::string>` as many as `bool`,
   * `optional_impl<bool>` one fewer.
   */
  lemma TestedCounts()
    ensures TombstoneCount(Plain(256)) == 0
    ensures TombstoneCount(Pointer(Char)) == 0
    ensures TombstoneCount(Bool) == 127
    ensures TombstoneCount(Pointer(Uint16)) == 1
    ensures TombstoneCount(Optional(Plain(256))) == TombstoneCount(Bool)
    ensures TombstoneCount(Optional(Bool)) == TombstoneCount(Bool) - 1
  {
    ByteConstants();
  }

  /** The enum `foo` of the optional tests: three enumerators, two bits. */
  const Foo: Kind := EnumKind(EnumTraits.UnsignedCount(3))

  /**
   * `optional_impl` of `std::string` and of `int` is not compressed, of
   * `bool` and of the tiny enum `foo` it is: `foo` leaves 6 of its byte's
   * bits for 63 tombstones.
   */
  lemma TestedCompression()
    ensures !IsCompressed(Plain(256)) && !IsCompressed(Plain(32))
    ensures IsCompressed(Bool)
    ensures WellFormedType(Tiny(Foo)) && BitSize(Foo) == 2
    ensures TombstoneCount(Tiny(Foo)) == 63 && IsCompressed(Tiny(Foo))
  {
    EnumTraits.CountTraits(3);
    assert Pow2(1) == 2 && Pow2(2) == 4;
    Ilog2.Octave(3, 1);
    ByteConstants();
  }
}

=== FILE: views.dfy ===
/**
 * Bit views over a flat bit memory.
 *
 * The object representation of whatever a view looks at (one integer, an
 * array of cells, the bytes of a struct, or several of these side by side)
 * is a flat sequence of bits, lowest bit of the lowest cell first.  A view
 * is the list of the memory positions it covers, its lowest bit first:
 *  - a plain view [begin, end) is `Range(begin, end)`;
 *  - `subview<b, e>` takes positions b..e of the parent, so its offsets are
 *    relative to the parent view;
 *  - `last_bit` is the size of the parent view;
 *  - `join_bit_views(a, b)` is `a + b`: the first view holds the low bits.
 * `Extract` returns the viewed bits right-aligned and `Put` writes the
 * low bits of its argument into the viewed positions.  The cell-level
 * implementation of bit_view.hpp is shown to agree with these in BitView.
 */
module Views {
  import opened Bits

  type Mem = seq<bool>

  type View = seq<nat>

  function Range(b: nat, e: nat): (v: View)
    requires b <= e
    ensures |v| == e - b
    ensures forall i :: 0 <= i < |v| ==> v[i] == b + i
    decreases e - b
  {
    if b == e then [] else [b] + Range(b + 1, e)
  }

  predicate Fits(v: View, mem: Mem)
  {
    forall i :: 0 <= i < |v| ==> v[i] < |mem|
  }

  predicate Distinct(v: View)
  {
    forall i, j :: 0 <= i < j < |v| ==> v[i] != v[j]
  }

  predicate Disjoint(v: View, u: View)
  {
    forall i, j :: 0 <= i < |v| && 0 <= j < |u| ==> v[i] != u[j]
  }

  /** The viewed bits, lowest first. */
  function Read(mem: Mem, v: View): (bs: seq<bool>)
    requires Fits(v, mem)
    ensures |bs| == |v|
    ensures forall i :: 0 <= i < |v| ==> bs[i] == mem[v[i]]
  {
    if v == [] then [] else [mem[v[0]]] + Read(mem, v[1..])
  }

  /** `view.extract()` */
  function Extract(mem: Mem, v: View): (r: nat)
    requires Fits(v, mem)
    ensures r < Pow2(|v|)
  {
    ValueBound(Read(mem, v));
    Value(Read(mem, v))
  }

  /** A 64-bit view reads a `std::uint64_t`. */
  lemma ExtractWordBound(mem: Mem, v: View)
    requires Fits(v, mem) && |v| == 64
    ensures Extract(mem, v) < SizeMod
  {
    Pow2SizeMod();
  }

  /** `view.put(bits)`: bit i of `bits` goes to position v[i], lowest first. */
  function Put(mem: Mem, v: View, bits: nat): (r: Mem)
    requires Fits(v, mem)
    ensures |r| == |mem|
    decreases |v|
  {
    if v == [] then mem else Put(mem[v[0] := Bit(bits, 0)], v[1..], Shr(bits, 1))
  }

  /** `clear_bits(view)` */
  function Clear(mem: Mem, v: View): (r: Mem)
    requires Fits(v, mem)
    ensures |r| == |mem|
  {
    Put(mem, v, 0)
  }

  /** `copy_bits(dest, src)`: the source view's bits written to the destination view. */
  function Copy(mem: Mem, dest: View, src: Mem, srcView: View): (r: Mem)
    requires Fits(dest, mem) && Fits(srcView, src)
    ensures |r| == |mem|
  {
    Put(mem, dest, Extract(src, srcView))
  }

  /** `subview<b, e>()` */
  function Subview(v: View, b: nat, e: nat): (r: View)
    requires b <= e <= |v|
    ensures |r| == e - b
    ensures forall i :: 0 <= i < |r| ==> r[i] == v[b + i]
  {
    v[b..e]
  }

  /** `join_bit_views(lo, hi)` */
  function Join(lo: View, hi: View): (r: View)
    ensures |r| == |lo| + |hi|
    ensures r[..|lo|] == lo && r[|lo|..] == hi
  {
    lo + hi
  }

  // ---------------------------------------------------------------------------
  // put: what it writes and what it leaves alone

  /** Positions outside the view keep their bits. */
  lemma {:induction false} PutOutside(mem: Mem, v: View, bits: nat, k: nat)
    requires Fits(v, mem)
    requires k < |mem| && k !in v
    ensures Put(mem, v, bits)[k] == mem[k]
    decreases |v|
  {
    if v != [] {
      assert k !in v[1..];
      PutOutside(mem[v[0] := Bit(bits, 0)], v[1..], Shr(bits, 1), k);
    }
  }

  /** Position v[i] receives bit i of the argument. */
  lemma {:induction false} PutAt(mem: Mem, v: View, bits: nat, i: nat)
    requires Fits(v, mem) && Distinct(v)
    requires i < |v|
    ensures Put(mem, v, bits)[v[i]] == Bit(bits, i)
    decreases |v|
  {
    var mem' := mem[v[0] := Bit(bits, 0)];
    if i == 0 {
      assert v[0] !in v[1..];
      PutOutside(mem', v[1..], Shr(bits, 1), v[0]);
    } else {
      PutAt(mem', v[1..], Shr(bits, 1), i - 1);
      BitShr(bits, 1, i - 1);
    }
  }

  /** `extract()` after `put(bits)` returns the argument truncated to the view size. */
  lemma ExtractPut(mem: Mem, v: View, bits: nat)
    requires Fits(v, mem) && Distinct(v)
    ensures Extract(Put(mem, v, bits), v) == LowBits(bits, |v|)
  {
    var r := Read(Put(mem, v, bits), v);
    forall i | 0 <= i < |v|
      ensures r[i] == ToBits(bits, |v|)[i]
    {
      PutAt(mem, v, bits, i);
      ToBitsAt(bits, |v|, i);
    }
    assert r == ToBits(bits, |v|);
    ValueToBits(bits, |v|);
  }

  /** A put into one view leaves the bits of a disjoint view unchanged. */
  lemma ExtractPutDisjoint(mem: Mem, v: View, u: View, bits: nat)
    requires Fits(v, mem) && Fits(u, mem) && Disjoint(v, u)
    ensures Extract(Put(mem, v, bits), u) == Extract(mem, u)
  {
    forall j | 0 <= j < |u|
      ensures Read(Put(mem, v, bits), u)[j] == Read(mem, u)[j]
    {
      assert u[j] !in v;
      PutOutside(mem, v, bits, u[j]);
    }
    assert Read(Put(mem, v, bits), u) == Read(mem, u);
  }

  /** Putting back what was extracted changes nothing. */
  lemma PutExtract(mem: Mem, v: View)
    requires Fits(v, mem) && Distinct(v)
    ensures Put(mem, v, Extract(mem, v)) == mem
  {
    var x := Extract(mem, v);
    forall k | 0 <= k < |mem|
      ensures Put(mem, v, x)[k] == mem[k]
    {
      if k in v {
        var i :| 0 <= i < |v| && v[i] == k;
        PutAt(mem, v, x, i);
        BitValue(Read(mem, v), i);
      } else {
        PutOutside(mem, v, x, k);
      }
    }
  }

  /** Two puts into the same view: the second one wins. */
  lemma PutPut(mem: Mem, v: View, a: nat, b: nat)
    requires Fits(v, mem) && Distinct(v)
    ensures Put(Put(mem, v, a), v, b) == Put(mem, v, b)
  {
    forall k | 0 <= k < |mem|
      ensures Put(Put(mem, v, a), v, b)[k] == Put(mem, v, b)[k]
    {
      if k in v {
        var i :| 0 <= i < |v| && v[i] == k;
        PutAt(Put(mem, v, a), v, b, i);
        PutAt(mem, v, b, i);
      } else {
        PutOutside(Put(mem, v, a), v, b, k);
        PutOutside(mem, v, a, k);
        PutOutside(mem, v, b, k);
      }
    }
  }

  /** Only the low |v| bits of the argument matter. */
  lemma PutLowBits(mem: Mem, v: View, bits: nat)
    requires Fits(v, mem) && Distinct(v)
    ensures Put(mem, v, LowBits(bits, |v|)) == Put(mem, v, bits)
  {
    forall k | 0 <= k < |mem|
      ensures Put(mem, v, LowBits(bits, |v|))[k] == Put(mem, v, bits)[k]
    {
      if k in v {
        var i :| 0 <= i < |v| && v[i] == k;
        PutAt(mem, v, LowBits(bits, |v|), i);
        PutAt(mem, v, bits, i);
        BitLowBits(bits, |v|, i);
      } else {
        PutOutside(mem, v, LowBits(bits, |v|), k);
        PutOutside(mem, v, bits, k);
      }
    }
  }

  /** Puts into disjoint views commute. */
  lemma PutCommute(mem: Mem, v: View, u: View, a: nat, b: nat)
    requires Fits(v, mem) && Fits(u, mem) && Distinct(v) && Distinct(u) && Disjoint(v, u)
    ensures Put(Put(mem, v, a), u, b) == Put(Put(mem, u, b), v, a)
  {
    forall k | 0 <= k < |mem|
      ensures Put(Put(mem, v, a), u, b)[k] == Put(Put(mem, u, b), v, a)[k]
    {
      if k in v {
        var i :| 0 <= i < |v| && v[i] == k;
        assert k !in u;
        PutOutside(Put(mem, v, a), u, b, k);
        PutAt(mem, v, a, i);
        PutAt(Put(mem, u, b), v, a, i);
      } else if k in u {
        var j :| 0 <= j < |u| && u[j] == k;
        PutAt(Put(mem, v, a), u, b, j);
        PutOutside(Put(mem, u, b), v, a, k);
        PutAt(mem, u, b, j);
      } else {
        PutOutside(Put(mem, v, a), u, b, k);
        PutOutside(mem, v, a, k);
        PutOutside(Put(mem, u, b), v, a, k);
        PutOutside(mem, u, b, k);
      }
    }
  }

  // ---------------------------------------------------------------------------
  // joined views and subviews

  /** A joined view extracts `(hi << lo.size()) | lo`. */
  lemma ExtractJoin(mem: Mem, lo: View, hi: View)
    requires Fits(lo, mem) && Fits(hi, mem)
    ensures Fits(Join(lo, hi), mem)
    ensures Extract(mem, Join(lo, hi)) == Or(Extract(mem, lo), ShlU(Extract(mem, hi), |lo|))
  {
    var j := Join(lo, hi);
    assert Fits(j, mem);
    var r, rl, rh := Read(mem, j), Read(mem, lo), Read(mem, hi);
    assert |r| == |rl + rh|;
    forall i | 0 <= i < |r|
      ensures r[i] == (rl + rh)[i]
    {
      if i < |lo| {
        assert j[i] == lo[i];
      } else {
        assert j[i] == hi[i - |lo|];
      }
    }
    assert r == rl + rh;
    ValueAppend(Read(mem, lo), Read(mem, hi));
  }

  /** A joined view puts the low bits into the first view and the rest, shifted down, into the second. */
  lemma {:induction false} PutJoin(mem: Mem, lo: View, hi: View, bits: nat)
    requires Fits(lo, mem) && Fits(hi, mem)
    ensures Fits(Join(lo, hi), mem)
    ensures Put(mem, Join(lo, hi), bits) == Put(Put(mem, lo, bits), hi, Shr(bits, |lo|))
    decreases |lo|
  {
    if lo != [] {
      var mem' := mem[lo[0] := Bit(bits, 0)];
      assert (lo + hi)[1..] == lo[1..] + hi;
      PutJoin(mem', lo[1..], hi, Shr(bits, 1));
      assert Shr(Shr(bits, 1), |lo| - 1) == Shr(bits, |lo|);
    }
  }

  lemma DistinctJoin(lo: View, hi: View)
    requires Distinct(lo) && Distinct(hi) && Disjoint(lo, hi)
    ensures Distinct(Join(lo, hi))
  {
  }

  lemma RangeFits(b: nat, e: nat, mem: Mem)
    requires b <= e <= |mem|
    ensures Fits(Range(b, e), mem)
  {
  }

  /** Bit j of a range's extract is position b + j. */
  lemma ExtractRangeBit(mem: Mem, b: nat, e: nat, j: nat)
    requires b <= e <= |mem|
    ensures Fits(Range(b, e), mem)
    ensures Bit(Extract(mem, Range(b, e)), j) == (j < e - b && mem[b + j])
  {
    BitValue(Read(mem, Range(b, e)), j);
  }

  /** A put on a range writes positions [b, e) and nothing else. */
  lemma PutRangeAt(mem: Mem, b: nat, e: nat, bits: nat, k: nat)
    requires b <= e <= |mem| && k < |mem|
    ensures Fits(Range(b, e), mem)
    ensures Put(mem, Range(b, e), bits)[k] == if b <= k < e then Bit(bits, k - b) else mem[k]
  {
    RangeDistinct(b, e);
    if b <= k < e {
      PutAt(mem, Range(b, e), bits, k - b);
    } else {
      PutOutside(mem, Range(b, e), bits, k);
    }
  }

  lemma RangeDistinct(b: nat, e: nat)
    requires b <= e
    ensures Distinct(Range(b, e))
  {
  }

  lemma RangesDisjoint(b1: nat, e1: nat, b2: nat, e2: nat)
    requires b1 <= e1 <= b2 <= e2
    ensures Disjoint(Range(b1, e1), Range(b2, e2))
  {
  }

  /** Subviews at non-overlapping offsets of a view without repeated positions are disjoint. */
  lemma SubviewsDisjoint(v: View, b1: nat, e1: nat, b2: nat, e2: nat)
    requires Distinct(v)
    requires b1 <= e1 <= b2 <= e2 <= |v|
    ensures Distinct(Subview(v, b1, e1)) && Distinct(Subview(v, b2, e2))
    ensures Disjoint(Subview(v, b1, e1), Subview(v, b2, e2))
  {
  }

  lemma SubviewFits(v: View, mem: Mem, b: nat, e: nat)
    requires Fits(v, mem) && b <= e <= |v|
    ensures Fits(Subview(v, b, e), mem)
  {
  }

  /** Bit i of the extracted value is the bit at position v[i]. */
  lemma ExtractAt(mem: Mem, v: View, i: nat)
    requires Fits(v, mem)
    ensures Bit(Extract(mem, v), i) == (i < |v| && mem[v[i]])
  {
    BitValue(Read(mem, v), i);
  }

  /** Two memories that agree on positions [b, e) read the same number there. */
  lemma ExtractRangeSame(mem: Mem, mem': Mem, b: nat, e: nat)
    requires b <= e <= |mem| && e <= |mem'|
    requires forall p :: b <= p < e ==> mem'[p] == mem[p]
    ensures Fits(Range(b, e), mem) && Fits(Range(b, e), mem')
    ensures Extract(mem', Range(b, e)) == Extract(mem, Range(b, e))
  {
    ExtractSame(mem, mem', Range(b, e));
  }

  /** A view reads the same in two memories that agree on its positions. */
  lemma ExtractSame(mem: Mem, mem': Mem, v: View)
    requires Fits(v, mem) && Fits(v, mem')
    requires forall j :: 0 <= j < |v| ==> mem'[v[j]] == mem[v[j]]
    ensures Extract(mem', v) == Extract(mem, v)
  {
    assert Read(mem', v) == Read(mem, v);
  }

  /** A view a proxy may use: `size` distinct positions of the memory. */
  predicate Usable(v: View, mem: Mem, size: nat)
  {
    |v| == size && Fits(v, mem) && Distinct(v)
  }

  // ---------------------------------------------------------------------------
  // storage written through views

  /**
   * The object representation of a storage (a byte array, a pointer word,
   * the bytes of a struct, or several of these side by side).  Proxies
   * hold a view into it and change it in place.
   */
  class Storage {
    var mem: Mem

    constructor (mem: Mem)
      ensures this.mem == mem
    {
      this.mem := mem;
    }

    /** `view.put(bits)` */
    method Write(v: View, bits: nat)
      requires Fits(v, mem)
      modifies this
      ensures mem == Put(old(mem), v, bits)
    {
      mem := Put(mem, v, bits);
    }

    /** `view[i] = value` through a `bit_reference`. */
    method WriteBit(v: View, i: nat, value: bool)
      requires Fits(v, mem) && i < |v|
      modifies this
      ensures mem == old(mem)[v[i] := value]
    {
      mem := mem[v[i] := value];
    }
  }
}

=== FILE: wrappers.dfy ===
/** The optional result used wherever the library rejects an input at compile time or by contract. */
module Wrappers {
  datatype Option<T> = None | Some(value: T)
}
